=== FILE: README.md ===
# Advent of Code 2022 solvers, modelled in Dafny

This project models the puzzle logic of a Rust repository that solves the 25 Advent of Code 2022 puzzles.
Each day has a solver that parses its input and then runs a short, deterministic computation.
The model leaves the parsing and the printing aside: it takes the parsed values as inputs and models the computation, with one Dafny module per source file.

| file | module | what it models |
|---|---|---|
| common.dfy | Common | shared helpers: `Option`/`Result`, sums, a key-ordered insertion sort, distinctness and counting lemmas |
| utils.dfy | ParseUtils | `parse_ints` and `parse_int_vecs`: numbers cut out of text |
| day01.dfy | CalorieCounting | group sums, the descending sort, the largest and the top three |
| day02.dfy | RockPaperScissors | round scores for both readings of the strategy guide |
| day03.dfy | RucksackReorganization | item priorities and the one item common to each group |
| day04.dfy | CampCleanup | range containment and overlap |
| day05.dfy | SupplyStacks | moving crates one by one or in a batch |
| day06.dfy | TuningTrouble | the first window of distinct characters |
| day07.dfy | NoSpaceLeft | the `cd`/`ls` interpreter, directory sizes, both answers |
| day08.dfy | TreetopTreeHouse | viewing distances, visibility and scenic scores |
| day09.dfy | RopeBridge | a rope of knots following its head |
| day10.dfy | CathodeRayTube | the register trace and the signal strength |
| day11.dfy | MonkeyInTheMiddle | monkeys throwing items, worry levels reduced modulo the divisors' product |
| day12.dfy | HillClimbing | the height map, the climbing rule and the virtual start |
| day13.dfy | DistressSignal | the packet order, pairs in order, the decoder key |
| day14.dfy | RegolithReservoir | drawing the rock paths and pouring sand, with and without a floor |
| day15.dfy | BeaconExclusion | sensor ranges, interval union, the row count, the tuning frequency |
| day16_distances.dfy | ValveDistances | all-pairs tunnel distances by Floyd–Warshall |
| day16.dfy | ValvePressure | the branch-and-bound search for the most pressure released |
| day17.dfy | PyroclasticFlow | falling rocks, jets, and the skip over a repeating state |
| day18.dfy | BoilingBoulders | free faces of a droplet, and the flood fill from outside |
| day19.dfy | NotEnoughMinerals | the robot-building search, quality levels and the product |
| day20.dfy | GrovePositioning | mixing a file on a doubly linked list kept in index arrays |
| day21.dfy | MonkeyMath | evaluating monkey expressions as linear forms in the unknown, over exact rationals (`real`) |
| day22.dfy | MonkeyMap | walking a board with flat wrap-around and with the cube-edge rules |
| day23.dfy | UnstableDiffusion | rounds of elf moves, the empty-tile count, the first stable round |
| day24.dfy | BlizzardBasin | blizzard positions, the bucketed blizzard test, the search problem |
| day25.dfy | Snafu | balanced base-5 numbers: parsing, and writing them back |

The source panics in many places: an `unwrap` on nothing, an index out of range, `unreachable!`, a division by zero.
Where an input can reach a panic, the model returns an error value (`Result.Err`, `Option.None`) and the contract says exactly when it does.
Where the source relies on its input to rule a panic out, the model makes that a precondition.
Integers are unbounded.
The source's `i32`, `i64` and `usize` overflow is not modelled, and its truncating division and `rem_euclid` are written out where the sign matters.

## Model

| member | source | states |
|---|---|---|
| ParseUtils.Split | src/utils.rs:5 | cutting at every non-digit (and, unsigned, at every `-`) gives one more piece than there are separators, and no piece holds a separator |
| ParseUtils.ParseToken | src/utils.rs:6 | a piece parses exactly when it is one or more digits, optionally after a single leading `-`, and its value is the decimal value of those digits, negated after a `-`; values outside the `i64` range, which `parse` rejects, are not modelled |
| ParseUtils.ParsedPieces | src/utils.rs:6 | the `filter_map` keeps at most as many values as there were pieces |
| ParseUtils.UnsignedPiecesNonNegative | src/utils.rs:5-6 | in unsigned mode no parsed value is negative |
| ParseUtils.ParseInts | src/utils.rs:3-8 | in unsigned mode every extracted number is non-negative |
| ParseUtils.ParseFormatInt | src/utils.rs:6 | parsing the decimal text of any integer gives that integer back |
| ParseUtils.ParseJoinRoundTrip | src/utils.rs:3-8 | numbers written out with any separator character between them are extracted back as the same numbers in the same order (in unsigned mode, when none is negative); the source keeps this promise only for numbers within the `i64` range |
| ParseUtils.ConsRoundTrip | src/utils.rs:3-8 | one more number in front of a list that extracts correctly still extracts correctly |
| ParseUtils.Lines | src/utils.rs:12 | no line holds a newline, and there are no more lines than characters |
| ParseUtils.ParseIntVecs | src/utils.rs:10-15 | one vector per line, each the numbers extracted from that line |
| CalorieCounting.GroupSums | src/day01.rs:5-6 | one total per group, in input order, each the sum of its group |
| CalorieCounting.Calories | src/day01.rs:4-9 | the totals rearranged (same multiset) into non-increasing order |
| CalorieCounting.MaxCalories | src/day01.rs:11 | succeeds exactly when there is a group; the answer is no smaller than any group's total and is some group's total |
| CalorieCounting.TopThreeCalories | src/day01.rs:14 | succeeds exactly when there are at least three groups; the answer is at least the combined total of any three distinct groups |
| CalorieCounting.TopThreeBound | src/day01.rs:14 | the three first sorted totals dominate any three distinct groups |
| CalorieCounting.ThreeBelowTop | src/day01.rs:7-14 | any three distinct entries of a list sum to at most the first three of its descending rearrangement |
| Common.SortDescending | src/day01.rs:7-8 | `sorted().rev()`: a non-increasing permutation of its input |
| RockPaperScissors.PlayedShape | src/day02.rs:7 | in part 1 the shape is the code; in part 2 it is the shape that loses to, draws with or beats the elf's shape as the code asks |
| RockPaperScissors.RoundScore | src/day02.rs:7-9 | one round scores between 1 and 9 |
| RockPaperScissors.RoundScores | src/day02.rs:6-9 | one score per round, in strategy order |
| RockPaperScissors.RoundScoreMeaning | src/day02.rs:8-9 | the outcome bonus is 6 exactly for a win, 3 exactly for a draw and 0 exactly for a loss, by the rules of the game |
| RockPaperScissors.Part2Outcome | src/day02.rs:7-9 | in part 2 the outcome bonus is three times the code |
| RockPaperScissors.GetScore | src/day02.rs:3-12 | the total is the sum of the round scores in strategy order, so between one and nine points per round |
| RockPaperScissors.GetScoreAppend | src/day02.rs:4-11 | the score of two strategies played one after the other is the sum of their scores |
| RucksackReorganization.Priority | src/day03.rs:4-10 | lower-case items have priorities 1 to 26, upper-case items 27 to 52 |
| RucksackReorganization.PriorityInjective | src/day03.rs:4-10 | different items have different priorities |
| RucksackReorganization.CommonItems | src/day03.rs:13-19 | the intersection of the groups' item sets: exactly the items in every group |
| RucksackReorganization.FindCommonItem | src/day03.rs:12-26 | succeeds exactly when there is a group and exactly one item is common to all groups, and returns that item |
| RucksackReorganization.GroupScore | src/day03.rs:34-35 | succeeds exactly when the groups have exactly one common item and that item is a letter; the score is then its priority, between 1 and 52; a common item that is not a letter is the `unreachable!()` of `priority` |
| RucksackReorganization.Compartments | src/day03.rs:31-33 | the first `len / 2` items and the rest, which together are the rucksack |
| RucksackReorganization.ScorePart1 | src/day03.rs:28-38 | succeeds exactly when, for every rucksack, its two halves share exactly one item and that item is a letter; the total is then the sum, in rucksack order, of the priorities of those shared items, 1 to 52 per rucksack |
| RucksackReorganization.Chunks3 | src/day03.rs:41 | consecutive groups of three rucksacks, the last one possibly shorter |
| RucksackReorganization.ScorePart2 | src/day03.rs:40-48 | succeeds exactly when every chunk of three rucksacks (the last possibly shorter) shares exactly one item and that item is a letter; the total is then the sum of the chunks' scores in order, 1 to 52 per chunk |
| RucksackReorganization.SumGroupScores | src/day03.rs:42-47 | succeeds exactly when every group scores; the sum is then the sum of the groups' scores in order, 1 to 52 per group |
| RucksackReorganization.Scores | src/day03.rs:42-46 | one score per group, in order, each between 1 and 52 |
| CampCleanup.ContainsIsInclusion | src/day04.rs:5-7 | the endpoint test holds exactly when every section of the second range is in the first |
| CampCleanup.Contains | src/day04.rs:5-7 | the first range starts no later and ends no earlier than the second |
| CampCleanup.OneContainsTheOther | src/day04.rs:9-11 | one of the two ranges contains the other |
| CampCleanup.Overlapping | src/day04.rs:13-15 | each range starts no later than the other ends |
| CampCleanup.ContainsReflexive | src/day04.rs:5-7 | every range contains itself |
| CampCleanup.OneContainsSymmetric | src/day04.rs:9-11 | the order of the pair does not matter for containment |
| CampCleanup.OverlappingSymmetric | src/day04.rs:13-15 | the order of the pair does not matter for overlap |
| CampCleanup.OverlappingIsSharedSection | src/day04.rs:13-15 | the endpoint test holds exactly when some section lies in both ranges |
| CampCleanup.ContainmentImpliesOverlap | src/day04.rs:9-15 | a pair where one range contains the other overlaps |
| CampCleanup.CountContaining | src/day04.rs:22 | at most one count per pair |
| CampCleanup.CountOverlapping | src/day04.rs:24 | at most one count per pair |
| CampCleanup.CountContainingPositions | src/day04.rs:22 | the part 1 count is the number of pairs in which one range contains the other, counted as a set of positions and as the true flags of the per-pair test |
| CampCleanup.CountOverlappingPositions | src/day04.rs:24 | the part 2 count is the number of pairs whose ranges overlap, counted the same two ways |
| CampCleanup.ContainingAtMostOverlapping | src/day04.rs:22-24 | the part 1 count never exceeds the part 2 count |
| SupplyStacks.ApplyMove | src/day05.rs:6-15 | succeeds exactly when both stack numbers are in range and the source holds enough crates; between different stacks the top `qty` crates leave the source and land on the target (reversed when lifted one by one), every other stack is unchanged |
| SupplyStacks.MoveConservesCrates | src/day05.rs:8-15 | a move between two different stacks keeps the total number of crates |
| SupplyStacks.SelfMoveDropsCrates | src/day05.rs:8-15 | a move from a stack onto itself leaves it cut back by `qty` crates, so `qty` crates disappear |
| SupplyStacks.ApplyMoves | src/day05.rs:5-16 | the number of stacks never changes; an invalid first move panics |
| SupplyStacks.MovesConserveCrates | src/day05.rs:5-16 | a run of moves, none onto its own stack, keeps the total number of crates |
| SupplyStacks.TopCrates | src/day05.rs:17-20 | succeeds exactly when no stack is empty, giving the last crate of every stack in stack order |
| SupplyStacks.MoveCrates | src/day05.rs:4-22 | succeeds exactly when every move succeeds and leaves no stack empty; the answer then holds, for each stack, the crate on top of it after the moves; an invalid first move fails |
| TuningTrouble.FirstWindow | src/day06.rs:6-8 | finds the first position from which `length` bytes have `length` different values, or reports that there is none |
| TuningTrouble.EndIndexOfDistinctWindow | src/day06.rs:4-12 | fails exactly when the length is 0 or no window is free of repeats; otherwise the answer is the end of the first repeat-free window |
| TuningTrouble.WindowsDistinctMeaning | src/day06.rs:8 | a window's set having `length` elements means the window holds no repeated byte |
| NoSpaceLeft.ReadListing | src/day07.rs:46-59 | a listing runs from the line after `$ ls` up to the next line starting with `$ ` or the end, and contains no command line |
| NoSpaceLeft.ReadListingContents | src/day07.rs:43-65 | the listing's total is the sum of the sizes of its file entries and its subdirectory names are the names of its `dir` entries in order, against definitions that fold the lines from the last one back |
| NoSpaceLeft.FileSizesCons | src/day07.rs:56-57 | adding a line in front adds its size when it is a file entry |
| NoSpaceLeft.DirNamesCons | src/day07.rs:53-54 | adding a line in front puts its name first when it is a `dir` entry |
| NoSpaceLeft.NextPath | src/day07.rs:34-41 | a line other than `$ ls` lengthens the current path by at most one name |
| NoSpaceLeft.Interpret | src/day07.rs:31-75 | replaying the transcript never forgets a recorded directory, and every recorded path is at most as long as the transcript |
| NoSpaceLeft.LsVisits | src/day07.rs:31-75 | the `$ ls` lines the loop reaches lie at or after the start, in increasing order |
| NoSpaceLeft.VisitListing | src/day07.rs:42-66 | each reached `$ ls` carries the listing read after it |
| NoSpaceLeft.InterpretRecords | src/day07.rs:31-75 | the replayed map is the old map with the listing of every reached `$ ls` stored, in order, at the current path there |
| NoSpaceLeft.RecordKeys | src/day07.rs:60-66 | after storing the listings the keys are the old keys plus the paths of the reached `$ ls` lines |
| NoSpaceLeft.RecordLast | src/day07.rs:60-66 | the listing kept at a path is the one of the last `$ ls` reached there |
| NoSpaceLeft.RecordOthers | src/day07.rs:60-66 | a key at which no `$ ls` was reached keeps its old listing |
| NoSpaceLeft.VisitedPathsTail | src/day07.rs:31-75 | the visited paths are the first visit's path and those of the later visits |
| NoSpaceLeft.InterpretKeys | src/day07.rs:31-75 | a path is a key of the replayed map exactly when it was one before or an `$ ls` was reached there |
| NoSpaceLeft.LastVisitExists | src/day07.rs:60-66 | among the reached `$ ls` lines at one path there is a last one |
| NoSpaceLeft.VisitedRecorded | src/day07.rs:42-66 | a path at which an `$ ls` was reached is a key whose listing is the one read after some `$ ls` line |
| NoSpaceLeft.LsAtRootRecorded | src/day07.rs:42-66 | an `ls` at the start, at the root, makes the root a key holding the listing read after some `$ ls` line |
| NoSpaceLeft.TotalDirSize | src/day07.rs:9-24 | a directory never listed makes the lookup panic; a listed one is at least as large as its own files |
| NoSpaceLeft.TotalDirSizeOk | src/day07.rs:9-24 | the size succeeds exactly when every directory reachable from this one through listed subdirectory names was itself listed |
| NoSpaceLeft.SubdirSizesOk | src/day07.rs:14-22 | the sum over some names succeeds exactly when every directory reachable from each of them was listed |
| NoSpaceLeft.SubdirSizes | src/day07.rs:14-22 | when the sum succeeds the first listed subdirectory has a size |
| NoSpaceLeft.SubdirWithinSum | src/day07.rs:14-22 | when the sum succeeds every listed subdirectory has a size, none larger than the sum |
| NoSpaceLeft.DirectoryAtLeastSubdirectory | src/day07.rs:9-24 | a directory is at least as large as each of its listed subdirectories |
| NoSpaceLeft.DirectorySizes | src/day07.rs:76-79 | one size per key, in key order, each that directory's total size |
| NoSpaceLeft.SumOfSmall | src/day07.rs:82-85 | the sum, in order, of exactly the sizes at most 100000, every larger size counting 0; so at most the sum of all sizes, all of it when every size is small, nothing when none is |
| NoSpaceLeft.SmallOnly | src/day07.rs:84 | one entry per size: the size when it is at most 100000, otherwise 0 |
| NoSpaceLeft.SmallestAtLeast | src/day07.rs:93-97 | none exactly when every size is below the minimum; otherwise the least size at or above it |
| NoSpaceLeft.SmallestToDelete | src/day07.rs:89-97 | on success the disk is not over-full, deleting the chosen directory frees enough, and it is the smallest directory that does; it succeeds whenever such a directory exists and the subtractions do not underflow |
| NoSpaceLeft.Answers | src/day07.rs:76-98 | on success part 1 is the sum of the small sizes of all directories in key order, and part 2 is the size of a recorded directory whose deletion frees the needed space and that is no larger than any other such directory; it succeeds whenever every directory has a size, the root's size leaves the subtractions non-negative and some directory frees enough |
| NoSpaceLeft.PartTwoCovers | src/day07.rs:76-97 | a recorded directory that frees enough space has its size among the sizes collected over the keys |
| NoSpaceLeft.PartTwoMinimal | src/day07.rs:76-97 | the chosen size belongs to a recorded directory and is no larger than any recorded directory that frees enough |
| NoSpaceLeft.Run | src/day07.rs:26-99 | on success the root was listed |
| TreetopTreeHouse.Walk | src/day08.rs:11-20 | a positive result is the first step that lands on a tree at least as tall, with every earlier step passing; a result r <= 0 means step 1 - r left the grid with every earlier step passing |
| TreetopTreeHouse.Distance | src/day08.rs:5-22 | positive: the step count to the first tree at least as tall; zero or negative: minus the number of trees passed before the border |
| TreetopTreeHouse.IsVisible | src/day08.rs:24-28 | a tree is visible when, in at least one of the four directions, the walk reaches the border (a distance of 0 or less) |
| TreetopTreeHouse.DistanceBound | src/day08.rs:7-22 | the distance is smaller than the grid's extent along that axis |
| TreetopTreeHouse.VisibleIffClearView | src/day08.rs:24-28 | the walk reaches the border in a direction exactly when every tree between the tree and that border is shorter |
| TreetopTreeHouse.OutOfGridStaysOut | src/day08.rs:11-16 | once a straight walk leaves the grid it never re-enters it |
| TreetopTreeHouse.EdgeDistanceZero | src/day08.rs:14-15 | from an edge tree, the walk towards that edge leaves the grid at the first step |
| TreetopTreeHouse.EdgeTreeVisible | src/day08.rs:24-28 | every tree on the edge is visible |
| TreetopTreeHouse.Product4Zero | src/day08.rs:38-40 | the folded product is zero as soon as one factor is zero |
| TreetopTreeHouse.ScenicScore | src/day08.rs:37-41 | the scenic score is never negative |
| TreetopTreeHouse.EdgeScenicScoreZero | src/day08.rs:37-41 | every tree on the edge has scenic score 0 |
| TreetopTreeHouse.Cells | src/day08.rs:31-32 | `cartesian_product` yields width times height cells, all inside the grid |
| TreetopTreeHouse.CellsComplete | src/day08.rs:31-32 | every cell of the grid is enumerated |
| TreetopTreeHouse.CellsDistinct | src/day08.rs:31-32 | `cartesian_product` lists no cell twice |
| TreetopTreeHouse.CountVisible | src/day08.rs:33-34 | at most one count per cell |
| TreetopTreeHouse.CountVisiblePositions | src/day08.rs:33-34 | the count is the number of listed positions whose tree is visible |
| TreetopTreeHouse.CountVisibleFlags | src/day08.rs:33-34 | the count is the number of true flags in the per-cell visibility list |
| TreetopTreeHouse.NumVisibleTrees | src/day08.rs:30-35 | at most width times height trees are visible |
| TreetopTreeHouse.NumVisibleTreesCounts | src/day08.rs:30-35 | the answer is the number of grid cells holding a visible tree |
| TreetopTreeHouse.MaxScore | src/day08.rs:46-48 | the maximum of the scores over the listed cells: no score is larger and some cell attains it |
| TreetopTreeHouse.MaxScenicScore | src/day08.rs:43-49 | fails exactly when the rows are empty (`max()` of nothing); otherwise no tree scores more and some tree scores exactly the answer |
| RopeBridge.Delta | src/day09.rs:8-14 | each direction letter is a unit step along one axis |
| RopeBridge.CatchUp | src/day09.rs:19-29 | a knot moves at most one cell in each axis, stays put while it touches its leader, and touches its leader again after catching up from two cells away |
| RopeBridge.Follow | src/day09.rs:18-30 | the knots before `index` keep their places; the only position added to the visited set is the tail's new one, which is added whenever the tail moves |
| RopeBridge.ChebTriangle | src/day09.rs:19-21 | the touching distance obeys the triangle inequality |
| RopeBridge.TautExtend | src/day09.rs:24-25 | a knot moved next to its leader extends the taut front of the rope |
| RopeBridge.FollowKeepsTaut | src/day09.rs:18-30 | after the head moves one cell, every knot touches the one before it once all have caught up |
| RopeBridge.StepKeepsTaut | src/day09.rs:18-30 | one knot catching up extends the taut front by one knot and leaves the knots behind it as they were |
| RopeBridge.FollowUnfold | src/day09.rs:18-30 | one pass of the knot loop: the knot catches up and, if it is the tail and moved, its new position is recorded |
| RopeBridge.Start | src/day09.rs:5-6 | the starting rope has the requested knots, is taut and has the origin recorded |
| RopeBridge.HeadStep | src/day09.rs:16-30 | the head moves by the unit step and the rope stays taut; with two or more knots the visited set gains exactly the tail's new position, with one knot nothing |
| RopeBridge.MoveTrail | src/day09.rs:15-31 | one tail position per unit step of a move, none for a distance of 0 or less |
| RopeBridge.MoveHead | src/day09.rs:15-31 | `distance` unit steps keep the rope taut; with two or more knots the visited set gains exactly the tail positions after each unit step, and the tail ends at the last of them |
| RopeBridge.TailTrail | src/day09.rs:7-32 | the tail positions of all the moves begin with those of the first move |
| RopeBridge.ApplyMoves | src/day09.rs:7-32 | all moves keep the rope taut; with two or more knots the visited set is the start set plus every tail position after every unit step of the moves |
| RopeBridge.Simulate | src/day09.rs:4-34 | with two or more knots the answer is the number of distinct positions among the origin and the tail's position after every unit step; it is at least 1, and exactly 1 for a single-knot rope |
| RopeBridge.TailRecorded | src/day09.rs:26-28 | with at least two knots the tail's final position is among the recorded ones and the rope ends taut |
| CathodeRayTube.XValues | src/day10.rs:21-33 | one entry for the start plus one per clock cycle, the last being X after the whole program |
| CathodeRayTube.XValuesLength | src/day10.rs:23-33 | the list has 1 + (number of `noop`) + 2 * (number of `addx`) entries |
| CathodeRayTube.CountsAppend | src/day10.rs:23-33 | one more instruction adds one to its own kind's count only |
| CathodeRayTube.XValuesPrefix | src/day10.rs:23-33 | later instructions only append: the list for a prefix of the program is a prefix of the list |
| CathodeRayTube.XValuesAtCompletion | src/day10.rs:24-30 | at the cycle after the first k instructions complete, the entry is X after those k; an `addx` holds the old X for both of its cycles |
| CathodeRayTube.TotalSignalStrength | src/day10.rs:1-3 | fails exactly when the list has fewer than 220 entries; otherwise it is the cycle number times X during that cycle, summed over cycles 20, 60, ..., 220 |
| CathodeRayTube.StrengthFrom | src/day10.rs:2 | the cycle number times X during that cycle, summed over the given cycle and every 40th after it up to 220 |
| MonkeyInTheMiddle.TotalItemsUpdate | src/day11.rs:19-35 | replacing one monkey changes the item total by the difference of its item counts |
| MonkeyInTheMiddle.Operation | src/day11.rs:21-27 | `new = val1 op val2`, a missing operand standing for the old worry level |
| MonkeyInTheMiddle.Target | src/day11.rs:30-34 | a level divisible by the monkey's divisor goes to its `if true` monkey, any other to its `if false` monkey |
| MonkeyInTheMiddle.Worry | src/day11.rs:21-29 | the new worry level is below the modulus and, with division by 3, at most a third of the operation's result |
| MonkeyInTheMiddle.Thrown | src/day11.rs:28-35 | the levels thrown to one monkey are no more than the items, each below the modulus, and none for a monkey that is neither target |
| MonkeyInTheMiddle.ThrowAll | src/day11.rs:19-36 | throwing a list of items keeps every monkey's rules and counts, adds as many items in total as were thrown, keeps the old lists as prefixes and changes no monkey other than the two targets |
| MonkeyInTheMiddle.ThrowAllDelivers | src/day11.rs:28-35 | each monkey's list after the throws is its old list followed by the new worry levels of exactly the items whose test sends them to it, in throwing order |
| MonkeyInTheMiddle.ThrowChain | src/day11.rs:19-36 | one throw followed by the remaining throws keeps the rules and counts, only grows item lists and touches only the two targets |
| MonkeyInTheMiddle.Turn | src/day11.rs:19-36 | a turn inspects every item the monkey held once, loses or creates no item, leaves other monkeys' counts alone and empties the monkey's own list when it never throws to itself |
| MonkeyInTheMiddle.TurnsFrom | src/day11.rs:18-37 | the rest of a round keeps all items and rules, counts never decrease and earlier monkeys' counts are untouched |
| MonkeyInTheMiddle.Rounds | src/day11.rs:17-38 | any number of rounds keeps all items and rules, and counts never decrease |
| MonkeyInTheMiddle.Inspections | src/day11.rs:39-40 | the inspection counts, one per monkey in order |
| MonkeyInTheMiddle.MonkeyBusiness | src/day11.rs:15-41 | fails exactly when there are fewer than two monkeys (`monkeys[1]` panics); otherwise the largest product of two different monkeys' inspection counts: two monkeys' counts multiply to it and no two multiply to more |
| MonkeyInTheMiddle.TopTwoProduct | src/day11.rs:39-40 | no two different entries of non-negative counts multiply to more than the first two of their descending arrangement |
| MonkeyInTheMiddle.TopTwoAttained | src/day11.rs:39-40 | the first two of a rearrangement are the counts of two different monkeys |
| MonkeyInTheMiddle.Run | src/day11.rs:70-76 | both parts fail exactly when there are fewer than two monkeys |
| MonkeyInTheMiddle.Modulus | src/day11.rs:70 | the product of every monkey's test divisor |
| MonkeyInTheMiddle.ModulusMultiple | src/day11.rs:70 | the product of the divisors is positive and a multiple of each divisor |
| MonkeyInTheMiddle.ModOfMultiple | src/day11.rs:28-30 | reducing modulo a multiple of the divisor first does not change the divisibility test |
| MonkeyInTheMiddle.ReductionKeepsTarget | src/day11.rs:28-34 | without the division by 3 the reduced worry level sends the item to the same monkey as the unreduced one |
| MonkeyInTheMiddle.ReductionKeepsClass | src/day11.rs:21-28 | levels that agree modulo the modulus give the same reduced worry level |
| HillClimbing.HeightMap | src/day12.rs:51-76 | one height per character, `S` standing at `a`, `E` at `z`, every other byte its own value |
| HillClimbing.Height | src/day12.rs:59-71 | `S` has the height of `a`, `E` that of `z`, every other byte its own value |
| HillClimbing.LowPositions | src/day12.rs:60-61 | the low positions are exactly the cells holding `a` or `S` |
| HillClimbing.LowFrom | src/day12.rs:54-66 | the low cells from a given row on |
| HillClimbing.LowInRow | src/day12.rs:55-66 | the low cells of a row from a given column on |
| HillClimbing.FindLast | src/day12.rs:62-69 | none exactly when the character does not occur; otherwise a cell holding it (a later occurrence overwrites an earlier one) |
| HillClimbing.FindLastFrom | src/day12.rs:54-75 | the same, from a given row on |
| HillClimbing.LastInRow | src/day12.rs:55-73 | the last column of a row holding the character |
| HillClimbing.Neighbours | src/day12.rs:29-31 | exactly the four orthogonally adjacent cells |
| HillClimbing.KeepAllowed | src/day12.rs:32-39 | keeps exactly the listed cells inside the map whose height is between `a` and one above the current height |
| HillClimbing.Allowed | src/day12.rs:28-37 | a step may climb at most one level and descend any amount, but never to a height below `a` |
| HillClimbing.Successors | src/day12.rs:25-42 | the virtual start leads to the low positions; a cell leads to at most four cells, exactly those one climb step away |
| HillClimbing.StepClimbsAtMostOne | src/day12.rs:28-37 | a successor lies in the map and is at most one level higher |
| HillClimbing.Distance | src/day12.rs:44 | the answer is the path length minus one, and the missing path makes the `unwrap` panic |
| HillClimbing.VirtualStartPath | src/day12.rs:83 | a path from the virtual start continues from a low position, and dropping its first entry gives a path one step shorter, which is why part 2 subtracts one more |
| HillClimbing.Prepare | src/day12.rs:47-78 | succeeds exactly when the map holds both `S` and `E`; the start is an `S` cell among the low positions and the target an `E` cell |
| HillClimbing.StartAndTargetHeights | src/day12.rs:60-70 | the start has the height of `a` and the target the height of `z` |
| DistressSignal.CmpInt | src/day13.rs:19 | integers compare numerically: `Less` exactly when smaller, `Equal` exactly when equal |
| DistressSignal.Cmp | src/day13.rs:14-44 | two integers compare numerically; any other pair is compared as lists, an integer standing for the one-item list holding it |
| DistressSignal.CmpList | src/day13.rs:33-42 | the first pair of items that does not compare `Equal` decides; when one list runs out the shorter comes first, and equal lengths compare `Equal` |
| DistressSignal.SizeList | src/day13.rs:33-41 | a list's size exceeds its tail's, so the element-wise recursion ends |
| DistressSignal.SizePositive | src/day13.rs:8-11 | every packet has positive size |
| DistressSignal.AsList | src/day13.rs:16-32 | the list a packet is compared as (its items, or the integer wrapped in a one-item list) is no larger than the packet |
| DistressSignal.CmpViaLists | src/day13.rs:15-43 | comparing two packets is comparing their lists, even for two integers |
| DistressSignal.PromotionInvisible | src/day13.rs:21-23 | an integer compares with anything exactly as the one-item list holding it does |
| DistressSignal.EqualNotIdentical | src/day13.rs:6-11 | `Equal` is coarser than equality: `2` and `[2]` compare `Equal` but are different packets |
| DistressSignal.CmpReflexive | src/day13.rs:14-44 | every packet compares `Equal` with itself |
| DistressSignal.CmpListReflexive | src/day13.rs:33-42 | every list compares `Equal` with itself |
| DistressSignal.CmpAntisymmetric | src/day13.rs:14-44 | swapping the arguments flips `Less` and `Greater` and keeps `Equal` |
| DistressSignal.CmpListAntisymmetric | src/day13.rs:33-42 | the same for the `zip` loop over lists |
| DistressSignal.CmpTransitive | src/day13.rs:14-44 | "not greater" is transitive, and a chain is `Equal` exactly when both links are |
| DistressSignal.CmpListTransitive | src/day13.rs:33-42 | the same for lists |
| DistressSignal.Swapped | src/day13.rs:55 | each pair with its two packets exchanged |
| DistressSignal.Pairs | src/day13.rs:54 | `chunks(2)` with `pair[1]` succeeds exactly for an even number of packets, and pairs consecutive packets |
| DistressSignal.GoodFrom | src/day13.rs:56-59 | the sum of the indices, counted from `base + 1`, of the pairs comparing `Less` |
| DistressSignal.GoodIndices | src/day13.rs:56-58 | one entry per pair: its index counted from `base + 1` when it compares `Less`, otherwise 0 |
| DistressSignal.GoodFromSum | src/day13.rs:56-59 | the recursive sum equals the sum of that per-pair list |
| DistressSignal.SumGoodIndices | src/day13.rs:52-60 | succeeds exactly for an even number of packets; the answer is then the sum of the 1-based indices of the pairs whose first packet compares `Less` than the second, and so at most the sum of all pair indices |
| DistressSignal.GoodAtMostAll | src/day13.rs:56-59 | the indices of the pairs in the right order sum to at most the sum of all indices |
| DistressSignal.GoodPlusSwapped | src/day13.rs:55-59 | when no pair compares `Equal`, every index is counted either for the pairs or for the swapped pairs, never both |
| DistressSignal.Insert | src/day13.rs:68 | inserting into a sorted list keeps it sorted and adds exactly the new packet |
| DistressSignal.InsertFront | src/day13.rs:68 | a packet not greater than the first of a sorted list goes in front and the list stays sorted |
| DistressSignal.InsertBehind | src/day13.rs:68 | a packet greater than the first element, inserted into the rest, stays behind the first element: the list stays sorted and holds exactly one more packet |
| DistressSignal.ConsSorted | src/day13.rs:68 | a packet not greater than every element of a sorted list can go in front |
| DistressSignal.Sort | src/day13.rs:68 | the result is sorted by the packet order and a rearrangement of the input |
| DistressSignal.Position | src/day13.rs:71 | none exactly when the packet is absent; otherwise the first structurally equal entry |
| DistressSignal.DecoderKey | src/day13.rs:62-73 | the key is the product of the 1-based positions of the first copies of `[[2]]` and `[[6]]` in the sorted list, `[[2]]` coming first |
| DistressSignal.SortKeeps | src/day13.rs:66-68 | a packet added before sorting is still there after |
| DistressSignal.SortedSplit | src/day13.rs:68-71 | in a sorted list everything strictly smaller than an entry comes before it and everything strictly greater after it |
| DistressSignal.DividersOrdered | src/day13.rs:64-65 | `[[2]]` is less than `[[6]]` |
| RegolithReservoir.Trace | src/day14.rs:13-21 | the `signum` walk from one point reaches the next, stays inside their bounding box, and for a horizontal or vertical segment inserts every cell of it |
| RegolithReservoir.DrawPath | src/day14.rs:9-22 | succeeds exactly for a non-empty path (the first `next().unwrap()`); the cave then holds every listed point and every cell of each horizontal or vertical segment, and nothing outside the boxes of its segments |
| RegolithReservoir.Traces | src/day14.rs:12-22 | the traces from a point on add every later point and every cell of each later horizontal or vertical segment, and nothing outside the segments' boxes |
| RegolithReservoir.MakeCave | src/day14.rs:6-25 | succeeds exactly when every path is non-empty (each path's first `next().unwrap()`) |
| RegolithReservoir.MakeCaveDrawn | src/day14.rs:6-25 | the cave `make_cave` returns holds every point and every cell of every horizontal or vertical segment of every path, and no cell outside the boxes of the paths' segments |
| RegolithReservoir.UnionDrawn | src/day14.rs:7-23 | the union of the first path's drawing with the others' draws all of them and nothing outside their boxes |
| RegolithReservoir.NextCell | src/day14.rs:35-42 | a unit is stuck exactly when the three cells below are taken; otherwise it moves to the first free one of down, down-left, down-right |
| RegolithReservoir.Fall | src/day14.rs:31-43 | the unit falls until it rests at or above the lowest rock, or passes below it; it never rises and lands only on free cells of the fan below the source |
| RegolithReservoir.Fan | src/day14.rs:29-43 | the bounded fan of cells a unit from the source can reach above the lowest rock |
| RegolithReservoir.Pour | src/day14.rs:30-52 | the cave only gains units, all inside the fan (and above the lowest rock without a floor); the count relates the new units to the answer; with a floor the loop always ends at the source |
| RegolithReservoir.MaxY | src/day14.rs:28 | the largest row of any rock cell |
| RegolithReservoir.UnitsBeforeFlowOut | src/day14.rs:27-54 | fails exactly on an empty cave (the `max().unwrap()`) |
| RegolithReservoir.SettledUnitsCounted | src/day14.rs:44-51 | without a floor the answer is the number of units that came to rest, plus the one at the source if the source is blocked, all above the lowest rock |
| RegolithReservoir.FloorUnitsCounted | src/day14.rs:44-48 | with a floor the answer is one more than the units placed (the one at the source is counted, not placed), all at most one row below the lowest rock |
| BeaconExclusion.BeaconInRange | src/day15.rs:23-28 | a sensor's own beacon is within its range |
| BeaconExclusion.Radius | src/day15.rs:23-25 | the Manhattan distance from the sensor to its beacon |
| BeaconExclusion.InRange | src/day15.rs:26-28 | a point whose Manhattan distance from the sensor is at most the radius |
| BeaconExclusion.KeyOrderStart | src/day15.rs:34 | tuple order puts a range with a smaller start first |
| BeaconExclusion.SortRanges | src/day15.rs:33-34 | the ranges rearranged into non-decreasing start order, with the same ranges |
| BeaconExclusion.SameRanges | src/day15.rs:33-34 | a rearrangement of the ranges is still well formed and covers the same integers |
| BeaconExclusion.Merge | src/day15.rs:37-45 | the merging loop produces well-formed ranges, each starting more than one past the previous end, covering exactly what the finished ranges, the open range and the rest cover |
| BeaconExclusion.RangesCons | src/day15.rs:37-45 | an integer is covered by a list exactly when the first range or the rest covers it |
| BeaconExclusion.RangesSnoc | src/day15.rs:39-45 | pushing a range adds exactly its integers to the coverage |
| BeaconExclusion.MergedCover | src/day15.rs:35-45 | seeding the loop with the first sorted range and merging the rest covers what the sorted list covers |
| BeaconExclusion.RangeUnion | src/day15.rs:31-47 | fails exactly on no ranges (`ranges[0]` panics); otherwise separated, sorted ranges covering exactly the integers the input ranges cover |
| BeaconExclusion.Interval | src/day15.rs:70 | the integers from `x_min` to `x_max` |
| BeaconExclusion.IntervalSize | src/day15.rs:70 | an inclusive range holds `x_max - x_min + 1` integers |
| BeaconExclusion.Cover | src/day15.rs:69-72 | exactly the integers some range covers |
| BeaconExclusion.SeparatedStarts | src/day15.rs:38-40 | in a merged union every range ends more than one before any later range starts |
| BeaconExclusion.SeparatedFrom | src/day15.rs:38-40 | the same for one pair of positions |
| BeaconExclusion.TailSeparated | src/day15.rs:38-40 | dropping the first range of a merged union leaves a merged union |
| BeaconExclusion.FirstApart | src/day15.rs:38-40 | the first range of a merged union shares no integer with the rest |
| BeaconExclusion.WidthsCount | src/day15.rs:69-72 | summing the widths of separated ranges counts every covered integer exactly once |
| BeaconExclusion.UnionCount | src/day15.rs:68-72 | the widths of the union count the integers the input ranges cover |
| BeaconExclusion.SameCover | src/day15.rs:68-72 | two lists covering the same integers have the same set of covered integers |
| BeaconExclusion.RowRange | src/day15.rs:55-64 | the range for a sensor holds exactly the cells of the row within its distance except its own beacon |
| BeaconExclusion.RowRanges | src/day15.rs:52-67 | the non-empty ranges together cover exactly the row cells some sensor rules out |
| BeaconExclusion.NonEmptyRanges | src/day15.rs:66 | some range survives the filter exactly when some sensor rules out a cell of the row |
| BeaconExclusion.CountImpossible | src/day15.rs:51-73 | fails exactly when no sensor rules out a cell of the row; otherwise the number of row cells some sensor rules out (in range, not that sensor's beacon) |
| BeaconExclusion.Crossing | src/day15.rs:119-122 | for offsets of equal parity the point lies on both diagonals |
| BeaconExclusion.CrossingIn | src/day15.rs:115-122 | a point whose x + y and y - x are offsets of the two kinds is one of those crossings |
| BeaconExclusion.Candidates | src/day15.rs:113-123 | every candidate lies on a south-west/north-east and a north-west/south-east border diagonal and is out of every sensor's range |
| BeaconExclusion.CandidatesComplete | src/day15.rs:113-123 | every point on such a pair of diagonals that no sensor reaches is a candidate |
| BeaconExclusion.SouthWestJustOutside | src/day15.rs:107-108 | a point on a sensor's south-west diagonal, on that side, is exactly one step beyond its radius |
| BeaconExclusion.TuningFrequency | src/day15.rs:101-128 | succeeds exactly when there is a single candidate; the answer is x * 4000000 + y for that candidate, which no sensor reaches |
| BeaconExclusion.Frequency | src/day15.rs:124-128 | `exactly_one` succeeds exactly on a single candidate, whose frequency is x * 4000000 + y |
| ValveDistances.WalkConcat | src/day16.rs:25-27 | two walks that meet join into one walk from the first start to the second end |
| ValveDistances.WalkSplit | src/day16.rs:25-27 | every stretch of a walk is a walk |
| ValveDistances.BelowNothingIsShort | src/day16.rs:18-24 | a walk of three or more valves has a valve inside it, so before any round only one-tunnel walks count |
| ValveDistances.FirstOf | src/day16.rs:25-27 | the first position of a valve in a walk |
| ValveDistances.LastOf | src/day16.rs:25-27 | the last position of a valve in a walk |
| ValveDistances.InitAsWritten | src/day16.rs:17-24 | the matrix as filled: `len` everywhere, then 0 on the diagonal, then 1 for every tunnel (a tunnel back to the same valve overwrites the 0); every entry in `0..=len` |
| ValveDistances.Init | src/day16.rs:17-24 | the same matrix with the diagonal kept at 0 |
| ValveDistances.Relax | src/day16.rs:25-27 | one round of the outer loop keeps the matrix square |
| ValveDistances.RelaxEntry | src/day16.rs:26 | each entry becomes the smaller of itself and the route through the pivot |
| ValveDistances.RelaxBounded | src/day16.rs:26 | relaxing never raises an entry and keeps all entries in `0..=len` |
| ValveDistances.RelaxKeepsPivot | src/day16.rs:25-27 | the pivot's row and column come through its round unchanged, so updating in place gives the same round |
| ValveDistances.Rounds | src/day16.rs:25-27 | the matrix after the first k rounds is square |
| ValveDistances.RoundsBounded | src/day16.rs:25-27 | all entries stay in `0..=len` through the rounds |
| ValveDistances.RelaxRow | src/day16.rs:25-27 | the inner loop over j, updating row i in place, produces row i of the round and leaves the later rows alone |
| ValveDistances.FloydWarshall | src/day16.rs:25-27 | the nested in-place loops give the matrix after all rounds |
| ValveDistances.RoundsOptimal | src/day16.rs:25-27 | after k rounds no walk whose inner valves are all below k is shorter than the entry for its ends |
| ValveDistances.ThroughPivot | src/day16.rs:25-27 | a walk through valve k, with its other inner valves below k, is no shorter than the detour through k after the rounds below k |
| ValveDistances.InitOptimal | src/day16.rs:18-24 | before any round, every walk with no inner valve is no shorter than its entry |
| ValveDistances.RelaxBelow | src/day16.rs:26 | an entry already within a bound, or whose detour through the pivot is, is within it after the round |
| ValveDistances.CutEnds | src/day16.rs:25-27 | a walk through v, cut at its first and last visit of v, leaves two walks ending and starting at v whose inner valves are below v and whose lengths add up to at most the whole |
| ValveDistances.CutAtPivot | src/day16.rs:25-27 | the two ends cut at the first and last visit of v have their inner valves below v |
| ValveDistances.DiagonalZero | src/day16.rs:18-24 | a non-negative matrix that no walk undercuts has 0 on its diagonal |
| ValveDistances.FinalOptimal | src/day16.rs:25-27 | after all rounds no walk is shorter than the entry for its ends |
| ValveDistances.FinalSound | src/day16.rs:25-27 | after all rounds every entry below `len` is the length of some walk |
| ValveDistances.FinalTriangle | src/day16.rs:25-27 | after all rounds the entries obey the triangle inequality |
| ValveDistances.JoinWalks | src/day16.rs:26 | walks of lengths a and b that meet give a walk of length a + b |
| ValveDistances.RoundsSound | src/day16.rs:25-27 | every entry below `len` after any number of rounds is the length of an actual walk |
| ValveDistances.Triangle | src/day16.rs:25-27 | the final distances satisfy the triangle inequality |
| ValveDistances.FindAllDistances | src/day16.rs:16-29 | the corrected matrix: the full Floyd–Warshall relaxation of the tunnel matrix with the diagonal written last, 0 on the diagonal, no walk shorter than its entry, every entry below `len` the length of some walk, triangle inequality |
| ValveDistances.FindAllDistancesAsWritten | src/day16.rs:16-29 | the loops as written run on the matrix with the overwritten diagonal |
| ValveDistances.SelfLoopDistance | src/day16.rs:20-22 | one valve with a tunnel to itself: the matrix as written ends with distance 1 from the valve to itself, the corrected one with 0 |
| ValvePressure.ActorIndex | src/day16.rs:38-43 | the actor that decides next has the most time left, ties going to the higher index, as the maximum of `(time, index)` pairs picks |
| ValvePressure.GainPositive | src/day16.rs:49-54 | a move that passes the filters (flow above 0, time left above distance + 1) releases a positive amount |
| ValvePressure.Gain | src/day16.rs:54 | the time left after walking there and opening, times the flow rate |
| ValvePressure.CandidatesFrom | src/day16.rs:47-58 | the moves listed are exactly the closed valves with flow that can still be reached and opened in time, each with its pressure and distance |
| ValvePressure.KeyOrderGain | src/day16.rs:52-59 | tuple order compares the released pressure first |
| ValvePressure.SortedReversed | src/day16.rs:59-61 | sorting then reversing keeps the same moves and puts them in non-increasing tuple order |
| ValvePressure.Prioritized | src/day16.rs:47-61 | the prioritized list holds exactly the worthwhile moves, largest release first |
| ValvePressure.BestActor | src/day16.rs:69-77 | the maximum over the actors, 0 when there are none, is at least what each actor could release from the valve |
| ValvePressure.ValveBound | src/day16.rs:66-78 | a valve's share of the bound is never negative |
| ValvePressure.BoundSum | src/day16.rs:64-79 | the sum over the closed valves is never negative |
| ValvePressure.BoundSumCovers | src/day16.rs:64-79 | the sum is at least each valve's share |
| ValvePressure.UpperBound | src/day16.rs:64-79 | the pressure so far plus, for every closed valve with flow, the most any one actor could release from it alone |
| ValvePressure.BoundCoversMove | src/day16.rs:64-79 | the upper bound is at least the pressure so far plus what any single worthwhile move of any actor releases |
| ValvePressure.MoveActorValue | src/day16.rs:87-89 | after a move the state stays consistent, and with distances that satisfy the triangle inequality no actor can get more from another valve than before |
| ValvePressure.Move | src/day16.rs:87-89 | the moved-to valve is open, the actor stands at it, and its time has dropped by the distance plus one |
| ValvePressure.Undo | src/day16.rs:101-103 | the valve's flag, the actor's place and its time set back to the saved values |
| ValvePressure.MoveBestActor | src/day16.rs:69-77 | the best actor's value for a valve does not grow after a move |
| ValvePressure.MoveValveBound | src/day16.rs:66-78 | after a move each other valve's share does not grow, and the opened valve's share drops by at least what the move released |
| ValvePressure.MoveBoundSum | src/day16.rs:64-79 | the sum of shares drops by at least the released pressure when the opened valve is counted |
| ValvePressure.MoveBound | src/day16.rs:64-90 | the bound is admissible along a move: the bound after it, with the new pressure, is at most the bound before |
| ValvePressure.MoveBoundWhenMetric | src/day16.rs:64-90 | the same, stated for any distance matrix whenever it satisfies the triangle inequality |
| ValvePressure.MoveShrinksClosed | src/day16.rs:87 | opening a closed valve with flow shrinks the set of such valves, so the recursion ends |
| ValvePressure.Search | src/day16.rs:31-108 | the valves, places and times come back as they went in; the result is never below the pressure so far; a branch whose bound is at most the best so far returns the pressure unchanged; otherwise every move of the deciding actor is covered by the result; with triangle distances the result is at most the bound |
| ValvePressure.Explore | src/day16.rs:84-107 | the loop over the prioritized moves: a result exactly when there is a move, at least every move's release, above the pressure so far, and within the bound |
| ValvePressure.Branch | src/day16.rs:86-104 | one move: open the valve, move the actor, search below with the best updated, then undo; the state comes back as it went in, the branch releases at least the move's own pressure and, with triangle distances, stays within the bound |
| ValvePressure.UndoMove | src/day16.rs:100-103 | restoring the saved flag, place and time undoes the move |
| ValvePressure.CombineSpec | src/day16.rs:99-107 | taking the maximum of the first branch and the rest keeps all of those facts |
| ValvePressure.PartsAsWritten | src/day16.rs:149-160 | both parts as `run` calls them, with the best result seeded with the time (30 and 26); never negative |
| ValvePressure.SeedPrunesRoot | src/day16.rs:80-82 | with one valve of flow 1 at the start, opening it releases 29, yet the run as written prunes the start and answers 0 |
| ValvePressure.RootBound | src/day16.rs:64-79 | in that example the bound at the start is exactly 29 |
| ValvePressure.PrunedAtRoot | src/day16.rs:80-82 | when the bound at the start does not beat the seed, the whole search answers 0 |
| ValvePressure.SeedZeroReleases | src/day16.rs:80-82 | in that example the search seeded with 0 releases at least 29 |
| ValvePressure.SeedThirtyPrunes | src/day16.rs:150 | in that example the search seeded with 30 answers 0 |
| ValvePressure.SingleMoveReleased | src/day16.rs:84-107 | with the best result seeded with 0, the answer is at least what opening any single reachable valve releases |
| ValvePressure.Run | src/day16.rs:143-160 | with two corrections, the diagonal of the distance matrix written after the tunnels and the best result seeded with 0, the two answers are the searches over the tunnels' shortest-distance matrix, which is a metric; they are within the bound at the start, and cover every single-valve move in 30 minutes alone and 26 minutes with the elephant |
| PyroclasticFlow.ShapesWellShaped | src/day17.rs:101-116 | the five rocks, read bottom row first, are rectangular rows of flags no wider than five columns, so each spawns inside the walls |
| PyroclasticFlow.RowCellsBounds | src/day17.rs:47-53 | the cells marked for a row lie in that row, between the rock's left column and its width |
| PyroclasticFlow.ShapeCellsBounds | src/day17.rs:47-53 | the cells marked for a rock lie in its bounding box |
| PyroclasticFlow.Fall | src/day17.rs:20-46 | the falling loop ends with the rock inside the walls, touching nothing, no higher than it started; it stops exactly when the floor or the tower is right below; one jet is used per row fallen plus one |
| PyroclasticFlow.SpawnFits | src/day17.rs:18-19 | a rock spawned two columns from the left wall and three rows above the tower touches nothing |
| PyroclasticFlow.DropRock | src/day17.rs:9-55 | after the drop every cell is still inside the walls and below the new height; the height never falls; time moves on; no cell is cleared |
| PyroclasticFlow.DropRockPlacesShape | src/day17.rs:9-55 | the rock rests at a place inside the chamber no higher than its spawn row, on the floor or on the tower, onto free cells; the grid gains exactly its cells; the height becomes the larger of the old height and the rock's top |
| PyroclasticFlow.Step | src/day17.rs:9-55 | dropping a rock never lowers the tower and keeps it a tower |
| PyroclasticFlow.PhysicsMonotone | src/day17.rs:54 | the falling-rock physics never lowers the tower |
| PyroclasticFlow.ReachedAreTowers | src/day17.rs:64-66 | every chamber the rock sequence reaches is a tower, so each later rock is dropped by the real physics |
| PyroclasticFlow.HeightMonotone | src/day17.rs:64-66 | the tower after j rocks is no taller than after k rocks when j <= k |
| PyroclasticFlow.SkipAsWrittenOvershoots | src/day17.rs:82-91 | when the period divides the rocks left since its first occurrence, the skip as written leaves the loop having accounted for one rock more than asked |
| PyroclasticFlow.SkipAsWrittenExample | src/day17.rs:82-91 | seven rocks with a one-rock period first seen at rock 0 and again at rock 1: the loop as written accounts for 8 |
| PyroclasticFlow.RepeatsAsWritten | src/day17.rs:84 | `(num_rocks - old_index) / index_diff - 1` periods skipped, as written |
| PyroclasticFlow.Repeats | src/day17.rs:84 | the corrected count of periods skipped, with the rock already dropped not counted as still to come |
| PyroclasticFlow.SkipFits | src/day17.rs:82-91 | the corrected skip is never negative, never runs past `num_rocks`, and leaves less than one period of rocks to drop |
| PyroclasticFlow.SkipPeriods | src/day17.rs:75-87 | two rocks with the same shape index lie a whole number of shape cycles apart, so the skipped rocks keep the shape order |
| PyroclasticFlow.GetHeight | src/day17.rs:57-94 | with the corrected skip, for any physics that never lowers the tower: 0 rocks give 0; exactly `num_rocks` rocks are accounted for, the skipped ones a whole number of shape cycles; the answer is at least the height of the rocks really dropped, and equal to it when nothing was skipped |
| PyroclasticFlow.Run | src/day17.rs:96-123 | both heights, for 2022 rocks and for a trillion, are never negative |
| BoilingBoulders.Distance | src/day18.rs:4-8 | the summed absolute coordinate differences are never negative |
| BoilingBoulders.IsNeighbor | src/day18.rs:4-10 | two cubes share a face when the absolute coordinate differences over the zipped axes add up to 1 |
| BoilingBoulders.DistanceSymmetric | src/day18.rs:4-8 | the distance does not depend on the order of the cubes |
| BoilingBoulders.NeighborSymmetric | src/day18.rs:4-10 | being neighbours is symmetric, and no cube neighbours itself |
| BoilingBoulders.DistanceSelf | src/day18.rs:4-8 | a cube is at distance 0 from itself |
| BoilingBoulders.Distance3 | src/day18.rs:4-8 | for three coordinates the distance is the sum of the three axis differences |
| BoilingBoulders.Add | src/day18.rs:39-43 | adding an offset keeps three coordinates |
| BoilingBoulders.Step | src/day18.rs:31-43 | a step in one of the six directions keeps three coordinates |
| BoilingBoulders.NeighborIffStep | src/day18.rs:4-10 | two cubes are neighbours exactly when one of the six offsets leads from one to the other, and then only one does |
| BoilingBoulders.StepIsNeighbor | src/day18.rs:31-43 | each of the six steps reaches a neighbour, in both directions |
| BoilingBoulders.FacesUpTo | src/day18.rs:31-52 | among the first k directions at most k lead into a set |
| BoilingBoulders.FacesIn | src/day18.rs:31-52 | at most six faces of a cube touch a set |
| BoilingBoulders.FacesNone | src/day18.rs:49-52 | no face touches the empty set |
| BoilingBoulders.FacesInsert | src/day18.rs:49-52 | adding a cube to a set adds exactly the faces that lead to it |
| BoilingBoulders.DegreeSumCons | src/day18.rs:13-17 | the neighbour counts over a list add up cube by cube |
| BoilingBoulders.Handshake | src/day18.rs:13-18 | summing each cube's neighbours counts every pair that `combinations(2)` yields twice |
| BoilingBoulders.DegreeIsFaces | src/day18.rs:13-17 | for distinct cubes, a cube's neighbours in the list are its faces touching the droplet |
| BoilingBoulders.DegreeSumIsFaces | src/day18.rs:12-18 | the faces touching no cube are six per cube minus the neighbour counts |
| BoilingBoulders.FreeSurfaces | src/day18.rs:12-19 | six faces per cube minus two for every pair of neighbouring cubes |
| BoilingBoulders.FreeSurfacesExposed | src/day18.rs:12-19 | `6 * n - 2 * pairs` is exactly the number of cube faces that touch no other cube, and never negative |
| BoilingBoulders.ExposedNonNegative | src/day18.rs:12-19 | the exposed face count is never negative |
| BoilingBoulders.FaceSumAppend | src/day18.rs:49-51 | visiting one more cell adds its faces that touch the droplet |
| BoilingBoulders.ExtendWalk | src/day18.rs:39-59 | a walk through air can take one more face step into air |
| BoilingBoulders.ClosedHoldsReachable | src/day18.rs:28-64 | a set of air cells holding the start, from which no step leads to new air, holds the end of every walk from the start |
| BoilingBoulders.MaxCoords | src/day18.rs:22-24 | the per-axis maxima of a non-empty droplet: every cube is within them and each is attained |
| BoilingBoulders.VisitNode | src/day18.rs:31-60 | the six tries from one node: each face on the droplet is counted once; each air neighbour ends up visited, queued or in the next layer; only new air neighbours are added to the next layer |
| BoilingBoulders.CoveredGrows | src/day18.rs:31-60 | handling one more direction extends the set of covered directions |
| BoilingBoulders.VisitLayer | src/day18.rs:29-63 | one pass of the outer loop: the layer joins the visited cells; the next layer is new air; the visited cells, in order, with faces counted; every air step from a visited cell is visited or in the next layer; every cell found has a walk from the start |
| BoilingBoulders.VisitOne | src/day18.rs:30-61 | one node of a layer keeps all of those facts |
| BoilingBoulders.LayerSets | src/day18.rs:53-61 | the bookkeeping of visited, queued and next cells after one node |
| BoilingBoulders.ClosureStep | src/day18.rs:53-61 | after a node is visited, all of its air steps are known |
| BoilingBoulders.ExtendWalks | src/day18.rs:59 | every cell added to the next layer is reached by a walk one step longer than its parent's |
| BoilingBoulders.VisitsAppend | src/day18.rs:61 | visiting a new cell extends the visiting order and adds its faces |
| BoilingBoulders.InBoxCells | src/day18.rs:44-48 | every cell within the bounds is in the finite box |
| BoilingBoulders.StartIsAir | src/day18.rs:26 | the start `(-1, -1, -1)` is air when the droplet has no negative coordinate |
| BoilingBoulders.LayerShrinks | src/day18.rs:28-63 | each non-empty layer takes new cells of the box, so the fill ends |
| BoilingBoulders.FillComplete | src/day18.rs:28-64 | when no layer is left, every visited cell is reachable air, and every cell reachable from the start was visited |
| BoilingBoulders.SurfacesOutside | src/day18.rs:21-66 | fails exactly on an empty droplet (the maxima unwrap); otherwise the count is the faces on the droplet of exactly the air cells reachable from outside, each counted once |
| BoilingBoulders.Run | src/day18.rs:68-79 | part 1 is the exposed face count and never negative; part 2 fails exactly when there are no cubes |
| NotEnoughMinerals.CeilDivIsCeiling | src/day19.rs:9-11 | for a numerator not below 0 and a positive rate, `ceil_div` is the least multiple count that covers the numerator |
| NotEnoughMinerals.CeilDiv | src/day19.rs:9-11 | `(a + b - 1) / b`, with Rust's division rounding toward zero |
| NotEnoughMinerals.TriangleStep | src/day19.rs:24 | the optimistic extra `t * (t - 1) / 2` grows by t from t to t + 1 minutes: one more geode robot each minute |
| NotEnoughMinerals.TriangleMonotone | src/day19.rs:24 | more time never gives a smaller optimistic extra |
| NotEnoughMinerals.TimeToBuildBounds | src/day19.rs:40-54 | the wait before a build is at least one minute whenever there is time left |
| NotEnoughMinerals.TimeToBuild | src/day19.rs:40-54 | the longest wait over the four materials: 1 when already affordable, all the time left when no robot gathers it, otherwise the ceiling of the shortfall over the rate, plus 1 |
| NotEnoughMinerals.Collect | src/day19.rs:57-61 | the store after waiting and paying still has four counts |
| NotEnoughMinerals.Build | src/day19.rs:62-63 | the robots after a build still have four counts |
| NotEnoughMinerals.EnoughOf | src/day19.rs:42-51 | after waiting as long as one material needs, the store of it covers the cost |
| NotEnoughMinerals.BuildKeepsStoreNonNegative | src/day19.rs:55-63 | a robot is built only when the wait fits in the time left, and then no store and no robot count goes negative |
| NotEnoughMinerals.BuildRespectsCaps | src/day19.rs:30-39 | building only below the caps (ore: the largest ore cost; clay: the obsidian robot's clay; obsidian: the geode robot's obsidian; geode: none) keeps every count within its cap |
| NotEnoughMinerals.TriangleNonNegative | src/day19.rs:24 | the optimistic extra is never negative |
| NotEnoughMinerals.UpperBound | src/day19.rs:24 | the geodes from waiting plus `t * (t - 1) / 2` for a new geode robot every remaining minute |
| NotEnoughMinerals.BoundFalls | src/day19.rs:22-27 | with costs not below 0, the bound after any build is at most the bound before it, so pruning never loses a better branch |
| NotEnoughMinerals.BoundFallsWhenCosted | src/day19.rs:22-27 | the same, for any blueprint whenever its costs are not below 0 |
| NotEnoughMinerals.MaxGeodes | src/day19.rs:15-75 | the result is at least the best so far and at least what waiting opens; when the bound is at most that, it is exactly that; with costs not below 0 it never exceeds the larger of the best so far and the bound |
| NotEnoughMinerals.TryRobots | src/day19.rs:28-73 | the loop over the robot kinds, geode first, never lowers the best and never passes the bound |
| NotEnoughMinerals.TryRobot | src/day19.rs:30-72 | one pass of it, skipping a capped kind or a build that does not fit in time, keeps the same two facts |
| NotEnoughMinerals.FromCosts | src/day19.rs:95-105 | a line with at least seven numbers gives the four robots' costs, ore for the first two, ore and clay for obsidian, ore and obsidian for geode; costs not below 0 when the numbers are |
| NotEnoughMinerals.Geodes | src/day19.rs:82 | the geodes from one ore robot and nothing in store are never negative |
| NotEnoughMinerals.QualitySum | src/day19.rs:77-85 | each blueprint's 1-based number times the geodes it opens in 24 minutes, summed |
| NotEnoughMinerals.QualitySumTerms | src/day19.rs:77-85 | blueprint i, counted from 0, adds its number i + 1 times its geodes in 24 minutes |
| NotEnoughMinerals.QualitySumNonNegative | src/day19.rs:77-85 | the quality sum is never negative |
| NotEnoughMinerals.GeodeCounts | src/day19.rs:87-91 | the geodes of each blueprint in the given minutes, in order |
| NotEnoughMinerals.ProductOfThree | src/day19.rs:87-92 | the product over three blueprints is the product of their three counts |
| NotEnoughMinerals.Run | src/day19.rs:94-112 | part 1 is the quality sum, never negative; part 2 fails exactly when there are fewer than three blueprints (the slice panics), else it is the product of the first three blueprints' geodes in 32 minutes |
| GrovePositioning.RangeDistinct | src/day20.rs:10-11 | the indices in file order are all different |
| GrovePositioning.PermFacts | src/day20.rs:10-11 | a circle holding every index once has each index below n exactly once |
| GrovePositioning.RingInverse | src/day20.rs:9-11 | on a circle through every index, `prev` undoes `next` and `next` undoes `prev` |
| GrovePositioning.IndexOf | src/day20.rs:47 | `position` finds the first place holding the value |
| GrovePositioning.Ahead | src/day20.rs:31-33 | a position k places further round the circle is a position of it |
| GrovePositioning.Forward | src/day20.rs:31-33 | walking along `next` stays on an index |
| GrovePositioning.Backward | src/day20.rs:35-37 | walking along `prev` stays on an index |
| GrovePositioning.Walk | src/day20.rs:29-38 | the walk of a move, forward for a positive shift and back for a negative one, stays on an index |
| GrovePositioning.WalkForward | src/day20.rs:31-33 | k steps along `next` move k places forward round the circle |
| GrovePositioning.WalkBackward | src/day20.rs:35-37 | k steps along `prev` move k places back round the circle |
| GrovePositioning.NormaliseIsShortest | src/day20.rs:14-22 | the reduced shift, `(v + middle).rem_euclid(len - 1) - middle`, lies in `[-middle, len - 1 - middle)`, moves to the same place on the circle of the other len - 1 numbers, and is 0 exactly when v is a multiple of len - 1 |
| GrovePositioning.Normalise | src/day20.rs:18-19 | `(v + middle).rem_euclid(len - 1) - middle` with `middle = (len - 1) / 2` |
| GrovePositioning.Target | src/day20.rs:28-44 | where a move lands is a position of the circle of the other numbers |
| GrovePositioning.Others | src/day20.rs:23-27 | deleting the moving number leaves a circle one shorter |
| GrovePositioning.MoveSpec | src/day20.rs:14-44 | the circle after one move has the same length |
| GrovePositioning.MoveSpecMultiset | src/day20.rs:23-44 | moving a number neither loses nor duplicates any |
| GrovePositioning.OthersMultiset | src/day20.rs:23-27 | the others and the moving number make up the whole circle |
| GrovePositioning.MovePreservesPerm | src/day20.rs:23-44 | after a move every index is still on the circle exactly once |
| GrovePositioning.MoveLinks | src/day20.rs:20-44 | the linked-list move keeps both lists the same length with every entry an index, and a zero shift leaves both lists as they were |
| GrovePositioning.Unlink | src/day20.rs:23-27 | deleting an index keeps both lists well formed |
| GrovePositioning.Relink | src/day20.rs:39-44 | inserting after `new_prev` keeps both lists well formed |
| GrovePositioning.RotateRing | src/day20.rs:9-11 | the lists describe the circle read from any starting point |
| GrovePositioning.UnlinkRing | src/day20.rs:24-27 | deleting the last element of a circle leaves the lists describing the circle of the rest |
| GrovePositioning.InsertRing | src/day20.rs:39-44 | inserting an index after position q gives lists describing the circle with the index put in there |
| GrovePositioning.RotateToEnd | src/day20.rs:23-27 | the circle read from just after the moving index ends with it |
| GrovePositioning.RotationPerm | src/day20.rs:9-11 | reading a circle from another start keeps its elements distinct |
| GrovePositioning.Unlinked | src/day20.rs:24-27 | after unlinking, the lists describe the circle of the others |
| GrovePositioning.WalkReaches | src/day20.rs:28-38 | the walk from the old predecessor reaches the place the move lands at |
| GrovePositioning.OthersRing | src/day20.rs:23-27 | once the moving index is unlinked, the lists describe the circle of the others read from just after it |
| GrovePositioning.MoveRefines | src/day20.rs:14-44 | the linked-list move implements the move on the circle: the new lists describe exactly the moved circle |
| GrovePositioning.Scaled | src/day20.rs:4-7 | every number multiplied by the decryption key, in order |
| GrovePositioning.RoundUpTo | src/day20.rs:13-45 | moving the first k numbers in file order keeps every index on the circle once |
| GrovePositioning.MoveNumber | src/day20.rs:14-44 | moving one number by its reduced shift keeps every index on the circle once |
| GrovePositioning.Rounds | src/day20.rs:12-46 | any number of rounds keeps every index on the circle once |
| GrovePositioning.InitialNext | src/day20.rs:10 | `next` starts with every index linked to the one after it, the last to the first |
| GrovePositioning.InitialPrev | src/day20.rs:11 | `prev` starts with every index linked to the one before it, the first to the last |
| GrovePositioning.InitialRing | src/day20.rs:10-11 | the starting lists describe the circle in file order |
| GrovePositioning.RoundsStep | src/day20.rs:12-13 | one more round moves every number once more, in file order |
| GrovePositioning.MixLinks | src/day20.rs:8-46 | the two nested loops leave lists describing the circle after the given number of rounds |
| GrovePositioning.MixRound | src/day20.rs:13-45 | one pass of the inner loop over all numbers leaves lists describing the circle after the round |
| GrovePositioning.MoveOne | src/day20.rs:14-44 | one number's move on the lists is its move on the circle |
| GrovePositioning.SumAfter | src/day20.rs:48-54 | the final loop adds the numbers 1000, 2000 and 3000 links after zero |
| GrovePositioning.LinksMatchCircle | src/day20.rs:47-54 | on the final lists those are the numbers 1000, 2000 and 3000 places after zero on the circle |
| GrovePositioning.Mix | src/day20.rs:3-56 | `mix` gives the grove sum read off the mixed circle; it fails exactly on an empty file, on a single number with at least one round (`rem_euclid` by 0), or when no number is zero after scaling |
| GrovePositioning.MixMany | src/day20.rs:8-55 | with two or more numbers, one of them zero, the result is the grove sum of the circle after the rounds |
| GrovePositioning.Run | src/day20.rs:58-66 | one round with key 1, then ten with 811589153; both succeed exactly when there are two or more numbers and one is zero |
| GrovePositioning.ZeroScaled | src/day20.rs:4-7 | scaling by a key other than 0 keeps exactly the zeros |
| MonkeyMath.Evaluate | src/day21.rs:22-54 | a missing monkey fails (the `unwrap`); a number monkey gives `(0, n)`; the unknown gives `(1, 0)` |
| MonkeyMath.Combine | src/day21.rs:29-50 | the linear form of each operation; an `x²` term, an unknown divisor, a division by zero, an equation without a unique or whole solution and any other operator are the source's panics |
| MonkeyMath.MulLinear | src/day21.rs:32-36 | with no x² term, `(ax + b)(cx + d)` is `(ad + bc)x + bd` |
| MonkeyMath.DivLinear | src/day21.rs:37-41 | `(ax + b) / d` is `(a/d)x + b/d` |
| MonkeyMath.MulSound | src/day21.rs:32-36 | the product form gives the product of the two numbers at every x |
| MonkeyMath.DivSound | src/day21.rs:37-41 | with a constant non-zero divisor, the quotient form gives the quotient at every x |
| MonkeyMath.AddSound | src/day21.rs:30 | the sum form gives the sum at every x |
| MonkeyMath.SubSound | src/day21.rs:31 | the difference form gives the difference at every x |
| MonkeyMath.CombineSound | src/day21.rs:29-41 | whenever an operation other than `=` succeeds on two forms, its form evaluates at every x to the operation on the two numbers |
| MonkeyMath.EvaluateSound | src/day21.rs:17-54 | without an equation, the form `(a, b)` that `evaluate` returns gives the monkey's number `a·x + b` for every number x the human yells |
| MonkeyMath.NoHumanNoSlope | src/day21.rs:22-54 | with no unknown, every form has no x term, so part 1's constant is the whole value |
| MonkeyMath.CombineSolves | src/day21.rs:42-48 | the equation's answer is a whole number, balances the two forms, and is the only number that does |
| MonkeyMath.Truncate | src/day21.rs:79 | `to_integer` rounds toward zero: the result has the rational's sign and is within one of it |
| MonkeyMath.Part1 | src/day21.rs:78-79 | the constant of root's form, rounded toward zero |
| MonkeyMath.Part2 | src/day21.rs:81-96 | after the part 2 tweaks, the solution held in the constant of root's form |
| MonkeyMath.Part2Monkeys | src/day21.rs:81-93 | the part 2 tweaks fail exactly when root is missing or not an operation; otherwise `humn` becomes the unknown, root's operation becomes `=` with the same operands, and no other monkey changes |
| MonkeyMath.Run | src/day21.rs:56-97 | part 2 is reached only when part 1 did not panic |
| MonkeyMath.Part1IsRootNumber | src/day21.rs:78-79 | with no unknown and no equation, part 1 prints root's number rounded toward zero, whatever x is |
| MonkeyMath.EquationBalances | src/day21.rs:42-48 | an equation monkey's answer is whole and, when its operands hold no equation, makes them yell the same number, and no other number does |
| MonkeyMath.Part2Balances | src/day21.rs:95-96 | what part 2 prints makes root's two monkeys yell the same number, and no other number does |
| MonkeyMap.Left | src/day22.rs:30-32 | a left turn keeps the position |
| MonkeyMap.Right | src/day22.rs:33-35 | a right turn keeps the position |
| MonkeyMap.Offboard | src/day22.rs:12-22 | a cell is off the board when a coordinate is negative, the row is past the last, the column past the row's end, or the cell is a space |
| MonkeyMap.TurnsUndo | src/day22.rs:30-35 | a left and a right turn undo each other, in either order, and keep an axis heading an axis heading |
| MonkeyMap.FourTurns | src/day22.rs:33-35 | four right turns come back to the start, two reverse the heading, and one changes it |
| MonkeyMap.BackStepsStayOn | src/day22.rs:86-92 | walking back the counted number of steps stays on the board, and one step more leaves it |
| MonkeyMap.BackShift | src/day22.rs:87 | one step back, then j - 1 more, is j steps back |
| MonkeyMap.FlatWrap | src/day22.rs:86-92 | the cell reached by walking back from the current cell until the next one back is off the board |
| MonkeyMap.FlatWrapFarthest | src/day22.rs:86-92 | the flat wrap lands on the board on the same row or column, with only board between it and the start, and the cell one step further back is off the board: the far end of the line |
| MonkeyMap.CubeRulesPair | src/day22.rs:62-84 | leaving the author's net anywhere, a rule lands on the net with an axis heading, and leaving again backwards from there returns, by the paired rule, to the cell left with the reverse heading |
| MonkeyMap.CubeWrap | src/day22.rs:62-84 | the fourteen edge rules: an off-board cell reached with a heading becomes a cell and heading on the adjoining face; any other cell is left unchanged |
| MonkeyMap.CubeRight | src/day22.rs:71-78 | the same for leaving the net to the right (rules 7, 8, 11, 12, 14) |
| MonkeyMap.CubeLeft | src/day22.rs:64-75 | the same for leaving to the left (rules 2, 5, 6, 9) |
| MonkeyMap.CubeDown | src/day22.rs:68-80 | the same for leaving downwards (rules 4, 11, 13) |
| MonkeyMap.CubeUp | src/day22.rs:63-76 | the same for leaving upwards (rules 1, 3, 10) |
| MonkeyMap.FlatStepValid | src/day22.rs:37-98 | one flat step from an open tile never indexes off the board, and when it moves it lands on an open tile with an axis heading |
| MonkeyMap.NextCell | src/day22.rs:38-94 | the next cell in the heading, wrapped flat or around the cube when it leaves the board |
| MonkeyMap.Step | src/day22.rs:38-98 | an index outside the rows is a panic, a wall at the next cell stops the move, otherwise the walker moves there |
| MonkeyMap.Forward | src/day22.rs:36-100 | up to `steps` steps, stopping at the first wall |
| MonkeyMap.Perform | src/day22.rs:29-100 | turning left maps (dx, dy) to (dy, -dx), turning right to (-dy, dx), and moving forward walks |
| MonkeyMap.Walk | src/day22.rs:28-102 | the actions in order, the first failure ending the walk |
| MonkeyMap.PerformValid | src/day22.rs:29-101 | on the flat board every action keeps the walker on an open tile with an axis heading |
| MonkeyMap.ForwardValid | src/day22.rs:36-100 | on the flat board a move never panics and ends on an open tile |
| MonkeyMap.WalkValid | src/day22.rs:28-102 | on the flat board the whole path never panics and ends on an open tile |
| MonkeyMap.CubeStepValid | src/day22.rs:37-98 | on a board shaped like the net, a cube step never indexes off the board and keeps the walker on an open tile |
| MonkeyMap.CubeForwardValid | src/day22.rs:36-100 | on such a board a cube move never panics and ends on an open tile |
| MonkeyMap.CubeWalkValid | src/day22.rs:28-102 | on such a board the whole cube walk never panics and ends on an open tile |
| MonkeyMap.Facing | src/day22.rs:103-106 | the heading's index in right, down, left, up; none exactly for a vector that is not an axis heading |
| MonkeyMap.StartColumn | src/day22.rs:25 | the first open tile of row 0, none exactly when row 0 has no open tile |
| MonkeyMap.GetPassword | src/day22.rs:24-108 | 1000 × (row + 1) + 4 × (column + 1) + facing after the walk from the first open cell of row 0, heading right; failures are the source's panics |
| MonkeyMap.FlatPassword | src/day22.rs:24-108 | the flat password exists exactly when the board has a row 0 with an open tile, and the walk ends on an open tile |
| MonkeyMap.CubePassword | src/day22.rs:24-108 | on a board shaped like the net the same holds for the cube walk |
| MonkeyMap.PasswordDecodes | src/day22.rs:107 | `1000 * (y + 1) + 4 * (x + 1) + facing` gives back the row, the column and the heading, for columns below 249 |
| MonkeyMap.Run | src/day22.rs:110-137 | part 1 exists exactly when row 0 has an open tile; so does part 2 on a board shaped like the net |
| UnstableDiffusion.Window | src/day23.rs:19-20 | the nine cells of the block around an elf, the elf's own cell in the middle |
| UnstableDiffusion.CountAt | src/day23.rs:19-22 | counting the elves along a list one cell at a time |
| UnstableDiffusion.CountNine | src/day23.rs:19-22 | the block count is the sum over its nine cells |
| UnstableDiffusion.NoNeighbours | src/day23.rs:19-26 | for an elf, the block count minus one is 0 exactly when none of the eight cells around it holds an elf |
| UnstableDiffusion.Side | src/day23.rs:27-28 | the side tried j-th, `(order_index + j) % 4`, is one of the four |
| UnstableDiffusion.FirstFreeSpec | src/day23.rs:27-42 | the direction loop finds a side exactly when one of the remaining sides has all three cells empty, and then it is the first such side in the rotated order |
| UnstableDiffusion.Proposal | src/day23.rs:18-43 | no proposal without a neighbour; otherwise the middle cell of the first free side, in the order starting at the round's side |
| UnstableDiffusion.ProposalSpec | src/day23.rs:18-43 | an elf with no neighbour proposes nothing; otherwise it proposes exactly when some side is free, and then the middle cell of the first free side |
| UnstableDiffusion.ProposalFree | src/day23.rs:29-37 | a proposed cell holds no elf and is not the proposer's own |
| UnstableDiffusion.NewPosition | src/day23.rs:50-64 | the proposed cell when the elf is the only one proposing it, otherwise the elf's own cell |
| UnstableDiffusion.NewPositionSpec | src/day23.rs:45-65 | an elf leaves its cell exactly when its proposal has one vote, and then it is at that empty cell |
| UnstableDiffusion.TwoInSet | src/day23.rs:45-49 | two different members make a set of at least two |
| UnstableDiffusion.NoCollision | src/day23.rs:45-65 | two elves never end the round in the same cell |
| UnstableDiffusion.ImageSize | src/day23.rs:50-65 | the new positions of a set of elves are as many as the elves |
| UnstableDiffusion.Round | src/day23.rs:4-67 | every elf's new position, and whether no elf moved |
| UnstableDiffusion.RoundKeepsCount | src/day23.rs:4-67 | a round neither loses nor merges elves |
| UnstableDiffusion.StableIffUnchanged | src/day23.rs:10-66 | the round reports stable exactly when it leaves every elf where it was |
| UnstableDiffusion.RoundsKeepCount | src/day23.rs:69-73 | any number of rounds keeps the number of elves |
| UnstableDiffusion.SearchStable | src/day23.rs:92-101 | the search loop, for any round function: the first round found stable, with every earlier round unstable; none found means none of the first `fuel` rounds is stable |
| UnstableDiffusion.FirstStableRound | src/day23.rs:92-102 | the number returned is one more than the index of the first stable round, and every round before it moved an elf; none means no stable round within the fuel |
| UnstableDiffusion.Column | src/day23.rs:86-87 | the cells of one column of the box, each once |
| UnstableDiffusion.Cells | src/day23.rs:86-87 | the cells of the box are exactly those within both ranges |
| UnstableDiffusion.CellsSize | src/day23.rs:86-87 | the box has width times height cells |
| UnstableDiffusion.ColumnNoDup | src/day23.rs:86-87 | a column lists no cell twice |
| UnstableDiffusion.NoDupConcat | src/day23.rs:86-87 | joining two lists with no common cell keeps them free of repeats |
| UnstableDiffusion.CellsNoDup | src/day23.rs:86-87 | the box lists no cell twice |
| UnstableDiffusion.NoDupTail | src/day23.rs:86-89 | the tail of a list without repeats has none and lacks the head |
| UnstableDiffusion.CountHead | src/day23.rs:88-89 | the head of such a list adds one elf exactly when it holds one |
| UnstableDiffusion.CountInIsSize | src/day23.rs:88-89 | along a list without repeats, the elves counted are the elves in its cells |
| UnstableDiffusion.CountSplit | src/day23.rs:88-89 | every cell listed holds an elf or is empty ground |
| UnstableDiffusion.TightAdd | src/day23.rs:74-85 | widening a tightest box to take in one more elf keeps it the tightest box |
| UnstableDiffusion.Bounds | src/day23.rs:74-85 | `minmax` fails exactly when there are no elves; otherwise it gives the tightest box around them |
| UnstableDiffusion.BoxHoldsAll | src/day23.rs:86-89 | every elf lies in its box |
| UnstableDiffusion.CellsArea | src/day23.rs:86-87 | the box's cells are as many as its area |
| UnstableDiffusion.EmptyIsArea | src/day23.rs:86-89 | the empty tiles are the area of the tightest box minus the number of elves |
| UnstableDiffusion.NumEmptyGroundTiles | src/day23.rs:69-90 | fails exactly when there are no elves; otherwise the area of the tightest box around the elves after the rounds, minus the elves |
| UnstableDiffusion.Run | src/day23.rs:104-121 | part 1 after ten rounds as above; part 2 is one more than the index of the first stable round, with every earlier round unstable |
| BlizzardBasin.Position | src/day24.rs:13-17 | a blizzard's cell at any minute lies inside the walls on each axis at least three cells long |
| BlizzardBasin.CycleLaps | src/day24.rs:14-15 | a whole number of laps of the interior along an axis changes nothing |
| BlizzardBasin.AxisPeriodic | src/day24.rs:14-15 | along one axis, a whole number of laps' worth of minutes more changes nothing |
| BlizzardBasin.PositionPeriodic | src/day24.rs:13-17 | every blizzard is back where it was after `(width - 2) * (height - 2)` minutes |
| BlizzardBasin.CycleInterior | src/day24.rs:14-15 | an interior coordinate maps to itself |
| BlizzardBasin.CycleNext | src/day24.rs:14-15 | one more step along an axis is the next interior cell, or the far end cell once the wall is reached |
| BlizzardBasin.PositionNext | src/day24.rs:13-17 | a blizzard with a unit heading advances one cell a minute and reappears at the opposite end when it meets a wall |
| BlizzardBasin.KeepsLine | src/day24.rs:13-17 | a blizzard that starts inside never leaves its column when heading up or down, nor its row when heading left or right |
| BlizzardBasin.RowBlizzards | src/day24.rs:91-129 | the blizzards of one row from column x on are exactly those drawn there |
| BlizzardBasin.BlizzardsFrom | src/day24.rs:91-129 | the blizzards from row y down are exactly those drawn there |
| BlizzardBasin.Blizzards | src/day24.rs:91-129 | every blizzard drawn on the map, and only those |
| BlizzardBasin.Select | src/day24.rs:121-127 | filtering keeps exactly the accepted blizzards |
| BlizzardBasin.FirstOpen | src/day24.rs:81-86 | the first open cell of a row; none exactly when the row has no opening |
| BlizzardBasin.Setup | src/day24.rs:78-129 | fails exactly on an empty map, a first or last row without an opening, or an up-or-down blizzard beyond the first row's width; otherwise the width and height, the entrance on row 0 and the exit on the last row at each row's first opening, and buckets: column x holds exactly the up-and-down blizzards starting there, row y exactly the left-and-right ones |
| BlizzardBasin.HitInBucket | src/day24.rs:20-33 | a blizzard that is at an interior cell is in the bucket of that cell's column or row |
| BlizzardBasin.BucketsSuffice | src/day24.rs:20-33 | looking only at the cell's column and row misses no blizzard: the test holds exactly when no blizzard at all is at the cell |
| BlizzardBasin.NoBlizzardThere | src/day24.rs:20-33 | none of the blizzards of column x or row y is at (x, y) at that time |
| BlizzardBasin.SuccessorsFrom | src/day24.rs:44-65 | the moves listed from the i-th offset on are exactly the allowed ones among them |
| BlizzardBasin.SuccessorsSpec | src/day24.rs:44-65 | the successors are exactly the cells at most one step away, a minute later, at cost 1, that are the entrance, the exit, or an interior cell free of blizzards |
| BlizzardBasin.Successors | src/day24.rs:44-65 | the `successors` closure: the allowed moves of at most one step, each costing 1 |
| BlizzardBasin.Heuristic | src/day24.rs:66 | the Manhattan distance to the exit |
| BlizzardBasin.HeuristicConsistent | src/day24.rs:66 | one move changes the Manhattan distance to the exit by at most its cost |
| BlizzardBasin.HeuristicAdmissible | src/day24.rs:66-67 | the distance to the exit never exceeds the number of moves of any walk that reaches it, so A* with it finds shortest walks |
| BlizzardBasin.PathTime | src/day24.rs:44-63 | along a walk the minute goes up by one per move |
| Snafu.DigitValue | src/day25.rs:1-14 | each digit character has a value from -2 to 2, and `SNAFU_DIGITS` at position value + 2 gives the character back |
| Snafu.ParseSnafu | src/day25.rs:3-17 | the fold over the digits: each further digit multiplies the value so far by 5 and adds its own value (`=` is -2, `-` is -1, `0` to `2` their own) |
| Snafu.ParseSnafuHorner | src/day25.rs:3-17 | `parse_snafu` multiplies by 5 and adds the next digit's value; the empty string is 0 |
| Snafu.Pow5 | src/day25.rs:22-29 | every power of 5 is at least 1 |
| Snafu.GeomSumClosedForm | src/day25.rs:22-30 | four times `1 + 5 + ... + 5^(n-1)` is `5^n - 1` |
| Snafu.Pow5Monotone | src/day25.rs:22-29 | powers of 5 grow with the exponent |
| Snafu.ParseReversedAppend | src/day25.rs:31-37 | pushing a digit onto the reversed string adds its value times the next power of 5 |
| Snafu.ParseOfReverse | src/day25.rs:38 | reading the reversed digit string most significant digit first gives the value it was built for |
| Snafu.ToSnafu | src/day25.rs:19-39 | `to_snafu` writes only SNAFU digits, its string parses back to the value for every integer, 0 becomes `"0"`, and no other value gets a leading `0` |
| Snafu.OffsetValue | src/day25.rs:20-30 | the first loop adds 2 for each of n digits, where n is the fewest digits whose largest value `2 * (1 + 5 + ... + 5^(n-1))` covers the absolute value |
| Snafu.ReversedDigits | src/day25.rs:31-37 | the second loop writes exactly n digits, least significant first, worth the offset value minus the offset (or its negation for a value below 1), with a leading digit that is not `0` for a non-zero value |
| Snafu.NextDigit | src/day25.rs:32-37 | one pass of the second loop keeps its invariant |
| Snafu.EmitLastDigit | src/day25.rs:32-37 | the digit just written came from the remaining `value_up` before the pass |
| Snafu.FinishDigits | src/day25.rs:32-37 | when `value_up` reaches 0, all n digits are written and their value is the offset value less the offset |
| Snafu.EmitDigit | src/day25.rs:33-36 | each digit written is the next base-5 digit of `value_up`, shifted by 2 (or mirrored for a value below 1) |
| Snafu.DigitValueOfIndex | src/day25.rs:1 | the digit at position i of `SNAFU_DIGITS` is worth i - 2 |
| Snafu.MoreDigitsRemain | src/day25.rs:32 | while `value_up` is not 0, fewer than n digits have been written |
| Snafu.NumberOfDigits | src/day25.rs:20-30 | the offset value has exactly n base-5 digits, the leading one 3 or 4 when the value is not 0 |
| Snafu.ToSnafuZero | src/day25.rs:19-39 | `"0"` parses to 0 |
| Snafu.Run | src/day25.rs:41-44 | the answer is a SNAFU string that parses to the sum of the numbers |

## Left out

- Input parsing is not modelled: regular expressions, `serde_json`, line splitting and digit parsing inside each `run` (except `src/utils.rs`, which is modelled). Each model takes the parsed datatypes as inputs.
- `src/main.rs` (argument handling, file reading, timing) and `get_data.py` (downloading inputs) are I/O and are not part of this model.
- Printed output, and `render_image` in day 10, are left out.
- The `rayon` parallel iteration in day 19 is modelled as a sequential sum and product, which give the same values.
- HashMap and HashSet are modelled as Dafny maps and sets. Where an answer depends on the iteration order (day 18 part 1 counts pairs over the set), the cubes are taken as a list without repeats in some order, and the contract holds for every order.
- Strings are sequences of characters; the source's byte handling of ASCII input is the same on such inputs.
- Fixed-width overflow is not modelled. This covers the `i64` sums, the `i32` coordinates and times, `u64` products, and `Rational64` overflow in day 21.
- ParseUtils.ParseToken: the `i64` range is not modelled. `str::parse::<i64>` fails on a digit string whose value lies outside it, and `filter_map` drops that piece; the model parses it. So ParseUtils.ParseJoinRoundTrip, ParseUtils.ParseInts and ParseUtils.ParseIntVecs agree with the source only on numbers within the `i64` range.
- HillClimbing.Distance: the breadth-first search itself is a call into the `pathfinding` crate and is left out. The model states the successor relation, the low positions and the path-length arithmetic around it.
- BlizzardBasin.HeuristicAdmissible: the A* search of day 24 is a library call and is left out, and so are the three chained trips of part 2. The model states the successors, the heuristic, its consistency and admissibility, and the bucket test.
- ValvePressure.Search: global optimality (that pruning and the caps never lose the best schedule) is not proved. The model proves the local facts: the state is restored, the result is never below the pressure so far, every move is covered, and the result is within the bound.
- NotEnoughMinerals.MaxGeodes: global optimality is not proved either. The bound, the pruning equality and the caps are stated instead.
- PyroclasticFlow.GetHeight: when a repeat is skipped, the answer is only shown to be at least the height of the rocks really dropped. That the skipped periods add exactly `repeats * height_diff` depends on the chamber really being periodic, which is not proved.
- PyroclasticFlow.Run: states only that both heights are non-negative. The exact relation is the one GetHeight states.
- PyroclasticFlow: the fixed `MAX_HEIGHT` of 10 000 rows is not modelled, because the grid is an unbounded set of cells. A tower taller than that would make the source index out of range.
- MonkeyMath.Evaluate: recursion carries a fuel bound. Running out of fuel is an error, which stands for the stack overflow on a cyclic set of monkeys. Part 1 and part 2 use the number of monkeys as fuel, and that this is enough for every acyclic input is not proved.
- UnstableDiffusion.FirstStableRound: `first_stable_round` loops until a stable round. The model searches at most `fuel` rounds and returns none when none of them is stable.
- TreetopTreeHouse: an empty forest makes the source index `forest[0]`; the model requires at least one row, and rows of equal length (IsGrid), as every puzzle grid has; a shorter row makes the source index out of range.
- HillClimbing: the model requires a map of at least one row with rows of equal length (HeightsRectangular), as every puzzle map has; the source reads the width from the first row (src/day12.rs:24), so a shorter row would be indexed out of range.
- RopeBridge.Simulate: requires at least one knot. With zero knots the source's rope is empty and its first unit step panics on the head index `rope[0]` (src/day09.rs:16-17); with no move of positive distance it returns 1. `run` always passes 2 or 10 knots.
- RopeBridge.Simulate: requires every direction letter to be U, D, L or R (IsDirection), because any other letter is `unreachable!()` (src/day09.rs:13).
- RegolithReservoir: tracing a path requires consecutive points on a common row, column or diagonal, because otherwise the source's stepping loop never ends. Pouring with a floor requires some rock (`max_y >= 0`).
- MonkeyInTheMiddle: the model requires well-formed monkeys, with positive divisors and throw targets that exist. The parsing pattern `(\d+)` accepts a divisor of 0 and any monkey number (src/day11.rs:48-50, 63-65); puzzle inputs satisfy both requirements, and otherwise the source panics on the remainder by 0 or on the out-of-range index.
- BoilingBoulders: the flood fill requires droplet coordinates of at least 0, so that the start `(-1, -1, -1)` is air.
- NotEnoughMinerals: the search requires robot counts of at least 0. Every state reachable from one ore robot has them.
- MonkeyMap.CubePassword: the cube rules are the author's hand-made rules for one 50 × 50 net. Their safety is proved only for boards shaped like that net.
- BlizzardBasin.BucketsSuffice: the equivalence with a test over all blizzards requires every blizzard to start inside the walls, as in every puzzle map.
- BeaconExclusion.CountImpossible: a cell is removed only from the range of the sensor whose beacon it is. Another sensor's range can still cover that beacon cell, and then the source counts it. The model follows the source.
- SupplyStacks.MoveCrates: a move from a stack to itself first appends and then truncates, so it drops crates. The model follows the source, and SupplyStacks.SelfMoveDropsCrates states the effect; conservation is proved for moves between different stacks.
- Snafu.ParseSnafu: requires a string of SNAFU digits (AllSnafuDigits), because any other character is `unreachable!()` (src/day25.rs:13). Snafu.Run requires the same of every number.
- DistressSignal.Sort: the order is a total preorder, so `sort` may order packets that compare Equal either way. Stability is not stated.

## Findings

| source | as written | input that shows it | evidently intended | confidence | as-written member | corrected member |
|---|---|---|---|---|---|---|
| src/day16.rs:18-24 | the diagonal is set to 0 before the tunnels are written, so a tunnel from a valve to itself sets `distance[i][i]` to 1 | one valve with a tunnel to itself: `tunnels = [[0]]` | every valve is at distance 0 from itself | not executed | ValveDistances.FindAllDistancesAsWritten, ValveDistances.SelfLoopDistance | ValveDistances.FindAllDistances |
| src/day16.rs:150-159 | the best result so far is seeded with the time (30, then 26), so a start whose bound is at most that is pruned and the answer is 0 | one valve `AA` with flow 1: opening it releases 29 in 30 minutes, but the bound 29 is at most the seed 30 | the best result is seeded with 0 | not executed | ValvePressure.PartsAsWritten, ValvePressure.SeedPrunesRoot | ValvePressure.Run, ValvePressure.SingleMoveReleased |
| src/day17.rs:82-91 | `repeats = (num_rocks - old_index) / index_diff - 1` counts rock `index` as still to come, so when the period divides `num_rocks - old_index` the loop accounts for `num_rocks + 1` rocks | 7 rocks, a state first seen after rock 0 and again after rock 1: the loop accounts for 8 rocks | `repeats = (num_rocks - 1 - old_index) / index_diff - 1`, which accounts for exactly `num_rocks` rocks | not executed | PyroclasticFlow.SkipAsWrittenOvershoots, PyroclasticFlow.SkipAsWrittenExample | PyroclasticFlow.SkipFits, PyroclasticFlow.GetHeight |

=== FILE: common.dfy ===
/** Shared vocabulary for the puzzle solvers: failure-carrying results, small
    integer helpers, sums, a stable lexicographic sort, and facts about
    sequences without repeated elements. */
module Common {

  /** A value that may be absent (Rust's `Option`). */
  datatype Option<+T> = None | Some(value: T)

  /** The outcome of a computation that can panic (an `unwrap` on nothing,
      an out-of-range index, an `assert!`). */
  datatype Result<+T> = Ok(value: T) | Err(reason: string)

  function Abs(x: int): nat
  {
    if x < 0 then -x else x
  }

  /** Rust's `signum` on integers. */
  function Sign(x: int): int
  {
    if x > 0 then 1 else if x < 0 then -1 else 0
  }

  function Max(a: int, b: int): int
  {
    if a >= b then a else b
  }

  function Min(a: int, b: int): int
  {
    if a <= b then a else b
  }

  function Sum(s: seq<int>): int
  {
    if |s| == 0 then 0 else s[0] + Sum(s[1..])
  }

  lemma {:induction false} SumAppend(s: seq<int>, t: seq<int>)
    ensures Sum(s + t) == Sum(s) + Sum(t)
  {
    if |s| == 0 {
      assert s + t == t;
    } else {
      assert (s + t)[1..] == s[1..] + t;
      SumAppend(s[1..], t);
    }
  }

  /** The number of flags that are set. */
  function Count(flags: seq<bool>): nat
  {
    if |flags| == 0 then 0 else (if flags[0] then 1 else 0) + Count(flags[1..])
  }

  /** The positions of the flags that are set. */
  function Positions(flags: seq<bool>): set<nat>
  {
    set i | 0 <= i < |flags| && flags[i]
  }

  lemma {:induction false} CountAppend(a: seq<bool>, b: seq<bool>)
    ensures Count(a + b) == Count(a) + Count(b)
  {
    if |a| == 0 {
      assert a + b == b;
    } else {
      assert (a + b)[1..] == a[1..] + b;
      CountAppend(a[1..], b);
    }
  }

  /** Counting the set flags one by one gives as many as there are positions
      holding a set flag. */
  lemma {:induction false} CountIsPositions(flags: seq<bool>)
    ensures Count(flags) == |Positions(flags)|
  {
    if |flags| > 0 {
      var n := |flags| - 1;
      var front := flags[..n];
      CountIsPositions(front);
      assert front + [flags[n]] == flags;
      CountAppend(front, [flags[n]]);
      assert Count([flags[n]]) == if flags[n] then 1 else 0;
      assert n !in Positions(front);
      assert Positions(flags) == Positions(front) + (if flags[n] then {n} else {});
    }
  }

  function Product(s: seq<int>): int
  {
    if |s| == 0 then 1 else s[0] * Product(s[1..])
  }

  function Reverse<T>(s: seq<T>): (r: seq<T>)
    ensures |r| == |s|
    ensures forall i :: 0 <= i < |s| ==> r[i] == s[|s| - 1 - i]
  {
    if |s| == 0 then [] else Reverse(s[1..]) + [s[0]]
  }

  lemma ReverseMultiset<T>(s: seq<T>)
    ensures multiset(Reverse(s)) == multiset(s)
  {
    if |s| > 0 {
      ReverseMultiset(s[1..]);
      assert s == [s[0]] + s[1..];
    }
  }

  // ---------------------------------------------------------------------
  // Lexicographic order on integer sequences: Rust's derived `Ord` on
  // tuples of integers, which `sort()` and `sorted()` use.
  // ---------------------------------------------------------------------

  predicate LexLe(a: seq<int>, b: seq<int>)
  {
    if |a| == 0 then true
    else if |b| == 0 then false
    else a[0] < b[0] || (a[0] == b[0] && LexLe(a[1..], b[1..]))
  }

  lemma LexLeTotal(a: seq<int>, b: seq<int>)
    ensures LexLe(a, b) || LexLe(b, a)
  {
  }

  lemma LexLeReflexive(a: seq<int>)
    ensures LexLe(a, a)
  {
  }

  lemma {:induction false} LexLeTransitive(a: seq<int>, b: seq<int>, c: seq<int>)
    requires LexLe(a, b) && LexLe(b, c)
    ensures LexLe(a, c)
  {
    if |a| > 0 && |b| > 0 && |c| > 0 && a[0] == b[0] == c[0] {
      LexLeTransitive(a[1..], b[1..], c[1..]);
    }
  }

  lemma {:induction false} LexLeAntisymmetric(a: seq<int>, b: seq<int>)
    requires |a| == |b|
    requires LexLe(a, b) && LexLe(b, a)
    ensures a == b
  {
    if |a| > 0 {
      LexLeAntisymmetric(a[1..], b[1..]);
      assert a == [a[0]] + a[1..];
      assert b == [b[0]] + b[1..];
    }
  }

  ghost predicate SortedBy<T>(s: seq<T>, key: T -> seq<int>)
  {
    forall i, j :: 0 <= i < j < |s| ==> LexLe(key(s[i]), key(s[j]))
  }

  /** Inserts x before the first element whose key is not smaller, keeping
      the relative order of elements with equal keys (a stable insertion). */
  function Insert<T>(x: T, s: seq<T>, key: T -> seq<int>): (r: seq<T>)
    requires SortedBy(s, key)
    ensures multiset(r) == multiset(s) + multiset{x}
    ensures SortedBy(r, key)
  {
    if |s| == 0 then [x]
    else if LexLe(key(x), key(s[0])) then
      BelowHead(x, s, key);
      PrependSorted(x, s, key);
      [x] + s
    else
      var rest := Insert(x, s[1..], key);
      LexLeTotal(key(x), key(s[0]));
      HeadBelowInsert(x, s, rest, key);
      PrependSorted(s[0], rest, key);
      assert s == [s[0]] + s[1..];
      [s[0]] + rest
  }

  lemma PrependSorted<T>(x: T, s: seq<T>, key: T -> seq<int>)
    requires SortedBy(s, key) && forall j :: 0 <= j < |s| ==> LexLe(key(x), key(s[j]))
    ensures SortedBy([x] + s, key)
  {
    var r := [x] + s;
    forall i, j | 0 <= i < j < |r| ensures LexLe(key(r[i]), key(r[j])) {
      if i > 0 {
        assert r[i] == s[i - 1] && r[j] == s[j - 1];
      } else {
        assert r[j] == s[j - 1];
      }
    }
  }

  lemma BelowHead<T>(x: T, s: seq<T>, key: T -> seq<int>)
    requires SortedBy(s, key) && |s| > 0 && LexLe(key(x), key(s[0]))
    ensures forall j :: 0 <= j < |s| ==> LexLe(key(x), key(s[j]))
  {
    forall j | 0 <= j < |s| ensures LexLe(key(x), key(s[j])) {
      if j > 0 {
        assert LexLe(key(s[0]), key(s[j]));
        LexLeTransitive(key(x), key(s[0]), key(s[j]));
      }
    }
  }

  lemma HeadBelowInsert<T>(x: T, s: seq<T>, rest: seq<T>, key: T -> seq<int>)
    requires SortedBy(s, key) && |s| > 0 && LexLe(key(s[0]), key(x))
    requires multiset(rest) == multiset(s[1..]) + multiset{x}
    ensures forall j :: 0 <= j < |rest| ==> LexLe(key(s[0]), key(rest[j]))
  {
    forall j | 0 <= j < |rest| ensures LexLe(key(s[0]), key(rest[j])) {
      assert rest[j] in multiset(rest);
      if rest[j] != x {
        assert rest[j] in multiset(s[1..]);
        var k :| 0 <= k < |s[1..]| && s[1..][k] == rest[j];
        assert s[k + 1] == rest[j];
      }
    }
  }

  /** A stable insertion sort by lexicographic key (Rust's `sort`, `sorted`
      and `sort_by_key` are stable). */
  function SortBy<T>(s: seq<T>, key: T -> seq<int>): (r: seq<T>)
    ensures multiset(r) == multiset(s)
    ensures SortedBy(r, key)
  {
    if |s| == 0 then []
    else
      assert s == [s[0]] + s[1..];
      Insert(s[0], SortBy(s[1..], key), key)
  }

  // ---------------------------------------------------------------------
  // Sequences without repeated elements.
  // ---------------------------------------------------------------------

  predicate Distinct<T(==)>(s: seq<T>)
  {
    forall i, j :: 0 <= i < j < |s| ==> s[i] != s[j]
  }

  function Elements<T>(s: seq<T>): set<T>
  {
    set x | x in s
  }

  lemma {:induction false} ElementsBound<T>(s: seq<T>)
    ensures |Elements(s)| <= |s|
  {
    if |s| > 0 {
      ElementsBound(s[1..]);
      assert Elements(s) == {s[0]} + Elements(s[1..]);
    }
  }

  /** The elements of a sequence with one more in front. */
  lemma ElementsCons<T>(x: T, t: seq<T>)
    ensures Elements([x] + t) == {x} + Elements(t)
  {
    assert forall y :: y in [x] + t <==> y == x || y in t;
  }

  /** The elements of two sequences joined are those of either. */
  lemma ElementsAppend<T>(a: seq<T>, b: seq<T>)
    ensures Elements(a + b) == Elements(a) + Elements(b)
  {
    assert forall y :: y in a + b <==> y in a || y in b;
  }

  /** The entries at a set of positions of a sequence without repeats are
      as many as the positions. */
  lemma {:induction false} DistinctImageSize<T>(s: seq<T>, positions: set<nat>)
    requires Distinct(s) && forall i :: i in positions ==> i < |s|
    ensures |set i | i in positions && i < |s| :: s[i]| == |positions|
    decreases |positions|
  {
    if positions != {} {
      var i :| i in positions;
      var rest := positions - {i};
      DistinctImageSize(s, rest);
      assert (set k | k in positions && k < |s| :: s[k]) == (set k | k in rest && k < |s| :: s[k]) + {s[i]};
      assert s[i] !in (set k | k in rest && k < |s| :: s[k]);
    }
  }

  /** A sequence has no repeated element exactly when its set of elements is
      as large as the sequence is long. */
  lemma {:induction false} DistinctIffFullCardinality<T>(s: seq<T>)
    ensures Distinct(s) <==> |Elements(s)| == |s|
  {
    if |s| > 0 {
      var t := s[1..];
      DistinctIffFullCardinality(t);
      ElementsBound(t);
      assert Elements(s) == {s[0]} + Elements(t);
      if s[0] in t {
        var k :| 0 <= k < |t| && t[k] == s[0];
        assert s[0] == s[k + 1];
        assert Elements(s) == Elements(t);
      } else {
        assert Distinct(s) <==> Distinct(t) by {
          if Distinct(t) {
            forall i, j | 0 <= i < j < |s| ensures s[i] != s[j] {
              if i == 0 {
                assert s[j] == t[j - 1];
              } else {
                assert s[i] == t[i - 1] && s[j] == t[j - 1];
              }
            }
          }
        }
      }
    }
  }

  lemma {:induction false} DistinctCount<T>(s: seq<T>, v: T)
    requires Distinct(s)
    ensures multiset(s)[v] <= 1
  {
    if |s| > 0 {
      assert s == [s[0]] + s[1..];
      DistinctCount(s[1..], v);
      if s[0] == v {
        assert v !in s[1..];
      }
    }
  }

  /** Rearranging a sequence without repeated elements leaves none. */
  lemma DistinctPreserved<T>(s: seq<T>, t: seq<T>)
    requires multiset(s) == multiset(t)
    requires Distinct(s)
    ensures Distinct(t)
  {
    forall i, j | 0 <= i < j < |t| ensures t[i] != t[j] {
      if t[i] == t[j] {
        var v := t[j];
        assert t == t[..j] + [t[j]] + t[j + 1..];
        assert t[i] in t[..j];
        assert multiset(t)[v] >= 2;
        DistinctCount(s, v);
      }
    }
  }

  /** The values 0, 1, ..., n - 1 in order. */
  function Range(n: nat): (r: seq<nat>)
    ensures |r| == n
    ensures forall k :: 0 <= k < n ==> r[k] == k
  {
    seq(n, k => k)
  }

  /** Pigeonhole: n distinct values below n include every value below n. */
  lemma Pigeonhole(s: seq<nat>, n: nat)
    requires |s| == n && Distinct(s)
    requires forall k :: 0 <= k < |s| ==> s[k] < n
    ensures forall i :: 0 <= i < n ==> i in s
  {
    DistinctIffFullCardinality(s);
    assert Distinct(Range(n));
    DistinctIffFullCardinality(Range(n));
    forall i | 0 <= i < n ensures i in s {
      if i !in s {
        var others := Elements(Range(n)) - {i};
        assert i == Range(n)[i];
        assert i in Elements(Range(n));
        assert Elements(Range(n)) == others + {i};
        assert |others| == n - 1;
        forall x | x in Elements(s) ensures x in others {
          var k :| 0 <= k < |s| && s[k] == x;
          assert x == Range(n)[x];
        }
        SubsetCardinality(Elements(s), others);
      }
    }
  }

  lemma SubsetCardinality<T>(a: set<T>, b: set<T>)
    requires a <= b
    ensures |a| <= |b|
  {
    assert b == a + (b - a);
  }

  /** The element of a one-element set. */
  function TheElement<T>(s: set<T>): (x: T)
    requires |s| == 1
    ensures s == {x}
  {
    assert exists y :: y in s by {
      if forall y :: y !in s {
        assert false;
      }
    }
    var y :| y in s;
    assert s == {y} by {
      forall z | z in s ensures z == y {
        if z != y {
          SubsetCardinality({y, z}, s);
        }
      }
    }
    y
  }

  // ---------------------------------------------------------------------
  // Descending order on integers (`sorted().rev()`).
  // ---------------------------------------------------------------------

  predicate SortedDesc(t: seq<int>)
  {
    forall i, j :: 0 <= i < j < |t| ==> t[i] >= t[j]
  }

  function IntKey(x: int): seq<int>
  {
    [x]
  }

  /** Ascending stable sort followed by reversal. */
  function SortDescending(s: seq<int>): (t: seq<int>)
    ensures multiset(t) == multiset(s) && |t| == |s|
    ensures SortedDesc(t)
  {
    var up := SortBy(s, IntKey);
    ReverseMultiset(up);
    assert |up| == |s| by {
      assert |multiset(up)| == |multiset(s)|;
    }
    var t := Reverse(up);
    assert SortedDesc(t) by {
      forall i, j | 0 <= i < j < |t| ensures t[i] >= t[j] {
        assert LexLe(IntKey(up[|up| - 1 - j]), IntKey(up[|up| - 1 - i]));
      }
    }
    t
  }

  /** The first k elements of a descending sequence weigh at least as much as
      any k elements drawn from it (counted with multiplicity). */
  lemma {:induction false} TopSum(u: seq<int>, t: seq<int>)
    requires SortedDesc(t)
    requires multiset(u) <= multiset(t)
    ensures |u| <= |t|
    ensures Sum(u) <= Sum(t[..|u|])
    decreases |t|, 1
  {
    SubMultisetCardinality(multiset(u), multiset(t));
    if |u| > 0 {
      DropHead(t);
      if t[0] in multiset(u) {
        TopSumTaken(u, t);
      } else {
        TopSumSkipped(u, t);
      }
    }
  }

  /** A descending sequence without its head: still descending, and the
      head accounts for the difference in elements. */
  lemma DropHead(t: seq<int>)
    requires SortedDesc(t) && |t| > 0
    ensures SortedDesc(t[1..]) && multiset(t) == multiset(t[1..]) + multiset{t[0]}
  {
    assert t == [t[0]] + t[1..];
  }

  /** TopSum when the head of t is among the chosen elements. */
  lemma {:induction false} TopSumTaken(u: seq<int>, t: seq<int>)
    requires |u| > 0 && |u| <= |t| && multiset(u) <= multiset(t) && t[0] in multiset(u)
    requires SortedDesc(t[1..]) && multiset(t) == multiset(t[1..]) + multiset{t[0]}
    ensures Sum(u) <= Sum(t[..|u|])
    decreases |t|, 0
  {
    var k := |u|;
    var rest := t[1..];
    var p :| 0 <= p < |u| && u[p] == t[0];
    var u' := RemoveAt(u, p);
    SubMultisetCancel(multiset(u'), multiset(rest), t[0]);
    TopSum(u', rest);
    SumTakeHead(t, k);
  }

  lemma SumTakeHead(t: seq<int>, k: nat)
    requires 0 < k <= |t|
    ensures Sum(t[..k]) == t[0] + Sum(t[1..][..k - 1])
  {
    assert t[..k][1..] == t[1..][..k - 1];
  }

  /** TopSum when the head of t is not among the chosen elements. */
  lemma {:induction false} TopSumSkipped(u: seq<int>, t: seq<int>)
    requires SortedDesc(t) && 0 < |u| <= |t| && multiset(u) <= multiset(t) && t[0] !in multiset(u)
    requires SortedDesc(t[1..]) && multiset(t) == multiset(t[1..]) + multiset{t[0]}
    ensures Sum(u) <= Sum(t[..|u|])
    decreases |t|, 0
  {
    var rest := t[1..];
    SubMultisetSkip(multiset(u), multiset(rest), t[0]);
    TopSum(u, rest);
    ShiftedSumLe(t, |u|);
  }

  lemma SubMultisetCardinality<T>(a: multiset<T>, b: multiset<T>)
    requires a <= b
    ensures |a| <= |b|
  {
    assert b == a + (b - a);
  }

  lemma SubMultisetCancel<T>(a: multiset<T>, b: multiset<T>, x: T)
    requires a + multiset{x} <= b + multiset{x}
    ensures a <= b
  {
    forall y ensures a[y] <= b[y] {
      assert (a + multiset{x})[y] <= (b + multiset{x})[y];
    }
  }

  lemma SubMultisetSkip<T>(a: multiset<T>, b: multiset<T>, x: T)
    requires a <= b + multiset{x} && x !in a
    ensures a <= b
  {
    forall y ensures a[y] <= b[y] {
      assert a[y] <= (b + multiset{x})[y];
    }
  }

  /** The sequence without its element at position p. */
  function RemoveAt(u: seq<int>, p: nat): (r: seq<int>)
    requires p < |u|
    ensures |r| == |u| - 1
    ensures multiset(u) == multiset(r) + multiset{u[p]}
    ensures Sum(u) == u[p] + Sum(r)
  {
    var r := u[..p] + u[p + 1..];
    assert u == u[..p] + [u[p]] + u[p + 1..];
    SumAppend(u[..p] + [u[p]], u[p + 1..]);
    SumAppend(u[..p], [u[p]]);
    SumAppend(u[..p], u[p + 1..]);
    assert Sum([u[p]]) == u[p];
    r
  }

  /** In a descending sequence, dropping the head and taking k elements gives
      a sum no larger than the first k. */
  lemma {:induction false} ShiftedSumLe(t: seq<int>, k: nat)
    requires SortedDesc(t) && k < |t|
    ensures Sum(t[1..][..k]) <= Sum(t[..k])
  {
    if k > 0 {
      assert t[..k] == [t[0]] + t[1..k];
      assert t[1..][..k] == t[1..k] + [t[k]];
      SumAppend(t[1..k], [t[k]]);
      assert Sum([t[0]] + t[1..k]) == t[0] + Sum(t[1..k]);
      assert Sum([t[k]]) == t[k];
    }
  }

  /** Removes position p, shifting the later elements down by one. */
  function Without<T>(s: seq<T>, p: nat): (r: seq<T>)
    requires p < |s|
    ensures |r| == |s| - 1
    ensures multiset(s) == multiset(r) + multiset{s[p]}
    ensures forall q :: 0 <= q < |s| && q != p ==> s[q] == r[Shift(q, p)]
  {
    assert s == s[..p] + [s[p]] + s[p + 1..];
    s[..p] + s[p + 1..]
  }

  function Shift(q: nat, p: nat): nat
    requires q != p
  {
    if q < p then q else q - 1
  }

  /** The elements at the positions `idx`, in that order. */
  function Pick<T>(s: seq<T>, idx: seq<nat>): (r: seq<T>)
    requires forall m :: 0 <= m < |idx| ==> idx[m] < |s|
    ensures |r| == |idx|
    ensures forall m :: 0 <= m < |idx| ==> r[m] == s[idx[m]]
  {
    seq(|idx|, m requires 0 <= m < |idx| => s[idx[m]])
  }

  /** Elements picked at distinct positions form a sub-multiset. */
  lemma {:induction false} PickSubMultiset<T>(s: seq<T>, idx: seq<nat>)
    requires forall m :: 0 <= m < |idx| ==> idx[m] < |s|
    requires Distinct(idx)
    ensures multiset(Pick(s, idx)) <= multiset(s)
  {
    if |idx| > 0 {
      var p := idx[0];
      var s' := Without(s, p);
      var idx' := ShiftedAfterHead(idx, |s|);
      PickSubMultiset(s', idx');
      var picked := Pick(s, idx);
      assert picked == [s[p]] + Pick(s', idx');
      assert multiset(picked) == multiset{s[p]} + multiset(Pick(s', idx'));
    }
  }

  /** The positions after the first, renumbered for the sequence without
      the first position. */
  function ShiftedAfterHead(idx: seq<nat>, n: nat): (r: seq<nat>)
    requires |idx| > 0 && Distinct(idx) && forall m :: 0 <= m < |idx| ==> idx[m] < n
    ensures |r| == |idx| - 1 && Distinct(r)
    ensures forall m :: 0 <= m < |r| ==> r[m] < n - 1 && r[m] == Shift(idx[m + 1], idx[0])
  {
    var r := seq(|idx| - 1, m requires 0 <= m < |idx| - 1 => Shift(idx[m + 1], idx[0]));
    assert Distinct(r) by {
      forall a, b | 0 <= a < b < |r| ensures r[a] != r[b] {
        assert idx[a + 1] != idx[b + 1];
      }
    }
    r
  }

  /** Of two entries at different positions, the larger is at most the first
      entry of a descending permutation and the smaller at most the second. */
  lemma SecondLargestBound(s: seq<int>, t: seq<int>, i: nat, j: nat)
    requires SortedDesc(t) && multiset(t) == multiset(s)
    requires i < |s| && j < |s| && i != j
    ensures |t| == |s| >= 2
    ensures Max(s[i], s[j]) <= t[0]
    ensures Min(s[i], s[j]) <= t[1]
  {
    assert |multiset(t)| == |multiset(s)|;
    PickSubMultiset(s, [i, j]);
    assert Pick(s, [i, j]) == [s[i], s[j]];
    var pair := multiset{s[i], s[j]};
    assert pair <= multiset(t);
    InDescending(t, s[i]);
    InDescending(t, s[j]);
    SmallerOfPair(t, s[i], s[j]);
  }

  lemma SmallerOfPair(t: seq<int>, a: int, b: int)
    requires SortedDesc(t) && |t| >= 2
    requires multiset{a, b} <= multiset(t)
    ensures Min(a, b) <= t[1]
  {
    var rest := t[1..];
    DropHead(t);
    if a != t[0] {
      assert a in multiset(rest);
      InDescending(rest, a);
    } else if b != t[0] {
      assert b in multiset(rest);
      InDescending(rest, b);
    } else {
      assert multiset{a, b}[t[0]] == 2;
      assert t[0] in multiset(rest);
      InDescending(rest, t[0]);
    }
  }

  /** The first two entries of a rearrangement sit at two different
      positions of the sequence it rearranges. */
  lemma TopTwoPositions(s: seq<int>, t: seq<int>)
    requires multiset(t) == multiset(s) && |t| >= 2
    ensures exists i, j :: 0 <= i < |s| && 0 <= j < |s| && i != j && s[i] == t[0] && s[j] == t[1]
  {
    assert t[0] in multiset(s);
    var i :| 0 <= i < |s| && s[i] == t[0];
    var rest := s[..i] + s[i + 1..];
    RemoveAtMultiset(s, i);
    SecondAfterFirst(t);
    assert t[1] in multiset(rest);
    var k :| 0 <= k < |rest| && rest[k] == t[1];
    var j := if k < i then k else k + 1;
    RemovedIndex(s, i, k);
    assert s[j] == t[1] && j != i;
  }

  lemma RemoveAtMultiset(s: seq<int>, i: nat)
    requires i < |s|
    ensures multiset(s[..i] + s[i + 1..]) == multiset(s) - multiset{s[i]}
  {
    assert s == s[..i] + [s[i]] + s[i + 1..];
  }

  lemma SecondAfterFirst(t: seq<int>)
    requires |t| >= 2
    ensures t[1] in multiset(t) - multiset{t[0]}
  {
    assert t == [t[0]] + t[1..];
    assert t[1..][0] == t[1];
  }

  lemma RemovedIndex(s: seq<int>, i: nat, k: nat)
    requires i < |s| && k < |s| - 1
    ensures (s[..i] + s[i + 1..])[k] == s[if k < i then k else k + 1]
  {
  }

  /** Every element of a descending sequence is at most its first. */
  lemma InDescending(t: seq<int>, x: int)
    requires SortedDesc(t) && x in t
    ensures x <= t[0]
  {
  }

  // ---------------------------------------------------------------------
  // Euclidean division.
  // ---------------------------------------------------------------------

  /** Euclidean division is unique: a quotient and an in-range remainder
      that rebuild x are x / d and x % d. */
  lemma DivModUnique(x: int, q: int, r: int, d: int)
    requires d > 0 && 0 <= r < d && x == q * d + r
    ensures x % d == r && x / d == q
  {
    var e := q - x / d;
    assert e * d == x % d - r;
    MulBound(e, d);
  }

  lemma MulBound(e: int, d: int)
    requires d > 0
    ensures e >= 1 ==> e * d >= d
    ensures e <= -1 ==> e * d <= -d
  {
    assert e >= 1 ==> (e - 1) * d >= 0;
    assert e <= -1 ==> (-e - 1) * d >= 0;
  }

  lemma DivMod(x: nat, d: nat)
    requires d > 0
    ensures x == (x / d) * d + x % d && x / d >= 0 && 0 <= x % d < d
  {
  }

  /** Adding a multiple of d leaves the remainder modulo d unchanged. */
  lemma ModAddMultiple(a: nat, r: nat, d: nat)
    requires d > 0
    ensures (a * d + r) % d == r % d
  {
    var q := r / d;
    assert a * d + r == (a + q) * d + r % d;
    DivModUnique(a * d + r, a + q, r % d, d);
  }
}

=== FILE: day01.dfy ===
/** Calorie counting: each elf's snacks form a group; the answers are the
    largest group total and the total of the three largest. */
module CalorieCounting {
  import opened Common

  /** One total per group, in input order. */
  function GroupSums(groups: seq<seq<int>>): (r: seq<int>)
    ensures |r| == |groups|
    ensures forall i :: 0 <= i < |groups| ==> r[i] == Sum(groups[i])
  {
    seq(|groups|, i requires 0 <= i < |groups| => Sum(groups[i]))
  }

  /** The group totals, largest first. */
  function Calories(groups: seq<seq<int>>): (t: seq<int>)
    ensures multiset(t) == multiset(GroupSums(groups)) && |t| == |groups|
    ensures SortedDesc(t)
  {
    SortDescending(GroupSums(groups))
  }

  /** Part 1: the first of the sorted totals; indexing an empty list panics. */
  function MaxCalories(groups: seq<seq<int>>): (r: Result<int>)
    ensures r.Ok? <==> |groups| >= 1
    ensures r.Ok? ==> forall i :: 0 <= i < |groups| ==> Sum(groups[i]) <= r.value
    ensures r.Ok? ==> exists i :: 0 <= i < |groups| && Sum(groups[i]) == r.value
  {
    if |groups| == 0 then Err("index out of bounds")
    else
      var t := Calories(groups);
      var sums := GroupSums(groups);
      assert t[0] in multiset(sums);
      assert forall i :: 0 <= i < |groups| ==> sums[i] <= t[0] by {
        forall i | 0 <= i < |groups| ensures sums[i] <= t[0] {
          TopSum([sums[i]], t);
          assert multiset([sums[i]]) <= multiset(t);
          assert t[..1] == [t[0]];
        }
      }
      Ok(t[0])
  }

  /** Part 2: the sum of the first three sorted totals; fewer than three
      groups make the slice panic. */
  function TopThreeCalories(groups: seq<seq<int>>): (r: Result<int>)
    ensures r.Ok? <==> |groups| >= 3
    ensures r.Ok? ==> forall i, j, k :: 0 <= i < |groups| && 0 <= j < |groups| && 0 <= k < |groups|
                        && i != j && j != k && i != k
                        ==> Sum(groups[i]) + Sum(groups[j]) + Sum(groups[k]) <= r.value
    ensures r.Ok? ==> r.value == Sum(Calories(groups)[..3])
  {
    if |groups| < 3 then Err("range end index out of range")
    else
      var t := Calories(groups);
      TopThreeBound(groups, t);
      Ok(Sum(t[..3]))
  }

  lemma TopThreeBound(groups: seq<seq<int>>, t: seq<int>)
    requires t == Calories(groups) && |groups| >= 3
    ensures forall i, j, k :: 0 <= i < |groups| && 0 <= j < |groups| && 0 <= k < |groups|
              && i != j && j != k && i != k
              ==> Sum(groups[i]) + Sum(groups[j]) + Sum(groups[k]) <= Sum(t[..3])
  {
    var sums := GroupSums(groups);
    forall i, j, k | 0 <= i < |groups| && 0 <= j < |groups| && 0 <= k < |groups|
      && i != j && j != k && i != k
      ensures Sum(groups[i]) + Sum(groups[j]) + Sum(groups[k]) <= Sum(t[..3])
    {
      ThreeBelowTop(sums, t, i, j, k);
    }
  }

  lemma SumOfThree(a: int, b: int, c: int)
    ensures Sum([a, b, c]) == a + b + c
  {
    assert [a, b, c][1..] == [b, c] && [b, c][1..] == [c] && [c][1..] == [];
    assert Sum([c]) == c;
    assert Sum([b, c]) == b + c;
  }

  lemma ThreeBelowTop(sums: seq<int>, t: seq<int>, i: nat, j: nat, k: nat)
    requires SortedDesc(t) && multiset(t) == multiset(sums) && |t| == |sums|
    requires i < |sums| && j < |sums| && k < |sums| && i != j && j != k && i != k
    ensures sums[i] + sums[j] + sums[k] <= Sum(t[..3])
  {
    var idx: seq<nat> := [i, j, k];
    assert Distinct(idx);
    PickSubMultiset(sums, idx);
    var u := Pick(sums, idx);
    assert u == [sums[i], sums[j], sums[k]];
    TopSum(u, t);
    SumOfThree(sums[i], sums[j], sums[k]);
  }
}

=== FILE: day02.dfy ===
/** Rock paper scissors: shapes and codes are 0 (rock), 1 (paper) and
    2 (scissors); in part 2 the second code is the wanted outcome instead
    (0 lose, 1 draw, 2 win). */
module RockPaperScissors {
  import opened Common

  predicate IsCode(c: int)
  {
    0 <= c <= 2
  }

  /** The rule of the game, stated independently of the scoring formula:
      paper beats rock, scissors beat paper, rock beats scissors. */
  predicate Beats(a: int, b: int)
  {
    (a == 1 && b == 0) || (a == 2 && b == 1) || (a == 0 && b == 2)
  }

  /** The shape played: the second code itself in part 1, the shape giving
      the wanted outcome in part 2. */
  function PlayedShape(elf: int, me: int, part1: bool): (s: int)
    requires IsCode(elf) && IsCode(me)
    ensures IsCode(s)
    ensures !part1 && me == 0 ==> Beats(elf, s)
    ensures !part1 && me == 1 ==> s == elf
    ensures !part1 && me == 2 ==> Beats(s, elf)
  {
    if part1 then me else (me + elf + 2) % 3
  }

  /** The score of one round: shape score 1 to 3 plus 0, 3 or 6 for a loss,
      a draw or a win. */
  function RoundScore(elf: int, me: int, part1: bool): (r: int)
    requires IsCode(elf) && IsCode(me)
    ensures 1 <= r <= 9
  {
    var shape := PlayedShape(elf, me, part1);
    var outcome := (3 + elf - shape) % 3;
    shape + 1 + [3, 0, 6][outcome]
  }

  /** The outcome score follows the rule of the game. */
  lemma RoundScoreMeaning(elf: int, me: int, part1: bool)
    requires IsCode(elf) && IsCode(me)
    ensures var shape := PlayedShape(elf, me, part1);
            var bonus := RoundScore(elf, me, part1) - (shape + 1);
            && (bonus == 6 <==> Beats(shape, elf))
            && (bonus == 3 <==> shape == elf)
            && (bonus == 0 <==> Beats(elf, shape))
  {
  }

  /** In part 2 the outcome bonus is fixed by the code: 0, 3 or 6. */
  lemma Part2Outcome(elf: int, me: int)
    requires IsCode(elf) && IsCode(me)
    ensures RoundScore(elf, me, false) - (PlayedShape(elf, me, false) + 1) == 3 * me
  {
  }

  predicate AllCodes(strategy: seq<(int, int)>)
  {
    forall i :: 0 <= i < |strategy| ==> IsCode(strategy[i].0) && IsCode(strategy[i].1)
  }

  /** The score of every round, in order. */
  function RoundScores(strategy: seq<(int, int)>, part1: bool): (r: seq<int>)
    requires AllCodes(strategy)
    ensures |r| == |strategy|
  {
    seq(|strategy|, i requires 0 <= i < |strategy| => RoundScore(strategy[i].0, strategy[i].1, part1))
  }

  /** The total score over all rounds. */
  function GetScore(strategy: seq<(int, int)>, part1: bool): (r: int)
    requires AllCodes(strategy)
    ensures |strategy| <= r <= 9 * |strategy|
    ensures r == Sum(RoundScores(strategy, part1))
  {
    if |strategy| == 0 then 0
    else
      assert RoundScores(strategy, part1)[1..] == RoundScores(strategy[1..], part1);
      RoundScore(strategy[0].0, strategy[0].1, part1) + GetScore(strategy[1..], part1)
  }

  lemma {:induction false} GetScoreAppend(s: seq<(int, int)>, t: seq<(int, int)>, part1: bool)
    requires AllCodes(s) && AllCodes(t)
    ensures AllCodes(s + t)
    ensures GetScore(s + t, part1) == GetScore(s, part1) + GetScore(t, part1)
  {
    if |s| == 0 {
      assert s + t == t;
    } else {
      assert (s + t)[1..] == s[1..] + t && (s + t)[0] == s[0];
      GetScoreAppend(s[1..], t, part1);
    }
  }
}

=== FILE: day03.dfy ===
/** Rucksack reorganization: items are bytes; the item shared by a group of
    item lists scores its priority. */
module RucksackReorganization {
  import opened Common

  predicate IsLower(c: int)
  {
    'a' as int <= c <= 'z' as int
  }

  predicate IsUpper(c: int)
  {
    'A' as int <= c <= 'Z' as int
  }

  /** `priority`: a..z score 1..26 and A..Z score 27..52; any other byte is
      `unreachable!()` in `priority`, so it is excluded here. */
  function Priority(item: int): (p: int)
    requires IsLower(item) || IsUpper(item)
    ensures IsLower(item) ==> 1 <= p <= 26
    ensures IsUpper(item) ==> 27 <= p <= 52
  {
    if IsLower(item) then item - 'a' as int + 1 else item - 'A' as int + 27
  }

  /** Different letters have different priorities. */
  lemma PriorityInjective(a: int, b: int)
    requires IsLower(a) || IsUpper(a)
    requires IsLower(b) || IsUpper(b)
    ensures Priority(a) == Priority(b) ==> a == b
  {
  }

  /** x occurs in every list of the group. */
  predicate InAll(x: int, groups: seq<seq<int>>)
  {
    forall g :: 0 <= g < |groups| ==> x in groups[g]
  }

  /** The items present in every list of the group (the fold of set
      intersections). */
  function CommonItems(groups: seq<seq<int>>): (r: set<int>)
    requires |groups| >= 1
    ensures forall x :: x in r <==> InAll(x, groups)
  {
    if |groups| == 1 then Elements(groups[0])
    else
      var front := groups[..|groups| - 1];
      var r := CommonItems(front) * Elements(groups[|groups| - 1]);
      assert forall x :: x in r <==> InAll(x, groups) by {
        forall x ensures x in r <==> InAll(x, groups) {
          if InAll(x, groups) {
            assert forall g :: 0 <= g < |front| ==> front[g] == groups[g];
          }
        }
      }
      r
  }

  /** `find_common_item`: the one item present in every list.  An empty group
      panics on the `reduce`, and anything but exactly one common item panics
      on `exactly_one`. */
  function FindCommonItem(groups: seq<seq<int>>): (r: Result<int>)
    ensures r.Ok? <==> |groups| >= 1 && |CommonItems(groups)| == 1
    ensures r.Ok? ==> InAll(r.value, groups)
    ensures r.Ok? ==> forall x :: InAll(x, groups) ==> x == r.value
  {
    if |groups| == 0 then Err("reduce of an empty iterator")
    else
      var common := CommonItems(groups);
      if |common| != 1 then Err("not exactly one common item")
      else
        var x := TheElement(common);
        Ok(x)
  }

  /** The score of one item group: the priority of its common item. */
  function GroupScore(groups: seq<seq<int>>): (r: Result<int>)
    ensures r.Ok? <==> FindCommonItem(groups).Ok?
                       && (IsLower(FindCommonItem(groups).value) || IsUpper(FindCommonItem(groups).value))
    ensures r.Ok? ==> FindCommonItem(groups).Ok? && 1 <= r.value <= 52
    ensures r.Ok? ==> var item := FindCommonItem(groups).value;
                      (IsLower(item) || IsUpper(item)) && r.value == Priority(item)
  {
    match FindCommonItem(groups)
    case Err(e) => Err(e)
    case Ok(item) =>
      if IsLower(item) || IsUpper(item) then Ok(Priority(item)) else Err("unreachable")
  }

  /** The two compartments: the first `len / 2` items and the rest. */
  function Compartments(rucksack: seq<int>): (r: seq<seq<int>>)
    ensures |r| == 2 && r[0] + r[1] == rucksack
    ensures |r[0]| == |rucksack| / 2 && |r[1]| == |rucksack| - |rucksack| / 2
  {
    [rucksack[..|rucksack| / 2], rucksack[|rucksack| / 2..]]
  }

  /** Part 1: the priorities of the item common to both compartments of each
      rucksack, summed. */
  function ScorePart1(data: seq<seq<int>>): (r: Result<int>)
    ensures r.Ok? <==> forall i :: 0 <= i < |data| ==> GroupScore(Compartments(data[i])).Ok?
    ensures r.Ok? ==> |data| <= r.value <= 52 * |data|
    ensures r.Ok? ==> r.value == Sum(seq(|data|, i requires 0 <= i < |data| && GroupScore(Compartments(data[i])).Ok?
                                                 => GroupScore(Compartments(data[i])).value))
  {
    var groups := seq(|data|, i requires 0 <= i < |data| => Compartments(data[i]));
    assert forall i :: 0 <= i < |data| ==> groups[i] == Compartments(data[i]);
    var r := SumGroupScores(groups);
    assert r.Ok? ==> Scores(groups) == seq(|data|, i requires 0 <= i < |data| && GroupScore(Compartments(data[i])).Ok?
                                                   => GroupScore(Compartments(data[i])).value);
    r
  }

  /** `chunks(3)`: consecutive groups of three; the last one is shorter when
      the count is not a multiple of three. */
  function Chunks3(data: seq<seq<int>>): (r: seq<seq<seq<int>>>)
    ensures |r| == (|data| + 2) / 3
    ensures forall k :: 0 <= k < |r| ==> 1 <= |r[k]| <= 3
    ensures forall k :: 0 <= k < |r| ==> r[k] == data[3 * k..if 3 * k + 3 <= |data| then 3 * k + 3 else |data|]
    decreases |data|
  {
    if |data| == 0 then []
    else if |data| <= 3 then [data]
    else
      var rest := Chunks3(data[3..]);
      var r := [data[..3]] + rest;
      assert forall k :: 1 <= k < |r| ==> r[k] == rest[k - 1];
      r
  }

  /** Part 2: the priorities of the item common to each group of three
      rucksacks, summed. */
  function ScorePart2(data: seq<seq<int>>): (r: Result<int>)
    ensures r.Ok? <==> forall k :: 0 <= k < |Chunks3(data)| ==> GroupScore(Chunks3(data)[k]).Ok?
    ensures r.Ok? ==> |Chunks3(data)| <= r.value <= 52 * |Chunks3(data)|
    ensures r.Ok? ==> r.value == Sum(Scores(Chunks3(data)))
  {
    var groups := Chunks3(data);
    var r := SumGroupScores(groups);
    assert (forall k :: 0 <= k < |Chunks3(data)| ==> GroupScore(Chunks3(data)[k]).Ok?) ==> r.Ok? by {
      if forall k :: 0 <= k < |Chunks3(data)| ==> GroupScore(Chunks3(data)[k]).Ok? {
        forall k | 0 <= k < |groups| ensures GroupScore(groups[k]).Ok? {
          assert groups[k] == Chunks3(data)[k];
        }
      }
    }
    r
  }

  /** The score of every group, in order, for groups that all score. */
  function Scores(groups: seq<seq<seq<int>>>): (r: seq<int>)
    requires forall k :: 0 <= k < |groups| ==> GroupScore(groups[k]).Ok?
    ensures |r| == |groups|
    ensures forall k :: 0 <= k < |groups| ==> 1 <= r[k] <= 52
  {
    seq(|groups|, k requires 0 <= k < |groups| && GroupScore(groups[k]).Ok? => GroupScore(groups[k]).value)
  }

  function SumGroupScores(groups: seq<seq<seq<int>>>): (r: Result<int>)
    ensures r.Ok? <==> forall k :: 0 <= k < |groups| ==> GroupScore(groups[k]).Ok?
    ensures r.Ok? ==> |groups| <= r.value <= 52 * |groups|
    ensures r.Ok? ==> r.value == Sum(Scores(groups))
  {
    if |groups| == 0 then Ok(0)
    else
      match GroupScore(groups[0])
      case Err(e) => Err(e)
      case Ok(p) =>
        match SumGroupScores(groups[1..])
        case Err(e) =>
          assert exists k :: 1 <= k < |groups| && !GroupScore(groups[k]).Ok? by {
            var k :| 0 <= k < |groups[1..]| && !GroupScore(groups[1..][k]).Ok?;
            assert groups[1..][k] == groups[k + 1];
          }
          Err(e)
        case Ok(rest) =>
          assert forall k :: 1 <= k < |groups| ==> groups[k] == groups[1..][k - 1];
          assert Scores(groups)[1..] == Scores(groups[1..]);
          Ok(p + rest)
  }
}

=== FILE: day04.dfy ===
/** Camp cleanup: pairs of inclusive section ranges. */
module CampCleanup {
  import opened Common

  /** An inclusive range `start..=end`; it is empty when start > end. */
  datatype Range = Range(start: int, end: int)

  predicate In(x: int, r: Range)
  {
    r.start <= x <= r.end
  }

  predicate NonEmpty(r: Range)
  {
    r.start <= r.end
  }

  /** `contains`: the bounds of r2 lie within those of r1. */
  predicate Contains(r1: Range, r2: Range)
  {
    r1.start <= r2.start && r1.end >= r2.end
  }

  predicate OneContainsTheOther(pair: (Range, Range))
  {
    Contains(pair.0, pair.1) || Contains(pair.1, pair.0)
  }

  predicate Overlapping(pair: (Range, Range))
  {
    pair.0.start <= pair.1.end && pair.0.end >= pair.1.start
  }

  /** For a non-empty r2, the bound test is exactly set inclusion. */
  lemma ContainsIsInclusion(r1: Range, r2: Range)
    requires NonEmpty(r2)
    ensures Contains(r1, r2) <==> forall x :: In(x, r2) ==> In(x, r1)
  {
    if !Contains(r1, r2) {
      if r1.start > r2.start {
        assert In(r2.start, r2) && !In(r2.start, r1);
      } else {
        assert In(r2.end, r2) && !In(r2.end, r1);
      }
    }
  }

  lemma ContainsReflexive(r: Range)
    ensures Contains(r, r)
  {
  }

  lemma OneContainsSymmetric(a: Range, b: Range)
    ensures OneContainsTheOther((a, b)) <==> OneContainsTheOther((b, a))
  {
  }

  lemma OverlappingSymmetric(a: Range, b: Range)
    ensures Overlapping((a, b)) <==> Overlapping((b, a))
  {
  }

  /** For non-empty ranges, the bound test is exactly a shared section. */
  lemma OverlappingIsSharedSection(a: Range, b: Range)
    requires NonEmpty(a) && NonEmpty(b)
    ensures Overlapping((a, b)) <==> exists x :: In(x, a) && In(x, b)
  {
    if Overlapping((a, b)) {
      var x := if a.start >= b.start then a.start else b.start;
      assert In(x, a) && In(x, b);
    }
  }

  /** For non-empty ranges, containment implies overlap. */
  lemma ContainmentImpliesOverlap(pair: (Range, Range))
    requires NonEmpty(pair.0) && NonEmpty(pair.1)
    ensures OneContainsTheOther(pair) ==> Overlapping(pair)
  {
  }

  /** The two answers: how many pairs satisfy each test. */
  function CountContaining(pairs: seq<(Range, Range)>): (n: nat)
    ensures n <= |pairs|
  {
    if |pairs| == 0 then 0
    else (if OneContainsTheOther(pairs[0]) then 1 else 0) + CountContaining(pairs[1..])
  }

  function CountOverlapping(pairs: seq<(Range, Range)>): (n: nat)
    ensures n <= |pairs|
  {
    if |pairs| == 0 then 0
    else (if Overlapping(pairs[0]) then 1 else 0) + CountOverlapping(pairs[1..])
  }

  /** Counting the pairs one by one is counting the positions of the pairs
      where one range contains the other. */
  lemma {:induction false} CountContainingPositions(pairs: seq<(Range, Range)>)
    ensures CountContaining(pairs) == Count(seq(|pairs|, i requires 0 <= i < |pairs| => OneContainsTheOther(pairs[i])))
    ensures CountContaining(pairs) == |set i | 0 <= i < |pairs| && OneContainsTheOther(pairs[i])|
  {
    var flags := seq(|pairs|, i requires 0 <= i < |pairs| => OneContainsTheOther(pairs[i]));
    if |pairs| > 0 {
      CountContainingPositions(pairs[1..]);
      assert flags[1..] == seq(|pairs[1..]|, i requires 0 <= i < |pairs[1..]| => OneContainsTheOther(pairs[1..][i]));
    }
    CountIsPositions(flags);
    assert Positions(flags) == set i | 0 <= i < |pairs| && OneContainsTheOther(pairs[i]);
  }

  /** The same for the pairs whose ranges overlap. */
  lemma {:induction false} CountOverlappingPositions(pairs: seq<(Range, Range)>)
    ensures CountOverlapping(pairs) == Count(seq(|pairs|, i requires 0 <= i < |pairs| => Overlapping(pairs[i])))
    ensures CountOverlapping(pairs) == |set i | 0 <= i < |pairs| && Overlapping(pairs[i])|
  {
    var flags := seq(|pairs|, i requires 0 <= i < |pairs| => Overlapping(pairs[i]));
    if |pairs| > 0 {
      CountOverlappingPositions(pairs[1..]);
      assert flags[1..] == seq(|pairs[1..]|, i requires 0 <= i < |pairs[1..]| => Overlapping(pairs[1..][i]));
    }
    CountIsPositions(flags);
    assert Positions(flags) == set i | 0 <= i < |pairs| && Overlapping(pairs[i]);
  }

  /** With non-empty ranges there are at least as many overlapping pairs as
      pairs where one range contains the other. */
  lemma {:induction false} ContainingAtMostOverlapping(pairs: seq<(Range, Range)>)
    requires forall i :: 0 <= i < |pairs| ==> NonEmpty(pairs[i].0) && NonEmpty(pairs[i].1)
    ensures CountContaining(pairs) <= CountOverlapping(pairs)
  {
    if |pairs| > 0 {
      ContainmentImpliesOverlap(pairs[0]);
      ContainingAtMostOverlapping(pairs[1..]);
    }
  }
}

=== FILE: day05.dfy ===
/** Supply stacks: crates (bytes) on numbered stacks, bottom first, moved by
    a crane one at a time or in batches. */
module SupplyStacks {
  import opened Common

  type Stacks = seq<seq<int>>

  /** One move: `qty` crates from stack `from` to stack `to`, both
      numbered from 1. */
  datatype Move = Move(qty: int, from: int, to: int)

  /** The checks that `move_crates` makes by panicking: a 1-based stack
      number (the `- 1` underflows on 0), an index in range and enough crates
      for the `len() - qty` subtraction. */
  predicate ValidMove(stacks: Stacks, m: Move)
  {
    && 1 <= m.from <= |stacks| && 1 <= m.to <= |stacks|
    && 0 <= m.qty <= |stacks[m.from - 1]|
  }

  function TotalCrates(stacks: Stacks): nat
  {
    if |stacks| == 0 then 0 else |stacks[0]| + TotalCrates(stacks[1..])
  }

  /** One move: the top `qty` crates of `from` are appended to `to` (reversed
      when they are lifted one by one), then `from` is cut back to its old
      length less `qty`.  When `from == to` the cut removes the crates just
      appended and as many again, as `move_crates` does. */
  function ApplyMove(stacks: Stacks, m: Move, oneByOne: bool): (r: Result<Stacks>)
    ensures r.Ok? <==> ValidMove(stacks, m)
    ensures r.Ok? ==> |r.value| == |stacks|
    ensures r.Ok? ==> forall k :: 0 <= k < |stacks| && k != m.from - 1 && k != m.to - 1 ==> r.value[k] == stacks[k]
    ensures r.Ok? && m.from != m.to ==>
              var mid := |stacks[m.from - 1]| - m.qty;
              && r.value[m.from - 1] == stacks[m.from - 1][..mid]
              && r.value[m.to - 1] == stacks[m.to - 1]
                   + (if oneByOne then Reverse(stacks[m.from - 1][mid..]) else stacks[m.from - 1][mid..])
  {
    if !ValidMove(stacks, m) then Err("stack index or crate count out of range")
    else
      var from, to := m.from - 1, m.to - 1;
      var mid := |stacks[from]| - m.qty;
      var crates := stacks[from][mid..];
      var moved := if oneByOne then Reverse(crates) else crates;
      var afterAppend := stacks[to := stacks[to] + moved];
      Ok(afterAppend[from := afterAppend[from][..mid]])
  }

  lemma {:induction false} TotalCratesUpdate(stacks: Stacks, k: nat, s: seq<int>)
    requires k < |stacks|
    ensures TotalCrates(stacks[k := s]) + |stacks[k]| == TotalCrates(stacks) + |s|
  {
    if k > 0 {
      assert stacks[k := s][1..] == stacks[1..][k - 1 := s];
      TotalCratesUpdate(stacks[1..], k - 1, s);
    }
  }

  /** A move between two different stacks keeps every crate. */
  lemma MoveConservesCrates(stacks: Stacks, m: Move, oneByOne: bool)
    requires ValidMove(stacks, m) && m.from != m.to
    ensures ApplyMove(stacks, m, oneByOne).Ok?
    ensures TotalCrates(ApplyMove(stacks, m, oneByOne).value) == TotalCrates(stacks)
  {
    var from, to := m.from - 1, m.to - 1;
    var mid := |stacks[from]| - m.qty;
    var crates := stacks[from][mid..];
    var moved := if oneByOne then Reverse(crates) else crates;
    var afterAppend := stacks[to := stacks[to] + moved];
    assert ApplyMove(stacks, m, oneByOne) == Ok(afterAppend[from := afterAppend[from][..mid]]);
    assert |moved| == m.qty;
    assert afterAppend[from] == stacks[from];
    TotalCratesUpdate(stacks, to, stacks[to] + moved);
    TotalCratesUpdate(afterAppend, from, afterAppend[from][..mid]);
  }

  /** A move from a stack onto itself loses `qty` crates: the cut back to
      `len - qty` discards the appended copy together with the top `qty`
      crates that were there before. */
  lemma SelfMoveDropsCrates(stacks: Stacks, m: Move, oneByOne: bool)
    requires ValidMove(stacks, m) && m.from == m.to
    ensures ApplyMove(stacks, m, oneByOne).Ok?
    ensures ApplyMove(stacks, m, oneByOne).value[m.from - 1] == stacks[m.from - 1][..|stacks[m.from - 1]| - m.qty]
    ensures TotalCrates(ApplyMove(stacks, m, oneByOne).value) + m.qty == TotalCrates(stacks)
  {
    var from := m.from - 1;
    var mid := |stacks[from]| - m.qty;
    var crates := stacks[from][mid..];
    var moved := if oneByOne then Reverse(crates) else crates;
    var afterAppend := stacks[from := stacks[from] + moved];
    assert afterAppend[from][..mid] == stacks[from][..mid];
    TotalCratesUpdate(stacks, from, stacks[from] + moved);
    TotalCratesUpdate(afterAppend, from, afterAppend[from][..mid]);
  }

  /** All moves in order; the first invalid move panics. */
  function ApplyMoves(stacks: Stacks, moves: seq<Move>, oneByOne: bool): (r: Result<Stacks>)
    ensures r.Ok? ==> |r.value| == |stacks|
    ensures |moves| > 0 && !ValidMove(stacks, moves[0]) ==> r.Err?
    decreases |moves|
  {
    if |moves| == 0 then Ok(stacks)
    else
      match ApplyMove(stacks, moves[0], oneByOne)
      case Err(e) => Err(e)
      case Ok(next) => ApplyMoves(next, moves[1..], oneByOne)
  }

  /** With every move between two different stacks, the number of crates is
      the same at the end. */
  lemma {:induction false} MovesConserveCrates(stacks: Stacks, moves: seq<Move>, oneByOne: bool)
    requires forall i :: 0 <= i < |moves| ==> moves[i].from != moves[i].to
    requires ApplyMoves(stacks, moves, oneByOne).Ok?
    ensures TotalCrates(ApplyMoves(stacks, moves, oneByOne).value) == TotalCrates(stacks)
    decreases |moves|
  {
    if |moves| > 0 {
      MoveConservesCrates(stacks, moves[0], oneByOne);
      MovesConserveCrates(ApplyMove(stacks, moves[0], oneByOne).value, moves[1..], oneByOne);
    }
  }

  /** The top crate of every stack, in stack order; an empty stack panics on
      the `unwrap`. */
  function TopCrates(stacks: Stacks): (r: Result<seq<int>>)
    ensures r.Ok? <==> forall k :: 0 <= k < |stacks| ==> |stacks[k]| > 0
    ensures r.Ok? ==> |r.value| == |stacks|
    ensures r.Ok? ==> forall k :: 0 <= k < |stacks| ==> r.value[k] == stacks[k][|stacks[k]| - 1]
  {
    if |stacks| == 0 then Ok([])
    else if |stacks[0]| == 0 then Err("called `Option::unwrap()` on a `None` value")
    else
      match TopCrates(stacks[1..])
      case Err(e) =>
        assert exists k :: 1 <= k < |stacks| && |stacks[k]| == 0 by {
          var k :| 0 <= k < |stacks[1..]| && |stacks[1..][k]| == 0;
          assert stacks[k + 1] == stacks[1..][k];
        }
        Err(e)
      case Ok(rest) =>
        assert forall k :: 1 <= k < |stacks| ==> stacks[k] == stacks[1..][k - 1];
        Ok([stacks[0][|stacks[0]| - 1]] + rest)
  }

  /** `move_crates`: run every move, then read the tops. */
  function MoveCrates(stacks: Stacks, moves: seq<Move>, oneByOne: bool): (r: Result<seq<int>>)
    ensures var final := ApplyMoves(stacks, moves, oneByOne);
            r.Ok? <==> final.Ok? && forall k :: 0 <= k < |final.value| ==> |final.value[k]| > 0
    ensures r.Ok? ==> |r.value| == |stacks|
    ensures r.Ok? ==>
              var final := ApplyMoves(stacks, moves, oneByOne).value;
              forall k :: 0 <= k < |stacks| ==> r.value[k] == final[k][|final[k]| - 1]
    ensures |moves| > 0 && !ValidMove(stacks, moves[0]) ==> r.Err?
  {
    match ApplyMoves(stacks, moves, oneByOne)
    case Err(e) => Err(e)
    case Ok(final) => TopCrates(final)
  }
}

=== FILE: day06.dfy ===
/** Tuning trouble: the end of the first window of distinct characters. */
module TuningTrouble {
  import opened Common

  /** The window of `length` bytes starting at i holds no repeated byte,
      checked the way `windows` plus a set-size comparison checks it. */
  predicate WindowAllDistinct(input: seq<int>, length: nat, i: nat)
    requires i + length <= |input|
  {
    |Elements(input[i..i + length])| == length
  }

  /** The window of `length` bytes starting at i, as a sequence without
      repeats: the meaning the set size comparison stands for. */
  predicate DistinctWindow(input: seq<int>, length: nat, i: nat)
    requires i + length <= |input|
  {
    Distinct(input[i..i + length])
  }

  /** Scans the windows from position `from` on; `windows(0)` panics and a
      scan that finds nothing panics on the `unwrap`. */
  function FirstWindow(input: seq<int>, length: nat, from: nat): (r: Option<nat>)
    requires length >= 1 && from + length <= |input| + 1
    ensures r.Some? ==> from <= r.value && r.value + length <= |input| && WindowAllDistinct(input, length, r.value)
    ensures r.Some? ==> forall j :: from <= j < r.value ==> !WindowAllDistinct(input, length, j)
    ensures r.None? ==> forall j :: from <= j && j + length <= |input| ==> !WindowAllDistinct(input, length, j)
    decreases |input| + 1 - from
  {
    if from + length > |input| then None
    else if WindowAllDistinct(input, length, from) then Some(from)
    else FirstWindow(input, length, from + 1)
  }

  /** `end_index_of_window_without_duplicates`: the index just past the
      first window of `length` distinct bytes. */
  function EndIndexOfDistinctWindow(input: seq<int>, length: nat): (r: Result<int>)
    ensures r.Ok? ==> length <= r.value <= |input|
    ensures r.Ok? ==> DistinctWindow(input, length, r.value - length)
    ensures r.Ok? ==> forall j :: 0 <= j < r.value - length ==> !DistinctWindow(input, length, j)
    ensures r.Err? <==> length == 0 || forall j :: 0 <= j && j + length <= |input| ==> !DistinctWindow(input, length, j)
  {
    if length == 0 then Err("window size must be non-zero")
    else if length > |input| then Err("called `Option::unwrap()` on a `None` value")
    else
      WindowsDistinctMeaning(input, length);
      match FirstWindow(input, length, 0)
      case None => Err("called `Option::unwrap()` on a `None` value")
      case Some(i) => Ok(i + length)
  }

  lemma WindowsDistinctMeaning(input: seq<int>, length: nat)
    requires length <= |input|
    ensures forall j :: 0 <= j && j + length <= |input| ==>
              (WindowAllDistinct(input, length, j) <==> DistinctWindow(input, length, j))
  {
    forall j | 0 <= j && j + length <= |input|
      ensures WindowAllDistinct(input, length, j) <==> DistinctWindow(input, length, j)
    {
      DistinctIffFullCardinality(input[j..j + length]);
    }
  }
}

=== FILE: day07.dfy ===
/** No space left on device: a terminal transcript of `cd` and `ls` commands
    is replayed to recover each directory's files and subdirectories, then
    directory sizes are summed recursively. */
module NoSpaceLeft {
  import opened Common

  type Path = seq<string>

  /** One transcript line: the three commands with fixed text, any other
      line (treated as `$ cd <last word>` outside an `ls` listing), and the
      two kinds of listing entries. */
  datatype Line =
    | CdRoot
    | CdUp
    | Ls
    | CdInto(name: string)
    | DirEntry(name: string)
    | FileEntry(size: nat, name: string)

  /** Lines that start with `$ ` end a listing. */
  predicate IsCommand(l: Line)
  {
    l.CdRoot? || l.CdUp? || l.Ls? || l.CdInto?
  }

  /** What `ls` reported for one directory. */
  datatype DirectoryContent = DirectoryContent(totalFileSizes: nat, subdirNames: seq<string>)

  type Contents = map<Path, DirectoryContent>

  /** The sum of the sizes of the file entries among `ls`, counted from the
      last line back. */
  function FileSizes(ls: seq<Line>): nat
  {
    if |ls| == 0 then 0
    else FileSizes(ls[..|ls| - 1]) + (if ls[|ls| - 1].FileEntry? then ls[|ls| - 1].size else 0)
  }

  /** The names of the directory entries among `ls`, in order, collected
      from the last line back. */
  function DirNames(ls: seq<Line>): seq<string>
  {
    if |ls| == 0 then []
    else DirNames(ls[..|ls| - 1]) + (if ls[|ls| - 1].DirEntry? then [ls[|ls| - 1].name] else [])
  }

  lemma {:induction false} FileSizesCons(l: Line, ls: seq<Line>)
    ensures FileSizes([l] + ls) == (if l.FileEntry? then l.size else 0) + FileSizes(ls)
    decreases |ls|
  {
    if |ls| > 0 {
      assert ([l] + ls)[..|ls|] == [l] + ls[..|ls| - 1];
      FileSizesCons(l, ls[..|ls| - 1]);
    }
  }

  lemma {:induction false} DirNamesCons(l: Line, ls: seq<Line>)
    ensures DirNames([l] + ls) == (if l.DirEntry? then [l.name] else []) + DirNames(ls)
    decreases |ls|
  {
    if |ls| > 0 {
      assert ([l] + ls)[..|ls|] == [l] + ls[..|ls| - 1];
      DirNamesCons(l, ls[..|ls| - 1]);
    }
  }

  /** The entries of one listing, from `index` up to the next command
      line. */
  function ReadListing(lines: seq<Line>, index: nat): (r: (DirectoryContent, nat))
    requires index <= |lines|
    ensures index <= r.1 <= |lines|
    ensures r.1 == |lines| || IsCommand(lines[r.1])
    ensures forall i :: index <= i < r.1 ==> !IsCommand(lines[i])
    decreases |lines| - index
  {
    if index == |lines| || IsCommand(lines[index]) then (DirectoryContent(0, []), index)
    else
      var (rest, end) := ReadListing(lines, index + 1);
      match lines[index]
      case DirEntry(name) => (DirectoryContent(rest.totalFileSizes, [name] + rest.subdirNames), end)
      case FileEntry(size, _) => (DirectoryContent(size + rest.totalFileSizes, rest.subdirNames), end)
  }

  /** A listing holds the sum of its lines' file sizes and the names of its
      directory entries in order. */
  lemma {:induction false} ReadListingContents(lines: seq<Line>, index: nat)
    requires index <= |lines|
    ensures var (content, end) := ReadListing(lines, index);
            content == DirectoryContent(FileSizes(lines[index..end]), DirNames(lines[index..end]))
    decreases |lines| - index
  {
    if index < |lines| && !IsCommand(lines[index]) {
      var end := ReadListing(lines, index + 1).1;
      ReadListingContents(lines, index + 1);
      assert lines[index..end] == [lines[index]] + lines[index + 1..end];
      FileSizesCons(lines[index], lines[index + 1..end]);
      DirNamesCons(lines[index], lines[index + 1..end]);
    }
  }

  /** Every key of the directory map is a path of at most `bound` names. */
  predicate KeysBounded(contents: Contents, bound: nat)
  {
    forall p :: p in contents ==> |p| <= bound
  }

  /** The current path after a line other than `$ ls`: `$ cd /` clears it,
      `$ cd ..` pops a name (nothing at the root), and any other line pushes
      its last word. */
  function NextPath(l: Line, path: Path): (r: Path)
    requires !l.Ls?
    ensures |r| <= |path| + 1
  {
    match l
    case CdRoot => []
    case CdUp => if |path| == 0 then [] else path[..|path| - 1]
    case CdInto(name) => path + [name]
    case DirEntry(name) => path + [name]
    case FileEntry(_, name) => path + [name]
  }

  /** The interpreter loop of `run`, from line `index` with the current path
      and the directory map built so far: `$ ls` records the listing for the
      current path (replacing an earlier one), and every other line moves the
      current path. */
  function Interpret(lines: seq<Line>, index: nat, path: Path, contents: Contents): (r: Contents)
    requires index <= |lines|
    requires |path| <= index && KeysBounded(contents, index)
    ensures KeysBounded(r, |lines|)
    ensures contents.Keys <= r.Keys
    decreases |lines| - index
  {
    if index == |lines| then contents
    else
      if lines[index].Ls? then
        var (content, end) := ReadListing(lines, index + 1);
        Interpret(lines, end, path, contents[path := content])
      else Interpret(lines, index + 1, NextPath(lines[index], path), contents)
  }

  /** An `$ ls` line reached by the interpreter loop, the current path
      there and the listing read after it. */
  datatype Visit = Visit(line: nat, path: Path, listing: DirectoryContent)

  /** The `$ ls` lines the interpreter loop of `run` reaches from line
      `index` with the current path, in the order they are reached. */
  function LsVisits(lines: seq<Line>, index: nat, path: Path): (r: seq<Visit>)
    requires index <= |lines|
    ensures forall k :: 0 <= k < |r| ==> index <= r[k].line < |lines| && lines[r[k].line] == Ls
    ensures forall k :: 0 < k < |r| ==> r[k - 1].line < r[k].line
    decreases |lines| - index
  {
    if index == |lines| then []
    else
      if lines[index].Ls? then
        var (content, end) := ReadListing(lines, index + 1);
        var later := LsVisits(lines, end, path);
        assert forall k :: 0 < k <= |later| ==> ([Visit(index, path, content)] + later)[k] == later[k - 1];
        [Visit(index, path, content)] + later
      else LsVisits(lines, index + 1, NextPath(lines[index], path))
  }

  /** Each visit holds the listing read after its `$ ls` line. */
  lemma {:induction false} VisitListing(lines: seq<Line>, index: nat, path: Path, k: nat)
    requires index <= |lines| && k < |LsVisits(lines, index, path)|
    ensures LsVisits(lines, index, path)[k].listing
            == ReadListing(lines, LsVisits(lines, index, path)[k].line + 1).0
    decreases |lines| - index
  {
    if lines[index].Ls? {
      var (content, end) := ReadListing(lines, index + 1);
      var later := LsVisits(lines, end, path);
      assert LsVisits(lines, index, path) == [Visit(index, path, content)] + later;
      if k > 0 {
        VisitListing(lines, end, path, k - 1);
        assert LsVisits(lines, index, path)[k] == later[k - 1];
      }
    } else {
      VisitListing(lines, index + 1, NextPath(lines[index], path), k);
    }
  }

  /** No later visit is at the same path as visit `k`. */
  predicate LastVisit(visits: seq<Visit>, k: nat)
    requires k < |visits|
  {
    forall m :: k < m < |visits| ==> visits[m].path != visits[k].path
  }

  /** The paths of the visits. */
  function VisitedPaths(visits: seq<Visit>): set<Path>
  {
    set k | 0 <= k < |visits| :: visits[k].path
  }

  /** `contents` after recording, visit by visit, each visit's listing at
      its path. */
  function Record(contents: Contents, visits: seq<Visit>): Contents
    decreases |visits|
  {
    if |visits| == 0 then contents
    else Record(contents[visits[0].path := visits[0].listing], visits[1..])
  }

  /** The replay is the recording of every `$ ls` it reaches. */
  lemma {:induction false} InterpretRecords(lines: seq<Line>, index: nat, path: Path, contents: Contents)
    requires index <= |lines|
    requires |path| <= index && KeysBounded(contents, index)
    ensures Interpret(lines, index, path, contents) == Record(contents, LsVisits(lines, index, path))
    decreases |lines| - index, 1
  {
    if index < |lines| {
      if lines[index].Ls? {
        LsRecorded(lines, index, path, contents);
      } else {
        MoveRecorded(lines, index, path, contents);
      }
    }
  }

  lemma {:induction false} LsRecorded(lines: seq<Line>, index: nat, path: Path, contents: Contents)
    requires index < |lines| && lines[index].Ls?
    requires |path| <= index && KeysBounded(contents, index)
    ensures Interpret(lines, index, path, contents) == Record(contents, LsVisits(lines, index, path))
    decreases |lines| - index, 0
  {
    var (content, end) := ReadListing(lines, index + 1);
    var later := LsVisits(lines, end, path);
    var listed := contents[path := content];
    InterpretRecords(lines, end, path, listed);
    LsStep(lines, index, path, contents);
    assert ([Visit(index, path, content)] + later)[1..] == later;
  }

  lemma {:induction false} MoveRecorded(lines: seq<Line>, index: nat, path: Path, contents: Contents)
    requires index < |lines| && !lines[index].Ls?
    requires |path| <= index && KeysBounded(contents, index)
    ensures Interpret(lines, index, path, contents) == Record(contents, LsVisits(lines, index, path))
    decreases |lines| - index, 0
  {
    InterpretRecords(lines, index + 1, NextPath(lines[index], path), contents);
  }

  /** One `$ ls` step of the replay and of the visits it reaches. */
  lemma LsStep(lines: seq<Line>, index: nat, path: Path, contents: Contents)
    requires index < |lines| && lines[index].Ls?
    requires |path| <= index && KeysBounded(contents, index)
    ensures var (content, end) := ReadListing(lines, index + 1);
            && Interpret(lines, index, path, contents) == Interpret(lines, end, path, contents[path := content])
            && LsVisits(lines, index, path) == [Visit(index, path, content)] + LsVisits(lines, end, path)
  {
  }

  /** The paths of the visits after the first are those of all visits but
      perhaps the first's. */
  lemma VisitedPathsTail(visits: seq<Visit>)
    requires |visits| > 0
    ensures VisitedPaths(visits) == {visits[0].path} + VisitedPaths(visits[1..])
  {
    forall q | q in VisitedPaths(visits) ensures q in {visits[0].path} + VisitedPaths(visits[1..]) {
      var k :| 0 <= k < |visits| && visits[k].path == q;
      if k > 0 { assert visits[1..][k - 1] == visits[k]; }
    }
    forall q | q in VisitedPaths(visits[1..]) ensures q in VisitedPaths(visits) {
      var k :| 0 <= k < |visits[1..]| && visits[1..][k].path == q;
      assert visits[k + 1] == visits[1..][k];
    }
  }

  /** A path is a key after recording exactly when it was one before or
      some visit was at it. */
  lemma {:induction false} RecordKeys(contents: Contents, visits: seq<Visit>)
    ensures Record(contents, visits).Keys == contents.Keys + VisitedPaths(visits)
    decreases |visits|
  {
    if |visits| > 0 {
      VisitedPathsTail(visits);
      RecordKeys(contents[visits[0].path := visits[0].listing], visits[1..]);
    }
  }

  /** A key no visit was at keeps its listing. */
  lemma {:induction false} RecordOthers(contents: Contents, visits: seq<Visit>, p: Path)
    requires p in contents && p !in VisitedPaths(visits)
    ensures p in Record(contents, visits) && Record(contents, visits)[p] == contents[p]
    decreases |visits|
  {
    if |visits| > 0 {
      VisitedPathsTail(visits);
      RecordOthers(contents[visits[0].path := visits[0].listing], visits[1..], p);
    }
  }

  /** The listing kept at a visited path is the one of the last visit
      there. */
  lemma {:induction false} RecordLast(contents: Contents, visits: seq<Visit>, k: nat)
    requires k < |visits| && LastVisit(visits, k)
    ensures visits[k].path in Record(contents, visits)
    ensures Record(contents, visits)[visits[k].path] == visits[k].listing
    decreases |visits|
  {
    var listed := contents[visits[0].path := visits[0].listing];
    var rest := visits[1..];
    if k == 0 {
      VisitedPathsTail(visits);
      forall m | 0 <= m < |rest| ensures rest[m].path != visits[0].path {
        assert rest[m] == visits[m + 1];
      }
      RecordOthers(listed, rest, visits[0].path);
    } else {
      assert rest[k - 1] == visits[k];
      assert LastVisit(rest, k - 1) by {
        forall m | k - 1 < m < |rest| ensures rest[m].path != rest[k - 1].path {
          assert rest[m] == visits[m + 1];
        }
      }
      RecordLast(listed, rest, k - 1);
    }
  }

  /** The keys of the replayed map are the old keys and the paths at which
      an `$ ls` was reached. */
  lemma InterpretKeys(lines: seq<Line>, index: nat, path: Path, contents: Contents)
    requires index <= |lines|
    requires |path| <= index && KeysBounded(contents, index)
    ensures Interpret(lines, index, path, contents).Keys == contents.Keys + VisitedPaths(LsVisits(lines, index, path))
  {
    InterpretRecords(lines, index, path, contents);
    RecordKeys(contents, LsVisits(lines, index, path));
  }

  /** Among the visits at the path of visit `k`, one is the last. */
  lemma {:induction false} LastVisitExists(visits: seq<Visit>, k: nat) returns (last: nat)
    requires k < |visits|
    ensures k <= last < |visits| && visits[last].path == visits[k].path && LastVisit(visits, last)
    decreases |visits| - k
  {
    if m :| k < m < |visits| && visits[m].path == visits[k].path {
      last := LastVisitExists(visits, m);
    } else {
      last := k;
    }
  }

  /** A path at which an `$ ls` was reached is a key of the replayed map,
      holding the listing of some `$ ls` line reached at that path. */
  lemma VisitedRecorded(lines: seq<Line>, index: nat, path: Path, contents: Contents, k: nat)
    requires index <= |lines|
    requires |path| <= index && KeysBounded(contents, index)
    requires k < |LsVisits(lines, index, path)|
    ensures LsVisits(lines, index, path)[k].path in Interpret(lines, index, path, contents)
    ensures exists i :: index <= i < |lines| && lines[i] == Ls
              && Interpret(lines, index, path, contents)[LsVisits(lines, index, path)[k].path] == ReadListing(lines, i + 1).0
  {
    var v := LsVisits(lines, index, path);
    var r := Interpret(lines, index, path, contents);
    InterpretRecords(lines, index, path, contents);
    var last := LastVisitExists(v, k);
    RecordLast(contents, v, last);
    VisitListing(lines, index, path, last);
    assert lines[v[last].line] == Ls;
  }

  /** `ls` at the start, at the root, records the root's listing: the one of
      an `$ ls` line reached at the root. */
  lemma LsAtRootRecorded(lines: seq<Line>)
    requires |lines| >= 1 && lines[0] == Ls
    ensures [] in Interpret(lines, 0, [], map[])
    ensures exists i :: 0 <= i < |lines| && lines[i] == Ls
              && Interpret(lines, 0, [], map[])[[]] == ReadListing(lines, i + 1).0
  {
    assert LsVisits(lines, 0, [])[0].path == [];
    VisitedRecorded(lines, 0, [], map[], 0);
  }

  /** `total_dir_size`: own file sizes plus the total sizes of the listed
      subdirectories.  A directory that was never listed makes the `unwrap`
      panic.  Paths grow by one name per level and every key is at most
      `bound` long, so the recursion ends. */
  function TotalDirSize(contents: Contents, path: Path, bound: nat): (r: Result<nat>)
    requires KeysBounded(contents, bound)
    ensures r.Ok? ==> path in contents && r.value >= contents[path].totalFileSizes
    ensures path !in contents ==> r.Err?
    decreases bound + 1 - |path|
  {
    if path !in contents then Result<nat>.Err("called `Option::unwrap()` on a `None` value")
    else
      var content := contents[path];
      match SubdirSizes(contents, path, content.subdirNames, bound)
      case Err(e) => Err(e)
      case Ok(subs) => Ok(content.totalFileSizes + subs)
  }

  /** The sum over the listed subdirectory names (a name listed twice counts
      twice). */
  function SubdirSizes(contents: Contents, path: Path, names: seq<string>, bound: nat): (r: Result<nat>)
    requires KeysBounded(contents, bound) && path in contents
    ensures r.Ok? && |names| > 0 ==> TotalDirSize(contents, path + [names[0]], bound).Ok?
    decreases bound + 1 - |path|, |names|
  {
    if |names| == 0 then Ok(0)
    else
      match TotalDirSize(contents, path + [names[0]], bound)
      case Err(e) => Err(e)
      case Ok(first) =>
        match SubdirSizes(contents, path, names[1..], bound)
        case Err(e) => Err(e)
        case Ok(rest) =>
          Ok(first + rest)
  }

  /** Every directory reachable from `path` through the listed subdirectory
      names, `path` included, was listed. */
  predicate AllListed(contents: Contents, path: Path, bound: nat)
    requires KeysBounded(contents, bound)
    decreases bound + 1 - |path|
  {
    && path in contents
    && forall i :: 0 <= i < |contents[path].subdirNames| ==>
         AllListed(contents, path + [contents[path].subdirNames[i]], bound)
  }

  /** The recursive size succeeds exactly when every directory below the
      one asked for was listed. */
  lemma {:induction false} TotalDirSizeOk(contents: Contents, path: Path, bound: nat)
    requires KeysBounded(contents, bound)
    ensures TotalDirSize(contents, path, bound).Ok? <==> AllListed(contents, path, bound)
    decreases bound + 1 - |path|, 1
  {
    if path in contents {
      SubdirSizesOk(contents, path, contents[path].subdirNames, bound);
    }
  }

  /** The sum over some subdirectory names succeeds exactly when every
      directory below each of them was listed. */
  lemma {:induction false} SubdirSizesOk(contents: Contents, path: Path, names: seq<string>, bound: nat)
    requires KeysBounded(contents, bound) && path in contents
    ensures SubdirSizes(contents, path, names, bound).Ok?
            <==> forall i :: 0 <= i < |names| ==> AllListed(contents, path + [names[i]], bound)
    decreases bound + 1 - |path|, 0, |names|
  {
    if |names| > 0 {
      TotalDirSizeOk(contents, path + [names[0]], bound);
      SubdirSizesOk(contents, path, names[1..], bound);
      assert forall i :: 1 <= i < |names| ==> names[i] == names[1..][i - 1];
    }
  }

  /** When the sum succeeds, every listed subdirectory has a size and none
      is larger than the sum. */
  lemma {:induction false} SubdirWithinSum(contents: Contents, path: Path, names: seq<string>, bound: nat, name: string)
    requires KeysBounded(contents, bound) && path in contents
    requires SubdirSizes(contents, path, names, bound).Ok? && name in names
    ensures TotalDirSize(contents, path + [name], bound).Ok?
    ensures TotalDirSize(contents, path + [name], bound).value <= SubdirSizes(contents, path, names, bound).value
    decreases |names|
  {
    if name != names[0] {
      assert name in names[1..];
      SubdirWithinSum(contents, path, names[1..], bound, name);
    }
  }

  /** A directory is at least as large as each of its listed subdirectories. */
  lemma DirectoryAtLeastSubdirectory(contents: Contents, path: Path, bound: nat, i: nat)
    requires KeysBounded(contents, bound)
    requires TotalDirSize(contents, path, bound).Ok?
    requires i < |contents[path].subdirNames|
    ensures TotalDirSize(contents, path + [contents[path].subdirNames[i]], bound).Ok?
    ensures TotalDirSize(contents, path + [contents[path].subdirNames[i]], bound).value
            <= TotalDirSize(contents, path, bound).value
  {
    var names := contents[path].subdirNames;
    SubdirWithinSum(contents, path, names, bound, names[i]);
  }

  /** The sizes of the directories in `keys`, in that order. */
  function DirectorySizes(contents: Contents, keys: seq<Path>, bound: nat): (r: Result<seq<nat>>)
    requires KeysBounded(contents, bound)
    ensures r.Ok? ==> |r.value| == |keys|
    ensures r.Ok? ==> forall i :: 0 <= i < |keys| ==>
              TotalDirSize(contents, keys[i], bound) == Ok(r.value[i])
  {
    if |keys| == 0 then Ok([])
    else
      match TotalDirSize(contents, keys[0], bound)
      case Err(e) => Err(e)
      case Ok(s) =>
        match DirectorySizes(contents, keys[1..], bound)
        case Err(e) => Err(e)
        case Ok(rest) =>
          assert forall i :: 1 <= i < |keys| ==> keys[i] == keys[1..][i - 1];
          Ok([s] + rest)
  }

  /** Each size where it is at most 100000, and 0 in place of a larger one. */
  function SmallOnly(sizes: seq<nat>): (r: seq<int>)
    ensures |r| == |sizes|
  {
    seq(|sizes|, i requires 0 <= i < |sizes| => if sizes[i] <= 100000 then sizes[i] else 0)
  }

  /** Part 1: the sum of the sizes that are at most 100000. */
  function SumOfSmall(sizes: seq<nat>): (r: nat)
    ensures r <= Sum(sizes)
    ensures r == Sum(SmallOnly(sizes))
    ensures (forall i :: 0 <= i < |sizes| ==> sizes[i] <= 100000) ==> r == Sum(sizes)
    ensures (forall i :: 0 <= i < |sizes| ==> sizes[i] > 100000) ==> r == 0
  {
    if |sizes| == 0 then 0
    else
      assert SmallOnly(sizes)[1..] == SmallOnly(sizes[1..]);
      (if sizes[0] <= 100000 then sizes[0] else 0) + SumOfSmall(sizes[1..])
  }

  /** The smallest size that is at least `minimum`, if any. */
  function SmallestAtLeast(sizes: seq<nat>, minimum: int): (r: Option<nat>)
    ensures r.None? <==> forall i :: 0 <= i < |sizes| ==> sizes[i] < minimum
    ensures r.Some? ==> r.value >= minimum && r.value in sizes
    ensures r.Some? ==> forall i :: 0 <= i < |sizes| && sizes[i] >= minimum ==> r.value <= sizes[i]
  {
    if |sizes| == 0 then None
    else
      var rest := SmallestAtLeast(sizes[1..], minimum);
      assert forall i :: 1 <= i < |sizes| ==> sizes[i] == sizes[1..][i - 1];
      if sizes[0] < minimum then rest
      else if rest.Some? && rest.value < sizes[0] then rest
      else Some(sizes[0])
  }

  const TotalDiskSpace: int := 70_000_000
  const Needed: int := 30_000_000

  /** Part 2: the smallest directory whose deletion leaves `Needed` free.
      Both unsigned subtractions panic when they would go negative, and so
      does the final `unwrap` when no directory is large enough. */
  function SmallestToDelete(sizes: seq<nat>, rootSize: nat): (r: Result<nat>)
    ensures r.Ok? ==> rootSize <= TotalDiskSpace && TotalDiskSpace - rootSize <= Needed
    ensures r.Ok? ==> TotalDiskSpace - rootSize + r.value >= Needed && r.value in sizes
    ensures r.Ok? ==> forall i :: 0 <= i < |sizes| && TotalDiskSpace - rootSize + sizes[i] >= Needed ==> r.value <= sizes[i]
    ensures (rootSize <= TotalDiskSpace && TotalDiskSpace - rootSize <= Needed
             && exists i :: 0 <= i < |sizes| && TotalDiskSpace - rootSize + sizes[i] >= Needed) ==> r.Ok?
  {
    if rootSize > TotalDiskSpace then Err("attempt to subtract with overflow")
    else
      var available := TotalDiskSpace - rootSize;
      if available > Needed then Err("attempt to subtract with overflow")
      else
        match SmallestAtLeast(sizes, Needed - available)
        case None => Err("called `Option::unwrap()` on a `None` value")
        case Some(s) => Ok(s)
  }

  /** A directory of the map is sized at the position where `keys` lists it. */
  lemma SizeOfListedKey(contents: Contents, keys: seq<Path>, bound: nat, sizes: seq<nat>, k: Path)
    returns (i: nat)
    requires KeysBounded(contents, bound) && Elements(keys) == contents.Keys
    requires DirectorySizes(contents, keys, bound) == Ok(sizes) && k in contents
    ensures i < |sizes| && keys[i] == k && TotalDirSize(contents, k, bound) == Ok(sizes[i])
  {
    assert k in Elements(keys);
    i :| 0 <= i < |keys| && keys[i] == k;
  }

  /** Both answers from a directory map whose keys `keys` enumerates.  Part 1
      sums the small directory sizes; part 2 is a directory whose deletion
      frees enough space and no larger than any other such directory.  It
      fails exactly when a listed subdirectory was never listed itself, the
      root is missing, the disk is overfull or already has room, or no
      directory is large enough. */
  function Answers(contents: Contents, keys: seq<Path>, bound: nat): (r: Result<(nat, nat)>)
    requires KeysBounded(contents, bound) && Elements(keys) == contents.Keys
    ensures r.Ok? ==> DirectorySizes(contents, keys, bound).Ok?
                      && r.value.0 == SumOfSmall(DirectorySizes(contents, keys, bound).value)
    ensures r.Ok? ==> TotalDirSize(contents, [], bound).Ok?
                      && TotalDiskSpace - TotalDirSize(contents, [], bound).value + r.value.1 >= Needed
    ensures r.Ok? ==> exists k :: k in contents && TotalDirSize(contents, k, bound) == Ok(r.value.1)
    ensures r.Ok? ==> forall k :: k in contents && TotalDirSize(contents, k, bound).Ok?
                        && TotalDiskSpace - TotalDirSize(contents, [], bound).value
                           + TotalDirSize(contents, k, bound).value >= Needed
                        ==> r.value.1 <= TotalDirSize(contents, k, bound).value
    ensures (DirectorySizes(contents, keys, bound).Ok? && TotalDirSize(contents, [], bound).Ok?
             && TotalDirSize(contents, [], bound).value <= TotalDiskSpace
             && TotalDiskSpace - TotalDirSize(contents, [], bound).value <= Needed
             && exists k :: k in contents && TotalDirSize(contents, k, bound).Ok?
                  && TotalDiskSpace - TotalDirSize(contents, [], bound).value
                     + TotalDirSize(contents, k, bound).value >= Needed) ==> r.Ok?
  {
    match DirectorySizes(contents, keys, bound)
    case Err(e) => Err(e)
    case Ok(sizes) =>
      match TotalDirSize(contents, [], bound)
      case Err(e) => Err(e)
      case Ok(rootSize) =>
        PartTwoCovers(contents, keys, bound, sizes, rootSize);
        match SmallestToDelete(sizes, rootSize)
        case Err(e) => Err(e)
        case Ok(smallest) =>
          PartTwoMinimal(contents, keys, bound, sizes, rootSize, smallest);
          Ok((SumOfSmall(sizes), smallest))
  }

  /** A directory of the map that frees enough space has its size among
      `sizes`, so `SmallestToDelete` finds one. */
  lemma PartTwoCovers(contents: Contents, keys: seq<Path>, bound: nat, sizes: seq<nat>, rootSize: nat)
    requires KeysBounded(contents, bound) && Elements(keys) == contents.Keys
    requires DirectorySizes(contents, keys, bound) == Ok(sizes)
    ensures (exists k :: k in contents && TotalDirSize(contents, k, bound).Ok?
               && TotalDiskSpace - rootSize + TotalDirSize(contents, k, bound).value >= Needed)
            ==> exists i :: 0 <= i < |sizes| && TotalDiskSpace - rootSize + sizes[i] >= Needed
  {
    if k :| (k in contents && TotalDirSize(contents, k, bound).Ok?
             && TotalDiskSpace - rootSize + TotalDirSize(contents, k, bound).value >= Needed) {
      var i := SizeOfListedKey(contents, keys, bound, sizes, k);
      assert TotalDiskSpace - rootSize + sizes[i] >= Needed;
    }
  }

  /** The smallest size chosen from `sizes` belongs to a directory of the map
      and is no larger than any directory of the map that frees enough. */
  lemma PartTwoMinimal(contents: Contents, keys: seq<Path>, bound: nat, sizes: seq<nat>, rootSize: nat, smallest: nat)
    requires KeysBounded(contents, bound) && Elements(keys) == contents.Keys
    requires DirectorySizes(contents, keys, bound) == Ok(sizes)
    requires SmallestToDelete(sizes, rootSize) == Ok(smallest)
    ensures exists k :: k in contents && TotalDirSize(contents, k, bound) == Ok(smallest)
    ensures forall k :: k in contents && TotalDirSize(contents, k, bound).Ok?
              && TotalDiskSpace - rootSize + TotalDirSize(contents, k, bound).value >= Needed
              ==> smallest <= TotalDirSize(contents, k, bound).value
  {
    var i :| 0 <= i < |sizes| && sizes[i] == smallest;
    assert keys[i] in Elements(keys);
    forall k | k in contents && TotalDirSize(contents, k, bound).Ok?
                && TotalDiskSpace - rootSize + TotalDirSize(contents, k, bound).value >= Needed
      ensures smallest <= TotalDirSize(contents, k, bound).value
    {
      var j := SizeOfListedKey(contents, keys, bound, sizes, k);
    }
  }

  /** The whole of `run`: replay the transcript, size every listed directory
      (in the given enumeration of the map's keys, each directory once), and
      answer both parts (`Answers` states what they are). */
  function Run(lines: seq<Line>, keys: seq<Path>): (r: Result<(nat, nat)>)
    requires Distinct(keys) && Elements(keys) == Interpret(lines, 0, [], map[]).Keys
    ensures r.Ok? ==> [] in Interpret(lines, 0, [], map[])
  {
    Answers(Interpret(lines, 0, [], map[]), keys, |lines|)
  }
}

=== FILE: day08.dfy ===
/** Treetop tree house: a rectangular grid of tree heights, looked at along
    the four axis directions. */
module TreetopTreeHouse {
  import opened Common

  /** Rows of equal length; `forest[y][x]` is the height at column x, row y. */
  predicate IsGrid(forest: seq<seq<int>>)
  {
    |forest| >= 1 && forall y :: 0 <= y < |forest| ==> |forest[y]| == |forest[0]|
  }

  function Width(forest: seq<seq<int>>): nat
    requires |forest| >= 1
  {
    |forest[0]|
  }

  predicate InGrid(forest: seq<seq<int>>, x: int, y: int)
    requires IsGrid(forest)
  {
    0 <= x < Width(forest) && 0 <= y < |forest|
  }

  /** The four directions in the order of `DIRECTIONS`. */
  const Directions: seq<(int, int)> := [(-1, 0), (0, -1), (1, 0), (0, 1)]

  predicate IsDirection(d: (int, int))
  {
    d in Directions
  }

  /** The coordinate k cells along an axis direction d in {-1, 0, 1}. */
  function Along(x: int, d: int, k: int): int
  {
    if d == 1 then x + k else if d == -1 then x - k else x
  }

  /** `step` cells from (x, y) in direction (dx, dy) lies in the grid and
      holds a tree at least `height` tall. */
  predicate Blocks(forest: seq<seq<int>>, x: int, y: int, dx: int, dy: int, step: int, height: int)
    requires IsGrid(forest)
  {
    InGrid(forest, Along(x, dx, step), Along(y, dy, step))
    && forest[Along(y, dy, step)][Along(x, dx, step)] >= height
  }

  /** `step` cells from (x, y) in direction (dx, dy) lies in the grid and
      holds a tree lower than `height`. */
  predicate Passes(forest: seq<seq<int>>, x: int, y: int, dx: int, dy: int, step: int, height: int)
    requires IsGrid(forest)
  {
    InGrid(forest, Along(x, dx, step), Along(y, dy, step))
    && forest[Along(y, dy, step)][Along(x, dx, step)] < height
  }

  /** `distance_to_tree_or_border` from step `step` on. */
  function Walk(forest: seq<seq<int>>, x: nat, y: nat, dx: int, dy: int, height: int, step: nat): (r: int)
    requires IsGrid(forest) && InGrid(forest, x, y) && IsDirection((dx, dy)) && step >= 1
    requires forall k :: 1 <= k < step ==> Passes(forest, x, y, dx, dy, k, height)
    ensures r >= 1 ==> step <= r && Blocks(forest, x, y, dx, dy, r, height)
    ensures r >= 1 ==> forall k :: 1 <= k < r ==> Passes(forest, x, y, dx, dy, k, height)
    ensures r <= 0 ==> step <= 1 - r && !InGrid(forest, Along(x, dx, 1 - r), Along(y, dy, 1 - r))
    ensures r <= 0 ==> forall k :: 1 <= k <= -r ==> Passes(forest, x, y, dx, dy, k, height)
    decreases Width(forest) + |forest| - step
  {
    var nx, ny := Along(x, dx, step), Along(y, dy, step);
    if !InGrid(forest, nx, ny) then 1 - step
    else if forest[ny][nx] >= height then step
    else Walk(forest, x, y, dx, dy, height, step + 1)
  }

  /** Positive: the step count to the first tree at least as tall; zero or
      negative: minus the number of trees passed before the border. */
  function Distance(forest: seq<seq<int>>, x: nat, y: nat, dx: int, dy: int): (r: int)
    requires IsGrid(forest) && InGrid(forest, x, y) && IsDirection((dx, dy))
    ensures r >= 1 ==> Blocks(forest, x, y, dx, dy, r, forest[y][x])
    ensures r >= 1 ==> forall k :: 1 <= k < r ==> Passes(forest, x, y, dx, dy, k, forest[y][x])
    ensures r <= 0 ==> !InGrid(forest, Along(x, dx, 1 - r), Along(y, dy, 1 - r))
    ensures r <= 0 ==> forall k :: 1 <= k <= -r ==> Passes(forest, x, y, dx, dy, k, forest[y][x])
  {
    Walk(forest, x, y, dx, dy, forest[y][x], 1)
  }

  /** The distance is bounded by the grid size along that axis. */
  lemma DistanceBound(forest: seq<seq<int>>, x: nat, y: nat, dx: int, dy: int)
    requires IsGrid(forest) && InGrid(forest, x, y) && IsDirection((dx, dy))
    ensures dy == 0 ==> Abs(Distance(forest, x, y, dx, dy)) < Width(forest)
    ensures dx == 0 ==> Abs(Distance(forest, x, y, dx, dy)) < |forest|
  {
    var r := Distance(forest, x, y, dx, dy);
    var m := if r >= 1 then r else -r;
    if r >= 1 {
      assert Blocks(forest, x, y, dx, dy, r, forest[y][x]);
    } else if m >= 1 {
      assert Passes(forest, x, y, dx, dy, m, forest[y][x]);
    }
  }

  /** A tree is visible when the walk reaches the border in some direction. */
  predicate IsVisible(forest: seq<seq<int>>, x: nat, y: nat)
    requires IsGrid(forest) && InGrid(forest, x, y)
  {
    exists i :: 0 <= i < 4 && Distance(forest, x, y, Directions[i].0, Directions[i].1) <= 0
  }

  /** Every tree strictly between (x, y) and the border in that direction is
      lower than the tree at (x, y). */
  ghost predicate ClearView(forest: seq<seq<int>>, x: nat, y: nat, dx: int, dy: int)
    requires IsGrid(forest) && InGrid(forest, x, y)
  {
    forall k :: k >= 1 && InGrid(forest, Along(x, dx, k), Along(y, dy, k)) ==> Passes(forest, x, y, dx, dy, k, forest[y][x])
  }

  /** The walk reaches the border exactly when every tree on the way is
      lower. */
  lemma VisibleIffClearView(forest: seq<seq<int>>, x: nat, y: nat, dx: int, dy: int)
    requires IsGrid(forest) && InGrid(forest, x, y) && IsDirection((dx, dy))
    ensures Distance(forest, x, y, dx, dy) <= 0 <==> ClearView(forest, x, y, dx, dy)
  {
    var r := Distance(forest, x, y, dx, dy);
    if r <= 0 {
      forall k | k >= 1 && InGrid(forest, Along(x, dx, k), Along(y, dy, k))
        ensures Passes(forest, x, y, dx, dy, k, forest[y][x])
      {
        if k > -r {
          OutOfGridStaysOut(forest, x, y, dx, dy, 1 - r, k);
        }
      }
    } else {
      assert Blocks(forest, x, y, dx, dy, r, forest[y][x]);
    }
  }

  /** Once a straight walk leaves the grid it cannot come back. */
  lemma OutOfGridStaysOut(forest: seq<seq<int>>, x: nat, y: nat, dx: int, dy: int, j: int, k: int)
    requires IsGrid(forest) && InGrid(forest, x, y) && IsDirection((dx, dy))
    requires 1 <= j <= k && !InGrid(forest, Along(x, dx, j), Along(y, dy, j))
    ensures !InGrid(forest, Along(x, dx, k), Along(y, dy, k))
  {
  }

  /** From an edge tree, the walk towards that edge leaves at once. */
  lemma EdgeDistanceZero(forest: seq<seq<int>>, x: nat, y: nat, i: nat)
    requires IsGrid(forest) && InGrid(forest, x, y) && i < 4
    requires i == 0 ==> x == 0
    requires i == 1 ==> y == 0
    requires i == 2 ==> x == Width(forest) - 1
    requires i == 3 ==> y == |forest| - 1
    ensures Distance(forest, x, y, Directions[i].0, Directions[i].1) == 0
  {
    var (dx, dy) := Directions[i];
    assert !InGrid(forest, Along(x, dx, 1), Along(y, dy, 1));
  }

  /** Trees on the edge are always visible. */
  lemma EdgeTreeVisible(forest: seq<seq<int>>, x: nat, y: nat)
    requires IsGrid(forest) && InGrid(forest, x, y)
    requires x == 0 || y == 0 || x == Width(forest) - 1 || y == |forest| - 1
    ensures IsVisible(forest, x, y)
  {
    var i := if x == 0 then 0 else if y == 0 then 1 else if x == Width(forest) - 1 then 2 else 3;
    EdgeDistanceZero(forest, x, y, i);
  }

  /** The product of four viewing distances, folded from 1. */
  function Product4(a: nat, b: nat, c: nat, d: nat): nat
  {
    var ab: nat := a * b;
    var abc: nat := ab * c;
    abc * d
  }

  lemma Product4Zero(a: nat, b: nat, c: nat, d: nat)
    requires a == 0 || b == 0 || c == 0 || d == 0
    ensures Product4(a, b, c, d) == 0
  {
  }

  /** The product of the four viewing distances. */
  function ScenicScore(forest: seq<seq<int>>, x: nat, y: nat): (r: int)
    requires IsGrid(forest) && InGrid(forest, x, y)
    ensures r >= 0
  {
    Product4(Abs(Distance(forest, x, y, -1, 0)), Abs(Distance(forest, x, y, 0, -1)),
             Abs(Distance(forest, x, y, 1, 0)), Abs(Distance(forest, x, y, 0, 1)))
  }

  /** An edge tree sees no tree on its edge side, so its score is 0. */
  lemma EdgeScenicScoreZero(forest: seq<seq<int>>, x: nat, y: nat)
    requires IsGrid(forest) && InGrid(forest, x, y)
    requires x == 0 || y == 0 || x == Width(forest) - 1 || y == |forest| - 1
    ensures ScenicScore(forest, x, y) == 0
  {
    var i := if x == 0 then 0 else if y == 0 then 1 else if x == Width(forest) - 1 then 2 else 3;
    EdgeDistanceZero(forest, x, y, i);
    Product4Zero(Abs(Distance(forest, x, y, -1, 0)), Abs(Distance(forest, x, y, 0, -1)),
                 Abs(Distance(forest, x, y, 1, 0)), Abs(Distance(forest, x, y, 0, 1)));
  }

  /** The cells in the order of `cartesian_product(0..width, 0..height)`. */
  function Cells(w: nat, h: nat): (r: seq<(nat, nat)>)
    ensures |r| == w * h
    ensures forall i :: 0 <= i < |r| ==> r[i].0 < w && r[i].1 < h
  {
    if w == 0 then []
    else Cells(w - 1, h) + seq(h, y requires 0 <= y < h => (w - 1, y))
  }

  /** Every cell of the grid is enumerated. */
  lemma {:induction false} CellsComplete(w: nat, h: nat, x: nat, y: nat)
    requires x < w && y < h
    ensures exists i :: 0 <= i < |Cells(w, h)| && Cells(w, h)[i] == (x, y)
  {
    var front := Cells(w - 1, h);
    if x < w - 1 {
      CellsComplete(w - 1, h, x, y);
      var i :| 0 <= i < |front| && front[i] == (x, y);
      assert Cells(w, h)[i] == (x, y);
    } else {
      assert Cells(w, h)[|front| + y] == (x, y);
    }
  }

  function CountVisible(forest: seq<seq<int>>, cells: seq<(nat, nat)>): (n: nat)
    requires IsGrid(forest)
    requires forall i :: 0 <= i < |cells| ==> InGrid(forest, cells[i].0, cells[i].1)
    ensures n <= |cells|
  {
    if |cells| == 0 then 0
    else (if IsVisible(forest, cells[0].0, cells[0].1) then 1 else 0) + CountVisible(forest, cells[1..])
  }

  /** The cells of the grid are listed without repeats. */
  lemma {:induction false} CellsDistinct(w: nat, h: nat)
    ensures Distinct(Cells(w, h))
  {
    if w > 0 {
      CellsDistinct(w - 1, h);
      var front := Cells(w - 1, h);
      var column := seq(h, y requires 0 <= y < h => (w - 1, y));
      var all := Cells(w, h);
      assert all == front + column;
      forall i, j | 0 <= i < j < |all| ensures all[i] != all[j] {
        if j < |front| {
          assert all[i] == front[i] && all[j] == front[j];
        } else if i >= |front| {
          assert all[i] == column[i - |front|] && all[j] == column[j - |front|];
        } else {
          assert all[i] == front[i] && all[j] == column[j - |front|];
        }
      }
    }
  }

  /** Counting along a list of cells is counting the positions holding a
      visible tree. */
  lemma {:induction false} CountVisiblePositions(forest: seq<seq<int>>, cells: seq<(nat, nat)>)
    requires IsGrid(forest)
    requires forall i :: 0 <= i < |cells| ==> InGrid(forest, cells[i].0, cells[i].1)
    ensures CountVisible(forest, cells) == |set i | 0 <= i < |cells| && IsVisible(forest, cells[i].0, cells[i].1)|
  {
    var flags := seq(|cells|, i requires 0 <= i < |cells| => IsVisible(forest, cells[i].0, cells[i].1));
    CountVisibleFlags(forest, cells);
    CountIsPositions(flags);
    assert Positions(flags) == set i | 0 <= i < |cells| && IsVisible(forest, cells[i].0, cells[i].1);
  }

  lemma {:induction false} CountVisibleFlags(forest: seq<seq<int>>, cells: seq<(nat, nat)>)
    requires IsGrid(forest)
    requires forall i :: 0 <= i < |cells| ==> InGrid(forest, cells[i].0, cells[i].1)
    ensures CountVisible(forest, cells)
            == Count(seq(|cells|, i requires 0 <= i < |cells| => IsVisible(forest, cells[i].0, cells[i].1)))
  {
    if |cells| > 0 {
      CountVisibleFlags(forest, cells[1..]);
      var flags := seq(|cells|, i requires 0 <= i < |cells| => IsVisible(forest, cells[i].0, cells[i].1));
      assert flags[1..] == seq(|cells[1..]|, i requires 0 <= i < |cells[1..]| => IsVisible(forest, cells[1..][i].0, cells[1..][i].1));
    }
  }

  /** The visible trees of the grid, as cells. */
  ghost function VisibleCells(forest: seq<seq<int>>): set<(nat, nat)>
    requires IsGrid(forest)
  {
    set x: nat, y: nat | x < Width(forest) && y < |forest| && IsVisible(forest, x, y) :: (x, y)
  }

  /** Part 1 counts every visible tree of the grid once. */
  lemma NumVisibleTreesCounts(forest: seq<seq<int>>)
    requires IsGrid(forest)
    ensures NumVisibleTrees(forest) == |VisibleCells(forest)|
  {
    var cells := Cells(Width(forest), |forest|);
    var positions := set i | 0 <= i < |cells| && IsVisible(forest, cells[i].0, cells[i].1);
    CountVisiblePositions(forest, cells);
    CellsDistinct(Width(forest), |forest|);
    DistinctImageSize(cells, positions);
    var image := set i | i in positions && i < |cells| :: cells[i];
    forall c | c in VisibleCells(forest) ensures c in image {
      CellsComplete(Width(forest), |forest|, c.0, c.1);
      var i :| 0 <= i < |cells| && cells[i] == c;
      assert i in positions;
    }
    assert image == VisibleCells(forest);
  }

  /** Part 1: the number of visible trees. */
  function NumVisibleTrees(forest: seq<seq<int>>): (n: nat)
    requires IsGrid(forest)
    ensures n <= Width(forest) * |forest|
  {
    CountVisible(forest, Cells(Width(forest), |forest|))
  }

  function MaxScore(forest: seq<seq<int>>, cells: seq<(nat, nat)>): (r: int)
    requires IsGrid(forest) && |cells| >= 1
    requires forall i :: 0 <= i < |cells| ==> InGrid(forest, cells[i].0, cells[i].1)
    ensures forall i :: 0 <= i < |cells| ==> ScenicScore(forest, cells[i].0, cells[i].1) <= r
    ensures exists i :: 0 <= i < |cells| && ScenicScore(forest, cells[i].0, cells[i].1) == r
  {
    var here := ScenicScore(forest, cells[0].0, cells[0].1);
    if |cells| == 1 then here
    else
      var rest := MaxScore(forest, cells[1..]);
      assert forall i :: 1 <= i < |cells| ==> cells[i] == cells[1..][i - 1];
      Max(here, rest)
  }

  /** Part 2: the largest scenic score; an empty row makes `max()` find
      nothing and the `unwrap` panic. */
  function MaxScenicScore(forest: seq<seq<int>>): (r: Result<int>)
    requires IsGrid(forest)
    ensures r.Ok? <==> Width(forest) >= 1
    ensures r.Ok? ==> forall x: nat, y: nat :: InGrid(forest, x, y) ==> ScenicScore(forest, x, y) <= r.value
    ensures r.Ok? ==> exists x: nat, y: nat :: InGrid(forest, x, y) && ScenicScore(forest, x, y) == r.value
  {
    if Width(forest) == 0 then Err("called `Option::unwrap()` on a `None` value")
    else
      var cells := Cells(Width(forest), |forest|);
      var m := MaxScore(forest, cells);
      assert forall x: nat, y: nat :: InGrid(forest, x, y) ==> ScenicScore(forest, x, y) <= m by {
        forall x: nat, y: nat | InGrid(forest, x, y) ensures ScenicScore(forest, x, y) <= m {
          CellsComplete(Width(forest), |forest|, x, y);
          var i :| 0 <= i < |cells| && cells[i] == (x, y);
          assert ScenicScore(forest, cells[i].0, cells[i].1) <= m;
        }
      }
      Ok(m)
  }
}

=== FILE: day09.dfy ===
/** Rope bridge: a rope of knots whose head is moved step by step; every
    other knot follows the one before it. */
module RopeBridge {
  import opened Common

  type Pos = (int, int)

  /** Chebyshev distance: the knots touch when it is at most 1. */
  function Cheb(a: Pos, b: Pos): nat
  {
    Max(Abs(a.0 - b.0), Abs(a.1 - b.1))
  }

  predicate IsDirection(d: char)
  {
    d == 'U' || d == 'D' || d == 'L' || d == 'R'
  }

  /** The unit step of a direction letter (y grows downward). */
  function Delta(d: char): (r: Pos)
    requires IsDirection(d)
    ensures Abs(r.0) + Abs(r.1) == 1
  {
    match d
    case 'U' => (0, -1)
    case 'D' => (0, 1)
    case 'L' => (-1, 0)
    case 'R' => (1, 0)
  }

  /** A knot moves only when a coordinate gap to its leader exceeds 1, and
      then one unit towards the leader on each axis (`signum`). */
  function CatchUp(lead: Pos, knot: Pos): (r: Pos)
    ensures Cheb(knot, r) <= 1
    ensures Cheb(lead, knot) <= 1 ==> r == knot
    ensures Cheb(lead, knot) <= 2 ==> Cheb(lead, r) <= 1
  {
    var dx, dy := lead.0 - knot.0, lead.1 - knot.1;
    if Abs(dx) > 1 || Abs(dy) > 1 then (knot.0 + Sign(dx), knot.1 + Sign(dy)) else knot
  }

  /** Every knot touches the one before it. */
  predicate Taut(rope: seq<Pos>)
  {
    forall i :: 1 <= i < |rope| ==> Cheb(rope[i - 1], rope[i]) <= 1
  }

  /** The inner loop over knots `index`, `index + 1`, ...: each catches up
      with the already-updated knot before it, and a move of the last knot
      records its new position. */
  function Follow(rope: seq<Pos>, index: nat, visited: set<Pos>): (r: (seq<Pos>, set<Pos>))
    requires 1 <= index <= |rope|
    ensures |r.0| == |rope| && r.0[..index] == rope[..index]
    ensures visited <= r.1
    ensures r.1 <= visited + {r.0[|rope| - 1]}
    ensures r.0[|rope| - 1] != rope[|rope| - 1] ==> r.0[|rope| - 1] in r.1
    decreases |rope| - index
  {
    if index == |rope| then (rope, visited)
    else
      var moved := CatchUp(rope[index - 1], rope[index]);
      var visited' := if moved != rope[index] && index == |rope| - 1 then visited + {moved} else visited;
      var next := rope[index := moved];
      assert next[..index] == rope[..index];
      var r := Follow(next, index + 1, visited');
      assert r.0[..index] == r.0[..index + 1][..index];
      r
  }

  /** The knots before position `index` touch their leaders. */
  predicate TautUpTo(rope: seq<Pos>, index: nat)
    requires index <= |rope|
  {
    forall i :: 1 <= i < index ==> Cheb(rope[i - 1], rope[i]) <= 1
  }

  lemma ChebTriangle(a: Pos, b: Pos, c: Pos)
    ensures Cheb(a, c) <= Cheb(a, b) + Cheb(b, c)
  {
  }

  lemma TautExtend(rope: seq<Pos>, index: nat, moved: Pos)
    requires 1 <= index < |rope| && TautUpTo(rope, index)
    requires Cheb(rope[index - 1], moved) <= 1
    ensures TautUpTo(rope[index := moved], index + 1)
  {
    var next := rope[index := moved];
    forall i | 1 <= i < index + 1 ensures Cheb(next[i - 1], next[i]) <= 1 {
      if i < index {
        assert next[i - 1] == rope[i - 1] && next[i] == rope[i];
      }
    }
  }

  /** After the head moves one unit, following keeps the rope taut. */
  lemma {:induction false} FollowKeepsTaut(before: seq<Pos>, rope: seq<Pos>, index: nat, visited: set<Pos>)
    requires 1 <= index <= |rope| == |before|
    requires Taut(before)
    requires TautUpTo(rope, index)
    requires Cheb(rope[index - 1], before[index - 1]) <= 1
    requires forall i :: index <= i < |rope| ==> rope[i] == before[i]
    ensures Taut(Follow(rope, index, visited).0)
    decreases |rope| - index
  {
    if index < |rope| {
      var moved := CatchUp(rope[index - 1], rope[index]);
      var visited' := if moved != rope[index] && index == |rope| - 1 then visited + {moved} else visited;
      StepKeepsTaut(before, rope, index);
      FollowKeepsTaut(before, rope[index := moved], index + 1, visited');
      FollowUnfold(rope, index, visited);
    }
  }

  /** Knot `index` catching up keeps the invariant of `FollowKeepsTaut` one
      position further on. */
  lemma StepKeepsTaut(before: seq<Pos>, rope: seq<Pos>, index: nat)
    requires 1 <= index < |rope| == |before|
    requires Taut(before)
    requires TautUpTo(rope, index)
    requires Cheb(rope[index - 1], before[index - 1]) <= 1
    requires forall i :: index <= i < |rope| ==> rope[i] == before[i]
    ensures var next := rope[index := CatchUp(rope[index - 1], rope[index])];
            && TautUpTo(next, index + 1)
            && Cheb(next[index], before[index]) <= 1
            && forall i :: index + 1 <= i < |next| ==> next[i] == before[i]
  {
    var lead, knot := rope[index - 1], rope[index];
    assert Cheb(before[index - 1], knot) <= 1;
    ChebTriangle(lead, before[index - 1], knot);
    var moved := CatchUp(lead, knot);
    var next := rope[index := moved];
    TautExtend(rope, index, moved);
    assert forall i :: index + 1 <= i < |next| ==> next[i] == before[i];
  }

  /** One pass of the knot loop. */
  lemma FollowUnfold(rope: seq<Pos>, index: nat, visited: set<Pos>)
    requires 1 <= index < |rope|
    ensures var moved := CatchUp(rope[index - 1], rope[index]);
            Follow(rope, index, visited)
            == Follow(rope[index := moved], index + 1,
                      if moved != rope[index] && index == |rope| - 1 then visited + {moved} else visited)
  {
  }

  /** State of `simulate`: the knots, head first, and the set of recorded
      tail positions. */
  datatype State = State(rope: seq<Pos>, visited: set<Pos>)

  predicate Good(s: State)
  {
    |s.rope| >= 1 && Taut(s.rope) && (0, 0) in s.visited
    && (|s.rope| >= 2 ==> s.rope[|s.rope| - 1] in s.visited)
  }

  /** One unit step of the head followed by the knots catching up. */
  function HeadStep(s: State, delta: Pos): (r: State)
    requires Good(s)
    requires Abs(delta.0) + Abs(delta.1) == 1
    ensures Good(r) && |r.rope| == |s.rope|
    ensures r.rope[0] == (s.rope[0].0 + delta.0, s.rope[0].1 + delta.1)
    ensures s.visited <= r.visited
    ensures |s.rope| == 1 ==> r.visited == s.visited
    ensures |s.rope| >= 2 ==> r.visited == s.visited + {r.rope[|s.rope| - 1]}
  {
    var head := (s.rope[0].0 + delta.0, s.rope[0].1 + delta.1);
    var rope := s.rope[0 := head];
    FollowKeepsTaut(s.rope, rope, 1, s.visited);
    var f := Follow(rope, 1, s.visited);
    assert f.0[0] == f.0[..1][0];
    assert |s.rope| >= 2 ==> f.0[|rope| - 1] in f.1 by {
      if |s.rope| >= 2 && f.0[|rope| - 1] == rope[|rope| - 1] {
        assert rope[|rope| - 1] == s.rope[|rope| - 1];
      }
    }
    assert |s.rope| == 1 ==> f.1 == s.visited by {
      if |s.rope| == 1 {
        assert f.0[..1] == f.0;
      }
    }
    State(f.0, f.1)
  }

  /** The tail's position after each of `distance` unit steps in one
      direction, in order. */
  function MoveTrail(s: State, delta: Pos, distance: int): (t: seq<Pos>)
    requires Good(s) && Abs(delta.0) + Abs(delta.1) == 1
    ensures |t| == Max(distance, 0)
    decreases distance
  {
    if distance <= 0 then []
    else
      var n := HeadStep(s, delta);
      [n.rope[|n.rope| - 1]] + MoveTrail(n, delta, distance - 1)
  }

  /** `distance` unit steps in one direction; a non-positive distance makes
      the range `0..distance` empty. */
  function MoveHead(s: State, delta: Pos, distance: int): (r: State)
    requires Good(s) && Abs(delta.0) + Abs(delta.1) == 1
    ensures Good(r) && |r.rope| == |s.rope| && s.visited <= r.visited
    ensures |s.rope| == 1 ==> r.visited == s.visited
    ensures |s.rope| >= 2 ==> r.visited == s.visited + Elements(MoveTrail(s, delta, distance))
    ensures distance > 0 ==> r.rope[|r.rope| - 1] == MoveTrail(s, delta, distance)[distance - 1]
    decreases distance
  {
    if distance <= 0 then s
    else
      var n := HeadStep(s, delta);
      var r := MoveHead(n, delta, distance - 1);
      ElementsCons(n.rope[|n.rope| - 1], MoveTrail(n, delta, distance - 1));
      r
  }

  /** The tail's position after every unit step of the moves, in order. */
  function TailTrail(s: State, moves: seq<(char, int)>): (t: seq<Pos>)
    requires Good(s)
    requires forall i :: 0 <= i < |moves| ==> IsDirection(moves[i].0)
    ensures |moves| > 0 ==> MoveTrail(s, Delta(moves[0].0), moves[0].1) <= t
    decreases |moves|
  {
    if |moves| == 0 then []
    else
      var d := Delta(moves[0].0);
      MoveTrail(s, d, moves[0].1) + TailTrail(MoveHead(s, d, moves[0].1), moves[1..])
  }

  function ApplyMoves(s: State, moves: seq<(char, int)>): (r: State)
    requires Good(s)
    requires forall i :: 0 <= i < |moves| ==> IsDirection(moves[i].0)
    ensures Good(r) && |r.rope| == |s.rope| && s.visited <= r.visited
    ensures |s.rope| == 1 ==> r.visited == s.visited
    ensures |s.rope| >= 2 ==> r.visited == s.visited + Elements(TailTrail(s, moves))
    decreases |moves|
  {
    if |moves| == 0 then s
    else
      var d := Delta(moves[0].0);
      var m := MoveHead(s, d, moves[0].1);
      var r := ApplyMoves(m, moves[1..]);
      ElementsAppend(MoveTrail(s, d, moves[0].1), TailTrail(m, moves[1..]));
      r
  }

  /** Every knot at the origin, with the origin recorded. */
  function Start(numKnots: nat): (s: State)
    requires numKnots >= 1
    ensures Good(s) && |s.rope| == numKnots
  {
    var rope: seq<Pos> := seq(numKnots, _ => (0, 0));
    assert forall i :: 0 <= i < numKnots ==> rope[i] == (0, 0);
    State(rope, {(0, 0)})
  }

  /** `simulate`: the number of distinct positions the tail takes, the
      origin included. `simulate` treats a direction letter other than U, D,
      L, R as unreachable, and its first unit step indexes the head. */
  function Simulate(moves: seq<(char, int)>, numKnots: nat): (r: nat)
    requires numKnots >= 1
    requires forall i :: 0 <= i < |moves| ==> IsDirection(moves[i].0)
    ensures r >= 1
    ensures numKnots == 1 ==> r == 1
    ensures numKnots >= 2 ==> r == |{(0, 0)} + Elements(TailTrail(Start(numKnots), moves))|
  {
    var final := ApplyMoves(Start(numKnots), moves);
    assert (0, 0) in final.visited;
    |final.visited|
  }

  /** The tail's final position is always among the recorded ones (with at
      least two knots), and the rope ends taut. */
  lemma TailRecorded(moves: seq<(char, int)>, numKnots: nat)
    requires numKnots >= 2
    requires forall i :: 0 <= i < |moves| ==> IsDirection(moves[i].0)
    ensures var final := ApplyMoves(Start(numKnots), moves);
            final.rope[numKnots - 1] in final.visited && Taut(final.rope)
  {
    var final := ApplyMoves(Start(numKnots), moves);
    assert |final.rope| == numKnots;
  }
}

=== FILE: day10.dfy ===
/** Cathode-ray tube: the register X during each clock cycle of a program of
    `noop` and `addx` instructions. */
module CathodeRayTube {
  import opened Common

  datatype Op = Noop | Addx(v: int)

  function Cycles(op: Op): nat
  {
    if op.Noop? then 1 else 2
  }

  function TotalCycles(ops: seq<Op>): nat
  {
    if |ops| == 0 then 0 else TotalCycles(ops[..|ops| - 1]) + Cycles(ops[|ops| - 1])
  }

  /** X once the instructions have all completed. */
  function FinalX(ops: seq<Op>): int
  {
    if |ops| == 0 then 1
    else FinalX(ops[..|ops| - 1]) + (match ops[|ops| - 1] case Noop => 0 case Addx(v) => v)
  }

  /** The list built by `run`: it starts as [1]; `noop` appends X once and
      `addx v` appends X and then X + v. */
  function XValues(ops: seq<Op>): (xs: seq<int>)
    ensures |xs| == 1 + TotalCycles(ops)
    ensures xs[|xs| - 1] == FinalX(ops)
  {
    if |ops| == 0 then [1]
    else
      var before := XValues(ops[..|ops| - 1]);
      var x := before[|before| - 1];
      match ops[|ops| - 1]
      case Noop => before + [x]
      case Addx(v) => before + [x, x + v]
  }

  function NumNoops(ops: seq<Op>): nat
  {
    if |ops| == 0 then 0 else NumNoops(ops[1..]) + (if ops[0].Noop? then 1 else 0)
  }

  function NumAddx(ops: seq<Op>): nat
  {
    if |ops| == 0 then 0 else NumAddx(ops[1..]) + (if ops[0].Addx? then 1 else 0)
  }

  /** The length is 1 + #noop + 2 * #addx. */
  lemma {:induction false} XValuesLength(ops: seq<Op>)
    ensures |XValues(ops)| == 1 + NumNoops(ops) + 2 * NumAddx(ops)
  {
    if |ops| > 0 {
      var front := ops[..|ops| - 1];
      XValuesLength(front);
      CountsAppend(front, ops[|ops| - 1]);
      assert front + [ops[|ops| - 1]] == ops;
    }
  }

  lemma {:induction false} CountsAppend(ops: seq<Op>, op: Op)
    ensures NumNoops(ops + [op]) == NumNoops(ops) + (if op.Noop? then 1 else 0)
    ensures NumAddx(ops + [op]) == NumAddx(ops) + (if op.Addx? then 1 else 0)
  {
    if |ops| > 0 {
      assert (ops + [op])[1..] == ops[1..] + [op];
      CountsAppend(ops[1..], op);
    } else {
      assert [op][1..] == [];
    }
  }

  /** Extending the program only appends: earlier entries never change. */
  lemma {:induction false} XValuesPrefix(ops: seq<Op>, k: nat)
    requires k <= |ops|
    ensures XValues(ops[..k]) <= XValues(ops)
    decreases |ops| - k
  {
    if k < |ops| {
      var front := ops[..|ops| - 1];
      assert front[..k] == ops[..k];
      XValuesPrefix(front, k);
    } else {
      assert ops[..k] == ops;
    }
  }

  /** Once the first k instructions have completed, at cycle count
      `TotalCycles(ops[..k])`, the entry there is X after those
      instructions; during an `addx` the entry repeats the old X. */
  lemma XValuesAtCompletion(ops: seq<Op>, k: nat)
    requires k <= |ops|
    ensures TotalCycles(ops[..k]) < |XValues(ops)|
    ensures XValues(ops)[TotalCycles(ops[..k])] == FinalX(ops[..k])
    ensures k < |ops| ==> TotalCycles(ops[..k + 1]) == TotalCycles(ops[..k]) + Cycles(ops[k])
    ensures k < |ops| ==> TotalCycles(ops[..k + 1]) < |XValues(ops)|
    ensures k < |ops| && ops[k].Addx? ==> XValues(ops)[TotalCycles(ops[..k]) + 1] == FinalX(ops[..k])
  {
    XValuesPrefix(ops, k);
    if k < |ops| {
      XValuesPrefix(ops, k + 1);
      assert ops[..k + 1][..k] == ops[..k];
    }
  }

  /** `total_signal_strength`: cycle * X during that cycle, for cycles 20,
      60, ..., 220; a list shorter than 220 makes the indexing panic. */
  function TotalSignalStrength(xs: seq<int>): (r: Result<int>)
    ensures r.Ok? <==> |xs| >= 220
    ensures r.Ok? ==> r.value == 20 * xs[19] + 60 * xs[59] + 100 * xs[99]
                                 + 140 * xs[139] + 180 * xs[179] + 220 * xs[219]
  {
    if |xs| < 220 then Err("index out of bounds") else Ok(StrengthFrom(xs, 20))
  }

  /** The sum over the cycles `cycle`, `cycle + 40`, ... up to 220. */
  function StrengthFrom(xs: seq<int>, cycle: nat): int
    requires |xs| >= 220 && cycle >= 1
    decreases 221 - cycle
  {
    if cycle > 220 then 0 else cycle * xs[cycle - 1] + StrengthFrom(xs, cycle + 40)
  }
}

=== FILE: day11.dfy ===
/** Monkey in the middle: monkeys take turns inspecting the items they hold,
    updating each item's worry level and throwing it to one of two other
    monkeys according to a divisibility test. */
module MonkeyInTheMiddle {
  import opened Common

  /** One monkey: the worry levels it holds, its operation `val1 op val2`
      (`None` standing for the item's own level), its test divisor and
      targets, and how many items it has inspected so far. */
  datatype Monkey = Monkey(
    items: seq<nat>,
    val1: Option<nat>,
    isAdd: bool,
    val2: Option<nat>,
    divisibleBy: nat,
    ifTrue: nat,
    ifFalse: nat,
    inspections: nat)

  /** The part of a monkey that never changes. */
  function Rules(m: Monkey): (Option<nat>, bool, Option<nat>, nat, nat, nat)
  {
    (m.val1, m.isAdd, m.val2, m.divisibleBy, m.ifTrue, m.ifFalse)
  }

  /** Positive divisors and throw targets that name existing monkeys;
      `simulate` panics on a division by zero or an index past the end. */
  predicate WellFormed(ms: seq<Monkey>)
  {
    forall i :: 0 <= i < |ms| ==> ms[i].divisibleBy > 0 && ms[i].ifTrue < |ms| && ms[i].ifFalse < |ms|
  }

  predicate SameRules(a: seq<Monkey>, b: seq<Monkey>)
  {
    |a| == |b| && forall i :: 0 <= i < |a| ==> Rules(a[i]) == Rules(b[i])
  }

  /** How many items all the monkeys hold together. */
  function TotalItems(ms: seq<Monkey>): nat
  {
    if |ms| == 0 then 0 else |ms[0].items| + TotalItems(ms[1..])
  }

  lemma {:induction false} TotalItemsUpdate(ms: seq<Monkey>, i: nat, m: Monkey)
    requires i < |ms|
    ensures TotalItems(ms[i := m]) + |ms[i].items| == TotalItems(ms) + |m.items|
  {
    if i > 0 {
      assert ms[i := m][1..] == ms[1..][i - 1 := m];
      TotalItemsUpdate(ms[1..], i - 1, m);
    } else {
      assert ms[i := m][1..] == ms[1..];
    }
  }

  /** `new = val1 op val2` before any reduction. */
  function Operation(m: Monkey, item: nat): nat
  {
    var a := if m.val1.Some? then m.val1.value else item;
    var b := if m.val2.Some? then m.val2.value else item;
    if m.isAdd then a + b else a * b
  }

  /** The new worry level: the operation's result modulo `modulus`, then
      divided by 3 when that is enabled. */
  function Worry(m: Monkey, item: nat, modulus: nat, divideBy3: bool): (r: nat)
    requires modulus > 0
    ensures r < modulus
    ensures divideBy3 ==> 3 * r <= Operation(m, item)
  {
    var reduced := Operation(m, item) % modulus;
    if divideBy3 then reduced / 3 else reduced
  }

  /** The test: divisible goes to `ifTrue`, anything else to `ifFalse`. */
  function Target(m: Monkey, worry: nat): nat
    requires m.divisibleBy > 0
  {
    if worry % m.divisibleBy == 0 then m.ifTrue else m.ifFalse
  }

  /** The new worry levels, in order, of those `items` that monkey `m`
      throws to monkey `j`. */
  function Thrown(m: Monkey, items: seq<nat>, j: nat, modulus: nat, divideBy3: bool): (r: seq<nat>)
    requires modulus > 0 && m.divisibleBy > 0
    ensures |r| <= |items|
    ensures j != m.ifTrue && j != m.ifFalse ==> r == []
    ensures forall k :: 0 <= k < |r| ==> r[k] < modulus
    decreases |items|
  {
    if |items| == 0 then []
    else
      var w := Worry(m, items[0], modulus, divideBy3);
      (if Target(m, w) == j then [w] else []) + Thrown(m, items[1..], j, modulus, divideBy3)
  }

  /** Inspects and throws `items` in order on behalf of monkey `m`; each
      thrown level is appended to its target's list. */
  function ThrowAll(ms: seq<Monkey>, m: Monkey, items: seq<nat>, modulus: nat, divideBy3: bool): (r: seq<Monkey>)
    requires modulus > 0 && m.divisibleBy > 0 && m.ifTrue < |ms| && m.ifFalse < |ms|
    ensures SameRules(ms, r)
    ensures TotalItems(r) == TotalItems(ms) + |items|
    ensures forall j :: 0 <= j < |ms| ==> r[j].inspections == ms[j].inspections
    ensures forall j :: 0 <= j < |ms| ==> ms[j].items <= r[j].items
    ensures forall j :: 0 <= j < |ms| && j != m.ifTrue && j != m.ifFalse ==> r[j] == ms[j]
    decreases |items|
  {
    if |items| == 0 then ms
    else
      var w := Worry(m, items[0], modulus, divideBy3);
      var t := Target(m, w);
      var next := ms[t := ms[t].(items := ms[t].items + [w])];
      TotalItemsUpdate(ms, t, next[t]);
      var r := ThrowAll(next, m, items[1..], modulus, divideBy3);
      ThrowChain(ms, next, r, t, m.ifTrue, m.ifFalse);
      r
  }

  /** Every monkey's list after the throws is its old list followed by the
      levels thrown to it, in the order they were thrown. */
  lemma {:induction false} ThrowAllDelivers(ms: seq<Monkey>, m: Monkey, items: seq<nat>, modulus: nat, divideBy3: bool, j: nat)
    requires modulus > 0 && m.divisibleBy > 0 && m.ifTrue < |ms| && m.ifFalse < |ms|
    requires j < |ms|
    ensures ThrowAll(ms, m, items, modulus, divideBy3)[j].items == ms[j].items + Thrown(m, items, j, modulus, divideBy3)
    decreases |items|
  {
    if |items| > 0 {
      var w := Worry(m, items[0], modulus, divideBy3);
      var t := Target(m, w);
      var next := ms[t := ms[t].(items := ms[t].items + [w])];
      ThrowAllDelivers(next, m, items[1..], modulus, divideBy3, j);
      var here := if t == j then [w] else [];
      assert next[j].items == ms[j].items + here;
      assert ThrowAll(ms, m, items, modulus, divideBy3) == ThrowAll(next, m, items[1..], modulus, divideBy3);
      assert Thrown(m, items, j, modulus, divideBy3) == here + Thrown(m, items[1..], j, modulus, divideBy3);
    }
  }

  /** Appending to monkey t, then throwing to the same two targets, keeps
      the rules and inspection counts, only grows item lists and leaves every
      other monkey alone. */
  lemma ThrowChain(ms: seq<Monkey>, next: seq<Monkey>, r: seq<Monkey>, t: nat, a: nat, b: nat)
    requires t < |ms| && (t == a || t == b)
    requires |next| == |ms| && next == ms[t := ms[t].(items := next[t].items)]
    requires ms[t].items <= next[t].items
    requires SameRules(next, r)
    requires forall j :: 0 <= j < |next| ==> r[j].inspections == next[j].inspections
    requires forall j :: 0 <= j < |next| ==> next[j].items <= r[j].items
    requires forall j :: 0 <= j < |next| && j != a && j != b ==> r[j] == next[j]
    ensures SameRules(ms, r)
    ensures forall j :: 0 <= j < |ms| ==> r[j].inspections == ms[j].inspections
    ensures forall j :: 0 <= j < |ms| ==> ms[j].items <= r[j].items
    ensures forall j :: 0 <= j < |ms| && j != a && j != b ==> r[j] == ms[j]
  {
    forall j | 0 <= j < |ms| ensures ms[j].items <= r[j].items {
      assert ms[j].items <= next[j].items;
    }
  }

  /** One monkey's turn: it takes all of its items at once (items it throws
      to itself wait for the next round) and counts them as inspected. */
  function Turn(ms: seq<Monkey>, index: nat, modulus: nat, divideBy3: bool): (r: seq<Monkey>)
    requires WellFormed(ms) && index < |ms| && modulus > 0
    ensures SameRules(ms, r) && WellFormed(r)
    ensures TotalItems(r) == TotalItems(ms)
    ensures r[index].inspections == ms[index].inspections + |ms[index].items|
    ensures forall j :: 0 <= j < |ms| && j != index ==> r[j].inspections == ms[j].inspections
    ensures forall j :: 0 <= j < |ms| && j != index ==> ms[j].items <= r[j].items
    ensures ms[index].ifTrue != index && ms[index].ifFalse != index ==> r[index].items == []
  {
    var m := ms[index];
    var emptied := m.(items := [], inspections := m.inspections + |m.items|);
    var taken := ms[index := emptied];
    TotalItemsUpdate(ms, index, emptied);
    assert SameRules(ms, taken);
    ThrowAll(taken, m, m.items, modulus, divideBy3)
  }

  /** Turns of monkeys `index`, `index + 1`, ... to the end of the round. */
  function TurnsFrom(ms: seq<Monkey>, index: nat, modulus: nat, divideBy3: bool): (r: seq<Monkey>)
    requires WellFormed(ms) && index <= |ms| && modulus > 0
    ensures SameRules(ms, r) && WellFormed(r)
    ensures TotalItems(r) == TotalItems(ms)
    ensures forall j :: 0 <= j < |ms| ==> ms[j].inspections <= r[j].inspections
    ensures forall j :: 0 <= j < index ==> r[j].inspections == ms[j].inspections
    decreases |ms| - index
  {
    if index == |ms| then ms
    else TurnsFrom(Turn(ms, index, modulus, divideBy3), index + 1, modulus, divideBy3)
  }

  function Rounds(ms: seq<Monkey>, numRounds: nat, modulus: nat, divideBy3: bool): (r: seq<Monkey>)
    requires WellFormed(ms) && modulus > 0
    ensures SameRules(ms, r) && WellFormed(r)
    ensures TotalItems(r) == TotalItems(ms)
    ensures forall j :: 0 <= j < |ms| ==> ms[j].inspections <= r[j].inspections
    decreases numRounds
  {
    if numRounds == 0 then ms
    else Rounds(TurnsFrom(ms, 0, modulus, divideBy3), numRounds - 1, modulus, divideBy3)
  }

  function Inspections(ms: seq<Monkey>): (r: seq<int>)
    ensures |r| == |ms|
    ensures forall i :: 0 <= i < |ms| ==> r[i] == ms[i].inspections
  {
    seq(|ms|, i requires 0 <= i < |ms| => ms[i].inspections)
  }

  /** `monkey_business`: after the rounds, the product of the two largest
      inspection counts (a stable sort by descending count, then the first
      two); fewer than two monkeys make the indexing panic. */
  function MonkeyBusiness(ms: seq<Monkey>, numRounds: nat, modulus: nat, divideBy3: bool): (r: Result<int>)
    requires WellFormed(ms) && modulus > 0
    ensures r.Ok? <==> |ms| >= 2
    ensures r.Ok? ==> r.value >= 0
    ensures r.Ok? ==> PairBound(Inspections(Rounds(ms, numRounds, modulus, divideBy3)), r.value)
    ensures r.Ok? ==> PairProduct(Inspections(Rounds(ms, numRounds, modulus, divideBy3)), r.value)
  {
    var counts := Inspections(Rounds(ms, numRounds, modulus, divideBy3));
    if |counts| < 2 then Err("index out of bounds")
    else
      var t := SortDescending(counts);
      TopTwoProduct(counts, t);
      TopTwoAttained(counts, t);
      Ok(t[0] * t[1])
  }

  /** The first two of a descending arrangement of non-negative counts
      multiply to at least the product of any two different counts. */
  lemma TopTwoProduct(counts: seq<int>, t: seq<int>)
    requires forall i :: 0 <= i < |counts| ==> counts[i] >= 0
    requires SortedDesc(t) && multiset(t) == multiset(counts) && |t| == |counts| >= 2
    ensures t[0] * t[1] >= 0
    ensures PairBound(counts, t[0] * t[1])
  {
    assert t[1] in multiset(counts);
    forall i, j | 0 <= i < |counts| && 0 <= j < |counts| && i != j
      ensures counts[i] * counts[j] <= t[0] * t[1]
    {
      SecondLargestBound(counts, t, i, j);
      ProductMonotone(Max(counts[i], counts[j]), Min(counts[i], counts[j]), t[0], t[1]);
    }
  }

  /** No two different monkeys' counts multiply to more than `v`. */
  ghost predicate PairBound(counts: seq<int>, v: int)
  {
    forall i, j :: 0 <= i < |counts| && 0 <= j < |counts| && i != j ==> counts[i] * counts[j] <= v
  }

  /** `v` is the product of the counts of two different monkeys. */
  ghost predicate PairProduct(counts: seq<int>, v: int)
  {
    exists i, j :: 0 <= i < |counts| && 0 <= j < |counts| && i != j && counts[i] * counts[j] == v
  }

  /** Two different counts multiply to the product of the first two. */
  lemma TopTwoAttained(counts: seq<int>, t: seq<int>)
    requires multiset(t) == multiset(counts) && |t| >= 2
    ensures PairProduct(counts, t[0] * t[1])
  {
    TopTwoPositions(counts, t);
    var i, j :| 0 <= i < |counts| && 0 <= j < |counts| && i != j && counts[i] == t[0] && counts[j] == t[1];
    assert counts[i] * counts[j] == t[0] * t[1];
  }

  lemma ProductMonotone(a: int, b: int, c: int, d: int)
    requires 0 <= a <= c && 0 <= b <= d
    ensures a * b <= c * d
  {
    assert a * b <= c * b;
  }

  // ---------------------------------------------------------------------
  // The modulus: reducing by the product of all divisors changes no test.
  // ---------------------------------------------------------------------

  /** The modulus computed by `run`: the product of every test divisor. */
  function Modulus(ms: seq<Monkey>): nat
  {
    if |ms| == 0 then 1 else ms[0].divisibleBy * Modulus(ms[1..])
  }

  ghost predicate Divides(d: nat, n: nat)
  {
    exists k: nat :: n == k * d
  }

  /** `run`: 20 rounds with division by 3, then 10000 rounds without, both
      reducing modulo the product of the divisors. */
  function Run(ms: seq<Monkey>): (r: (Result<int>, Result<int>))
    requires WellFormed(ms)
    ensures r.0.Ok? <==> |ms| >= 2
    ensures r.1.Ok? <==> |ms| >= 2
  {
    ModulusPositive(ms);
    var modulus := Modulus(ms);
    (MonkeyBusiness(ms, 20, modulus, true), MonkeyBusiness(ms, 10_000, modulus, false))
  }

  predicate WellFormedDivisors(ms: seq<Monkey>)
  {
    forall i :: 0 <= i < |ms| ==> ms[i].divisibleBy > 0
  }

  /** Every divisor divides the modulus, which is positive. */
  lemma ModulusMultiple(ms: seq<Monkey>, i: nat)
    requires WellFormed(ms) && i < |ms|
    ensures Modulus(ms) > 0
    ensures Divides(ms[i].divisibleBy, Modulus(ms))
  {
    DivisorOfProduct(ms, i);
  }

  lemma {:induction false} ModulusPositive(ms: seq<Monkey>)
    requires WellFormedDivisors(ms)
    ensures Modulus(ms) > 0
  {
    if |ms| > 0 {
      ModulusPositive(ms[1..]);
    }
  }

  lemma {:induction false} DivisorOfProduct(ms: seq<Monkey>, i: nat)
    requires WellFormedDivisors(ms) && i < |ms|
    ensures Modulus(ms) > 0 && Divides(ms[i].divisibleBy, Modulus(ms))
  {
    ModulusPositive(ms);
    var rest := ms[1..];
    if i == 0 {
      assert Modulus(ms) == Modulus(rest) * ms[0].divisibleBy;
    } else {
      DivisorOfProduct(rest, i - 1);
      var k: nat :| Modulus(rest) == k * rest[i - 1].divisibleBy;
      assert Modulus(ms) == (ms[0].divisibleBy * k) * ms[i].divisibleBy;
    }
  }

  /** Reducing modulo a multiple of d first does not change the remainder
      modulo d. */
  lemma ModOfMultiple(x: nat, modulus: nat, d: nat)
    requires d > 0 && modulus > 0 && Divides(d, modulus)
    ensures (x % modulus) % d == x % d
  {
    var k: nat :| modulus == k * d;
    var q, r := x / modulus, x % modulus;
    DivMod(x, modulus);
    MulAssoc(q, k, d);
    assert x == (q * k) * d + r;
    ModAddMultiple(q * k, r, d);
  }

  lemma MulAssoc(q: nat, k: nat, d: nat)
    ensures q * (k * d) == (q * k) * d
  {
  }

  /** Without the division by 3, the reduced worry level sends the item to
      the same monkey as the unreduced level would, for every monkey whose
      divisor divides the modulus. */
  lemma ReductionKeepsTarget(m: Monkey, item: nat, modulus: nat)
    requires m.divisibleBy > 0 && modulus > 0 && Divides(m.divisibleBy, modulus)
    ensures Target(m, Worry(m, item, modulus, false)) == Target(m, Operation(m, item))
  {
    ModOfMultiple(Operation(m, item), modulus, m.divisibleBy);
  }

  /** Two levels that agree modulo the modulus get the same reduced worry:
      the reduction loses nothing later steps could see. */
  lemma ReductionKeepsClass(m: Monkey, x: nat, y: nat, modulus: nat)
    requires modulus > 0 && x % modulus == y % modulus
    ensures Worry(m, x, modulus, false) == Worry(m, y, modulus, false)
  {
    var a1 := if m.val1.Some? then m.val1.value else x;
    var b1 := if m.val2.Some? then m.val2.value else x;
    var a2 := if m.val1.Some? then m.val1.value else y;
    var b2 := if m.val2.Some? then m.val2.value else y;
    if m.isAdd {
      AddCongruent(a1, b1, a2, b2, modulus);
    } else {
      MulCongruent(a1, b1, a2, b2, modulus);
    }
  }

  lemma AddCongruent(a1: nat, b1: nat, a2: nat, b2: nat, n: nat)
    requires n > 0 && a1 % n == a2 % n && b1 % n == b2 % n
    ensures (a1 + b1) % n == (a2 + b2) % n
  {
    AddSplit(a1, b1, n);
    AddSplit(a2, b2, n);
  }

  lemma AddSplit(a: nat, b: nat, n: nat)
    requires n > 0
    ensures (a + b) % n == (a % n + b % n) % n
  {
    DivMod(a, n);
    DivMod(b, n);
    var qa, qb := a / n, b / n;
    assert a + b == (qa + qb) * n + (a % n + b % n);
    ModAddMultiple(qa + qb, a % n + b % n, n);
  }

  lemma MulCongruent(a1: nat, b1: nat, a2: nat, b2: nat, n: nat)
    requires n > 0 && a1 % n == a2 % n && b1 % n == b2 % n
    ensures (a1 * b1) % n == (a2 * b2) % n
  {
    DivMod(a1, n);
    DivMod(b1, n);
    DivMod(a2, n);
    DivMod(b2, n);
    MulSplit(a1 / n, a1 % n, b1 / n, b1 % n, n);
    MulSplit(a2 / n, a2 % n, b2 / n, b2 % n, n);
  }

  /** (qa n + ra)(qb n + rb) leaves the remainder of ra rb. */
  lemma MulSplit(qa: nat, ra: nat, qb: nat, rb: nat, n: nat)
    requires n > 0
    ensures ((qa * n + ra) * (qb * n + rb)) % n == (ra * rb) % n
  {
    var k := qa * qb * n + qa * rb + ra * qb;
    assert (qa * n + ra) * (qb * n + rb) == k * n + ra * rb;
    ModAddMultiple(k, ra * rb, n);
  }
}

=== FILE: day12.dfy ===
/** Hill climbing: a height map of letters where a step may climb at most
    one letter and descend any amount.  The breadth-first search itself is
    a library call; modelled here are the map preparation and the successor
    relation the search explores. */
module HillClimbing {
  import opened Common

  /** A cell of the map, or the virtual start whose successors are all the
      lowest cells (part 2). */
  datatype Pos = AnyLowPosition | Position(x: int, y: int)

  /** Heights are byte values; `S` counts as `a` and `E` as `z`. */
  function Height(c: char): int
  {
    if c == 'S' then 'a' as int else if c == 'E' then 'z' as int else c as int
  }

  predicate IsLow(c: char)
  {
    c == 'a' || c == 'S'
  }

  predicate InMap(lines: seq<string>, x: int, y: int)
  {
    0 <= y < |lines| && 0 <= x < |lines[y]|
  }

  /** The height map built by `run`. */
  function HeightMap(lines: seq<string>): (m: seq<seq<int>>)
    ensures |m| == |lines|
    ensures forall y :: 0 <= y < |lines| ==> |m[y]| == |lines[y]|
    ensures forall y, x :: 0 <= y < |lines| && 0 <= x < |lines[y]| ==> m[y][x] == Height(lines[y][x])
  {
    seq(|lines|, y requires 0 <= y < |lines| =>
      seq(|lines[y]|, x requires 0 <= x < |lines[y]| => Height(lines[y][x])))
  }

  /** Part 2 starts anywhere at the lowest height: the lowest cells in
      reading order, `S` included. */
  function LowPositions(lines: seq<string>): (r: seq<Pos>)
    ensures forall p :: p in r <==> p.Position? && InMap(lines, p.x, p.y) && IsLow(lines[p.y][p.x])
  {
    LowFrom(lines, 0)
  }

  function LowFrom(lines: seq<string>, y: nat): (r: seq<Pos>)
    requires y <= |lines|
    ensures forall p :: p in r <==> p.Position? && y <= p.y && InMap(lines, p.x, p.y) && IsLow(lines[p.y][p.x])
    decreases |lines| - y
  {
    if y == |lines| then [] else LowInRow(lines, y, 0) + LowFrom(lines, y + 1)
  }

  function LowInRow(lines: seq<string>, y: nat, x: nat): (r: seq<Pos>)
    requires y < |lines| && x <= |lines[y]|
    ensures forall p :: p in r <==> p.Position? && p.y == y && x <= p.x && InMap(lines, p.x, p.y) && IsLow(lines[p.y][p.x])
    decreases |lines[y]| - x
  {
    if x == |lines[y]| then []
    else (if IsLow(lines[y][x]) then [Position(x, y)] else []) + LowInRow(lines, y, x + 1)
  }

  /** The last cell in reading order holding `c`, if any (a later one
      overwrites an earlier one). */
  function FindLast(lines: seq<string>, c: char): (r: Option<Pos>)
    ensures r.None? <==> forall y, x :: 0 <= y < |lines| && 0 <= x < |lines[y]| ==> lines[y][x] != c
    ensures r.Some? ==> r.value.Position? && InMap(lines, r.value.x, r.value.y) && lines[r.value.y][r.value.x] == c
  {
    FindLastFrom(lines, c, 0)
  }

  function FindLastFrom(lines: seq<string>, c: char, y: nat): (r: Option<Pos>)
    requires y <= |lines|
    ensures r.None? <==> forall y', x :: y <= y' < |lines| && 0 <= x < |lines[y']| ==> lines[y'][x] != c
    ensures r.Some? ==> r.value.Position? && y <= r.value.y && InMap(lines, r.value.x, r.value.y) && lines[r.value.y][r.value.x] == c
    decreases |lines| - y
  {
    if y == |lines| then None
    else
      match FindLastFrom(lines, c, y + 1)
      case Some(p) => Some(p)
      case None =>
        match LastInRow(lines[y], c)
        case Some(x) => Some(Position(x, y))
        case None => None
  }

  function LastInRow(row: string, c: char): (r: Option<nat>)
    ensures r.None? <==> c !in row
    ensures r.Some? ==> r.value < |row| && row[r.value] == c
    ensures r.Some? ==> forall x :: r.value < x < |row| ==> row[x] != c
  {
    if |row| == 0 then None
    else if row[|row| - 1] == c then Some(|row| - 1)
    else LastInRow(row[..|row| - 1], c)
  }

  /** Climb at most one letter, descend any amount, never below `a`. */
  predicate Allowed(current: int, target: int)
  {
    'a' as int <= target <= current + 1
  }

  predicate Adjacent(x: int, y: int, nx: int, ny: int)
  {
    Abs(nx - x) + Abs(ny - y) == 1
  }

  /** The four neighbours in the order left, right, up, down. */
  function Neighbours(x: int, y: int): (r: seq<(int, int)>)
    ensures forall n :: n in r <==> Adjacent(x, y, n.0, n.1)
  {
    [(x - 1, y), (x + 1, y), (x, y - 1), (x, y + 1)]
  }

  predicate HeightsRectangular(m: seq<seq<int>>)
  {
    |m| >= 1 && forall y :: 0 <= y < |m| ==> |m[y]| == |m[0]|
  }

  /** The filter of the successor closure: inside the map and reachable
      from height `current`. */
  function KeepAllowed(m: seq<seq<int>>, current: int, ns: seq<(int, int)>): (r: seq<Pos>)
    requires HeightsRectangular(m)
    ensures |r| <= |ns|
    ensures forall p :: p in r <==> (p.Position? && (p.x, p.y) in ns
                                     && 0 <= p.y < |m| && 0 <= p.x < |m[0]| && Allowed(current, m[p.y][p.x]))
  {
    if |ns| == 0 then []
    else
      var (nx, ny) := ns[0];
      var keep := 0 <= nx && 0 <= ny && nx < |m[0]| && ny < |m| && Allowed(current, m[ny][nx]);
      (if keep then [Position(nx, ny)] else []) + KeepAllowed(m, current, ns[1..])
  }

  /** The successor closure of `shortest_distance`. */
  function Successors(m: seq<seq<int>>, low: seq<Pos>, p: Pos): (r: seq<Pos>)
    requires HeightsRectangular(m)
    requires p.Position? ==> 0 <= p.y < |m| && 0 <= p.x < |m[0]|
    ensures p.AnyLowPosition? ==> r == low
    ensures p.Position? ==> |r| <= 4 && forall q :: q in r <==> Step(m, p, q)
  {
    match p
    case AnyLowPosition => low
    case Position(x, y) => KeepAllowed(m, m[y][x], Neighbours(x, y))
  }

  /** One step of the climb between two cells of the map. */
  predicate Step(m: seq<seq<int>>, p: Pos, q: Pos)
    requires HeightsRectangular(m)
    requires p.Position? ==> 0 <= p.y < |m| && 0 <= p.x < |m[0]|
  {
    p.Position? && q.Position? && 0 <= q.y < |m| && 0 <= q.x < |m[0]|
    && Adjacent(p.x, p.y, q.x, q.y) && Allowed(m[p.y][p.x], m[q.y][q.x])
  }

  /** Steps never lead back to the virtual start, climb at most one level,
      and stay inside the map. */
  lemma StepClimbsAtMostOne(m: seq<seq<int>>, low: seq<Pos>, p: Pos, q: Pos)
    requires HeightsRectangular(m) && p.Position? && 0 <= p.y < |m| && 0 <= p.x < |m[0]|
    requires q in Successors(m, low, p)
    ensures q.Position? && 0 <= q.y < |m| && 0 <= q.x < |m[0]|
    ensures m[q.y][q.x] <= m[p.y][p.x] + 1
  {
  }

  /** A path the search may report: consecutive entries are successors. */
  predicate IsPath(m: seq<seq<int>>, low: seq<Pos>, path: seq<Pos>)
    requires HeightsRectangular(m)
  {
    (forall i :: 0 <= i < |path| ==> path[i].Position? ==> 0 <= path[i].y < |m| && 0 <= path[i].x < |m[0]|)
    && forall i :: 0 < i < |path| ==> path[i] in Successors(m, low, path[i - 1])
  }

  /** `bfs(...).len() - 1`: the number of steps of the reported path; the
      `unwrap` panics when no path exists and the search reports nothing. */
  function Distance(found: Option<seq<Pos>>): (r: Result<int>)
    ensures r.Ok? <==> found.Some? && |found.value| >= 1
    ensures r.Ok? ==> r.value + 1 == |found.value|
  {
    match found
    case None => Err("called `Option::unwrap()` on a `None` value")
    case Some(path) => if |path| == 0 then Err("attempt to subtract with overflow") else Ok(|path| - 1)
  }

  /** Part 2 searches from the virtual start, so its answer drops one more
      step: a path from the virtual start is one step into a low cell
      followed by a real path of one step less. */
  lemma VirtualStartPath(m: seq<seq<int>>, low: seq<Pos>, path: seq<Pos>)
    requires HeightsRectangular(m) && IsPath(m, low, path)
    requires |path| >= 2 && path[0] == AnyLowPosition
    requires forall p :: p in low ==> p.Position? && 0 <= p.y < |m| && 0 <= p.x < |m[0]|
    ensures path[1] in low
    ensures IsPath(m, low, path[1..])
    ensures forall i :: 1 <= i < |path| ==> path[i].Position?
    ensures Distance(Some(path[1..])) == Ok(Distance(Some(path)).value - 1)
  {
    forall i | 1 <= i < |path| ensures path[i].Position? {
      if i > 1 {
        assert path[i] in Successors(m, low, path[i - 1]);
      }
    }
    assert forall i :: 0 < i < |path[1..]| ==> path[1..][i] == path[i + 1];
  }

  /** `run`: the start `S`, the target `E`, the lowest cells and the height
      map; either part's search then runs on them.  A map without `S` or
      without `E` makes an `unwrap` panic. */
  function Prepare(lines: seq<string>): (r: Result<(Pos, Pos, seq<Pos>, seq<seq<int>>)>)
    ensures r.Ok? <==> (exists y, x :: 0 <= y < |lines| && 0 <= x < |lines[y]| && lines[y][x] == 'S')
                       && (exists y, x :: 0 <= y < |lines| && 0 <= x < |lines[y]| && lines[y][x] == 'E')
    ensures r.Ok? ==> r.value.0.Position? && InMap(lines, r.value.0.x, r.value.0.y)
                      && lines[r.value.0.y][r.value.0.x] == 'S' && r.value.0 in r.value.2
    ensures r.Ok? ==> r.value.1.Position? && InMap(lines, r.value.1.x, r.value.1.y)
                      && lines[r.value.1.y][r.value.1.x] == 'E'
  {
    match FindLast(lines, 'S')
    case None => Err("called `Option::unwrap()` on a `None` value")
    case Some(start) =>
      match FindLast(lines, 'E')
      case None => Err("called `Option::unwrap()` on a `None` value")
      case Some(target) => Ok((start, target, LowPositions(lines), HeightMap(lines)))
  }

  /** The map's heights: `S` stands at `a` and `E` at `z`, and every other
      letter keeps its own height. */
  lemma StartAndTargetHeights(lines: seq<string>)
    requires Prepare(lines).Ok?
    ensures var (start, target, _, m) := Prepare(lines).value;
            m[start.y][start.x] == 'a' as int && m[target.y][target.x] == 'z' as int
  {
  }
}

=== FILE: day13.dfy ===
/** Distress signal: packets are integers or nested lists, compared by a
    recursive order in which an integer facing a list is promoted to a
    one-element list. */
module DistressSignal {
  import opened Common

  datatype Packet = Integer(n: int) | List(items: seq<Packet>)

  datatype Ordering = Less | Equal | Greater

  function Flip(o: Ordering): Ordering
  {
    match o
    case Less => Greater
    case Equal => Equal
    case Greater => Less
  }

  function CmpInt(x: int, y: int): (r: Ordering)
    ensures r == Less <==> x < y
    ensures r == Equal <==> x == y
  {
    if x < y then Less else if x == y then Equal else Greater
  }

  function Size(p: Packet): nat
    decreases p
  {
    match p
    case Integer(_) => 1
    case List(vs) => 1 + SizeList(vs)
  }

  function SizeList(vs: seq<Packet>): (r: nat)
    ensures |vs| > 0 ==> r == Size(vs[0]) + SizeList(vs[1..])
    ensures |vs| > 0 ==> r > SizeList(vs[1..])
    decreases vs
  {
    if |vs| == 0 then 0 else Size(vs[0]) + SizeList(vs[1..])
  }

  lemma SizePositive(p: Packet)
    ensures Size(p) >= 1
  {
  }

  /** The list a packet takes part in a comparison as: its items, or the
      integer as a one-element list. */
  function AsList(p: Packet): (r: seq<Packet>)
    ensures SizeList(r) <= Size(p)
    ensures p.List? ==> SizeList(r) < Size(p)
  {
    match p
    case Integer(_) => assert [p][1..] == []; [p]
    case List(vs) => vs
  }

  /** `Ord::cmp`: two integers compare numerically; otherwise both sides
      are compared as lists. */
  function Cmp(a: Packet, b: Packet): Ordering
    decreases Size(a) + Size(b), 0
  {
    if a.Integer? && b.Integer? then CmpInt(a.n, b.n)
    else CmpList(AsList(a), AsList(b))
  }

  /** The `zip` loop: the first non-equal pair decides, otherwise the
      shorter list comes first. */
  function CmpList(l1: seq<Packet>, l2: seq<Packet>): Ordering
    decreases SizeList(l1) + SizeList(l2), 1
  {
    if |l1| == 0 || |l2| == 0 then CmpInt(|l1|, |l2|)
    else
      var c := Cmp(l1[0], l2[0]);
      if c != Equal then c else CmpList(l1[1..], l2[1..])
  }

  /** Comparing is comparing the lists, also for two integers. */
  lemma CmpViaLists(a: Packet, b: Packet)
    ensures Cmp(a, b) == CmpList(AsList(a), AsList(b))
  {
    if a.Integer? && b.Integer? {
      assert AsList(a)[1..] == [] && AsList(b)[1..] == [];
    }
  }

  /** Promotion is invisible: an integer compares with anything exactly as
      the one-element list holding it. */
  lemma PromotionInvisible(n: int, b: Packet)
    ensures Cmp(Integer(n), b) == Cmp(List([Integer(n)]), b)
  {
    CmpViaLists(Integer(n), b);
  }

  /** `Equal` is coarser than equality. */
  lemma EqualNotIdentical(n: int)
    ensures Cmp(Integer(n), List([Integer(n)])) == Equal
    ensures Integer(n) != List([Integer(n)])
  {
    PromotionInvisible(n, List([Integer(n)]));
    CmpReflexive(List([Integer(n)]));
  }

  lemma {:induction false} CmpReflexive(a: Packet)
    ensures Cmp(a, a) == Equal
    decreases Size(a), 0
  {
    if a.List? {
      CmpListReflexive(a.items);
    }
  }

  lemma {:induction false} CmpListReflexive(l: seq<Packet>)
    ensures CmpList(l, l) == Equal
    decreases SizeList(l), 1
  {
    if |l| > 0 {
      CmpReflexive(l[0]);
      CmpListReflexive(l[1..]);
    }
  }

  /** Swapping the arguments flips the answer. */
  lemma {:induction false} CmpAntisymmetric(a: Packet, b: Packet)
    ensures Cmp(b, a) == Flip(Cmp(a, b))
    decreases Size(a) + Size(b), 0
  {
    if !(a.Integer? && b.Integer?) {
      CmpListAntisymmetric(AsList(a), AsList(b));
    }
  }

  lemma {:induction false} CmpListAntisymmetric(l1: seq<Packet>, l2: seq<Packet>)
    ensures CmpList(l2, l1) == Flip(CmpList(l1, l2))
    decreases SizeList(l1) + SizeList(l2), 1
  {
    if |l1| > 0 && |l2| > 0 {
      CmpAntisymmetric(l1[0], l2[0]);
      CmpListAntisymmetric(l1[1..], l2[1..]);
    }
  }

  /** "Not greater" is transitive, and the chain is `Equal` exactly when
      both links are. */
  lemma {:induction false} CmpTransitive(a: Packet, b: Packet, c: Packet)
    requires Cmp(a, b) != Greater && Cmp(b, c) != Greater
    ensures Cmp(a, c) != Greater
    ensures Cmp(a, c) == Equal <==> Cmp(a, b) == Equal && Cmp(b, c) == Equal
    decreases Size(a) + Size(b) + Size(c), 0
  {
    if !(a.Integer? && b.Integer? && c.Integer?) {
      CmpViaLists(a, b);
      CmpViaLists(b, c);
      CmpViaLists(a, c);
      CmpListTransitive(AsList(a), AsList(b), AsList(c));
    }
  }

  lemma {:induction false} CmpListTransitive(l1: seq<Packet>, l2: seq<Packet>, l3: seq<Packet>)
    requires CmpList(l1, l2) != Greater && CmpList(l2, l3) != Greater
    ensures CmpList(l1, l3) != Greater
    ensures CmpList(l1, l3) == Equal <==> CmpList(l1, l2) == Equal && CmpList(l2, l3) == Equal
    decreases SizeList(l1) + SizeList(l2) + SizeList(l3), 1
  {
    if |l1| > 0 && |l2| > 0 && |l3| > 0 {
      CmpTransitive(l1[0], l2[0], l3[0]);
      if Cmp(l1[0], l2[0]) == Equal && Cmp(l2[0], l3[0]) == Equal {
        CmpListTransitive(l1[1..], l2[1..], l3[1..]);
      }
    }
  }

  // ---------------------------------------------------------------------
  // Part 1: the pairs in the right order.
  // ---------------------------------------------------------------------

  /** The 1-based indices, counted from `base + 1`, of the pairs whose first
      packet is less than the second. */
  function GoodFrom(pairs: seq<(Packet, Packet)>, base: nat): nat
  {
    if |pairs| == 0 then 0
    else (if Cmp(pairs[0].0, pairs[0].1) == Less then base + 1 else 0) + GoodFrom(pairs[1..], base + 1)
  }

  /** The sum of all the indices base + 1 .. base + k. */
  function IndexSum(k: nat, base: nat): nat
  {
    if k == 0 then 0 else base + 1 + IndexSum(k - 1, base + 1)
  }

  function Swapped(pairs: seq<(Packet, Packet)>): (r: seq<(Packet, Packet)>)
    ensures |r| == |pairs|
    ensures forall i :: 0 <= i < |pairs| ==> r[i] == (pairs[i].1, pairs[i].0)
  {
    seq(|pairs|, i requires 0 <= i < |pairs| => (pairs[i].1, pairs[i].0))
  }

  /** `chunks(2)`: consecutive packets form the pairs; a last packet left
      alone makes `pair[1]` panic. */
  function Pairs(packets: seq<Packet>): (r: Result<seq<(Packet, Packet)>>)
    ensures r.Ok? <==> |packets| % 2 == 0
    ensures r.Ok? ==> 2 * |r.value| == |packets|
    ensures r.Ok? ==> forall i :: 0 <= i < |r.value| ==> r.value[i] == (packets[2 * i], packets[2 * i + 1])
  {
    if |packets| % 2 == 1 then Err("index out of bounds")
    else
      var k := |packets| / 2;
      Ok(seq(k, i requires 0 <= i < k => (packets[2 * i], packets[2 * i + 1])))
  }

  /** For each pair in order, its 1-based index counted from `base + 1` when
      its first packet is less than the second, and 0 otherwise. */
  function GoodIndices(pairs: seq<(Packet, Packet)>, base: nat): (r: seq<int>)
    ensures |r| == |pairs|
  {
    seq(|pairs|, i requires 0 <= i < |pairs| => if Cmp(pairs[i].0, pairs[i].1) == Less then base + i + 1 else 0)
  }

  /** Folding the pairs adds up exactly the indices of the pairs in the
      right order. */
  lemma {:induction false} GoodFromSum(pairs: seq<(Packet, Packet)>, base: nat)
    ensures GoodFrom(pairs, base) == Sum(GoodIndices(pairs, base))
  {
    if |pairs| > 0 {
      GoodFromSum(pairs[1..], base + 1);
      assert GoodIndices(pairs, base)[1..] == GoodIndices(pairs[1..], base + 1);
    }
  }

  /** `sum_good_indices`: the sum of the 1-based indices of the pairs of
      consecutive packets whose first packet is less than the second. */
  function SumGoodIndices(packets: seq<Packet>): (r: Result<nat>)
    ensures r.Ok? <==> |packets| % 2 == 0
    ensures r.Ok? ==> r.value <= IndexSum(|packets| / 2, 0)
    ensures r.Ok? ==> r.value == Sum(seq(|packets| / 2, i requires 0 <= i < |packets| / 2 =>
                                       if Cmp(packets[2 * i], packets[2 * i + 1]) == Less then i + 1 else 0))
  {
    match Pairs(packets)
    case Err(e) => Err(e)
    case Ok(pairs) =>
      GoodAtMostAll(pairs, 0);
      GoodFromSum(pairs, 0);
      assert GoodIndices(pairs, 0) == seq(|packets| / 2, i requires 0 <= i < |packets| / 2 =>
                                           if Cmp(packets[2 * i], packets[2 * i + 1]) == Less then i + 1 else 0);
      Ok(GoodFrom(pairs, 0))
  }

  lemma {:induction false} GoodAtMostAll(pairs: seq<(Packet, Packet)>, base: nat)
    ensures GoodFrom(pairs, base) <= IndexSum(|pairs|, base)
  {
    if |pairs| > 0 {
      GoodAtMostAll(pairs[1..], base + 1);
    }
  }

  /** Every pair is in the right order either as given or swapped, unless
      its packets compare equal: the two sums then make up all indices. */
  lemma {:induction false} GoodPlusSwapped(pairs: seq<(Packet, Packet)>, base: nat)
    requires forall i :: 0 <= i < |pairs| ==> Cmp(pairs[i].0, pairs[i].1) != Equal
    ensures GoodFrom(pairs, base) + GoodFrom(Swapped(pairs), base) == IndexSum(|pairs|, base)
  {
    if |pairs| > 0 {
      CmpAntisymmetric(pairs[0].0, pairs[0].1);
      assert Swapped(pairs)[1..] == Swapped(pairs[1..]);
      GoodPlusSwapped(pairs[1..], base + 1);
    }
  }

  // ---------------------------------------------------------------------
  // Part 2: sorting with the divider packets.
  // ---------------------------------------------------------------------

  /** Not greater: the relation the sort orders by. */
  predicate Le(a: Packet, b: Packet)
  {
    Cmp(a, b) != Greater
  }

  predicate Sorted(s: seq<Packet>)
  {
    forall i, j :: 0 <= i < j < |s| ==> Le(s[i], s[j])
  }

  /** Inserts x before the first element it is not greater than, so that
      it precedes the equal elements that came after it. */
  function Insert(x: Packet, s: seq<Packet>): (r: seq<Packet>)
    requires Sorted(s)
    ensures multiset(r) == multiset(s) + multiset{x} && |r| == |s| + 1
    ensures forall j :: 0 <= j < |r| ==> r[j] == x || r[j] in s
    ensures Sorted(r)
  {
    if |s| == 0 then [x]
    else if Cmp(x, s[0]) != Greater then
      InsertFront(x, s);
      [x] + s
    else
      var rest := Insert(x, s[1..]);
      InsertBehind(x, s, rest);
      [s[0]] + rest
  }

  /** x not greater than the smallest element goes in front. */
  lemma InsertFront(x: Packet, s: seq<Packet>)
    requires Sorted(s) && |s| > 0 && Le(x, s[0])
    ensures Sorted([x] + s)
  {
    forall j | 0 <= j < |s| ensures Le(x, s[j]) {
      if j > 0 {
        CmpTransitive(x, s[0], s[j]);
      }
    }
    ConsSorted(x, s);
  }

  /** x greater than the smallest element goes somewhere after it. */
  lemma InsertBehind(x: Packet, s: seq<Packet>, rest: seq<Packet>)
    requires Sorted(s) && |s| > 0 && Cmp(x, s[0]) == Greater
    requires multiset(rest) == multiset(s[1..]) + multiset{x} && |rest| == |s|
    requires forall j :: 0 <= j < |rest| ==> rest[j] == x || rest[j] in s[1..]
    requires Sorted(rest)
    ensures multiset([s[0]] + rest) == multiset(s) + multiset{x}
    ensures forall j :: 0 <= j < |rest| + 1 ==> ([s[0]] + rest)[j] == x || ([s[0]] + rest)[j] in s
    ensures Sorted([s[0]] + rest)
  {
    CmpAntisymmetric(x, s[0]);
    HeadLeadsBy(x, s, rest, Le);
    ConsSorted(s[0], rest);
    ConsMembers(x, s, rest);
    assert s == [s[0]] + s[1..];
  }

  /** The head of a sorted sequence is below everything that was inserted
      behind it, when it is below the inserted element. */
  lemma HeadLeadsBy<T>(x: T, s: seq<T>, rest: seq<T>, le: (T, T) -> bool)
    requires |s| > 0 && le(s[0], x)
    requires forall i, j :: 0 <= i < j < |s| ==> le(s[i], s[j])
    requires forall j :: 0 <= j < |rest| ==> rest[j] == x || rest[j] in s[1..]
    ensures forall j :: 0 <= j < |rest| ==> le(s[0], rest[j])
  {
    forall j | 0 <= j < |rest| ensures le(s[0], rest[j]) {
      if rest[j] != x {
        var k :| 0 <= k < |s[1..]| && s[1..][k] == rest[j];
        assert s[k + 1] == rest[j];
      }
    }
  }

  /** Putting the head back in front keeps every element x or one of s. */
  lemma ConsMembers<T>(x: T, s: seq<T>, rest: seq<T>)
    requires |s| > 0
    requires forall j :: 0 <= j < |rest| ==> rest[j] == x || rest[j] in s[1..]
    ensures forall j :: 0 <= j < |rest| + 1 ==> ([s[0]] + rest)[j] == x || ([s[0]] + rest)[j] in s
  {
    forall j | 0 <= j < |rest| + 1 ensures ([s[0]] + rest)[j] == x || ([s[0]] + rest)[j] in s {
      if j > 0 {
        assert ([s[0]] + rest)[j] == rest[j - 1];
      }
    }
  }

  lemma ConsSorted(h: Packet, t: seq<Packet>)
    requires Sorted(t)
    requires forall j :: 0 <= j < |t| ==> Le(h, t[j])
    ensures Sorted([h] + t)
  {
    ConsSortedBy(h, t, Le);
  }

  /** The same for any relation, where the order cannot be unfolded. */
  lemma ConsSortedBy<T>(h: T, t: seq<T>, le: (T, T) -> bool)
    requires forall i, j :: 0 <= i < j < |t| ==> le(t[i], t[j])
    requires forall j :: 0 <= j < |t| ==> le(h, t[j])
    ensures forall i, j :: 0 <= i < j < |[h] + t| ==> le(([h] + t)[i], ([h] + t)[j])
  {
    var s := [h] + t;
    forall i, j | 0 <= i < j < |s| ensures le(s[i], s[j]) {
      assert s[j] == t[j - 1];
      if i > 0 {
        assert s[i] == t[i - 1];
      }
    }
  }

  /** A stable sort (Rust's `sort`). */
  function Sort(s: seq<Packet>): (r: seq<Packet>)
    ensures multiset(r) == multiset(s) && |r| == |s|
    ensures Sorted(r)
  {
    if |s| == 0 then []
    else
      assert s == [s[0]] + s[1..];
      Insert(s[0], Sort(s[1..]))
  }

  /** `position(|val| val == packet)`: the first structurally equal entry. */
  function Position(s: seq<Packet>, p: Packet): (r: Option<nat>)
    ensures r.None? <==> p !in s
    ensures r.Some? ==> r.value < |s| && s[r.value] == p && p !in s[..r.value]
  {
    if |s| == 0 then None
    else if s[0] == p then Some(0)
    else
      match Position(s[1..], p)
      case None => None
      case Some(i) =>
        assert s[..i + 1] == [s[0]] + s[1..][..i];
        Some(i + 1)
  }

  const Divider1: Packet := List([List([Integer(2)])])
  const Divider2: Packet := List([List([Integer(6)])])

  /** `decoder_key`: both dividers are added, everything is sorted, and the
      1-based positions of the dividers multiply. */
  function DecoderKey(packets: seq<Packet>): (r: nat)
    ensures exists i, j :: 0 <= i < |packets| + 2 && 0 <= j < |packets| + 2
              && Sort(packets + [Divider1, Divider2])[i] == Divider1
              && Sort(packets + [Divider1, Divider2])[j] == Divider2
              && Divider1 !in Sort(packets + [Divider1, Divider2])[..i]
              && Divider2 !in Sort(packets + [Divider1, Divider2])[..j]
              && i < j && r == Key(i, j)
  {
    var all := packets + [Divider1, Divider2];
    var sorted := Sort(all);
    assert all[|packets|] == Divider1;
    assert all[|packets| + 1] == Divider2;
    SortKeeps(all, Divider1);
    SortKeeps(all, Divider2);
    var i := Position(sorted, Divider1).value;
    var j := Position(sorted, Divider2).value;
    DividersOrdered();
    SortedSplit(sorted, j);
    Key(i, j)
  }

  /** The product of two 1-based positions. */
  function Key(i: nat, j: nat): nat
  {
    (i + 1) * (j + 1)
  }

  lemma SortKeeps(s: seq<Packet>, p: Packet)
    requires p in s
    ensures p in Sort(s)
  {
    assert p in multiset(s);
  }

  /** In a sorted sequence, everything strictly below an element sits
      before it and everything strictly above sits after it. */
  lemma SortedSplit(s: seq<Packet>, pos: nat)
    requires Sorted(s) && pos < |s|
    ensures forall j :: 0 <= j < |s| && Cmp(s[j], s[pos]) == Less ==> j < pos
    ensures forall j :: 0 <= j < |s| && Cmp(s[j], s[pos]) == Greater ==> j > pos
  {
    forall j | 0 <= j < |s| && Cmp(s[j], s[pos]) == Less ensures j < pos {
      if j > pos {
        CmpAntisymmetric(s[j], s[pos]);
      } else if j == pos {
        CmpReflexive(s[pos]);
      }
    }
    forall j | 0 <= j < |s| && Cmp(s[j], s[pos]) == Greater ensures j > pos {
      if j == pos {
        CmpReflexive(s[pos]);
      }
    }
  }

  /** The divider packets order before one another: `[[2]]` is less than
      `[[6]]`, so the first key factor is the smaller. */
  lemma DividersOrdered()
    ensures Cmp(Divider1, Divider2) == Less
  {
    var a, b := List([Integer(2)]), List([Integer(6)]);
    assert Cmp(Integer(2), Integer(6)) == Less;
    assert [a][1..] == [] && [Integer(2)][1..] == [];
    assert CmpList([Integer(2)], [Integer(6)]) == Less;
    assert Cmp(a, b) == Less;
    assert CmpList([a], [b]) == Less;
  }
}

=== FILE: day14.dfy ===
/** Regolith reservoir: rock paths are drawn into a cave, then units of sand
    fall from (500, 0) one at a time, each coming to rest below, down-left
    or down-right, until sand flows past the lowest rock (or, with a floor,
    until the source is blocked). */
module RegolithReservoir {
  import opened Common

  type Cell = (int, int)
  type Cave = set<Cell>

  /** The straight-line walk from p towards q by `signum` steps reaches q:
      the two points share a row or a column, or lie on a diagonal. */
  predicate Reachable(p: Cell, q: Cell)
  {
    p.0 == q.0 || p.1 == q.1 || Abs(q.0 - p.0) == Abs(q.1 - p.1)
  }

  function Cheb(p: Cell, q: Cell): nat
  {
    Max(Abs(q.0 - p.0), Abs(q.1 - p.1))
  }

  /** Inside the bounding box of the segment from p to q. */
  predicate InBox(p: Cell, q: Cell, c: Cell)
  {
    Min(p.0, q.0) <= c.0 <= Max(p.0, q.0) && Min(p.1, q.1) <= c.1 <= Max(p.1, q.1)
  }

  /** The inner `loop` of `make_cave`: step towards q, inserting every cell
      reached, until q is inserted (at least one step, even when p == q). */
  function Trace(p: Cell, q: Cell): (r: Cave)
    requires Reachable(p, q)
    ensures q in r
    ensures forall c :: c in r ==> InBox(p, q, c)
    ensures p.0 == q.0 || p.1 == q.1 ==> forall c :: InBox(p, q, c) && c != p ==> c in r
    decreases Cheb(p, q)
  {
    var next := (p.0 + Sign(q.0 - p.0), p.1 + Sign(q.1 - p.1));
    if next == q then {q}
    else
      var rest := Trace(next, q);
      {next} + rest
  }

  /** A horizontal or vertical segment. */
  predicate AxisSegment(p: Cell, q: Cell)
  {
    p.0 == q.0 || p.1 == q.1
  }

  /** Every cell of each horizontal or vertical segment after point `from`
      is in the cave. */
  ghost predicate SegmentsDrawn(path: seq<Cell>, from: nat, cave: Cave)
  {
    forall k, c ::
      (from < k < |path| && AxisSegment(path[k - 1], path[k]) && InBox(path[k - 1], path[k], c)) ==> c in cave
  }

  /** A cell the drawing of a non-empty path may touch: its first point or
      a cell in the bounding box of one of its segments. */
  predicate OnPath(path: seq<Cell>, c: Cell)
  {
    |path| >= 1 && (c == path[0] || exists i :: 0 < i < |path| && InBox(path[i - 1], path[i], c))
  }

  /** One path: its first point, then a trace to each following point.
      An empty path makes the first `unwrap` panic. */
  function DrawPath(path: seq<Cell>): (r: Result<Cave>)
    requires forall i :: 0 < i < |path| ==> Reachable(path[i - 1], path[i])
    ensures r.Ok? <==> |path| >= 1
    ensures r.Ok? ==> Drawn(path, r.value)
    ensures r.Ok? ==> forall c :: c in r.value ==> OnPath(path, c)
  {
    if |path| == 0 then Err("called `Option::unwrap()` on a `None` value")
    else
      var cave := Traces(path, 0, {path[0]});
      assert SegmentsDrawn(path, 0, cave);
      Ok(cave)
  }

  function Traces(path: seq<Cell>, i: nat, cave: Cave): (r: Cave)
    requires i < |path| && path[i] in cave
    requires forall k :: 0 < k < |path| ==> Reachable(path[k - 1], path[k])
    ensures cave <= r
    ensures forall k :: i <= k < |path| ==> path[k] in r
    ensures forall c :: c in r ==> c in cave || exists k :: i < k < |path| && InBox(path[k - 1], path[k], c)
    ensures SegmentsDrawn(path, i, r)
    decreases |path| - i
  {
    if i == |path| - 1 then cave
    else
      var traced := Trace(path[i], path[i + 1]);
      var r := Traces(path, i + 1, cave + traced);
      forall k, c | i < k < |path| && AxisSegment(path[k - 1], path[k]) && InBox(path[k - 1], path[k], c)
        ensures c in r
      {
        assert SegmentsDrawn(path, i + 1, r);
        if k == i + 1 && c != path[i] {
          assert c in traced;
        }
      }
      r
  }

  predicate AllReachable(paths: seq<seq<Cell>>)
  {
    forall j, i :: 0 <= j < |paths| && 0 < i < |paths[j]| ==> Reachable(paths[j][i - 1], paths[j][i])
  }

  /** Every point of the path and every cell of its horizontal and
      vertical segments is in the cave. */
  ghost predicate Drawn(path: seq<Cell>, cave: Cave)
  {
    (forall i :: 0 <= i < |path| ==> path[i] in cave) && SegmentsDrawn(path, 0, cave)
  }

  /** `make_cave`: the union of all the paths; it fails exactly when some
      path is empty. */
  function MakeCave(paths: seq<seq<Cell>>): (r: Result<Cave>)
    requires AllReachable(paths)
    ensures r.Ok? <==> forall j :: 0 <= j < |paths| ==> |paths[j]| >= 1
  {
    if |paths| == 0 then Ok({})
    else
      match DrawPath(paths[0])
      case Err(e) => Err(e)
      case Ok(first) =>
        assert AllReachable(paths[1..]) by {
          assert forall j :: 0 <= j < |paths| - 1 ==> paths[1..][j] == paths[j + 1];
        }
        match MakeCave(paths[1..])
        case Err(e) => Err(e)
        case Ok(rest) => Ok(first + rest)
  }

  /** Every path is drawn in full in the cave `make_cave` builds, and
      nothing is drawn outside the paths' boxes. */
  lemma {:induction false} MakeCaveDrawn(paths: seq<seq<Cell>>)
    requires AllReachable(paths) && MakeCave(paths).Ok?
    ensures forall j :: 0 <= j < |paths| ==> Drawn(paths[j], MakeCave(paths).value)
    ensures forall c :: c in MakeCave(paths).value ==> exists j :: 0 <= j < |paths| && OnPath(paths[j], c)
  {
    if |paths| > 0 {
      var first := DrawPath(paths[0]).value;
      assert AllReachable(paths[1..]) by {
        assert forall j :: 0 <= j < |paths| - 1 ==> paths[1..][j] == paths[j + 1];
      }
      MakeCaveDrawn(paths[1..]);
      var rest := MakeCave(paths[1..]).value;
      assert MakeCave(paths).value == first + rest;
      UnionDrawn(paths, first, rest);
    }
  }

  /** The first path drawn in `first` and the others in `rest` are all drawn
      in the union, which holds nothing outside the paths. */
  lemma UnionDrawn(paths: seq<seq<Cell>>, first: Cave, rest: Cave)
    requires |paths| >= 1 && Drawn(paths[0], first)
    requires forall c :: c in first ==> OnPath(paths[0], c)
    requires forall j :: 0 <= j < |paths| - 1 ==> Drawn(paths[1..][j], rest)
    requires forall c :: c in rest ==> exists j :: 0 <= j < |paths| - 1 && OnPath(paths[1..][j], c)
    ensures forall j :: 0 <= j < |paths| ==> Drawn(paths[j], first + rest)
    ensures forall c :: c in first + rest ==> exists j :: 0 <= j < |paths| && OnPath(paths[j], c)
  {
    forall j | 0 <= j < |paths| ensures Drawn(paths[j], first + rest) {
      if j == 0 {
        DrawnGrows(paths[0], first, first + rest);
      } else {
        assert paths[j] == paths[1..][j - 1];
        DrawnGrows(paths[j], rest, first + rest);
      }
    }
    forall c | c in first + rest ensures exists j :: 0 <= j < |paths| && OnPath(paths[j], c) {
      if c !in first {
        var j :| 0 <= j < |paths| - 1 && OnPath(paths[1..][j], c);
        assert paths[j + 1] == paths[1..][j];
      }
    }
  }

  lemma DrawnGrows(path: seq<Cell>, a: Cave, b: Cave)
    requires Drawn(path, a) && a <= b
    ensures Drawn(path, b)
  {
  }

  // ---------------------------------------------------------------------
  // Falling sand.
  // ---------------------------------------------------------------------

  const Source: Cell := (500, 0)

  /** Where a unit at c moves next: straight down, else down-left, else
      down-right, whichever is free first; nothing when all three are
      taken. */
  function NextCell(cave: Cave, c: Cell): (r: Option<Cell>)
    ensures r.None? <==> (c.0, c.1 + 1) in cave && (c.0 - 1, c.1 + 1) in cave && (c.0 + 1, c.1 + 1) in cave
    ensures r.Some? ==> r.value !in cave && r.value.1 == c.1 + 1 && Abs(r.value.0 - c.0) <= 1
    ensures r.Some? && r.value != (c.0, c.1 + 1) ==> (c.0, c.1 + 1) in cave
    ensures r.Some? && r.value == (c.0 + 1, c.1 + 1) ==> (c.0 - 1, c.1 + 1) in cave
  {
    if (c.0, c.1 + 1) !in cave then Some((c.0, c.1 + 1))
    else if (c.0 - 1, c.1 + 1) !in cave then Some((c.0 - 1, c.1 + 1))
    else if (c.0 + 1, c.1 + 1) !in cave then Some((c.0 + 1, c.1 + 1))
    else None
  }

  /** The cells a unit from the source can reach above the lowest rock:
      it drops one row per move and shifts at most one column. */
  predicate InFan(c: Cell, maxY: int)
  {
    0 <= c.1 <= maxY + 1 && Abs(c.0 - Source.0) <= c.1
  }

  /** The inner `while`: the unit falls until it rests or passes `max_y`.
      The result is the final cell and whether it came to rest. */
  function Fall(cave: Cave, c: Cell, maxY: int): (r: (Cell, bool))
    requires InFan(c, maxY) || (c == Source && maxY < 0)
    ensures r.1 ==> NextCell(cave, r.0).None? && r.0.1 <= maxY
    ensures !r.1 ==> r.0.1 > maxY
    ensures r.0 == c || (r.0 !in cave && InFan(r.0, maxY))
    ensures r.0.1 >= c.1
    decreases maxY + 1 - c.1
  {
    if c.1 > maxY then (c, false)
    else
      match NextCell(cave, c)
      case None => (c, true)
      case Some(n) => Fall(cave, n, maxY)
  }

  /** The box of fan cells, large enough to hold every settled unit. */
  function Fan(maxY: int): (r: set<Cell>)
    ensures forall c :: c in r <==> InFan(c, maxY)
  {
    set x, y | 0 <= y <= maxY + 1 && Source.0 - y <= x <= Source.0 + y :: (x, y)
  }

  /** The `for num_units in 1..` loop from unit `numUnits` on.  The result
      is the answer and the final cave.  Every unit that settles (or, with
      the floor, stops just above it) lands on a free fan cell, so the free
      part of the fan shrinks and the loop ends. */
  function Pour(cave: Cave, maxY: int, withFloor: bool, numUnits: nat): (r: (nat, Cave, bool))
    requires numUnits >= 1
    requires withFloor ==> maxY >= 0
    ensures cave <= r.1
    ensures r.0 >= numUnits - 1
    ensures withFloor ==> r.2
    ensures r.2 ==> |r.1| == |cave| + r.0 - numUnits
    ensures !r.2 ==> |r.1| == |cave| + r.0 - (numUnits - 1)
    ensures forall c :: c in r.1 && c !in cave ==> InFan(c, maxY) && (!withFloor ==> c.1 <= maxY)
    decreases |Fan(maxY) - cave|
  {
    var (c, atRest) := Fall(cave, Source, maxY);
    if atRest && c == Source then (numUnits, cave, true)
    else if withFloor || atRest then
      assert c !in cave && InFan(c, maxY);
      assert Fan(maxY) - (cave + {c}) == (Fan(maxY) - cave) - {c};
      Pour(cave + {c}, maxY, withFloor, numUnits + 1)
    else (numUnits - 1, cave, false)
  }

  function MaxY(cells: seq<Cell>): (r: int)
    requires |cells| >= 1
    ensures forall i :: 0 <= i < |cells| ==> cells[i].1 <= r
    ensures exists i :: 0 <= i < |cells| && cells[i].1 == r
  {
    if |cells| == 1 then cells[0].1
    else
      var rest := MaxY(cells[1..]);
      assert forall i :: 1 <= i < |cells| ==> cells[i] == cells[1..][i - 1];
      Max(cells[0].1, rest)
  }

  /** `num_units_before_flow_out` on a cave listed as `cells`: the lowest
      rock row, then the pouring loop.  An empty cave makes the `max`
      `unwrap` panic. */
  function UnitsBeforeFlowOut(cells: seq<Cell>, withFloor: bool): (r: Result<nat>)
    requires withFloor && |cells| >= 1 ==> MaxY(cells) >= 0
    ensures r.Ok? <==> |cells| >= 1
  {
    if |cells| == 0 then Err("called `Option::unwrap()` on a `None` value")
    else Ok(Pour(set i | 0 <= i < |cells| :: cells[i], MaxY(cells), withFloor, 1).0)
  }

  /** Without a floor, the answer counts the units that settled, all of
      them above the lowest rock, plus the one blocking the source if the
      sand stops there instead of flowing out. */
  lemma SettledUnitsCounted(cave: Cave, maxY: int)
    ensures var r := Pour(cave, maxY, false, 1);
            |r.1 - cave| + (if r.2 then 1 else 0) == r.0 && forall c :: c in r.1 - cave ==> c.1 <= maxY
  {
    var r := Pour(cave, maxY, false, 1);
    assert r.1 == cave + (r.1 - cave);
  }

  /** With a floor, the unit blocking the source is counted but never
      placed, and nothing comes to rest below `max_y + 1`. */
  lemma FloorUnitsCounted(cave: Cave, maxY: int)
    requires maxY >= 0
    ensures var r := Pour(cave, maxY, true, 1);
            |r.1 - cave| + 1 == r.0 && forall c :: c in r.1 - cave ==> c.1 <= maxY + 1
  {
    var r := Pour(cave, maxY, true, 1);
    assert r.1 == cave + (r.1 - cave);
  }
}

=== FILE: day15.dfy ===
/** Beacon exclusion zone: each sensor rules out every cell at least as
    close, in Manhattan distance, as the beacon it reports.  Part 1 counts
    the ruled-out cells of one row through a union of integer ranges;
    part 2 looks for the one cell no sensor covers among the crossings of
    the diagonals just outside the sensors' ranges. */
module BeaconExclusion {
  import opened Common

  datatype Sensor = Sensor(sensorX: int, sensorY: int, beaconX: int, beaconY: int)

  function Dist(x1: int, y1: int, x2: int, y2: int): nat
  {
    Abs(x1 - x2) + Abs(y1 - y2)
  }

  /** The Manhattan distance from the sensor to its beacon. */
  function Radius(s: Sensor): nat
  {
    Dist(s.beaconX, s.beaconY, s.sensorX, s.sensorY)
  }

  predicate InRange(s: Sensor, x: int, y: int)
  {
    Dist(s.sensorX, s.sensorY, x, y) <= Radius(s)
  }

  lemma BeaconInRange(s: Sensor)
    ensures InRange(s, s.beaconX, s.beaconY)
  {
  }

  // ---------------------------------------------------------------------
  // Integer ranges `x_min..=x_max` and their union.
  // ---------------------------------------------------------------------

  type Range = (int, int)

  predicate InRanges(rs: seq<Range>, x: int)
  {
    exists r :: r in rs && r.0 <= x <= r.1
  }

  predicate WellFormed(rs: seq<Range>)
  {
    forall i :: 0 <= i < |rs| ==> rs[i].0 <= rs[i].1
  }

  /** Each range starts more than one past the end of the previous one, so
      no two overlap or touch. */
  predicate Separated(rs: seq<Range>)
  {
    forall i :: 0 < i < |rs| ==> rs[i - 1].1 + 1 < rs[i].0
  }

  predicate SortedByStart(rs: seq<Range>)
  {
    forall i, j :: 0 <= i < j < |rs| ==> rs[i].0 <= rs[j].0
  }

  function RangeKey(r: Range): seq<int>
  {
    [r.0, r.1]
  }

  lemma KeyOrderStart(p: Range, q: Range)
    requires LexLe(RangeKey(p), RangeKey(q))
    ensures p.0 <= q.0
  {
    assert RangeKey(p)[1..] == [p.1];
  }

  /** Rust's tuple sort: by start, then by end. */
  function SortRanges(rs: seq<Range>): (r: seq<Range>)
    ensures multiset(r) == multiset(rs) && |r| == |rs|
    ensures SortedByStart(r)
    ensures forall p :: p in r <==> p in rs
  {
    var r := SortBy(rs, RangeKey);
    assert |r| == |rs| by {
      assert |multiset(r)| == |multiset(rs)|;
    }
    forall i, j | 0 <= i < j < |r| ensures r[i].0 <= r[j].0 {
      KeyOrderStart(r[i], r[j]);
    }
    forall p ensures p in r <==> p in rs {
      assert p in r <==> p in multiset(r);
      assert p in rs <==> p in multiset(rs);
    }
    r
  }

  /** The merging loop: `done` holds the finished ranges, `(lo, hi)` the one
      being grown, `rest` what is still to come in start order. */
  function Merge(rest: seq<Range>, lo: int, hi: int, done: seq<Range>): (r: seq<Range>)
    requires WellFormed(rest) && SortedByStart(rest) && lo <= hi
    requires forall i :: 0 <= i < |rest| ==> lo <= rest[i].0
    requires WellFormed(done) && Separated(done)
    requires |done| > 0 ==> done[|done| - 1].1 + 1 < lo
    ensures WellFormed(r) && Separated(r) && |r| >= 1
    ensures forall x :: InRanges(r, x) <==> InRanges(done, x) || lo <= x <= hi || InRanges(rest, x)
    decreases |rest|
  {
    if |rest| == 0 then
      var r := done + [(lo, hi)];
      forall x ensures InRanges(r, x) <==> InRanges(done, x) || lo <= x <= hi {
        if lo <= x <= hi {
          assert (lo, hi) in r;
        }
      }
      r
    else
      var (a, b) := rest[0];
      var r := if a > hi + 1 then Merge(rest[1..], a, b, done + [(lo, hi)])
               else Merge(rest[1..], lo, Max(hi, b), done);
      forall x ensures InRanges(r, x) <==> InRanges(done, x) || lo <= x <= hi || InRanges(rest, x) {
        RangesCons(rest, x);
        RangesSnoc(done, (lo, hi), x);
      }
      r
  }

  lemma RangesCons(rs: seq<Range>, x: int)
    requires |rs| > 0
    ensures InRanges(rs, x) <==> (rs[0].0 <= x <= rs[0].1) || InRanges(rs[1..], x)
  {
    if InRanges(rs, x) {
      var r :| r in rs && r.0 <= x <= r.1;
      if r != rs[0] {
        assert r in rs[1..];
      }
    }
    if InRanges(rs[1..], x) {
      var r :| r in rs[1..] && r.0 <= x <= r.1;
      assert r in rs;
    }
  }

  lemma RangesSnoc(rs: seq<Range>, last: Range, x: int)
    ensures InRanges(rs + [last], x) <==> InRanges(rs, x) || (last.0 <= x <= last.1)
  {
    if InRanges(rs + [last], x) {
      var r :| r in rs + [last] && r.0 <= x <= r.1;
    }
    if InRanges(rs, x) {
      var r :| r in rs && r.0 <= x <= r.1;
      assert r in rs + [last];
    }
    assert last in rs + [last];
  }

  /** `range_union`: sort, then merge overlapping or adjacent ranges.  The
      first range seeds the loop, so an empty input makes the indexing
      panic. */
  function RangeUnion(ranges: seq<Range>): (r: Result<seq<Range>>)
    requires WellFormed(ranges)
    ensures r.Ok? <==> |ranges| >= 1
    ensures r.Ok? ==> WellFormed(r.value) && Separated(r.value) && |r.value| >= 1
    ensures r.Ok? ==> forall x :: InRanges(r.value, x) <==> InRanges(ranges, x)
  {
    if |ranges| == 0 then Err("index out of bounds")
    else
      var sorted := SortRanges(ranges);
      SameRanges(ranges, sorted);
      var r := Merge(sorted[1..], sorted[0].0, sorted[0].1, []);
      MergedCover(sorted, r);
      Ok(r)
  }

  /** Two lists holding the same ranges are equally well formed and cover
      the same integers. */
  lemma SameRanges(a: seq<Range>, b: seq<Range>)
    requires WellFormed(a) && forall p :: p in b <==> p in a
    ensures WellFormed(b) && forall x :: InRanges(b, x) <==> InRanges(a, x)
  {
    forall i | 0 <= i < |b| ensures b[i].0 <= b[i].1 {
      assert b[i] in a;
    }
    forall x ensures InRanges(b, x) <==> InRanges(a, x) {
      if InRanges(a, x) {
        var p :| p in a && p.0 <= x <= p.1;
        assert p in b;
      }
      if InRanges(b, x) {
        var p :| p in b && p.0 <= x <= p.1;
        assert p in a;
      }
    }
  }

  /** Merging the tail with the head as the first range being grown covers
      what the whole list covers. */
  lemma MergedCover(sorted: seq<Range>, r: seq<Range>)
    requires |sorted| >= 1
    requires forall x :: InRanges(r, x) <==> InRanges([], x) || sorted[0].0 <= x <= sorted[0].1 || InRanges(sorted[1..], x)
    ensures forall x :: InRanges(r, x) <==> InRanges(sorted, x)
  {
    forall x ensures InRanges(r, x) <==> InRanges(sorted, x) {
      RangesCons(sorted, x);
    }
  }

  // ---------------------------------------------------------------------
  // Counting the integers in separated ranges.
  // ---------------------------------------------------------------------

  function Interval(lo: int, hi: int): (r: set<int>)
    ensures forall x :: x in r <==> lo <= x <= hi
    decreases hi - lo
  {
    if lo > hi then {} else {lo} + Interval(lo + 1, hi)
  }

  lemma {:induction false} IntervalSize(lo: int, hi: int)
    requires lo <= hi + 1
    ensures |Interval(lo, hi)| == hi - lo + 1
    decreases hi - lo
  {
    if lo <= hi {
      IntervalSize(lo + 1, hi);
      assert lo !in Interval(lo + 1, hi);
    }
  }

  /** All integers covered by the ranges. */
  function Cover(rs: seq<Range>): (r: set<int>)
    ensures forall x :: x in r <==> InRanges(rs, x)
  {
    if |rs| == 0 then {}
    else
      var r := Interval(rs[0].0, rs[0].1) + Cover(rs[1..]);
      forall x ensures x in r <==> InRanges(rs, x) {
        RangesCons(rs, x);
      }
      r
  }

  /** The widths summed by `count_impossible_locations_in_row` (the
      `width > 0` filter drops nothing from well-formed ranges). */
  function Widths(rs: seq<Range>): int
  {
    if |rs| == 0 then 0
    else
      var w := rs[0].1 - rs[0].0 + 1;
      (if w > 0 then w else 0) + Widths(rs[1..])
  }

  lemma SeparatedStarts(rs: seq<Range>)
    requires WellFormed(rs) && Separated(rs)
    ensures forall i, j :: 0 <= i < j < |rs| ==> rs[i].1 + 1 < rs[j].0
  {
    forall i, j | 0 <= i < j < |rs| ensures rs[i].1 + 1 < rs[j].0 {
      SeparatedFrom(rs, i, j);
    }
  }

  lemma {:induction false} SeparatedFrom(rs: seq<Range>, i: nat, j: nat)
    requires WellFormed(rs) && Separated(rs) && i < j < |rs|
    ensures rs[i].1 + 1 < rs[j].0
    decreases j - i
  {
    if j > i + 1 {
      SeparatedFrom(rs, i, j - 1);
    }
  }

  lemma TailSeparated(rs: seq<Range>)
    requires WellFormed(rs) && Separated(rs) && |rs| > 0
    ensures WellFormed(rs[1..]) && Separated(rs[1..])
  {
    assert forall i :: 0 <= i < |rs| - 1 ==> rs[1..][i] == rs[i + 1];
  }

  /** The first range shares no integer with the later ones. */
  lemma FirstApart(rs: seq<Range>)
    requires WellFormed(rs) && Separated(rs) && |rs| > 0
    ensures Interval(rs[0].0, rs[0].1) * Cover(rs[1..]) == {}
  {
    SeparatedStarts(rs);
    forall x | x in Cover(rs[1..]) ensures x !in Interval(rs[0].0, rs[0].1) {
      var r :| r in rs[1..] && r.0 <= x <= r.1;
      var k :| 0 <= k < |rs[1..]| && rs[1..][k] == r;
      assert rs[0].1 + 1 < rs[k + 1].0;
    }
  }

  /** Separated ranges count every covered integer exactly once. */
  lemma {:induction false} WidthsCount(rs: seq<Range>)
    requires WellFormed(rs) && Separated(rs)
    ensures Widths(rs) == |Cover(rs)|
  {
    if |rs| > 0 {
      TailSeparated(rs);
      WidthsCount(rs[1..]);
      IntervalSize(rs[0].0, rs[0].1);
      FirstApart(rs);
    }
  }

  /** A union with the same coverage as the ranges it came from counts
      their covered integers. */
  lemma UnionCount(ranges: seq<Range>, union: seq<Range>)
    requires WellFormed(union) && Separated(union)
    requires forall x :: InRanges(union, x) <==> InRanges(ranges, x)
    ensures Widths(union) == |Cover(ranges)|
  {
    WidthsCount(union);
    SameCover(union, ranges);
  }

  lemma SameCover(a: seq<Range>, b: seq<Range>)
    requires forall x :: InRanges(a, x) <==> InRanges(b, x)
    ensures Cover(a) == Cover(b)
  {
    var ca, cb := Cover(a), Cover(b);
    forall x ensures x in ca <==> x in cb {
      assert x in ca <==> InRanges(a, x);
      assert x in cb <==> InRanges(b, x);
    }
  }

  // ---------------------------------------------------------------------
  // Part 1.
  // ---------------------------------------------------------------------

  /** The cells of row y a sensor rules out, as a range: every x within its
      radius, except its own beacon, which always sits at one end.  The
      range is empty (start past end) when the row is out of reach. */
  function RowRange(s: Sensor, y: int): (r: Range)
    ensures forall x :: r.0 <= x <= r.1 <==> InRange(s, x, y) && !(s.beaconY == y && s.beaconX == x)
  {
    var width := Radius(s) - Abs(s.sensorY - y);
    var (minX, maxX) := (s.sensorX - width, s.sensorX + width);
    if s.beaconY == y then
      if s.beaconX == minX then (minX + 1, maxX) else (minX, maxX - 1)
    else (minX, maxX)
  }

  function RowRanges(sensors: seq<Sensor>, y: int): (r: seq<Range>)
    ensures WellFormed(r)
    ensures forall x :: InRanges(r, x) <==> exists i :: 0 <= i < |sensors| && RowCovers(sensors[i], x, y)
  {
    if |sensors| == 0 then []
    else
      var range := RowRange(sensors[0], y);
      var rest := RowRanges(sensors[1..], y);
      var r := if range.0 <= range.1 then [range] + rest else rest;
      forall x ensures InRanges(r, x) <==> exists i :: 0 <= i < |sensors| && RowCovers(sensors[i], x, y) {
        if range.0 <= range.1 {
          RangesCons(r, x);
          assert r[1..] == rest;
        }
        if exists i :: 0 <= i < |sensors| && RowCovers(sensors[i], x, y) {
          var i :| 0 <= i < |sensors| && RowCovers(sensors[i], x, y);
          if i > 0 {
            assert sensors[1..][i - 1] == sensors[i];
          }
        }
        if exists i :: 0 <= i < |sensors[1..]| && RowCovers(sensors[1..][i], x, y) {
          var i :| 0 <= i < |sensors[1..]| && RowCovers(sensors[1..][i], x, y);
          assert sensors[i + 1] == sensors[1..][i];
        }
      }
      r
  }

  /** A cell ruled out by a sensor: in its range and not its beacon. */
  predicate RowCovers(s: Sensor, x: int, y: int)
  {
    InRange(s, x, y) && !(s.beaconY == y && s.beaconX == x)
  }

  /** `count_impossible_locations_in_row`: the number of cells of row y
      that some sensor rules out.  When no sensor reaches the row the
      union of no ranges panics. */
  function CountImpossible(sensors: seq<Sensor>, y: int): (r: Result<int>)
    ensures r.Ok? <==> exists i :: 0 <= i < |sensors| && RowRange(sensors[i], y).0 <= RowRange(sensors[i], y).1
    ensures r.Ok? ==> r.value == |Cover(RowRanges(sensors, y))|
    ensures r.Ok? ==> forall x :: x in Cover(RowRanges(sensors, y)) <==>
              exists i :: 0 <= i < |sensors| && RowCovers(sensors[i], x, y)
  {
    var ranges := RowRanges(sensors, y);
    NonEmptyRanges(sensors, y);
    match RangeUnion(ranges)
    case Err(e) => Err(e)
    case Ok(union) =>
      UnionCount(ranges, union);
      Ok(Widths(union))
  }

  lemma {:induction false} NonEmptyRanges(sensors: seq<Sensor>, y: int)
    ensures |RowRanges(sensors, y)| >= 1 <==>
            exists i :: 0 <= i < |sensors| && RowRange(sensors[i], y).0 <= RowRange(sensors[i], y).1
  {
    if |sensors| > 0 {
      NonEmptyRanges(sensors[1..], y);
      if exists i :: 0 <= i < |sensors| && RowRange(sensors[i], y).0 <= RowRange(sensors[i], y).1 {
        var i :| 0 <= i < |sensors| && RowRange(sensors[i], y).0 <= RowRange(sensors[i], y).1;
        if i > 0 {
          assert sensors[1..][i - 1] == sensors[i];
        }
      }
      if exists i :: 0 <= i < |sensors[1..]| && RowRange(sensors[1..][i], y).0 <= RowRange(sensors[1..][i], y).1 {
        var i :| 0 <= i < |sensors[1..]| && RowRange(sensors[1..][i], y).0 <= RowRange(sensors[1..][i], y).1;
        assert sensors[i + 1] == sensors[1..][i];
      }
    }
  }

  // ---------------------------------------------------------------------
  // Part 2.
  // ---------------------------------------------------------------------

  /** The offsets of the four diagonals just outside a sensor's range:
      x + y = sensorX + sensorY - (r + 1) on the south-west side, y - x =
      sensorY - sensorX - (r + 1) on the north-west side, and the same with + (r + 1)
      for north-east and south-east. */
  function SwOffsets(sensors: seq<Sensor>): set<int>
  {
    set s | s in sensors :: s.sensorY + s.sensorX - (Radius(s) + 1)
  }

  function NwOffsets(sensors: seq<Sensor>): set<int>
  {
    set s | s in sensors :: s.sensorY - s.sensorX - (Radius(s) + 1)
  }

  function NeOffsets(sensors: seq<Sensor>): set<int>
  {
    set s | s in sensors :: s.sensorY + s.sensorX + (Radius(s) + 1)
  }

  function SeOffsets(sensors: seq<Sensor>): set<int>
  {
    set s | s in sensors :: s.sensorY - s.sensorX + (Radius(s) + 1)
  }

  predicate OutOfAllRanges(sensors: seq<Sensor>, x: int, y: int)
  {
    forall i :: 0 <= i < |sensors| ==> !InRange(sensors[i], x, y)
  }

  /** The crossing of the line x + y = a with the line y - x = b, when the
      two offsets have the same parity. */
  function Crossing(a: int, b: int): (r: (int, int))
    requires (a - b) % 2 == 0
    ensures r.0 + r.1 == a && r.1 - r.0 == b
  {
    var x := (a - b) / 2;
    (x, x + b)
  }

  /** The crossings of a line x + y = a with a line y - x = b, over the
      offset pairs of the same parity. */
  function Crossings(sums: set<int>, diffs: set<int>): set<(int, int)>
  {
    set a, b | a in sums && b in diffs && (a - b) % 2 == 0 :: Crossing(a, b)
  }

  lemma CrossingIn(sums: set<int>, diffs: set<int>, x: int, y: int)
    requires x + y in sums && y - x in diffs
    ensures (x, y) in Crossings(sums, diffs)
  {
    var a, b := x + y, y - x;
    assert a - b == 2 * x;
    assert Crossing(a, b) == (x, y);
  }

  /** The crossings of diagonals that border sensor ranges on both sides
      and that no sensor covers. */
  function Candidates(sensors: seq<Sensor>): (r: set<(int, int)>)
    ensures forall p :: p in r ==> OutOfAllRanges(sensors, p.0, p.1)
                                   && p.0 + p.1 in SwOffsets(sensors) * NeOffsets(sensors)
                                   && p.1 - p.0 in NwOffsets(sensors) * SeOffsets(sensors)
  {
    var crossings := Crossings(SwOffsets(sensors) * NeOffsets(sensors), NwOffsets(sensors) * SeOffsets(sensors));
    set p | p in crossings && OutOfAllRanges(sensors, p.0, p.1)
  }

  /** Every crossing of such diagonals that no sensor covers is a
      candidate, so the search misses no point it is meant to look at. */
  lemma CandidatesComplete(sensors: seq<Sensor>, x: int, y: int)
    requires x + y in SwOffsets(sensors) * NeOffsets(sensors)
    requires y - x in NwOffsets(sensors) * SeOffsets(sensors)
    requires OutOfAllRanges(sensors, x, y)
    ensures (x, y) in Candidates(sensors)
  {
    CrossingIn(SwOffsets(sensors) * NeOffsets(sensors), NwOffsets(sensors) * SeOffsets(sensors), x, y);
  }

  /** The south-west diagonal is the edge just outside the range: a point
      on it, south-west of the sensor, is one step too far away. */
  lemma SouthWestJustOutside(s: Sensor, x: int, y: int)
    requires x + y == s.sensorY + s.sensorX - (Radius(s) + 1)
    requires x <= s.sensorX && y <= s.sensorY
    ensures Dist(s.sensorX, s.sensorY, x, y) == Radius(s) + 1
    ensures !InRange(s, x, y)
  {
  }

  const TuningScale: int := 4_000_000

  /** `find_tuning_frequency`: `exactly_one` panics unless a single
      candidate remains; its frequency is x * 4000000 + y. */
  function TuningFrequency(sensors: seq<Sensor>): (r: Result<int>)
    ensures r.Ok? <==> |Candidates(sensors)| == 1
    ensures r.Ok? ==> exists x, y :: (x, y) in Candidates(sensors) && r.value == x * TuningScale + y
                                     && OutOfAllRanges(sensors, x, y)
  {
    Frequency(Candidates(sensors))
  }

  /** `exactly_one` on the candidates, then the frequency of the one left. */
  function Frequency(cands: set<(int, int)>): (r: Result<int>)
    ensures r.Ok? <==> |cands| == 1
    ensures r.Ok? ==> exists x, y :: (x, y) in cands && r.value == x * TuningScale + y
  {
    if |cands| != 1 then Err("called `Result::unwrap()` on an `Err` value")
    else
      var p := TheElement(cands);
      assert (p.0, p.1) in cands;
      Ok(p.0 * TuningScale + p.1)
  }
}

=== FILE: day16.dfy ===
/** Proboscidea volcanium: one or two actors walk between valves and open
    them to release pressure before time runs out.  A depth-first
    branch-and-bound search moves the actor with the most time left to each
    worthwhile closed valve in turn, prunes a branch whose optimistic bound
    cannot beat the best result so far, and undoes every move on the way
    back. */
module ValvePressure {
  import opened Common
  import opened ValveDistances

  /** The mutable part of the search: which valves are open, and where each
      actor stands with how much time left at its next decision. */
  datatype State = State(open: seq<bool>, locations: seq<nat>, times: seq<int>)

  predicate Valid(flows: seq<int>, dist: Matrix, s: State)
  {
    Square(dist, |flows|) && |s.open| == |flows|
    && |s.locations| == |s.times| >= 1
    && forall a :: 0 <= a < |s.locations| ==> s.locations[a] < |flows|
  }

  /** What the search needs from the distances: no negative entry and the
      triangle inequality, as `find_all_distances` delivers. */
  predicate Metric(dist: Matrix, n: nat)
  {
    Square(dist, n)
    && (forall i, j :: 0 <= i < n && 0 <= j < n ==> dist[i][j] >= 0)
    && forall i, v, j :: 0 <= i < n && 0 <= v < n && 0 <= j < n ==> dist[i][j] <= dist[i][v] + dist[v][j]
  }

  // ---------------------------------------------------------------------
  // Who moves, and where to.
  // ---------------------------------------------------------------------

  /** The actor with the largest `(time, index)` pair: the most time left,
      and on a tie the higher index. */
  function ActorIndex(times: seq<int>): (a: nat)
    requires |times| >= 1
    ensures a < |times|
    ensures forall b :: 0 <= b < |times| ==> times[b] <= times[a]
    ensures forall b :: a < b < |times| ==> times[b] < times[a]
  {
    if |times| == 1 then 0
    else
      var a := ActorIndex(times[..|times| - 1]);
      if times[|times| - 1] >= times[a] then |times| - 1 else a
  }

  /** A move: the pressure it releases, the distance walked, and the valve. */
  type Candidate = (int, int, nat)

  /** Pressure a valve releases once opened, after walking there and
      spending a minute opening it. */
  function Gain(timeLeft: int, distance: int, flow: int): int
  {
    (timeLeft - distance - 1) * flow
  }

  lemma GainPositive(timeLeft: int, distance: int, flow: int)
    requires timeLeft > distance + 1 && flow > 0
    ensures Gain(timeLeft, distance, flow) > 0
  {
    MulMono(1, timeLeft - distance - 1, flow);
  }

  /** A worthwhile move for an actor at `loc` with `timeLeft`: a closed valve
      with positive flow that can be reached and opened in time. */
  predicate IsCandidate(flows: seq<int>, dist: Matrix, open: seq<bool>, loc: nat, timeLeft: int, c: Candidate)
    requires Square(dist, |flows|) && |open| == |flows| && loc < |flows|
  {
    c.2 < |flows| && flows[c.2] > 0 && !open[c.2] && c.1 == dist[loc][c.2]
    && timeLeft > c.1 + 1 && c.0 == Gain(timeLeft, c.1, flows[c.2])
  }

  function CandidatesFrom(flows: seq<int>, dist: Matrix, open: seq<bool>, loc: nat, timeLeft: int, v: nat): (r: seq<Candidate>)
    requires Square(dist, |flows|) && |open| == |flows| && loc < |flows| && v <= |flows|
    ensures forall c :: c in r <==> IsCandidate(flows, dist, open, loc, timeLeft, c) && v <= c.2
    decreases |flows| - v
  {
    if v == |flows| then []
    else
      var d := dist[loc][v];
      var keep := flows[v] > 0 && !open[v] && timeLeft > d + 1;
      (if keep then [(Gain(timeLeft, d, flows[v]), d, v)] else []) + CandidatesFrom(flows, dist, open, loc, timeLeft, v + 1)
  }

  function CandidateKey(c: Candidate): seq<int>
  {
    [c.0, c.1, c.2]
  }

  lemma KeyOrderGain(c: Candidate, d: Candidate)
    requires LexLe(CandidateKey(c), CandidateKey(d))
    ensures c.0 <= d.0
  {
  }

  /** `sorted().rev()`: a permutation in non-increasing key order. */
  function SortedReversed(s: seq<Candidate>): (r: seq<Candidate>)
    ensures forall c :: c in r <==> c in s
    ensures forall i, j :: 0 <= i < j < |r| ==> LexLe(CandidateKey(r[j]), CandidateKey(r[i]))
  {
    var up := SortBy(s, CandidateKey);
    var r := Reverse(up);
    ReverseMultiset(up);
    forall c ensures c in r <==> c in s {
      assert c in r <==> c in multiset(r);
      assert c in s <==> c in multiset(s);
    }
    forall i, j | 0 <= i < j < |r| ensures LexLe(CandidateKey(r[j]), CandidateKey(r[i])) {
      assert LexLe(CandidateKey(up[|up| - 1 - j]), CandidateKey(up[|up| - 1 - i]));
    }
    r
  }

  /** `prioritized_valves`: every worthwhile move, sorted and reversed, so
      the largest gain comes first (ties broken by distance, then valve,
      both descending). */
  function Prioritized(flows: seq<int>, dist: Matrix, open: seq<bool>, loc: nat, timeLeft: int): (r: seq<Candidate>)
    requires Square(dist, |flows|) && |open| == |flows| && loc < |flows|
    ensures forall c :: c in r <==> IsCandidate(flows, dist, open, loc, timeLeft, c)
    ensures forall i, j :: 0 <= i < j < |r| ==> LexLe(CandidateKey(r[j]), CandidateKey(r[i]))
    ensures forall i, j :: 0 <= i < j < |r| ==> r[j].0 <= r[i].0
  {
    var r := SortedReversed(CandidatesFrom(flows, dist, open, loc, timeLeft, 0));
    forall i, j | 0 <= i < j < |r| ensures r[j].0 <= r[i].0 {
      KeyOrderGain(r[j], r[i]);
    }
    r
  }

  /** The moves open to the actor that decides next. */
  function Choices(flows: seq<int>, dist: Matrix, s: State): (r: seq<Candidate>)
    requires Valid(flows, dist, s)
  {
    var a := ActorIndex(s.times);
    Prioritized(flows, dist, s.open, s.locations[a], s.times[a])
  }

  // ---------------------------------------------------------------------
  // The optimistic bound.
  // ---------------------------------------------------------------------

  /** What actor a could release from valve v if it went straight there. */
  function ActorValue(flows: seq<int>, dist: Matrix, s: State, a: nat, v: nat): int
    requires Valid(flows, dist, s) && a < |s.times| && v < |flows|
  {
    Max(0, s.times[a] - dist[s.locations[a]][v] - 1) * flows[v]
  }

  /** The best of the first m actors for valve v, 0 when there are none
      (`unwrap_or(0)`). */
  function BestActor(flows: seq<int>, dist: Matrix, s: State, v: nat, m: nat): (r: int)
    requires Valid(flows, dist, s) && v < |flows| && m <= |s.times|
    ensures r >= 0
    ensures forall a :: 0 <= a < m ==> ActorValue(flows, dist, s, a, v) <= r
  {
    if m == 0 then 0 else Max(BestActor(flows, dist, s, v, m - 1), ActorValue(flows, dist, s, a := m - 1, v := v))
  }

  /** Valve v's share of the bound: nothing once open or without flow. */
  function ValveBound(flows: seq<int>, dist: Matrix, s: State, v: nat): (r: int)
    requires Valid(flows, dist, s) && v < |flows|
    ensures r >= 0
  {
    if flows[v] > 0 && !s.open[v] then BestActor(flows, dist, s, v, |s.times|) else 0
  }

  function BoundSum(flows: seq<int>, dist: Matrix, s: State, v: nat): (r: int)
    requires Valid(flows, dist, s) && v <= |flows|
    ensures r >= 0
    decreases |flows| - v
  {
    if v == |flows| then 0 else ValveBound(flows, dist, s, v) + BoundSum(flows, dist, s, v + 1)
  }

  /** `upper_bound`: the pressure so far plus, for every closed valve, the
      best any actor could get from it alone. */
  function UpperBound(flows: seq<int>, dist: Matrix, s: State, pressure: int): int
    requires Valid(flows, dist, s)
  {
    pressure + BoundSum(flows, dist, s, 0)
  }

  lemma {:induction false} BoundSumCovers(flows: seq<int>, dist: Matrix, s: State, v: nat, u: nat)
    requires Valid(flows, dist, s) && v <= u < |flows|
    ensures ValveBound(flows, dist, s, u) <= BoundSum(flows, dist, s, v)
    decreases u - v
  {
    if v < u {
      BoundSumCovers(flows, dist, s, v + 1, u);
    }
  }

  /** The bound is never below what a single move of any actor gains. */
  lemma BoundCoversMove(flows: seq<int>, dist: Matrix, s: State, a: nat, c: Candidate, pressure: int)
    requires Valid(flows, dist, s) && a < |s.times|
    requires IsCandidate(flows, dist, s.open, s.locations[a], s.times[a], c)
    ensures pressure + c.0 <= UpperBound(flows, dist, s, pressure)
  {
    assert ActorValue(flows, dist, s, a, c.2) == c.0;
    BoundSumCovers(flows, dist, s, 0, c.2);
  }

  // ---------------------------------------------------------------------
  // Moves and their bound.
  // ---------------------------------------------------------------------

  /** The state after actor a makes move c: the valve is open, the actor
      stands there, and its clock has run down by the walk and a minute. */
  function Move(s: State, a: nat, c: Candidate): State
    requires a < |s.times| && a < |s.locations| && c.2 < |s.open|
  {
    State(s.open[c.2 := true], s.locations[a := c.2], s.times[a := s.times[a] - c.1 - 1])
  }

  /** The state after undoing the move: the saved flag, place and time. */
  function Undo(s: State, a: nat, c: Candidate, loc: nat, timeLeft: int): State
    requires a < |s.times| && a < |s.locations| && c.2 < |s.open|
  {
    State(s.open[c.2 := false], s.locations[a := loc], s.times[a := timeLeft])
  }

  /** Undoing a move from the saved flag, place and time gives back the
      state before it. */
  lemma UndoMove(s: State, a: nat, c: Candidate)
    requires a < |s.times| && a < |s.locations| && c.2 < |s.open| && !s.open[c.2]
    ensures Undo(Move(s, a, c), a, c, s.locations[a], s.times[a]) == s
  {
    var u := Undo(Move(s, a, c), a, c, s.locations[a], s.times[a]);
    assert u.open == s.open && u.locations == s.locations && u.times == s.times;
  }

  lemma MulMono(x: int, y: int, f: int)
    requires x <= y && f >= 0
    ensures x * f <= y * f
  {
    assert y * f - x * f == (y - x) * f;
  }

  /** After a move, no actor can get more from a valve other than the one
      just opened: the mover starts later from a place no closer than the
      triangle inequality allows. */
  lemma MoveActorValue(flows: seq<int>, dist: Matrix, s: State, a: nat, c: Candidate, b: nat, v: nat)
    requires Valid(flows, dist, s) && Metric(dist, |flows|) && a < |s.times| && b < |s.times| && v < |flows|
    requires IsCandidate(flows, dist, s.open, s.locations[a], s.times[a], c)
    requires flows[v] > 0
    ensures Valid(flows, dist, Move(s, a, c))
    ensures ActorValue(flows, dist, Move(s, a, c), b, v) <= ActorValue(flows, dist, s, b, v)
  {
    var t := Move(s, a, c);
    if b == a {
      var loc := s.locations[a];
      assert dist[loc][v] <= dist[loc][c.2] + dist[c.2][v];
      MulMono(Max(0, t.times[a] - dist[c.2][v] - 1), Max(0, s.times[a] - dist[loc][v] - 1), flows[v]);
    }
  }

  lemma {:induction false} MoveBestActor(flows: seq<int>, dist: Matrix, s: State, a: nat, c: Candidate, v: nat, m: nat)
    requires Valid(flows, dist, s) && Metric(dist, |flows|) && a < |s.times| && v < |flows| && m <= |s.times|
    requires IsCandidate(flows, dist, s.open, s.locations[a], s.times[a], c)
    requires flows[v] > 0
    ensures Valid(flows, dist, Move(s, a, c))
    ensures BestActor(flows, dist, Move(s, a, c), v, m) <= BestActor(flows, dist, s, v, m)
  {
    if m > 0 {
      MoveBestActor(flows, dist, s, a, c, v, m - 1);
      MoveActorValue(flows, dist, s, a, c, m - 1, v);
    }
  }

  lemma MoveValveBound(flows: seq<int>, dist: Matrix, s: State, a: nat, c: Candidate, v: nat)
    requires Valid(flows, dist, s) && Metric(dist, |flows|) && a < |s.times| && v < |flows|
    requires IsCandidate(flows, dist, s.open, s.locations[a], s.times[a], c)
    ensures Valid(flows, dist, Move(s, a, c))
    ensures v != c.2 ==> ValveBound(flows, dist, Move(s, a, c), v) <= ValveBound(flows, dist, s, v)
    ensures v == c.2 ==> ValveBound(flows, dist, Move(s, a, c), v) + c.0 <= ValveBound(flows, dist, s, v)
  {
    var t := Move(s, a, c);
    if v == c.2 {
      assert ActorValue(flows, dist, s, a, v) == c.0;
    } else if flows[v] > 0 {
      MoveBestActor(flows, dist, s, a, c, v, |s.times|);
    }
  }

  lemma {:induction false} MoveBoundSum(flows: seq<int>, dist: Matrix, s: State, a: nat, c: Candidate, v: nat)
    requires Valid(flows, dist, s) && Metric(dist, |flows|) && a < |s.times| && v <= |flows|
    requires IsCandidate(flows, dist, s.open, s.locations[a], s.times[a], c)
    ensures Valid(flows, dist, Move(s, a, c))
    ensures BoundSum(flows, dist, Move(s, a, c), v) + (if v <= c.2 then c.0 else 0) <= BoundSum(flows, dist, s, v)
    decreases |flows| - v
  {
    if v < |flows| {
      MoveBoundSum(flows, dist, s, a, c, v + 1);
      MoveValveBound(flows, dist, s, a, c, v);
    }
  }

  /** The bound is admissible along a move: what the move gains is paid
      for by the bound's share of the valve it opens. */
  lemma MoveBound(flows: seq<int>, dist: Matrix, s: State, a: nat, c: Candidate, pressure: int)
    requires Valid(flows, dist, s) && Metric(dist, |flows|) && a < |s.times|
    requires IsCandidate(flows, dist, s.open, s.locations[a], s.times[a], c)
    ensures Valid(flows, dist, Move(s, a, c))
    ensures UpperBound(flows, dist, Move(s, a, c), pressure + c.0) <= UpperBound(flows, dist, s, pressure)
  {
    MoveBoundSum(flows, dist, s, a, c, 0);
  }

  lemma MoveBoundWhenMetric(flows: seq<int>, dist: Matrix, s: State, a: nat, c: Candidate, pressure: int)
    requires Valid(flows, dist, s) && a < |s.times|
    requires IsCandidate(flows, dist, s.open, s.locations[a], s.times[a], c)
    ensures Metric(dist, |flows|) ==>
              UpperBound(flows, dist, Move(s, a, c), pressure + c.0) <= UpperBound(flows, dist, s, pressure)
  {
    if Metric(dist, |flows|) {
      MoveBound(flows, dist, s, a, c, pressure);
    }
  }

  // ---------------------------------------------------------------------
  // The search.
  // ---------------------------------------------------------------------

  /** The closed valves with flow: each move opens one, so the search ends. */
  function ClosedWithFlow(flows: seq<int>, open: seq<bool>): set<nat>
  {
    set v: nat | v < |flows| && v < |open| && flows[v] > 0 && !open[v]
  }

  lemma MoveShrinksClosed(flows: seq<int>, open: seq<bool>, v: nat)
    requires |open| == |flows| && v < |flows| && flows[v] > 0 && !open[v]
    ensures |ClosedWithFlow(flows, open[v := true])| < |ClosedWithFlow(flows, open)|
  {
    assert ClosedWithFlow(flows, open[v := true]) == ClosedWithFlow(flows, open) - {v};
  }

  /** `max_pressure_release`: the best pressure reachable from `s` having
      released `pressure` so far, with `best` the best result found
      elsewhere.  The state comes back as it went in. */
  function Search(flows: seq<int>, dist: Matrix, pressure: int, best: int, s: State): (r: (int, State))
    requires Valid(flows, dist, s)
    ensures r.1 == s
    ensures r.0 >= pressure
    ensures UpperBound(flows, dist, s, pressure) <= best ==> r.0 == pressure
    ensures UpperBound(flows, dist, s, pressure) > best ==>
              forall c :: c in Choices(flows, dist, s) ==> pressure + c.0 <= r.0
    ensures Metric(dist, |flows|) ==> r.0 <= UpperBound(flows, dist, s, pressure)
    decreases |ClosedWithFlow(flows, s.open)|, 1, 0
  {
    var a := ActorIndex(s.times);
    var cands := Choices(flows, dist, s);
    if UpperBound(flows, dist, s, pressure) <= best then (pressure, s)
    else
      var (branches, _, after) := Explore(flows, dist, pressure, best, s, a, cands);
      match branches
      case None => (pressure, after)
      case Some(m) => (m, after)
  }

  /** The loop over the prioritized moves of actor a: make the move, search
      below it, keep the best, undo the move.  The result is the best
      branch (none when there are no moves), the running best and the
      state after the last undo. */
  function Explore(flows: seq<int>, dist: Matrix, pressure: int, best: int, s: State, a: nat, cands: seq<Candidate>)
    : (r: (Option<int>, int, State))
    requires Valid(flows, dist, s) && a < |s.times|
    requires forall c :: c in cands ==> IsCandidate(flows, dist, s.open, s.locations[a], s.times[a], c)
    ensures r.2 == s
    ensures r.0.Some? <==> |cands| > 0
    ensures r.0.Some? ==> forall c :: c in cands ==> pressure + c.0 <= r.0.value
    ensures r.0.Some? ==> pressure < r.0.value
    ensures r.0.Some? && Metric(dist, |flows|) ==> r.0.value <= UpperBound(flows, dist, s, pressure)
    decreases |ClosedWithFlow(flows, s.open)|, 0, |cands|
  {
    if |cands| == 0 then (None, best, s)
    else
      assert IsCandidate(flows, dist, s.open, s.locations[a], s.times[a], cands[0]);
      var (branch, best2, restored) := Branch(flows, dist, pressure, best, s, a, cands[0]);
      var (rest, best3, after) := Explore(flows, dist, pressure, best2, restored, a, cands[1..]);
      CombineSpec(pressure, cands, branch, rest, UpperBound(flows, dist, s, pressure), Metric(dist, |flows|));
      (Some(Combine(branch, rest)), best3, after)
  }

  /** One pass of that loop: move actor a by c, search below the move with
      the best updated, then undo the move.  The result is the branch's
      best, the running best and the restored state. */
  function Branch(flows: seq<int>, dist: Matrix, pressure: int, best: int, s: State, a: nat, c: Candidate)
    : (r: (int, int, State))
    requires Valid(flows, dist, s) && a < |s.times|
    requires IsCandidate(flows, dist, s.open, s.locations[a], s.times[a], c)
    ensures r.2 == s
    ensures pressure + c.0 <= r.0 && pressure < r.0
    ensures Metric(dist, |flows|) ==> r.0 <= UpperBound(flows, dist, s, pressure)
    decreases |ClosedWithFlow(flows, s.open)|, 0, 0
  {
    var (loc, timeLeft) := (s.locations[a], s.times[a]);
    var moved := Move(s, a, c);
    MoveShrinksClosed(flows, s.open, c.2);
    GainPositive(timeLeft, c.1, flows[c.2]);
    var newPressure := pressure + c.0;
    var best1 := Max(best, newPressure);
    var (branch, back) := Search(flows, dist, newPressure, best1, moved);
    var best2 := Max(branch, best1);
    var restored := Undo(back, a, c, loc, timeLeft);
    UndoMove(s, a, c);
    MoveBoundWhenMetric(flows, dist, s, a, c, pressure);
    (branch, best2, restored)
  }

  /** The better of the first branch and the best of the others. */
  function Combine(branch: int, rest: Option<int>): int
  {
    match rest
    case None => branch
    case Some(m) => Max(branch, m)
  }

  lemma CombineSpec(pressure: int, cands: seq<Candidate>, branch: int, rest: Option<int>, bound: int, metric: bool)
    requires |cands| > 0 && pressure + cands[0].0 <= branch && pressure < branch
    requires metric ==> branch <= bound
    requires rest.None? ==> |cands| == 1
    requires rest.Some? ==> && (forall c :: c in cands[1..] ==> pressure + c.0 <= rest.value)
                            && pressure < rest.value && (metric ==> rest.value <= bound)
    ensures forall c :: c in cands ==> pressure + c.0 <= Combine(branch, rest)
    ensures pressure < Combine(branch, rest)
    ensures metric ==> Combine(branch, rest) <= bound
  {
    assert forall d :: d in cands ==> d == cands[0] || d in cands[1..];
  }

  // ---------------------------------------------------------------------
  // The two parts.
  // ---------------------------------------------------------------------

  /** Every actor at `start` with `time` minutes, every valve closed. */
  function Start(n: nat, start: nat, actors: nat, time: int): (s: State)
  {
    State(seq(n, _ => false), seq(actors, _ => start), seq(actors, _ => time))
  }

  /** The search from the start with the given seed for the best result. */
  function Release(flows: seq<int>, dist: Matrix, start: nat, actors: nat, time: int, seed: int): (r: int)
    requires Square(dist, |flows|) && start < |flows| && actors >= 1
  {
    Search(flows, dist, 0, seed, Start(|flows|, start, actors, time)).0
  }

  /** Both parts as `run` calls them: the best result is seeded with the
      number of minutes, 30 alone and then 26 with an elephant. */
  function PartsAsWritten(flows: seq<int>, dist: Matrix, start: nat): (r: (int, int))
    requires Square(dist, |flows|) && start < |flows|
    ensures r.0 >= 0 && r.1 >= 0
  {
    (Release(flows, dist, start, 1, 30, 30), Release(flows, dist, start, 2, 26, 26))
  }

  /** With one valve of flow 1 at the start, opening it releases 29, but
      the bound 29 does not beat the seed 30, so the first part reports 0. */
  lemma SeedPrunesRoot(flows: seq<int>, dist: Matrix)
    requires flows == [1] && dist == [[0]]
    ensures Metric(dist, 1) && Release(flows, dist, 0, 1, 30, 0) >= 29
    ensures PartsAsWritten(flows, dist, 0).0 == 0
  {
    SeedZeroReleases(flows, dist);
    SeedThirtyPrunes(flows, dist);
  }

  lemma SeedZeroReleases(flows: seq<int>, dist: Matrix)
    requires flows == [1] && dist == [[0]]
    ensures Metric(dist, 1) && Release(flows, dist, 0, 1, 30, 0) >= 29
  {
    SingleMoveReleased(flows, dist, 0, 1, 30, 0);
  }

  lemma SeedThirtyPrunes(flows: seq<int>, dist: Matrix)
    requires flows == [1] && dist == [[0]]
    ensures Release(flows, dist, 0, 1, 30, 30) == 0
  {
    RootBound();
    assert Start(|flows|, 0, 1, 30) == Start(1, 0, 1, 30);
    PrunedAtRoot(flows, dist, 0, 1, 30, 30);
  }

  /** A seed that the bound at the start does not beat prunes the whole
      search, which then reports nothing released. */
  lemma PrunedAtRoot(flows: seq<int>, dist: Matrix, start: nat, actors: nat, time: int, seed: int)
    requires Square(dist, |flows|) && start < |flows| && actors >= 1
    requires UpperBound(flows, dist, Start(|flows|, start, actors, time), 0) <= seed
    ensures Release(flows, dist, start, actors, time, seed) == 0
  {
  }

  lemma RootBound()
    ensures UpperBound([1], [[0]], Start(1, 0, 1, 30), 0) == 29
  {
    var s := Start(1, 0, 1, 30);
    assert ActorValue([1], [[0]], s, 0, 0) == 29;
    assert BoundSum([1], [[0]], s, 1) == 0;
  }

  /** With the best result seeded at 0, the answer is at least what opening
      any single reachable valve first would release. */
  lemma SingleMoveReleased(flows: seq<int>, dist: Matrix, start: nat, actors: nat, time: int, v: nat)
    requires Square(dist, |flows|) && start < |flows| && actors >= 1 && v < |flows|
    requires flows[v] > 0 && time > dist[start][v] + 1
    ensures Gain(time, dist[start][v], flows[v]) <= Release(flows, dist, start, actors, time, 0)
  {
    var s := Start(|flows|, start, actors, time);
    var a := ActorIndex(s.times);
    var c := (Gain(time, dist[start][v], flows[v]), dist[start][v], v);
    assert IsCandidate(flows, dist, s.open, s.locations[a], s.times[a], c);
    assert c in Choices(flows, dist, s);
    GainPositive(time, dist[start][v], flows[v]);
    BoundCoversMove(flows, dist, s, a, c, 0);
  }

  /** `run` from the tunnel lists onwards, with the best result seeded at
      0: both answers are the searches over the shortest-distance matrix of
      the tunnels, at least any single valve's release and never above the
      optimistic bound at the start. */
  method Run(tunnels: seq<seq<nat>>, flows: seq<int>, start: nat) returns (part1: int, part2: int)
    requires ValidTunnels(tunnels) && |flows| == |tunnels| && start < |flows|
    ensures part1 >= 0 && part2 >= 0
    ensures var dist := Rounds(Init(tunnels), |tunnels|, |tunnels|);
              && Metric(dist, |flows|)
              && part1 == Release(flows, dist, start, 1, 30, 0)
              && part2 == Release(flows, dist, start, 2, 26, 0)
              && part1 <= UpperBound(flows, dist, Start(|flows|, start, 1, 30), 0)
              && part2 <= UpperBound(flows, dist, Start(|flows|, start, 2, 26), 0)
              && (forall v :: 0 <= v < |flows| && flows[v] > 0 && 30 > dist[start][v] + 1 ==>
                    Gain(30, dist[start][v], flows[v]) <= part1)
              && (forall v :: 0 <= v < |flows| && flows[v] > 0 && 26 > dist[start][v] + 1 ==>
                    Gain(26, dist[start][v], flows[v]) <= part2)
  {
    var dist := FindAllDistances(tunnels);
    assert Metric(dist, |flows|);
    part1 := Release(flows, dist, start, 1, 30, 0);
    part2 := Release(flows, dist, start, 2, 26, 0);
    forall v | 0 <= v < |flows| && flows[v] > 0 && 30 > dist[start][v] + 1
      ensures Gain(30, dist[start][v], flows[v]) <= part1
    {
      SingleMoveReleased(flows, dist, start, 1, 30, v);
    }
    forall v | 0 <= v < |flows| && flows[v] > 0 && 26 > dist[start][v] + 1
      ensures Gain(26, dist[start][v], flows[v]) <= part2
    {
      SingleMoveReleased(flows, dist, start, 2, 26, v);
    }
  }
}

=== FILE: day16_distances.dfy ===
/** All-pairs shortest tunnel distances between valves by the
    Floyd–Warshall algorithm, with the number of valves n standing for
    "unreachable".  The hop counts are related to walks through the tunnel
    graph: every entry is the length of a walk, and no walk is shorter. */
module ValveDistances {
  import opened Common

  type Matrix = seq<seq<int>>

  predicate Square(d: Matrix, n: nat)
  {
    |d| == n && forall i :: 0 <= i < n ==> |d[i]| == n
  }

  /** Every entry lies in `0..=n`. */
  predicate Bounded(d: Matrix, n: nat)
    requires Square(d, n)
  {
    forall i, j :: 0 <= i < n && 0 <= j < n ==> 0 <= d[i][j] <= n
  }

  /** Each tunnel leads to a valve of the list (names were resolved by
      lookup, so every target index exists). */
  predicate ValidTunnels(tunnels: seq<seq<nat>>)
  {
    forall i, t :: 0 <= i < |tunnels| && 0 <= t < |tunnels[i]| ==> tunnels[i][t] < |tunnels|
  }

  // ---------------------------------------------------------------------
  // Walks through the tunnels.
  // ---------------------------------------------------------------------

  /** A walk visits valves one tunnel at a time; its length is |p| - 1. */
  predicate IsWalk(tunnels: seq<seq<nat>>, p: seq<nat>)
  {
    |p| >= 1 && (forall t :: 0 <= t < |p| ==> p[t] < |tunnels|)
    && forall t :: 0 < t < |p| ==> p[t] in tunnels[p[t - 1]]
  }

  /** Every valve strictly inside the walk has an index below k. */
  predicate Below(p: seq<nat>, k: nat)
  {
    forall t :: 0 < t < |p| - 1 ==> p[t] < k
  }

  lemma WalkConcat(tunnels: seq<seq<nat>>, p: seq<nat>, q: seq<nat>)
    requires IsWalk(tunnels, p) && IsWalk(tunnels, q) && p[|p| - 1] == q[0]
    ensures IsWalk(tunnels, p + q[1..])
    ensures (p + q[1..])[0] == p[0] && (p + q[1..])[|p| + |q| - 2] == q[|q| - 1]
  {
    var w := p + q[1..];
    forall t | 0 < t < |w| ensures w[t] in tunnels[w[t - 1]] {
      if t >= |p| {
        assert w[t] == q[t - |p| + 1] && w[t - 1] == q[t - |p|];
      }
    }
  }

  lemma WalkSplit(tunnels: seq<seq<nat>>, p: seq<nat>, a: nat, b: nat)
    requires IsWalk(tunnels, p) && a <= b < |p|
    ensures IsWalk(tunnels, p[a..b + 1])
  {
    var w := p[a..b + 1];
    assert forall t :: 0 <= t < |w| ==> w[t] == p[a + t];
  }

  /** A walk of three or more valves has a valve inside it. */
  lemma BelowNothingIsShort(p: seq<nat>)
    requires |p| >= 3
    ensures !Below(p, 0)
  {
    assert 0 < 1 < |p| - 1 && p[1] >= 0;
  }

  /** The first position of v in p. */
  function FirstOf(p: seq<nat>, v: nat): (t: nat)
    requires v in p
    ensures t < |p| && p[t] == v
    ensures forall s :: 0 <= s < t ==> p[s] != v
  {
    if p[0] == v then 0 else 1 + FirstOf(p[1..], v)
  }

  /** The last position of v in p. */
  function LastOf(p: seq<nat>, v: nat): (t: nat)
    requires v in p
    ensures t < |p| && p[t] == v
    ensures forall s :: t < s < |p| ==> p[s] != v
  {
    if p[|p| - 1] == v then |p| - 1 else LastOf(p[..|p| - 1], v)
  }

  // ---------------------------------------------------------------------
  // The matrix and its relaxation rounds.
  // ---------------------------------------------------------------------

  /** The initial matrix as `find_all_distances` fills it: each row gets 0
      on the diagonal first and then 1 for each tunnel, so a tunnel from a
      valve to itself overwrites the 0. */
  function InitAsWritten(tunnels: seq<seq<nat>>): (d: Matrix)
    ensures Square(d, |tunnels|) && Bounded(d, |tunnels|)
  {
    var n := |tunnels|;
    seq(n, i requires 0 <= i < n => seq(n, j => if j in tunnels[i] then 1 else if j == i then 0 else n))
  }

  /** The initial matrix with the diagonal kept at 0 whatever the tunnels. */
  function Init(tunnels: seq<seq<nat>>): (d: Matrix)
    ensures Square(d, |tunnels|) && Bounded(d, |tunnels|)
    ensures forall i :: 0 <= i < |tunnels| ==> d[i][i] == 0
  {
    var n := |tunnels|;
    seq(n, i requires 0 <= i < n => seq(n, j => if j == i then 0 else if j in tunnels[i] then 1 else n))
  }

  /** One round of the outer loop, all pairs at once: route through k when
      that is shorter. */
  function Relax(d: Matrix, n: nat, k: nat): (r: Matrix)
    requires Square(d, n) && k < n
    ensures Square(r, n)
  {
    seq(n, i requires 0 <= i < n => seq(n, j requires 0 <= j < n => Min(d[i][j], d[i][k] + d[k][j])))
  }

  lemma RelaxEntry(d: Matrix, n: nat, k: nat, i: nat, j: nat)
    requires Square(d, n) && k < n && i < n && j < n
    ensures Relax(d, n, k)[i][j] == Min(d[i][j], d[i][k] + d[k][j])
  {
  }

  /** Relaxing never raises an entry and keeps them all in `0..=n`. */
  lemma RelaxBounded(d: Matrix, n: nat, k: nat)
    requires Square(d, n) && k < n && Bounded(d, n)
    ensures Bounded(Relax(d, n, k), n)
    ensures forall i, j :: 0 <= i < n && 0 <= j < n ==> Relax(d, n, k)[i][j] <= d[i][j]
  {
  }

  /** Row k and column k come through round k unchanged. */
  lemma RelaxKeepsPivot(d: Matrix, n: nat, k: nat)
    requires Square(d, n) && k < n && Bounded(d, n)
    ensures forall a :: 0 <= a < n ==> Relax(d, n, k)[a][k] == d[a][k] && Relax(d, n, k)[k][a] == d[k][a]
  {
  }

  /** The matrix after the first k rounds. */
  function Rounds(d: Matrix, n: nat, k: nat): (r: Matrix)
    requires Square(d, n) && k <= n
    ensures Square(r, n)
  {
    if k == 0 then d else Relax(Rounds(d, n, k - 1), n, k - 1)
  }

  lemma {:induction false} RoundsBounded(d: Matrix, n: nat, k: nat)
    requires Square(d, n) && k <= n && Bounded(d, n)
    ensures Bounded(Rounds(d, n, k), n)
  {
    if k > 0 {
      RoundsBounded(d, n, k - 1);
      RelaxBounded(Rounds(d, n, k - 1), n, k - 1);
    }
  }

  /** The innermost loop: row i of round k, updated in place. */
  method RelaxRow(d0: Matrix, dk: Matrix, n: nat, k: nat, i: nat) returns (d: Matrix)
    requires Square(dk, n) && Bounded(dk, n) && k < n && i < n && Square(d0, n)
    requires forall a :: 0 <= a < i ==> d0[a] == Relax(dk, n, k)[a]
    requires forall a :: i <= a < n ==> d0[a] == dk[a]
    ensures Square(d, n)
    ensures forall a :: 0 <= a <= i ==> d[a] == Relax(dk, n, k)[a]
    ensures forall a :: i < a < n ==> d[a] == dk[a]
  {
    ghost var next := Relax(dk, n, k);
    RelaxKeepsPivot(dk, n, k);
    d := d0;
    var j := 0;
    while j < n
      invariant 0 <= j <= n && Square(d, n)
      invariant forall a :: 0 <= a < i ==> d[a] == next[a]
      invariant forall a :: i < a < n ==> d[a] == dk[a]
      invariant forall b :: 0 <= b < j ==> d[i][b] == next[i][b]
      invariant forall b :: j <= b < n ==> d[i][b] == dk[i][b]
    {
      assert d[i][k] == dk[i][k];
      assert d[k][j] == dk[k][j];
      d := d[i := d[i][j := Min(d[i][j], d[i][k] + d[k][j])]];
      j := j + 1;
    }
    assert d[i] == next[i];
  }

  /** The nested loops of `find_all_distances`, which update the matrix in
      place.  In round k, row k and column k keep their values (a detour
      through k from k costs nothing extra), so updating in place agrees
      with relaxing every pair at once. */
  method FloydWarshall(d0: Matrix, n: nat) returns (d: Matrix)
    requires Square(d0, n) && Bounded(d0, n)
    ensures d == Rounds(d0, n, n)
  {
    d := d0;
    var k := 0;
    while k < n
      invariant 0 <= k <= n && d == Rounds(d0, n, k)
    {
      var dk := d;
      RoundsBounded(d0, n, k);
      var i := 0;
      while i < n
        invariant 0 <= i <= n && Square(d, n)
        invariant forall a :: 0 <= a < i ==> d[a] == Relax(dk, n, k)[a]
        invariant forall a :: i <= a < n ==> d[a] == dk[a]
      {
        d := RelaxRow(d, dk, n, k, i);
        i := i + 1;
      }
      assert d == Relax(dk, n, k);
      k := k + 1;
    }
  }

  // ---------------------------------------------------------------------
  // What the rounds compute.
  // ---------------------------------------------------------------------

  /** No walk whose inner valves are below k is shorter than the entry
      after k rounds. */
  lemma {:induction false} RoundsOptimal(tunnels: seq<seq<nat>>, k: nat, p: seq<nat>)
    requires ValidTunnels(tunnels) && k <= |tunnels|
    requires IsWalk(tunnels, p) && Below(p, k)
    ensures Rounds(Init(tunnels), |tunnels|, k)[p[0]][p[|p| - 1]] <= |p| - 1
    decreases k, 1
  {
    var n := |tunnels|;
    if k == 0 {
      InitOptimal(tunnels, p);
    } else {
      var v := k - 1;
      if v in p {
        ThroughPivot(tunnels, v, p);
      } else {
        RoundsOptimal(tunnels, v, p);
      }
      RelaxBelow(Rounds(Init(tunnels), n, v), n, v, p[0], p[|p| - 1], |p| - 1);
    }
  }

  /** Before any round, a walk with no valve inside is a single valve or a
      single tunnel. */
  lemma InitOptimal(tunnels: seq<seq<nat>>, p: seq<nat>)
    requires ValidTunnels(tunnels) && IsWalk(tunnels, p) && Below(p, 0)
    ensures Init(tunnels)[p[0]][p[|p| - 1]] <= |p| - 1
  {
    if |p| == 2 {
      assert p[1] in tunnels[p[0]];
    } else if |p| > 2 {
      BelowNothingIsShort(p);
      assert false;
    }
  }

  /** An entry that, directly or through k, is within len stays within len
      after round k. */
  lemma RelaxBelow(d: Matrix, n: nat, k: nat, i: nat, j: nat, len: int)
    requires Square(d, n) && k < n && i < n && j < n
    requires d[i][j] <= len || d[i][k] + d[k][j] <= len
    ensures Relax(d, n, k)[i][j] <= len
  {
  }

  /** A walk through v, with its other inner valves below v, is no shorter
      than the detour through v after the rounds below v: cut it at the
      first and the last visit of v. */
  lemma {:induction false} ThroughPivot(tunnels: seq<seq<nat>>, v: nat, p: seq<nat>)
    requires ValidTunnels(tunnels) && v < |tunnels|
    requires IsWalk(tunnels, p) && Below(p, v + 1) && v in p
    ensures Rounds(Init(tunnels), |tunnels|, v)[p[0]][v] + Rounds(Init(tunnels), |tunnels|, v)[v][p[|p| - 1]] <= |p| - 1
    decreases v + 1, 0
  {
    var pre, post := CutEnds(tunnels, p, v);
    RoundsOptimal(tunnels, v, pre);
    RoundsOptimal(tunnels, v, post);
  }

  /** A walk through v, cut at the first and the last visit of v: the two
      ends are walks with their inner valves below v, no longer together
      than the whole walk. */
  lemma CutEnds(tunnels: seq<seq<nat>>, p: seq<nat>, v: nat) returns (pre: seq<nat>, post: seq<nat>)
    requires IsWalk(tunnels, p) && Below(p, v + 1) && v in p
    ensures IsWalk(tunnels, pre) && Below(pre, v) && pre[0] == p[0] && pre[|pre| - 1] == v
    ensures IsWalk(tunnels, post) && Below(post, v) && post[0] == v && post[|post| - 1] == p[|p| - 1]
    ensures (|pre| - 1) + (|post| - 1) <= |p| - 1
  {
    var f, l := FirstOf(p, v), LastOf(p, v);
    WalkSplit(tunnels, p, 0, f);
    WalkSplit(tunnels, p, l, |p| - 1);
    CutAtPivot(p, v, f, l);
    pre, post := p[..f + 1], p[l..];
  }

  /** Cut at the first and the last visit of v, the two ends of a walk
      have their inner valves below v. */
  lemma CutAtPivot(p: seq<nat>, v: nat, f: nat, l: nat)
    requires Below(p, v + 1) && f <= l < |p| && p[f] == v && p[l] == v
    requires forall s :: 0 <= s < f ==> p[s] != v
    requires forall s :: l < s < |p| ==> p[s] != v
    ensures p[0..f + 1] == p[..f + 1] && p[l..|p|] == p[l..]
    ensures |p[..f + 1]| + |p[l..]| - 2 <= |p| - 1
    ensures p[..f + 1][0] == p[0] && p[..f + 1][|p[..f + 1]| - 1] == v
    ensures p[l..][0] == v && p[l..][|p[l..]| - 1] == p[|p| - 1]
    ensures Below(p[..f + 1], v) && Below(p[l..], v)
  {
  }

  /** Some walk leads from i to j in exactly `len` steps. */
  ghost predicate HasWalk(tunnels: seq<seq<nat>>, i: nat, j: nat, len: int)
  {
    exists p :: IsWalk(tunnels, p) && p[0] == i && p[|p| - 1] == j && |p| - 1 == len
  }

  lemma JoinWalks(tunnels: seq<seq<nat>>, i: nat, v: nat, j: nat, a: int, b: int)
    requires HasWalk(tunnels, i, v, a) && HasWalk(tunnels, v, j, b)
    ensures HasWalk(tunnels, i, j, a + b)
  {
    var p :| IsWalk(tunnels, p) && p[0] == i && p[|p| - 1] == v && |p| - 1 == a;
    var q :| IsWalk(tunnels, q) && q[0] == v && q[|q| - 1] == j && |q| - 1 == b;
    WalkConcat(tunnels, p, q);
    var w := p + q[1..];
    assert w[|w| - 1] == j;
  }

  /** Every entry below n after k rounds is the length of a walk. */
  lemma {:induction false} RoundsSound(tunnels: seq<seq<nat>>, k: nat, i: nat, j: nat)
    requires ValidTunnels(tunnels) && k <= |tunnels| && i < |tunnels| && j < |tunnels|
    requires Rounds(Init(tunnels), |tunnels|, k)[i][j] < |tunnels|
    ensures HasWalk(tunnels, i, j, Rounds(Init(tunnels), |tunnels|, k)[i][j])
    decreases k
  {
    var n := |tunnels|;
    if k == 0 {
      if i == j {
        assert IsWalk(tunnels, [i]);
      } else {
        assert IsWalk(tunnels, [i, j]);
      }
    } else {
      var v := k - 1;
      var prev := Rounds(Init(tunnels), n, v);
      RoundsBounded(Init(tunnels), n, v);
      RelaxEntry(prev, n, v, i, j);
      if prev[i][j] <= prev[i][v] + prev[v][j] {
        RoundsSound(tunnels, v, i, j);
      } else {
        RoundsSound(tunnels, v, i, v);
        RoundsSound(tunnels, v, v, j);
        JoinWalks(tunnels, i, v, j, prev[i][v], prev[v][j]);
      }
    }
  }

  /** The final matrix satisfies the triangle inequality. */
  lemma Triangle(tunnels: seq<seq<nat>>, i: nat, v: nat, j: nat)
    requires ValidTunnels(tunnels) && i < |tunnels| && v < |tunnels| && j < |tunnels|
    ensures var d := Rounds(Init(tunnels), |tunnels|, |tunnels|);
            d[i][j] <= d[i][v] + d[v][j]
  {
    var n := |tunnels|;
    var d := Rounds(Init(tunnels), n, n);
    RoundsBounded(Init(tunnels), n, n);
    if d[i][v] < n && d[v][j] < n {
      RoundsSound(tunnels, n, i, v);
      RoundsSound(tunnels, n, v, j);
      JoinWalks(tunnels, i, v, j, d[i][v], d[v][j]);
      var w :| IsWalk(tunnels, w) && w[0] == i && w[|w| - 1] == j && |w| - 1 == d[i][v] + d[v][j];
      RoundsOptimal(tunnels, n, w);
    }
  }

  /** `find_all_distances`: the n × n matrix of shortest hop counts, n
      where no walk exists. */
  method FindAllDistances(tunnels: seq<seq<nat>>) returns (d: Matrix)
    requires ValidTunnels(tunnels)
    ensures Square(d, |tunnels|) && Bounded(d, |tunnels|)
    ensures d == Rounds(Init(tunnels), |tunnels|, |tunnels|)
    ensures forall i :: 0 <= i < |tunnels| ==> d[i][i] == 0
    ensures forall p :: IsWalk(tunnels, p) ==> d[p[0]][p[|p| - 1]] <= |p| - 1
    ensures forall i, j :: 0 <= i < |tunnels| && 0 <= j < |tunnels| && d[i][j] < |tunnels| ==>
              HasWalk(tunnels, i, j, d[i][j])
    ensures forall i, v, j :: 0 <= i < |tunnels| && 0 <= v < |tunnels| && 0 <= j < |tunnels| ==>
              d[i][j] <= d[i][v] + d[v][j]
  {
    var n := |tunnels|;
    d := FloydWarshall(Init(tunnels), n);
    RoundsBounded(Init(tunnels), n, n);
    FinalOptimal(tunnels, d);
    DiagonalZero(tunnels, d);
    FinalSound(tunnels, d);
    FinalTriangle(tunnels, d);
  }

  /** A matrix no walk undercuts, with no negative entry, has 0 on the
      diagonal: the one-valve walk has length 0. */
  lemma DiagonalZero(tunnels: seq<seq<nat>>, d: Matrix)
    requires Square(d, |tunnels|) && Bounded(d, |tunnels|)
    requires forall p :: IsWalk(tunnels, p) ==> d[p[0]][p[|p| - 1]] <= |p| - 1
    ensures forall i :: 0 <= i < |tunnels| ==> d[i][i] == 0
  {
    forall i | 0 <= i < |tunnels| ensures d[i][i] == 0 {
      assert IsWalk(tunnels, [i]) && [i][0] == i;
    }
  }

  /** After all rounds no walk is shorter than the entry for its ends. */
  lemma FinalOptimal(tunnels: seq<seq<nat>>, d: Matrix)
    requires ValidTunnels(tunnels) && d == Rounds(Init(tunnels), |tunnels|, |tunnels|)
    ensures forall p :: IsWalk(tunnels, p) ==> d[p[0]][p[|p| - 1]] <= |p| - 1
  {
    forall p | IsWalk(tunnels, p) ensures d[p[0]][p[|p| - 1]] <= |p| - 1 {
      RoundsOptimal(tunnels, |tunnels|, p);
    }
  }

  /** After all rounds every entry below `len` is the length of a walk. */
  lemma FinalSound(tunnels: seq<seq<nat>>, d: Matrix)
    requires ValidTunnels(tunnels) && d == Rounds(Init(tunnels), |tunnels|, |tunnels|)
    ensures forall i, j :: 0 <= i < |tunnels| && 0 <= j < |tunnels| && d[i][j] < |tunnels| ==>
              HasWalk(tunnels, i, j, d[i][j])
  {
    forall i, j | 0 <= i < |tunnels| && 0 <= j < |tunnels| && d[i][j] < |tunnels|
      ensures HasWalk(tunnels, i, j, d[i][j])
    {
      RoundsSound(tunnels, |tunnels|, i, j);
    }
  }

  /** After all rounds the entries obey the triangle inequality. */
  lemma FinalTriangle(tunnels: seq<seq<nat>>, d: Matrix)
    requires ValidTunnels(tunnels) && d == Rounds(Init(tunnels), |tunnels|, |tunnels|)
    ensures forall i, v, j :: 0 <= i < |tunnels| && 0 <= v < |tunnels| && 0 <= j < |tunnels| ==>
              d[i][j] <= d[i][v] + d[v][j]
  {
    var n := |tunnels|;
    forall i, v, j | 0 <= i < n && 0 <= v < n && 0 <= j < n ensures d[i][j] <= d[i][v] + d[v][j] {
      Triangle(tunnels, i, v, j);
    }
  }

  /** The loops run on the matrix as the source fills it. */
  method FindAllDistancesAsWritten(tunnels: seq<seq<nat>>) returns (d: Matrix)
    requires ValidTunnels(tunnels)
    ensures Square(d, |tunnels|) && Bounded(d, |tunnels|)
    ensures d == Rounds(InitAsWritten(tunnels), |tunnels|, |tunnels|)
  {
    d := FloydWarshall(InitAsWritten(tunnels), |tunnels|);
    RoundsBounded(InitAsWritten(tunnels), |tunnels|, |tunnels|);
  }

  /** With one valve whose tunnel leads back to itself, the matrix as
      written reports a distance of 1 from the valve to itself, though the
      one-valve walk has length 0. */
  lemma SelfLoopDistance()
    ensures IsWalk([[0]], [0])
    ensures Rounds(InitAsWritten([[0]]), 1, 1)[0][0] == 1
    ensures Rounds(Init([[0]]), 1, 1)[0][0] == 0
  {
    var d0 := InitAsWritten([[0]]);
    assert d0[0][0] == 1;
    assert Rounds(d0, 1, 1) == Relax(d0, 1, 0);
  }
}

=== FILE: day17.dfy ===
/** Pyroclastic flow: rocks of five shapes fall one after another into a
    chamber seven columns wide, pushed left or right by a repeating
    pattern of jets before each one-row drop.  The height of the tower
    after a huge number of rocks is found by spotting a repeated state and
    skipping whole periods. */
module PyroclasticFlow {
  import opened Common

  const Width: int := 7
  const NumTopRows: int := 10

  type Cell = (int, int)
  /** The occupied cells of the chamber. */
  type Grid = set<Cell>
  /** A rock as rows of solid flags, bottom row first. */
  type Shape = seq<seq<bool>>

  /** Rows of one width, at least one of each, narrow enough to spawn two
      columns from the left wall. */
  predicate WellShaped(shape: Shape)
  {
    |shape| >= 1 && 1 <= |shape[0]| <= Width - 2
    && forall r :: 0 <= r < |shape| ==> |shape[r]| == |shape[0]|
  }

  predicate AllWellShaped(shapes: seq<Shape>)
  {
    forall i :: 0 <= i < |shapes| ==> WellShaped(shapes[i])
  }

  /** The five rocks of the puzzle: `-`, `+`, the mirrored L, `|` and the
      square, each written bottom row first. */
  const Shapes: seq<Shape> := [
    [[true, true, true, true]],
    [[false, true, false], [true, true, true], [false, true, false]],
    [[true, true, true], [false, false, true], [false, false, true]],
    [[true], [true], [true], [true]],
    [[true, true], [true, true]]
  ]

  lemma ShapesWellShaped()
    ensures |Shapes| == 5 && AllWellShaped(Shapes)
  {
  }

  /** The cells of one row of a rock whose leftmost column is x. */
  function RowCells(row: seq<bool>, x: int, y: int): set<Cell>
  {
    if |row| == 0 then {}
    else (if row[0] then {(x, y)} else {}) + RowCells(row[1..], x + 1, y)
  }

  /** The cells a rock covers with its bottom-left corner at (x, y). */
  function ShapeCells(shape: Shape, x: int, y: int): set<Cell>
  {
    if |shape| == 0 then {}
    else RowCells(shape[0], x, y) + ShapeCells(shape[1..], x, y + 1)
  }

  /** Within the walls and above the floor. */
  predicate InChamber(shape: Shape, x: int, y: int)
    requires WellShaped(shape)
  {
    0 <= x && x + |shape[0]| <= Width && 0 <= y
  }

  predicate Fits(grid: Grid, shape: Shape, x: int, y: int)
  {
    ShapeCells(shape, x, y) !! grid
  }

  /** Every occupied cell lies inside the walls and below `height`. */
  predicate Tower(grid: Grid, height: int)
  {
    forall c :: c in grid ==> 0 <= c.0 < Width && 0 <= c.1 < height
  }

  lemma {:induction false} RowCellsBounds(row: seq<bool>, x: int, y: int)
    ensures forall c :: c in RowCells(row, x, y) ==> x <= c.0 < x + |row| && c.1 == y
  {
    if |row| > 0 {
      RowCellsBounds(row[1..], x + 1, y);
    }
  }

  /** A rock's cells lie in its bounding box. */
  lemma {:induction false} ShapeCellsBounds(shape: Shape, x: int, y: int)
    requires WellShaped(shape)
    ensures forall c :: c in ShapeCells(shape, x, y) ==> x <= c.0 < x + |shape[0]| && y <= c.1 < y + |shape|
  {
    RowCellsBounds(shape[0], x, y);
    if |shape| > 1 {
      var rest := shape[1..];
      assert WellShaped(rest) by {
        assert forall r :: 0 <= r < |rest| ==> rest[r] == shape[r + 1];
      }
      ShapeCellsBounds(rest, x, y + 1);
    } else {
      assert ShapeCells(shape[1..], x, y + 1) == {};
    }
  }

  // ---------------------------------------------------------------------
  // One rock.
  // ---------------------------------------------------------------------

  /** The `'falling` loop from (x, y) at `time`: each pass takes the next
      jet and shifts the rock if the walls and the tower allow, then drops
      it a row unless the floor or the tower is in the way.  The result is
      the resting corner and the new time. */
  function Fall(jets: seq<int>, shape: Shape, grid: Grid, time: nat, x: int, y: int): (r: (int, int, nat))
    requires |jets| >= 1 && WellShaped(shape)
    requires InChamber(shape, x, y) && Fits(grid, shape, x, y)
    ensures InChamber(shape, r.0, r.1) && Fits(grid, shape, r.0, r.1) && r.1 <= y
    ensures r.1 == 0 || !Fits(grid, shape, r.0, r.1 - 1)
    ensures r.2 == time + (y - r.1) + 1
    decreases y
  {
    var jet := jets[time % |jets|];
    var nx := x + jet;
    var x1 := if nx < 0 || nx + |shape[0]| > Width then x
              else if Fits(grid, shape, nx, y) then nx
              else x;
    if y == 0 || !Fits(grid, shape, x1, y - 1) then (x1, y, time + 1)
    else Fall(jets, shape, grid, time + 1, x1, y - 1)
  }

  /** A rock spawned three rows above the tower touches nothing. */
  lemma SpawnFits(grid: Grid, shape: Shape, height: int)
    requires WellShaped(shape) && Tower(grid, height) && height >= 0
    ensures InChamber(shape, 2, height + 3) && Fits(grid, shape, 2, height + 3)
  {
    ShapeCellsBounds(shape, 2, height + 3);
  }

  /** `drop_rock`: spawn at x = 2, y = height + 3, fall, then mark the
      rock's cells and raise the height to its top if it is higher.
      Returns the grid, the time and the height. */
  function DropRock(jets: seq<int>, shape: Shape, grid: Grid, time: nat, height: int): (r: (Grid, nat, int))
    requires |jets| >= 1 && WellShaped(shape) && Tower(grid, height) && height >= 0
    ensures Tower(r.0, r.2) && r.2 >= height && r.1 > time && grid <= r.0
  {
    SpawnFits(grid, shape, height);
    var f := Fall(jets, shape, grid, time, 2, height + 3);
    ShapeCellsBounds(shape, f.0, f.1);
    (grid + ShapeCells(shape, f.0, f.1), f.2, Max(height, f.1 + |shape|))
  }

  /** The rock comes to rest somewhere inside the chamber, no higher than
      it spawned, overlapping nothing; the grid gains exactly its cells,
      the height becomes the larger of the old height and the rock's top,
      and one jet was used per row fallen plus one. */
  lemma DropRockPlacesShape(jets: seq<int>, shape: Shape, grid: Grid, time: nat, height: int) returns (x: int, y: int)
    requires |jets| >= 1 && WellShaped(shape) && Tower(grid, height) && height >= 0
    ensures InChamber(shape, x, y) && y <= height + 3
    ensures y == 0 || !Fits(grid, shape, x, y - 1)
    ensures grid !! ShapeCells(shape, x, y)
    ensures DropRock(jets, shape, grid, time, height).0 == grid + ShapeCells(shape, x, y)
    ensures DropRock(jets, shape, grid, time, height).2 == Max(height, y + |shape|)
    ensures DropRock(jets, shape, grid, time, height).1 == time + (height + 3 - y) + 1
  {
    SpawnFits(grid, shape, height);
    var f := Fall(jets, shape, grid, time, 2, height + 3);
    x, y := f.0, f.1;
  }

  // ---------------------------------------------------------------------
  // Many rocks.
  // ---------------------------------------------------------------------

  /** The chamber between rocks: occupied cells, jets used, tower height. */
  datatype Chamber = Chamber(grid: Grid, time: nat, height: int)

  /** How one rock of a shape is dropped into a chamber. */
  type Dropper = (Shape, Chamber) -> Chamber

  /** A step that never lowers the tower. */
  ghost predicate Monotone(drop: Dropper)
  {
    forall shape, c :: drop(shape, c).height >= c.height
  }

  /** `drop_rock` as a step on chambers.  Every chamber it meets is a
      tower and every shape is well shaped (`ReachedAreTowers`); any other
      chamber is left as it is. */
  function Step(jets: seq<int>, shape: Shape, c: Chamber): (r: Chamber)
    ensures r.height >= c.height
    ensures Tower(c.grid, c.height) && c.height >= 0 ==> Tower(r.grid, r.height)
  {
    if |jets| >= 1 && WellShaped(shape) && Tower(c.grid, c.height) && c.height >= 0 then
      var d := DropRock(jets, shape, c.grid, c.time, c.height);
      Chamber(d.0, d.1, d.2)
    else c
  }

  /** The falling-rock physics for a jet pattern. */
  function Physics(jets: seq<int>): Dropper
  {
    (shape, c) => Step(jets, shape, c)
  }

  lemma PhysicsMonotone(jets: seq<int>)
    ensures Monotone(Physics(jets))
  {
    forall shape, c
      ensures Physics(jets)(shape, c).height >= c.height
    {
      var r := Step(jets, shape, c);
    }
  }

  /** The chamber after k rocks dropped one by one into an empty chamber,
      rock i taking shape `i % |shapes|`. */
  function Simulate(drop: Dropper, shapes: seq<Shape>, k: nat): Chamber
    requires |shapes| >= 1
  {
    if k == 0 then Chamber({}, 0, 0)
    else drop(shapes[(k - 1) % |shapes|], Simulate(drop, shapes, k - 1))
  }

  /** Under the physics every chamber reached is a tower, so every rock
      after it is dropped by `drop_rock` proper. */
  lemma {:induction false} ReachedAreTowers(jets: seq<int>, shapes: seq<Shape>, k: nat)
    requires |jets| >= 1 && |shapes| >= 1 && AllWellShaped(shapes)
    ensures var c := Simulate(Physics(jets), shapes, k);
            Tower(c.grid, c.height) && c.height >= 0
    ensures var c := Simulate(Physics(jets), shapes, k);
            var d := DropRock(jets, shapes[k % |shapes|], c.grid, c.time, c.height);
            Simulate(Physics(jets), shapes, k + 1) == Chamber(d.0, d.1, d.2)
  {
    if k > 0 {
      ReachedAreTowers(jets, shapes, k - 1);
    }
    var c := Simulate(Physics(jets), shapes, k);
    assert WellShaped(shapes[k % |shapes|]);
    assert Simulate(Physics(jets), shapes, k + 1) == Step(jets, shapes[k % |shapes|], c);
  }

  /** The tower never shrinks. */
  lemma {:induction false} HeightMonotone(drop: Dropper, shapes: seq<Shape>, j: nat, k: nat)
    requires |shapes| >= 1 && Monotone(drop) && j <= k
    ensures Simulate(drop, shapes, j).height <= Simulate(drop, shapes, k).height
    decreases k
  {
    if j < k {
      HeightMonotone(drop, shapes, j, k - 1);
    }
  }

  /** Row y as flags, from column x to the right wall. */
  function RowFlags(grid: Grid, y: int, x: nat): (r: seq<bool>)
    requires x <= Width
    ensures |r| == Width - x
    decreases Width - x
  {
    if x == Width then [] else [(x, y) in grid] + RowFlags(grid, y, x + 1)
  }

  /** `count` rows from row y upwards. */
  function Rows(grid: Grid, y: int, count: nat): (r: seq<seq<bool>>)
    ensures |r| == count
    decreases count
  {
    if count == 0 then [] else [RowFlags(grid, y, 0)] + Rows(grid, y + 1, count - 1)
  }

  /** The top `NumTopRows` rows as flags, or nothing while the tower is
      lower than that. */
  function TopRows(grid: Grid, height: int): seq<seq<bool>>
  {
    if height >= NumTopRows then Rows(grid, height - NumTopRows, NumTopRows) else []
  }

  type Key = (int, int, seq<seq<bool>>)

  /** The number of period repeats the source skips on finding that the
      state after rock `index` equals the one after rock `oldIndex`. */
  function RepeatsAsWritten(numRocks: int, oldIndex: int, index: int): int
    requires 0 <= oldIndex < index
  {
    (numRocks - oldIndex) / (index - oldIndex) - 1
  }

  /** The same with the last rock not counted as still to come: the rocks
      after `oldIndex` are `numRocks - 1 - oldIndex` in number. */
  function Repeats(numRocks: int, oldIndex: int, index: int): int
    requires 0 <= oldIndex < index
  {
    (numRocks - 1 - oldIndex) / (index - oldIndex) - 1
  }

  /** After rock `index` (0-based) the loop has accounted for `index + 1`
      rocks; a skip of `repeats` periods adds `repeats * (index - oldIndex)`
      more.  As written, when the remaining rocks are a whole number of
      periods, the skip accounts for one rock more than `numRocks`. */
  lemma SkipAsWrittenOvershoots(numRocks: int, oldIndex: int, index: int)
    requires 0 <= oldIndex < index < numRocks
    requires (numRocks - oldIndex) % (index - oldIndex) == 0
    ensures index + 1 + RepeatsAsWritten(numRocks, oldIndex, index) * (index - oldIndex) == numRocks + 1
  {
    var d := index - oldIndex;
    var q := (numRocks - oldIndex) / d;
    DivMod(numRocks - oldIndex, d);
    assert (q - 1) * d == q * d - d;
  }

  /** The smallest case: a period of one rock starting right after the
      first, seven rocks asked for, eight accounted. */
  lemma SkipAsWrittenExample()
    ensures 1 + 1 + RepeatsAsWritten(7, 0, 1) * 1 == 8
  {
  }

  /** The corrected skip never runs past `numRocks`, and leaves fewer than
      a period's rocks to simulate. */
  lemma SkipFits(numRocks: int, oldIndex: int, index: int)
    requires 0 <= oldIndex < index < numRocks
    ensures Repeats(numRocks, oldIndex, index) >= 0
    ensures index + 1 + Repeats(numRocks, oldIndex, index) * (index - oldIndex) <= numRocks
    ensures numRocks - (index + 1 + Repeats(numRocks, oldIndex, index) * (index - oldIndex)) < index - oldIndex
  {
    var d := index - oldIndex;
    var q := (numRocks - 1 - oldIndex) / d;
    DivMod(numRocks - 1 - oldIndex, d);
    MulBound(q, d);
    assert (q - 1) * d == q * d - d;
  }

  lemma ModEqualDiff(a: nat, b: nat, m: nat)
    requires m > 0 && b <= a && a % m == b % m
    ensures (a - b) % m == 0
    ensures exists k: nat :: a - b == k * m
  {
    DivMod(a, m);
    DivMod(b, m);
    assert a - b == (a / m - b / m) * m;
    if a / m < b / m {
      MulBound(a / m - b / m, m);
    }
    DivModUnique(a - b, a / m - b / m, 0, m);
  }

  /** Dropping rock `index` after `rocks` rocks takes the same shape when
      `index` and `rocks` differ by whole rounds of shapes. */
  lemma SameShape(index: nat, rocks: nat, periods: nat, n: nat)
    requires n > 0 && index == rocks + periods * n
    ensures index % n == rocks % n
  {
    ModAddMultiple(periods, rocks, n);
  }

  /** A corrected skip from `oldIndex` to `index`, both taking the same
      shape, spans whole rounds of shapes. */
  lemma SkipPeriods(numRocks: int, oldIndex: nat, index: nat, n: nat) returns (extra: nat)
    requires n > 0 && oldIndex < index < numRocks && index % n == oldIndex % n
    ensures Repeats(numRocks, oldIndex, index) * (index - oldIndex) == extra * n
    ensures extra == 0 <==> Repeats(numRocks, oldIndex, index) == 0
  {
    SkipFits(numRocks, oldIndex, index);
    ModEqualDiff(index, oldIndex, n);
    var k: nat :| index - oldIndex == k * n;
    var repeats: nat := Repeats(numRocks, oldIndex, index);
    extra := repeats * k;
    assert repeats * (index - oldIndex) == repeats * (k * n);
    if repeats > 0 {
      assert k >= 1;
      MulBound(repeats, k);
    }
  }

  lemma ProductNonNegative(a: int, b: int)
    requires a >= 0 && b >= 0
    ensures a * b >= 0
  {
  }

  /** `get_height` with the corrected skip, for any monotone way of
      dropping a rock and a jet pattern of `numJets` jets.  Besides the
      answer it yields, as ghosts, the rocks actually dropped and the rocks
      accounted for (dropped plus skipped). */
  method GetHeight(drop: Dropper, numJets: nat, shapes: seq<Shape>, numRocks: int)
    returns (r: int, ghost dropped: nat, ghost accounted: int)
    requires numJets >= 1 && |shapes| >= 1 && Monotone(drop)
    ensures numRocks <= 0 ==> r == 0
    ensures accounted == Max(numRocks, 0)
    ensures dropped <= accounted && (accounted - dropped) % |shapes| == 0
    ensures r >= Simulate(drop, shapes, dropped).height
    ensures dropped == accounted ==> r == Simulate(drop, shapes, dropped).height
  {
    var c := Chamber({}, 0, 0);
    var index := 0;
    var past: map<Key, (int, int)> := map[];
    var additional := 0;
    ghost var rocks: nat := 0;
    ghost var periods: nat := 0;
    while index < numRocks
      invariant c == Simulate(drop, shapes, rocks)
      invariant index == rocks + periods * |shapes| && index <= Max(numRocks, 0)
      invariant additional >= 0 && (periods == 0 ==> additional == 0)
      invariant forall k :: k in past ==> 0 <= past[k].0 < index && past[k].1 <= c.height && k.1 == past[k].0 % |shapes|
      decreases numRocks - index
    {
      SameShape(index, rocks, periods, |shapes|);
      c := drop(shapes[index % |shapes|], c);
      rocks := rocks + 1;
      var key := (c.time % numJets, index % |shapes|, TopRows(c.grid, c.height));
      if key in past {
        var (oldIndex, oldHeight) := past[key];
        if additional == 0 {
          var indexDiff := index - oldIndex;
          var heightDiff := c.height - oldHeight;
          var repeats := Repeats(numRocks, oldIndex, index);
          SkipFits(numRocks, oldIndex, index);
          ghost var extra := SkipPeriods(numRocks, oldIndex, index, |shapes|);
          ProductNonNegative(repeats, heightDiff);
          assert (periods + extra) * |shapes| == periods * |shapes| + extra * |shapes|;
          index := index + repeats * indexDiff;
          additional := repeats * heightDiff;
          periods := periods + extra;
        }
      } else {
        past := past[key := (index, c.height)];
      }
      index := index + 1;
    }
    r := c.height + additional;
    dropped := rocks;
    accounted := index;
    HeightMonotone(drop, shapes, 0, rocks);
    ModAddMultiple(periods, 0, |shapes|);
  }

  /** `run`: 2022 rocks, then a trillion, with the five shapes and the
      falling-rock physics. */
  method Run(jets: seq<int>) returns (part1: int, part2: int)
    requires |jets| >= 1
    ensures part1 >= 0 && part2 >= 0
  {
    PhysicsMonotone(jets);
    ghost var d1, a1, d2, a2;
    part1, d1, a1 := GetHeight(Physics(jets), |jets|, Shapes, 2022);
    part2, d2, a2 := GetHeight(Physics(jets), |jets|, Shapes, 1_000_000_000_000);
    HeightMonotone(Physics(jets), Shapes, 0, d1);
    HeightMonotone(Physics(jets), Shapes, 0, d2);
  }
}

=== FILE: day18.dfy ===
/** Boiling boulders: a lava droplet scanned as unit cubes.  Part 1 counts
    the faces not shared by two cubes; part 2 counts only the faces that
    steam reaching from outside can touch, by flood-filling the air in a
    box one cell larger than the droplet. */
module BoilingBoulders {
  import opened Common

  /** A cube by its integer coordinates; the puzzle's cubes have three. */
  type Cube = seq<int>

  // ---------------------------------------------------------------------
  // Neighbours.
  // ---------------------------------------------------------------------

  /** The Manhattan distance over the coordinates `zip` pairs up. */
  function Distance(a: seq<int>, b: seq<int>): (r: int)
    ensures r >= 0
  {
    if |a| == 0 || |b| == 0 then 0 else Abs(a[0] - b[0]) + Distance(a[1..], b[1..])
  }

  /** `is_neighbor`: the cubes share a face. */
  predicate IsNeighbor(a: seq<int>, b: seq<int>)
  {
    Distance(a, b) == 1
  }

  lemma {:induction false} DistanceSymmetric(a: seq<int>, b: seq<int>)
    ensures Distance(a, b) == Distance(b, a)
  {
    if |a| > 0 && |b| > 0 {
      DistanceSymmetric(a[1..], b[1..]);
    }
  }

  /** Neighbourhood is symmetric and no cube neighbours itself. */
  lemma NeighborSymmetric(a: seq<int>, b: seq<int>)
    ensures IsNeighbor(a, b) <==> IsNeighbor(b, a)
    ensures !IsNeighbor(a, a)
  {
    DistanceSymmetric(a, b);
    DistanceSelf(a);
  }

  lemma {:induction false} DistanceSelf(a: seq<int>)
    ensures Distance(a, a) == 0
  {
    if |a| > 0 {
      DistanceSelf(a[1..]);
    }
  }

  lemma Distance3(a: Cube, b: Cube)
    requires |a| == 3 && |b| == 3
    ensures Distance(a, b) == Abs(a[0] - b[0]) + Abs(a[1] - b[1]) + Abs(a[2] - b[2])
  {
    var a1, b1 := a[1..], b[1..];
    var a2, b2 := a1[1..], b1[1..];
    assert Distance(a2[1..], b2[1..]) == 0;
    assert Distance(a2, b2) == Abs(a[2] - b[2]);
    assert Distance(a1, b1) == Abs(a[1] - b[1]) + Abs(a[2] - b[2]);
  }

  /** The six face directions, in the order the flood fill tries them. */
  const Offsets: seq<Cube> := [[0, 0, -1], [0, 0, 1], [0, 1, 0], [0, -1, 0], [1, 0, 0], [-1, 0, 0]]

  function Add(a: Cube, b: Cube): (r: Cube)
    requires |a| == 3 && |b| == 3
    ensures |r| == 3
  {
    [a[0] + b[0], a[1] + b[1], a[2] + b[2]]
  }

  /** The cube one step from `c` in direction i. */
  function Step(c: Cube, i: nat): (r: Cube)
    requires |c| == 3 && i < 6
    ensures |r| == 3
  {
    Add(c, Offsets[i])
  }

  function Indicator(b: bool): nat
  {
    if b then 1 else 0
  }

  /** How many of the six directions lead from `a` to `b`. */
  function Hits(a: Cube, b: Cube): nat
    requires |a| == 3
  {
    Indicator(Step(a, 0) == b) + Indicator(Step(a, 1) == b) + Indicator(Step(a, 2) == b)
    + Indicator(Step(a, 3) == b) + Indicator(Step(a, 4) == b) + Indicator(Step(a, 5) == b)
  }

  /** Two cubes are neighbours exactly when one face direction leads from
      one to the other, and then only one does. */
  lemma NeighborIffStep(a: Cube, b: Cube)
    requires |a| == 3 && |b| == 3
    ensures Hits(a, b) == Indicator(IsNeighbor(a, b))
  {
    Distance3(a, b);
    assert Step(a, 0) == b <==> b[0] == a[0] && b[1] == a[1] && b[2] == a[2] - 1;
    assert Step(a, 1) == b <==> b[0] == a[0] && b[1] == a[1] && b[2] == a[2] + 1;
    assert Step(a, 2) == b <==> b[0] == a[0] && b[1] == a[1] + 1 && b[2] == a[2];
    assert Step(a, 3) == b <==> b[0] == a[0] && b[1] == a[1] - 1 && b[2] == a[2];
    assert Step(a, 4) == b <==> b[0] == a[0] + 1 && b[1] == a[1] && b[2] == a[2];
    assert Step(a, 5) == b <==> b[0] == a[0] - 1 && b[1] == a[1] && b[2] == a[2];
  }

  /** Each of the six steps reaches a neighbour. */
  lemma StepIsNeighbor(c: Cube, i: nat)
    requires |c| == 3 && i < 6
    ensures IsNeighbor(c, Step(c, i)) && IsNeighbor(Step(c, i), c)
  {
    Distance3(c, Step(c, i));
    NeighborSymmetric(c, Step(c, i));
  }

  // ---------------------------------------------------------------------
  // Faces touching a set of cubes.
  // ---------------------------------------------------------------------

  /** Of the first k directions from `c`, how many lead into `d`. */
  function FacesUpTo(c: Cube, d: set<Cube>, k: nat): (r: nat)
    requires |c| == 3 && k <= 6
    ensures r <= k
  {
    if k == 0 then 0 else FacesUpTo(c, d, k - 1) + Indicator(Step(c, k - 1) in d)
  }

  /** The faces of `c` that touch a cube of `d`. */
  function FacesIn(c: Cube, d: set<Cube>): (r: nat)
    requires |c| == 3
    ensures r <= 6
  {
    FacesUpTo(c, d, 6)
  }

  lemma {:induction false} FacesNone(c: Cube, k: nat)
    requires |c| == 3 && k <= 6
    ensures FacesUpTo(c, {}, k) == 0
  {
    if k > 0 {
      FacesNone(c, k - 1);
    }
  }

  /** One more cube in `d` adds the directions leading to it. */
  lemma FacesInsert(c: Cube, d: set<Cube>, x: Cube)
    requires |c| == 3 && x !in d
    ensures FacesIn(c, d + {x}) == FacesIn(c, d) + Hits(c, x)
  {
    assert FacesUpTo(c, d + {x}, 1) == FacesUpTo(c, d, 1) + Indicator(Step(c, 0) == x);
    assert FacesUpTo(c, d + {x}, 2) == FacesUpTo(c, d, 2) + Indicator(Step(c, 0) == x) + Indicator(Step(c, 1) == x);
    assert FacesUpTo(c, d + {x}, 3) == FacesUpTo(c, d, 3) + Indicator(Step(c, 0) == x) + Indicator(Step(c, 1) == x)
                                        + Indicator(Step(c, 2) == x);
    assert FacesUpTo(c, d + {x}, 4) == FacesUpTo(c, d, 4) + Indicator(Step(c, 0) == x) + Indicator(Step(c, 1) == x)
                                        + Indicator(Step(c, 2) == x) + Indicator(Step(c, 3) == x);
    assert FacesUpTo(c, d + {x}, 5) == FacesUpTo(c, d, 5) + Indicator(Step(c, 0) == x) + Indicator(Step(c, 1) == x)
                                        + Indicator(Step(c, 2) == x) + Indicator(Step(c, 3) == x)
                                        + Indicator(Step(c, 4) == x);
  }

  // ---------------------------------------------------------------------
  // Part 1.
  // ---------------------------------------------------------------------

  predicate AllCubes(s: seq<Cube>)
  {
    forall i :: 0 <= i < |s| ==> |s[i]| == 3
  }

  /** The cubes of `s` that neighbour `c`. */
  function Degree(c: Cube, s: seq<Cube>): nat
  {
    if |s| == 0 then 0 else Indicator(IsNeighbor(c, s[0])) + Degree(c, s[1..])
  }

  /** The neighbour pairs `combinations(2)` yields: each pair of positions
      of `s` once, the earlier first. */
  function PairCount(s: seq<Cube>): nat
  {
    if |s| == 0 then 0 else Degree(s[0], s[1..]) + PairCount(s[1..])
  }

  /** `num_free_surfaces` over the droplet's cubes in iteration order. */
  function FreeSurfaces(s: seq<Cube>): int
  {
    6 * |s| - 2 * PairCount(s)
  }

  /** The reference count: every cube's faces that do not touch another
      cube of the droplet. */
  function ExposedFaces(t: seq<Cube>, d: set<Cube>): int
    requires AllCubes(t)
  {
    if |t| == 0 then 0 else 6 - FacesIn(t[0], d) + ExposedFaces(t[1..], d)
  }

  function DegreeSum(t: seq<Cube>, s: seq<Cube>): nat
  {
    if |t| == 0 then 0 else Degree(t[0], s) + DegreeSum(t[1..], s)
  }

  lemma {:induction false} DegreeSumCons(t: seq<Cube>, x: Cube, u: seq<Cube>)
    ensures DegreeSum(t, [x] + u) == DegreeSum(t, u) + Degree(x, t)
  {
    if |t| > 0 {
      assert ([x] + u)[1..] == u;
      NeighborSymmetric(t[0], x);
      DegreeSumCons(t[1..], x, u);
    }
  }

  /** Every neighbour pair is two shared faces: the degrees add up to
      twice the pairs. */
  lemma {:induction false} Handshake(s: seq<Cube>)
    ensures DegreeSum(s, s) == 2 * PairCount(s)
  {
    if |s| > 0 {
      var x, u := s[0], s[1..];
      assert s == [x] + u;
      NeighborSymmetric(x, x);
      assert Degree(x, s) == Degree(x, u);
      DegreeSumCons(u, x, u);
      Handshake(u);
    }
  }

  /** For distinct cubes, a cube's neighbours in the list are its faces
      touching the droplet. */
  lemma {:induction false} DegreeIsFaces(c: Cube, s: seq<Cube>)
    requires |c| == 3 && AllCubes(s) && Distinct(s)
    ensures Degree(c, s) == FacesIn(c, Elements(s))
  {
    if |s| == 0 {
      assert Elements(s) == {};
      FacesNone(c, 6);
    } else {
      var x, u := s[0], s[1..];
      assert Distinct(u) && AllCubes(u) by {
        assert forall i :: 0 <= i < |u| ==> u[i] == s[i + 1];
      }
      assert x !in Elements(u);
      assert Elements(s) == Elements(u) + {x};
      DegreeIsFaces(c, u);
      FacesInsert(c, Elements(u), x);
      NeighborIffStep(c, x);
    }
  }

  lemma {:induction false} DegreeSumIsFaces(t: seq<Cube>, s: seq<Cube>)
    requires AllCubes(t) && AllCubes(s) && Distinct(s)
    ensures ExposedFaces(t, Elements(s)) == 6 * |t| - DegreeSum(t, s)
  {
    if |t| > 0 {
      assert AllCubes(t[1..]) by {
        assert forall i :: 0 <= i < |t| - 1 ==> t[1..][i] == t[i + 1];
      }
      DegreeIsFaces(t[0], s);
      DegreeSumIsFaces(t[1..], s);
    }
  }

  /** `6 * n - 2 * pairs` counts exactly the faces that touch no other
      cube, and so never goes below zero (the `usize` subtraction cannot
      underflow). */
  lemma FreeSurfacesExposed(s: seq<Cube>)
    requires AllCubes(s) && Distinct(s)
    ensures FreeSurfaces(s) == ExposedFaces(s, Elements(s))
    ensures FreeSurfaces(s) >= 0
  {
    Handshake(s);
    DegreeSumIsFaces(s, s);
    ExposedNonNegative(s, Elements(s));
  }

  lemma {:induction false} ExposedNonNegative(t: seq<Cube>, d: set<Cube>)
    requires AllCubes(t)
    ensures ExposedFaces(t, d) >= 0
  {
    if |t| > 0 {
      assert AllCubes(t[1..]) by {
        assert forall i :: 0 <= i < |t| - 1 ==> t[1..][i] == t[i + 1];
      }
      ExposedNonNegative(t[1..], d);
    }
  }

  // ---------------------------------------------------------------------
  // Part 2: the flood fill.
  // ---------------------------------------------------------------------

  /** The droplet as the fill takes it: cubes of three coordinates, none
      negative, so the start corner is outside the droplet. */
  predicate Droplet(d: set<Cube>)
  {
    forall c :: c in d ==> |c| == 3 && c[0] >= 0 && c[1] >= 0 && c[2] >= 0
  }

  /** `max_coords`: the largest coordinate of the droplet on each axis. */
  predicate IsTop(top: Cube, d: set<Cube>)
  {
    |top| == 3
    && (forall c :: c in d ==> |c| == 3 && c[0] <= top[0] && c[1] <= top[1] && c[2] <= top[2])
    && (exists c :: c in d && c[0] == top[0])
    && (exists c :: c in d && c[1] == top[1])
    && (exists c :: c in d && c[2] == top[2])
  }

  /** The box the fill stays in: from -1 to one past the droplet. */
  predicate InBox(c: Cube, top: Cube)
    requires |top| == 3
  {
    |c| == 3 && -1 <= c[0] <= top[0] + 1 && -1 <= c[1] <= top[1] + 1 && -1 <= c[2] <= top[2] + 1
  }

  /** A cell the fill may enter. */
  predicate IsAir(c: Cube, d: set<Cube>, top: Cube)
    requires |top| == 3
  {
    InBox(c, top) && c !in d
  }

  const Start: Cube := [-1, -1, -1]

  /** A walk from the start through air, one face at a time. */
  ghost predicate AirWalk(p: seq<Cube>, d: set<Cube>, top: Cube)
    requires |top| == 3
  {
    |p| >= 1 && p[0] == Start
    && (forall i :: 0 <= i < |p| ==> IsAir(p[i], d, top))
    && (forall i :: 0 <= i < |p| - 1 ==> IsNeighbor(p[i], p[i + 1]))
  }

  /** Air that steam from outside can reach. */
  ghost predicate Reachable(c: Cube, d: set<Cube>, top: Cube)
    requires |top| == 3
  {
    exists p :: AirWalk(p, d, top) && p[|p| - 1] == c
  }

  /** Every air cell one step from a cell of `v` is in `known`. */
  ghost predicate StepsWithin(v: set<Cube>, known: set<Cube>, d: set<Cube>, top: Cube)
    requires |top| == 3
  {
    forall c, i :: c in v && 0 <= i < 6 && |c| == 3 && IsAir(Step(c, i), d, top) ==> Step(c, i) in known
  }

  /** Air sets from which the fill has nowhere new to go. */
  ghost predicate Closed(v: set<Cube>, d: set<Cube>, top: Cube)
    requires |top| == 3
  {
    StepsWithin(v, v, d, top)
  }

  /** Faces of the listed cells that touch the droplet. */
  function FaceSum(s: seq<Cube>, d: set<Cube>): nat
    requires AllCubes(s)
  {
    if |s| == 0 then 0 else FaceSum(s[..|s| - 1], d) + FacesIn(s[|s| - 1], d)
  }

  lemma FaceSumAppend(s: seq<Cube>, x: Cube, d: set<Cube>)
    requires AllCubes(s) && |x| == 3
    ensures AllCubes(s + [x]) && FaceSum(s + [x], d) == FaceSum(s, d) + FacesIn(x, d)
  {
    assert (s + [x])[..|s|] == s;
  }

  /** A walk can go one face further into air. */
  lemma ExtendWalk(p: seq<Cube>, x: Cube, d: set<Cube>, top: Cube)
    requires |top| == 3 && AirWalk(p, d, top) && IsAir(x, d, top) && IsNeighbor(p[|p| - 1], x)
    ensures AirWalk(p + [x], d, top)
  {
  }

  /** A closed air set holding the start holds every reachable cell. */
  lemma {:induction false} ClosedHoldsReachable(v: set<Cube>, p: seq<Cube>, d: set<Cube>, top: Cube)
    requires |top| == 3 && Start in v && Closed(v, d, top) && AirWalk(p, d, top)
    ensures p[|p| - 1] in v
    decreases |p|
  {
    if |p| > 1 {
      var q := p[..|p| - 1];
      assert AirWalk(q, d, top);
      ClosedHoldsReachable(v, q, d, top);
      var a, b := p[|p| - 2], p[|p| - 1];
      assert IsNeighbor(a, b) && IsAir(b, d, top);
      NeighborIffStep(a, b);
      var i :| 0 <= i < 6 && Step(a, i) == b;
    }
  }

  method MaxCoords(d: set<Cube>) returns (top: Cube)
    requires d != {} && forall c :: c in d ==> |c| == 3
    ensures IsTop(top, d)
  {
    var first :| first in d;
    top := first;
    ghost var w0, w1, w2 := first, first, first;
    var rest := d - {first};
    while rest != {}
      invariant rest <= d && |top| == 3
      invariant forall c :: c in d - rest ==> c[0] <= top[0] && c[1] <= top[1] && c[2] <= top[2]
      invariant w0 in d - rest && w0[0] == top[0]
      invariant w1 in d - rest && w1[1] == top[1]
      invariant w2 in d - rest && w2[2] == top[2]
      decreases rest
    {
      var c :| c in rest;
      rest := rest - {c};
      if c[0] > top[0] { w0 := c; }
      if c[1] > top[1] { w1 := c; }
      if c[2] > top[2] { w2 := c; }
      top := [Max(top[0], c[0]), Max(top[1], c[1]), Max(top[2], c[2])];
    }
  }

  /** The six tries from one node of the current layer: a step out of the
      box is skipped, a step into the droplet counts a face, a step into
      air seen before is skipped, and new air joins the next layer. */
  method VisitNode(d: set<Cube>, top: Cube, node: Cube, visited: set<Cube>, toVisit: set<Cube>,
                   next0: set<Cube>, count0: nat)
    returns (next: set<Cube>, count: nat)
    requires IsTop(top, d) && Droplet(d) && |node| == 3
    ensures count == count0 + FacesIn(node, d)
    ensures next0 <= next
    ensures forall x :: x in next - next0 ==> IsAir(x, d, top) && x !in visited && x !in toVisit && IsNeighbor(node, x)
    ensures forall i :: 0 <= i < 6 && IsAir(Step(node, i), d, top) ==> Step(node, i) in visited + toVisit + next
  {
    next, count := next0, count0;
    ghost var added: set<Cube> := {};
    var i := 0;
    while i < 6
      invariant 0 <= i <= 6
      invariant count == count0 + FacesUpTo(node, d, i)
      invariant next == next0 + added
      invariant forall x :: x in added ==> IsAir(x, d, top) && x !in visited && x !in toVisit && IsNeighbor(node, x)
      invariant Covered(node, d, top, visited + toVisit + next, i)
    {
      var neighbor := Step(node, i);
      ghost var oldNext := next;
      if !InBox(neighbor, top) {
        assert neighbor !in d;
      } else if neighbor in d {
        count := count + 1;
      } else if neighbor in visited || neighbor in toVisit || neighbor in next {
      } else {
        StepIsNeighbor(node, i);
        next := next + {neighbor};
        added := added + {neighbor};
      }
      CoveredGrows(node, d, top, visited + toVisit + oldNext, visited + toVisit + next, i);
      i := i + 1;
    }
  }

  /** The air cells among the first k steps from `c` are all in `known`. */
  ghost predicate Covered(c: Cube, d: set<Cube>, top: Cube, known: set<Cube>, k: nat)
    requires |c| == 3 && |top| == 3 && k <= 6
  {
    forall j :: 0 <= j < k && IsAir(Step(c, j), d, top) ==> Step(c, j) in known
  }

  lemma CoveredGrows(c: Cube, d: set<Cube>, top: Cube, known: set<Cube>, known': set<Cube>, k: nat)
    requires |c| == 3 && |top| == 3 && k < 6
    requires Covered(c, d, top, known, k) && known <= known'
    requires IsAir(Step(c, k), d, top) ==> Step(c, k) in known'
    ensures Covered(c, d, top, known', k + 1)
  {
  }

  /** The walks found so far: each listed cell is reached by its walk. */
  ghost predicate WalksTo(paths: map<Cube, seq<Cube>>, v: set<Cube>, d: set<Cube>, top: Cube)
    requires |top| == 3
  {
    forall x :: x in v ==> x in paths && AirWalk(paths[x], d, top) && paths[x][|paths[x]| - 1] == x
  }

  /** The cells visited so far, in visiting order, and the faces counted
      for them. */
  ghost predicate Visits(order: seq<Cube>, v: set<Cube>, count: int, d: set<Cube>)
  {
    Distinct(order) && AllCubes(order) && Elements(order) == v && count == FaceSum(order, d)
  }

  /** One pass of `while !to_visit.is_empty()`: every node of the layer is
      visited and its new air neighbours form the next layer. */
  method VisitLayer(d: set<Cube>, top: Cube, visited0: set<Cube>, toVisit: set<Cube>, count0: nat,
                    ghost order0: seq<Cube>, ghost paths0: map<Cube, seq<Cube>>)
    returns (visited: set<Cube>, next: set<Cube>, count: nat, ghost order: seq<Cube>, ghost paths: map<Cube, seq<Cube>>)
    requires IsTop(top, d) && Droplet(d)
    requires visited0 !! toVisit && forall x :: x in visited0 + toVisit ==> IsAir(x, d, top)
    requires Visits(order0, visited0, count0, d)
    requires StepsWithin(visited0, visited0 + toVisit, d, top)
    requires WalksTo(paths0, visited0 + toVisit, d, top)
    ensures visited == visited0 + toVisit && visited !! next
    ensures forall x :: x in next ==> IsAir(x, d, top)
    ensures Visits(order, visited, count, d)
    ensures StepsWithin(visited, visited + next, d, top)
    ensures WalksTo(paths, visited + next, d, top)
  {
    visited, next, count, order, paths := visited0, {}, count0, order0, paths0;
    var rest := toVisit;
    while rest != {}
      invariant rest <= toVisit && visited == visited0 + (toVisit - rest)
      invariant next !! visited0 && next !! toVisit
      invariant forall x :: x in next ==> IsAir(x, d, top)
      invariant Visits(order, visited, count, d)
      invariant StepsWithin(visited, visited0 + toVisit + next, d, top)
      invariant WalksTo(paths, visited0 + toVisit + next, d, top)
      decreases rest
    {
      var node :| node in rest;
      visited, next, count, order, paths := VisitOne(d, top, visited0, toVisit, rest, node, visited, next, count, order, paths);
      rest := rest - {node};
    }
  }

  /** The body of `for node in &to_visit` for one node still to visit. */
  method VisitOne(d: set<Cube>, top: Cube, visited0: set<Cube>, toVisit: set<Cube>, rest: set<Cube>, node: Cube,
                  visited: set<Cube>, next: set<Cube>, count: nat, ghost order: seq<Cube>, ghost paths: map<Cube, seq<Cube>>)
    returns (visited': set<Cube>, next': set<Cube>, count': nat, ghost order': seq<Cube>, ghost paths': map<Cube, seq<Cube>>)
    requires IsTop(top, d) && Droplet(d)
    requires visited0 !! toVisit && forall x :: x in visited0 + toVisit ==> IsAir(x, d, top)
    requires node in rest
    requires rest <= toVisit && visited == visited0 + (toVisit - rest)
    requires next !! visited0 && next !! toVisit
    requires forall x :: x in next ==> IsAir(x, d, top)
    requires Visits(order, visited, count, d)
    requires StepsWithin(visited, visited0 + toVisit + next, d, top)
    requires WalksTo(paths, visited0 + toVisit + next, d, top)
    ensures rest - {node} <= toVisit && visited' == visited0 + (toVisit - (rest - {node}))
    ensures next' !! visited0 && next' !! toVisit
    ensures forall x :: x in next' ==> IsAir(x, d, top)
    ensures Visits(order', visited', count', d)
    ensures StepsWithin(visited', visited0 + toVisit + next', d, top)
    ensures WalksTo(paths', visited0 + toVisit + next', d, top)
  {
    next', count' := VisitNode(d, top, node, visited, toVisit, next, count);
    paths' := ExtendWalks(paths, visited0 + toVisit + next, node, next' - next, d, top);
    LayerSets(visited0, toVisit, rest, visited, next, next', node);
    ClosureStep(d, top, visited0 + toVisit, visited, next, next', node);
    VisitsAppend(order, visited, count, node, d);
    order' := order + [node];
    visited' := visited + {node};
  }

  lemma LayerSets(visited0: set<Cube>, toVisit: set<Cube>, rest: set<Cube>, visited: set<Cube>,
                  before: set<Cube>, next: set<Cube>, node: Cube)
    requires node in rest && rest <= toVisit && visited == visited0 + (toVisit - rest) && visited0 !! toVisit
    requires before <= next && forall x :: x in next - before ==> x !in visited && x !in toVisit
    requires before !! visited0 && before !! toVisit
    ensures rest - {node} <= toVisit && visited + {node} == visited0 + (toVisit - (rest - {node}))
    ensures next !! visited0 && next !! toVisit && node !in visited
    ensures visited0 + toVisit + before + (next - before) == visited0 + toVisit + next
  {
  }

  lemma ClosureStep(d: set<Cube>, top: Cube, seen: set<Cube>, visited: set<Cube>, before: set<Cube>, next: set<Cube>, node: Cube)
    requires |top| == 3 && |node| == 3 && before <= next && visited <= seen && node in seen
    requires StepsWithin(visited, seen + before, d, top)
    requires forall i :: 0 <= i < 6 && IsAir(Step(node, i), d, top) ==> Step(node, i) in visited + seen + next
    ensures StepsWithin(visited + {node}, seen + next, d, top)
  {
  }

  /** Each newly found neighbour of `node` is reached by `node`'s walk and
      one more face. */
  ghost function ExtendWalks(paths: map<Cube, seq<Cube>>, v: set<Cube>, node: Cube, added: set<Cube>,
                             d: set<Cube>, top: Cube): (r: map<Cube, seq<Cube>>)
    requires |top| == 3 && node in v && WalksTo(paths, v, d, top)
    requires forall x :: x in added ==> IsAir(x, d, top) && IsNeighbor(node, x)
    ensures WalksTo(r, v + added, d, top)
  {
    var walk := paths[node];
    assert forall x :: x in added ==> AirWalk(walk + [x], d, top) by {
      forall x | x in added
        ensures AirWalk(walk + [x], d, top)
      {
        ExtendWalk(walk, x, d, top);
      }
    }
    map x | x in paths.Keys + added :: if x in added then walk + [x] else paths[x]
  }

  lemma VisitsAppend(order: seq<Cube>, v: set<Cube>, count: int, node: Cube, d: set<Cube>)
    requires Visits(order, v, count, d) && node !in v && |node| == 3
    ensures Visits(order + [node], v + {node}, count + FacesIn(node, d), d)
  {
    FaceSumAppend(order, node, d);
    assert Elements(order + [node]) == v + {node};
  }

  /** The cells of the box. */
  ghost function BoxCells(top: Cube): set<Cube>
    requires |top| == 3
  {
    set x, y, z | -1 <= x <= top[0] + 1 && -1 <= y <= top[1] + 1 && -1 <= z <= top[2] + 1 :: [x, y, z]
  }

  lemma InBoxCells(c: Cube, top: Cube)
    requires |top| == 3 && InBox(c, top)
    ensures c in BoxCells(top)
  {
    assert c == [c[0], c[1], c[2]];
  }

  /** The fill starts in air: the droplet has no negative coordinate. */
  lemma StartIsAir(d: set<Cube>, top: Cube)
    requires IsTop(top, d) && Droplet(d)
    ensures IsAir(Start, d, top)
  {
    var w :| w in d && w[0] == top[0];
    var w1 :| w1 in d && w1[1] == top[1];
    var w2 :| w2 in d && w2[2] == top[2];
  }

  /** Each layer takes new cells of the box, so the fill ends. */
  lemma LayerShrinks(top: Cube, before: set<Cube>, layer: set<Cube>, after: set<Cube>)
    requires |top| == 3 && layer != {} && before !! layer && after == before + layer
    requires forall x :: x in layer ==> InBox(x, top)
    ensures BoxCells(top) - after < BoxCells(top) - before
  {
    var x :| x in layer;
    InBoxCells(x, top);
    assert x in BoxCells(top) - before && x !in BoxCells(top) - after;
  }

  /** When no layer is left, the visited cells are closed, so they hold
      every cell a walk through air reaches, and each has its walk. */
  lemma FillComplete(d: set<Cube>, top: Cube, visited: set<Cube>, reached: seq<Cube>, paths: map<Cube, seq<Cube>>)
    requires |top| == 3 && Start in visited && Elements(reached) == visited
    requires StepsWithin(visited, visited, d, top)
    requires WalksTo(paths, visited, d, top)
    ensures forall x :: x in reached ==> Reachable(x, d, top)
    ensures forall p :: AirWalk(p, d, top) ==> p[|p| - 1] in reached
  {
    forall p | AirWalk(p, d, top)
      ensures p[|p| - 1] in reached
    {
      ClosedHoldsReachable(visited, p, d, top);
    }
    forall x | x in reached
      ensures Reachable(x, d, top)
    {
      assert x in visited;
      assert AirWalk(paths[x], d, top) && paths[x][|paths[x]| - 1] == x;
    }
  }

  /** `num_surfaces_outside`.  It fails on an empty droplet, where the
      source's `max().unwrap()` panics.  Otherwise the cells it visits are
      exactly the air reachable from the corner (-1, -1, -1) inside the
      box, each visited once, and the answer is the number of their faces
      touching the droplet. */
  method SurfacesOutside(d: set<Cube>) returns (r: Result<int>, top: Cube, ghost reached: seq<Cube>)
    requires Droplet(d)
    ensures r.Err? <==> d == {}
    ensures r.Ok? ==> IsTop(top, d) && Visits(reached, Elements(reached), r.value, d)
    ensures r.Ok? ==> forall x :: x in reached ==> IsAir(x, d, top) && Reachable(x, d, top)
    ensures r.Ok? ==> forall p :: AirWalk(p, d, top) ==> p[|p| - 1] in reached
  {
    reached := [];
    if d == {} {
      top := [];
      return Err("no droplet"), top, reached;
    }
    top := MaxCoords(d);
    StartIsAir(d, top);
    var visited: set<Cube> := {};
    var toVisit: set<Cube> := {Start};
    var count: nat := 0;
    ghost var paths: map<Cube, seq<Cube>> := map[Start := [Start]];
    while toVisit != {}
      invariant visited !! toVisit && forall x :: x in visited + toVisit ==> IsAir(x, d, top)
      invariant Start in visited + toVisit
      invariant Visits(reached, visited, count, d)
      invariant StepsWithin(visited, visited + toVisit, d, top)
      invariant WalksTo(paths, visited + toVisit, d, top)
      decreases BoxCells(top) - visited
    {
      ghost var before := visited;
      var next;
      visited, next, count, reached, paths := VisitLayer(d, top, visited, toVisit, count, reached, paths);
      LayerShrinks(top, before, toVisit, visited);
      toVisit := next;
    }
    FillComplete(d, top, visited, reached, paths);
    r := Ok(count);
  }

  /** `run`: the droplet's cubes, each once, in the set's iteration order. */
  method Run(droplets: seq<Cube>) returns (part1: int, part2: Result<int>)
    requires AllCubes(droplets) && Distinct(droplets) && Droplet(Elements(droplets))
    ensures part1 == ExposedFaces(droplets, Elements(droplets)) && part1 >= 0
    ensures part2.Err? <==> |droplets| == 0
  {
    FreeSurfacesExposed(droplets);
    part1 := FreeSurfaces(droplets);
    if |droplets| > 0 {
      assert droplets[0] in Elements(droplets);
    }
    var top;
    ghost var reached;
    part2, top, reached := SurfacesOutside(Elements(droplets));
  }
}

=== FILE: day19.dfy ===
/** Not enough minerals: robots mine ore, clay, obsidian and geodes, and a
    factory builds one robot at a time from a blueprint's costs.  A
    depth-first search over "which robot to build next" finds the most
    geodes that can be opened in the time given, pruning branches whose
    optimistic bound cannot beat the best found so far. */
module NotEnoughMinerals {
  import opened Common

  /** Four counts, one per material: ore, clay, obsidian, geode. */
  type Quad = seq<int>

  /** The cost in each material of each of the four robots. */
  type Blueprint = seq<Quad>

  predicate IsQuad(q: Quad)
  {
    |q| == 4
  }

  predicate IsBlueprint(bp: Blueprint)
  {
    |bp| == 4 && forall r :: 0 <= r < 4 ==> |bp[r]| == 4
  }

  /** Costs are never negative (they come from unsigned parsing). */
  predicate NonNegativeCosts(bp: Blueprint)
    requires IsBlueprint(bp)
  {
    forall r, i :: 0 <= r < 4 && 0 <= i < 4 ==> bp[r][i] >= 0
  }

  predicate NonNegative(q: Quad)
    requires IsQuad(q)
  {
    q[0] >= 0 && q[1] >= 0 && q[2] >= 0 && q[3] >= 0
  }

  const I64Max: int := 0x7FFF_FFFF_FFFF_FFFF

  // ---------------------------------------------------------------------
  // Arithmetic.
  // ---------------------------------------------------------------------

  /** Rust's integer division, which truncates toward zero. */
  function Quot(a: int, b: int): int
    requires b != 0
  {
    if (a >= 0) == (b > 0) then Abs(a) / Abs(b) else -(Abs(a) / Abs(b))
  }

  /** `ceil_div`. */
  function CeilDiv(a: int, b: int): int
    requires b != 0
  {
    Quot(a + b - 1, b)
  }

  /** For a non-negative numerator `ceil_div` is the ceiling: the least
      number of b's that reach a. */
  lemma CeilDivIsCeiling(a: int, b: int)
    requires a >= 0 && b > 0
    ensures CeilDiv(a, b) * b >= a
    ensures CeilDiv(a, b) == 0 || (CeilDiv(a, b) - 1) * b < a
    ensures CeilDiv(a, b) >= 0
  {
    var q := (a + b - 1) / b;
    assert CeilDiv(a, b) == q;
    DivMod(a + b - 1, b);
    assert (q - 1) * b == q * b - b;
  }

  /** The triangular bound `t * (t - 1) / 2`: geodes from one new geode
      robot in each remaining minute. */
  function Triangle(t: int): int
  {
    t * (t - 1) / 2
  }

  lemma TriangleStep(n: int)
    ensures Triangle(n + 1) == Triangle(n) + n
  {
    assert (n + 1) * n == n * (n - 1) + 2 * n;
  }

  lemma {:induction false} TriangleMonotone(a: int, b: int)
    requires 0 <= a <= b
    ensures Triangle(a) <= Triangle(b)
    decreases b - a
  {
    if a < b {
      TriangleMonotone(a, b - 1);
      TriangleStep(b - 1);
    }
  }

  lemma MulMono(x: int, y: int, f: int)
    requires x <= y && f >= 0
    ensures x * f <= y * f
  {
    assert y * f - x * f == (y - x) * f;
  }

  // ---------------------------------------------------------------------
  // One build.
  // ---------------------------------------------------------------------

  /** The most robots of a kind worth having: no more ore robots than the
      dearest ore cost, no more clay robots than the obsidian robot's clay
      cost, no more obsidian robots than the geode robot's obsidian cost,
      and geode robots without limit. */
  function MaxRobots(bp: Blueprint, kind: nat): int
    requires IsBlueprint(bp) && kind < 4
  {
    if kind == 0 then Max(Max(bp[0][0], bp[1][0]), Max(bp[2][0], bp[3][0]))
    else if kind == 1 then bp[2][1]
    else if kind == 2 then bp[3][2]
    else I64Max
  }

  predicate Capped(bp: Blueprint, robots: Quad, kind: nat)
    requires IsBlueprint(bp) && IsQuad(robots) && kind < 4
  {
    robots[kind] >= MaxRobots(bp, kind)
  }

  /** Minutes until enough of one material is in store, plus the minute
      of building. */
  function Wait(have: int, need: int, rate: int, t: int): int
  {
    if need <= have then 1
    else if rate == 0 then t
    else CeilDiv(need - have, rate) + 1
  }

  /** `time_to_build`: the longest wait over the four materials. */
  function TimeToBuild(bp: Blueprint, robots: Quad, resources: Quad, t: int, kind: nat): int
    requires IsBlueprint(bp) && IsQuad(robots) && IsQuad(resources) && NonNegative(robots) && kind < 4
  {
    Max(Max(Wait(resources[0], bp[kind][0], robots[0], t), Wait(resources[1], bp[kind][1], robots[1], t)),
        Max(Wait(resources[2], bp[kind][2], robots[2], t), Wait(resources[3], bp[kind][3], robots[3], t)))
  }

  /** A build takes at least a minute when there is time left, and never
      less than the time left when there is none. */
  lemma TimeToBuildBounds(bp: Blueprint, robots: Quad, resources: Quad, t: int, kind: nat)
    requires IsBlueprint(bp) && IsQuad(robots) && IsQuad(resources) && NonNegative(robots) && kind < 4
    ensures TimeToBuild(bp, robots, resources, t, kind) >= Min(1, t)
  {
    forall i | 0 <= i < 4 && bp[kind][i] > resources[i] && robots[i] > 0
      ensures CeilDiv(bp[kind][i] - resources[i], robots[i]) >= 0
    {
      CeilDivIsCeiling(bp[kind][i] - resources[i], robots[i]);
    }
  }

  /** The store after waiting `minutes` and paying for the robot. */
  function Collect(robots: Quad, resources: Quad, cost: Quad, minutes: int): (r: Quad)
    requires IsQuad(robots) && IsQuad(resources) && IsQuad(cost)
    ensures IsQuad(r)
  {
    [resources[0] + robots[0] * minutes - cost[0], resources[1] + robots[1] * minutes - cost[1],
     resources[2] + robots[2] * minutes - cost[2], resources[3] + robots[3] * minutes - cost[3]]
  }

  function Build(robots: Quad, kind: nat): (r: Quad)
    requires IsQuad(robots) && kind < 4
    ensures IsQuad(r)
  {
    robots[kind := robots[kind] + 1]
  }

  /** One material stays non-negative over a wait long enough for it. */
  lemma EnoughOf(have: int, need: int, rate: int, t: int, minutes: int)
    requires have >= 0 && rate >= 0 && minutes >= Wait(have, need, rate, t) && minutes < t
    ensures have + rate * minutes - need >= 0
  {
    if need > have {
      assert rate != 0;
      CeilDivIsCeiling(need - have, rate);
      var q := CeilDiv(need - have, rate);
      MulMono(q, minutes, rate);
      assert q * rate == rate * q;
    } else {
      MulMono(0, minutes, rate);
      assert 0 * rate == 0 && minutes * rate == rate * minutes;
    }
  }

  /** A robot is built only when the wait fits in the time left, and then
      the store never goes negative. */
  lemma BuildKeepsStoreNonNegative(bp: Blueprint, robots: Quad, resources: Quad, t: int, kind: nat)
    requires IsBlueprint(bp) && IsQuad(robots) && IsQuad(resources) && kind < 4
    requires NonNegative(robots) && NonNegative(resources)
    requires t - TimeToBuild(bp, robots, resources, t, kind) > 0
    ensures var m := TimeToBuild(bp, robots, resources, t, kind);
            NonNegative(Collect(robots, resources, bp[kind], m)) && NonNegative(Build(robots, kind))
  {
    var m := TimeToBuild(bp, robots, resources, t, kind);
    EnoughOf(resources[0], bp[kind][0], robots[0], t, m);
    EnoughOf(resources[1], bp[kind][1], robots[1], t, m);
    EnoughOf(resources[2], bp[kind][2], robots[2], t, m);
    EnoughOf(resources[3], bp[kind][3], robots[3], t, m);
  }

  /** Robot counts within the caps (geode robots are never capped). */
  predicate WithinCaps(bp: Blueprint, robots: Quad)
    requires IsBlueprint(bp) && IsQuad(robots)
  {
    robots[0] <= MaxRobots(bp, 0) && robots[1] <= MaxRobots(bp, 1) && robots[2] <= MaxRobots(bp, 2)
  }

  /** Building only uncapped robots keeps every count within its cap. */
  lemma BuildRespectsCaps(bp: Blueprint, robots: Quad, kind: nat)
    requires IsBlueprint(bp) && IsQuad(robots) && kind < 4
    requires WithinCaps(bp, robots) && !Capped(bp, robots, kind)
    ensures WithinCaps(bp, Build(robots, kind))
  {
  }

  // ---------------------------------------------------------------------
  // The search.
  // ---------------------------------------------------------------------

  /** Geodes opened by just waiting. */
  function JustWait(robots: Quad, resources: Quad, t: int): int
    requires IsQuad(robots) && IsQuad(resources)
  {
    resources[3] + t * robots[3]
  }

  /** `upper_bound`: waiting, plus a new geode robot every minute. */
  function UpperBound(robots: Quad, resources: Quad, t: int): int
    requires IsQuad(robots) && IsQuad(resources)
  {
    JustWait(robots, resources, t) + Triangle(t)
  }

  lemma TriangleNonNegative(t: int)
    ensures Triangle(t) >= 0
  {
    if t >= 1 {
      TriangleMonotone(0, t);
    } else {
      assert t * (t - 1) == (-t) * (1 - t);
    }
  }

  /** After any build the bound can only fall: the minutes spent waiting
      already count in the parent's bound, and the child's triangle is
      that of fewer minutes. */
  lemma BoundFalls(bp: Blueprint, robots: Quad, resources: Quad, t: int, kind: nat)
    requires IsBlueprint(bp) && NonNegativeCosts(bp) && IsQuad(robots) && IsQuad(resources) && kind < 4
    requires NonNegative(robots)
    requires TimeToBuild(bp, robots, resources, t, kind) >= 1
    requires t - TimeToBuild(bp, robots, resources, t, kind) > 0
    ensures var m := TimeToBuild(bp, robots, resources, t, kind);
            UpperBound(Build(robots, kind), Collect(robots, resources, bp[kind], m), t - m)
            <= UpperBound(robots, resources, t)
  {
    var m := TimeToBuild(bp, robots, resources, t, kind);
    BoundArithmetic(resources[3], robots[3], Build(robots, kind)[3], bp[kind][3], m, t);
  }

  /** The arithmetic of `BoundFalls`, over plain numbers: `g` geode robots
      before, `g2` after, `c` geodes paid, `m` minutes spent of `t`. */
  lemma BoundArithmetic(have: int, g: int, g2: int, c: int, m: int, t: int)
    requires g2 <= g + 1 && c >= 0 && m >= 1 && t - m > 0
    ensures have + g * m - c + (t - m) * g2 + Triangle(t - m) <= have + t * g + Triangle(t)
  {
    var u := t - m;
    MulMono(g2, g + 1, u);
    assert g2 * u <= g * u + u;
    assert g * m + g * u == t * g;
    TriangleStep(u);
    TriangleMonotone(u + 1, t);
  }

  /** `max_opened_geodes`. */
  function MaxGeodes(bp: Blueprint, robots: Quad, resources: Quad, t: int, best: int): (r: int)
    requires IsBlueprint(bp) && IsQuad(robots) && IsQuad(resources) && NonNegative(robots)
    ensures r >= best && r >= JustWait(robots, resources, t)
    ensures UpperBound(robots, resources, t) <= Max(best, JustWait(robots, resources, t))
            ==> r == Max(best, JustWait(robots, resources, t))
    ensures NonNegativeCosts(bp) ==> r <= Max(best, UpperBound(robots, resources, t))
    decreases t, 1, 0
  {
    var found := Max(best, JustWait(robots, resources, t));
    TriangleNonNegative(t);
    if UpperBound(robots, resources, t) <= found then found
    else TryRobots(bp, robots, resources, t, found, 3)
  }

  /** The `for next_robot in (0..4).rev()` loop from `kind` down to 0,
      carrying the best count so far. */
  function TryRobots(bp: Blueprint, robots: Quad, resources: Quad, t: int, best: int, kind: int): (r: int)
    requires IsBlueprint(bp) && IsQuad(robots) && IsQuad(resources) && NonNegative(robots) && kind < 4
    ensures r >= best
    ensures NonNegativeCosts(bp) ==> r <= Max(best, UpperBound(robots, resources, t))
    decreases t, 0, kind + 1
  {
    if kind < 0 then best
    else
      var found := TryRobot(bp, robots, resources, t, best, kind);
      TryRobots(bp, robots, resources, t, found, kind - 1)
  }

  /** One pass of the loop: skip a capped kind, else build it if the wait
      leaves time. */
  function TryRobot(bp: Blueprint, robots: Quad, resources: Quad, t: int, best: int, kind: nat): (r: int)
    requires IsBlueprint(bp) && IsQuad(robots) && IsQuad(resources) && NonNegative(robots) && kind < 4
    ensures r >= best
    ensures NonNegativeCosts(bp) ==> r <= Max(best, UpperBound(robots, resources, t))
    decreases t, 0, 0
  {
    if Capped(bp, robots, kind) then best
    else
      var m := TimeToBuild(bp, robots, resources, t, kind);
      TimeToBuildBounds(bp, robots, resources, t, kind);
      if t - m > 0 then
        var child := MaxGeodes(bp, Build(robots, kind), Collect(robots, resources, bp[kind], m), t - m, best);
        BoundFallsWhenCosted(bp, robots, resources, t, kind);
        Max(best, child)
      else best
  }

  /** `BoundFalls` for blueprints with non-negative costs. */
  lemma BoundFallsWhenCosted(bp: Blueprint, robots: Quad, resources: Quad, t: int, kind: nat)
    requires IsBlueprint(bp) && IsQuad(robots) && IsQuad(resources) && kind < 4 && NonNegative(robots)
    requires TimeToBuild(bp, robots, resources, t, kind) >= 1
    requires t - TimeToBuild(bp, robots, resources, t, kind) > 0
    ensures NonNegativeCosts(bp) ==>
              var m := TimeToBuild(bp, robots, resources, t, kind);
              UpperBound(Build(robots, kind), Collect(robots, resources, bp[kind], m), t - m)
              <= UpperBound(robots, resources, t)
  {
    if NonNegativeCosts(bp) {
      BoundFalls(bp, robots, resources, t, kind);
    }
  }

  // ---------------------------------------------------------------------
  // Blueprints and the two answers.
  // ---------------------------------------------------------------------

  /** The blueprint from a line's numbers: id, ore robot ore, clay robot
      ore, obsidian robot ore and clay, geode robot ore and obsidian.  A
      line with fewer than seven numbers makes the source panic. */
  function FromCosts(cost: seq<int>): (r: Result<Blueprint>)
    ensures r.Ok? <==> |cost| >= 7
    ensures r.Ok? ==> IsBlueprint(r.value)
    ensures r.Ok? && (forall i :: 0 <= i < |cost| ==> cost[i] >= 0) ==> NonNegativeCosts(r.value)
  {
    if |cost| < 7 then Err("a blueprint needs seven numbers")
    else Ok([[cost[1], 0, 0, 0], [cost[2], 0, 0, 0], [cost[3], cost[4], 0, 0], [cost[5], 0, cost[6], 0]])
  }

  const StartRobots: Quad := [1, 0, 0, 0]
  const StartStore: Quad := [0, 0, 0, 0]

  /** The most geodes in `t` minutes from one ore robot and nothing in
      store. */
  function Geodes(bp: Blueprint, t: int): (r: int)
    requires IsBlueprint(bp)
    ensures r >= 0
  {
    MaxGeodes(bp, StartRobots, StartStore, t, 0)
  }

  predicate AllBlueprints(bps: seq<Blueprint>)
  {
    forall i :: 0 <= i < |bps| ==> IsBlueprint(bps[i])
  }

  /** `sum_of_quality_levels`, summed from the last blueprint, whose
      number is |bps|. */
  function QualitySum(bps: seq<Blueprint>): int
    requires AllBlueprints(bps)
  {
    if |bps| == 0 then 0
    else QualitySum(bps[..|bps| - 1]) + |bps| * Geodes(bps[|bps| - 1], 24)
  }

  /** Blueprint i (from 0) adds its number i + 1 times its geodes. */
  lemma {:induction false} QualitySumTerms(bps: seq<Blueprint>, i: nat)
    requires AllBlueprints(bps) && i < |bps|
    ensures QualitySum(bps[..i + 1]) == QualitySum(bps[..i]) + (i + 1) * Geodes(bps[i], 24)
  {
    var p := bps[..i + 1];
    assert p[..|p| - 1] == bps[..i];
  }

  lemma {:induction false} QualitySumNonNegative(bps: seq<Blueprint>)
    requires AllBlueprints(bps)
    ensures QualitySum(bps) >= 0
  {
    if |bps| > 0 {
      QualitySumNonNegative(bps[..|bps| - 1]);
      MulMono(0, |bps|, Geodes(bps[|bps| - 1], 24));
    }
  }

  /** Geodes opened by each blueprint in `t` minutes. */
  function GeodeCounts(bps: seq<Blueprint>, t: int): (r: seq<int>)
    requires AllBlueprints(bps)
    ensures |r| == |bps| && forall i :: 0 <= i < |bps| ==> r[i] == Geodes(bps[i], t)
  {
    if |bps| == 0 then [] else [Geodes(bps[0], t)] + GeodeCounts(bps[1..], t)
  }

  lemma ProductOfThree(s: seq<int>)
    requires |s| == 3
    ensures Product(s) == s[0] * s[1] * s[2]
  {
    var tail := s[1..];
    assert tail[1..][1..] == [];
    assert Product(tail[1..]) == s[2] * 1;
    assert Product(tail) == s[1] * (s[2] * 1);
  }

  /** `run`: the quality sum over all blueprints and the product over the
      first three, which panics with fewer than three. */
  method Run(bps: seq<Blueprint>) returns (part1: int, part2: Result<int>)
    requires AllBlueprints(bps)
    ensures part1 == QualitySum(bps) && part1 >= 0
    ensures part2.Ok? <==> |bps| >= 3
    ensures part2.Ok? ==> part2.value == Geodes(bps[0], 32) * Geodes(bps[1], 32) * Geodes(bps[2], 32)
  {
    QualitySumNonNegative(bps);
    part1 := QualitySum(bps);
    if |bps| < 3 {
      part2 := Err("fewer than three blueprints");
    } else {
      var counts := GeodeCounts(bps[..3], 32);
      ProductOfThree(counts);
      part2 := Ok(Product(counts));
    }
  }
}

=== FILE: day20.dfy ===
/** Grove positioning: mixing an encrypted file.  The numbers sit on a
    circle held as a doubly linked list of indices; each number in turn
    is unlinked and relinked as many places along as its value says.
    The answer adds the numbers 1000, 2000 and 3000 places after zero.

    The reference definition is a circle written as a sequence of
    indices (`order`), read from any starting point; `Ring` says that
    the linked lists describe that circle. */
module GrovePositioning {
  import opened Common

  // ---------------------------------------------------------------------
  // Circles as sequences.
  // ---------------------------------------------------------------------

  /** The position after k on a circle of m places. */
  function Succ(k: nat, m: nat): nat
  {
    if k + 1 >= m then 0 else k + 1
  }

  /** The position before k on a circle of m places. */
  function Pred(k: nat, m: nat): nat
  {
    if k == 0 then (if m > 0 then m - 1 else 0) else k - 1
  }

  /** Every entry of a link list names an index of it. */
  predicate Closed(links: seq<nat>)
  {
    forall i :: 0 <= i < |links| ==> links[i] < |links|
  }

  /** `order`, read as a circle, is what `next` and `prev` link: each
      index on it points forward to the next and back to the previous. */
  predicate Ring(order: seq<nat>, next: seq<nat>, prev: seq<nat>)
  {
    && |order| >= 1 && |next| == |prev|
    && (forall k :: 0 <= k < |order| ==> order[k] < |next|)
    && (forall k: nat :: k < |order| ==> LinkedAt(order, next, prev, k))
  }

  /** The index at position k of the circle `order` links forward to the
      one at the next position and back to the one at the previous. */
  predicate LinkedAt(order: seq<nat>, next: seq<nat>, prev: seq<nat>, k: nat)
  {
    && k < |order| && order[k] < |next| && order[k] < |prev|
    && next[order[k]] == order[Succ(k, |order|)]
    && prev[order[k]] == order[Pred(k, |order|)]
  }

  /** `order` holds each of the indices 0 .. n - 1 once. */
  predicate IsPerm(order: seq<nat>, n: nat)
  {
    multiset(order) == multiset(Range(n))
  }

  lemma RangeDistinct(n: nat)
    ensures Distinct(Range(n))
  {
    var r := Range(n);
    forall i, j | 0 <= i < j < n ensures r[i] != r[j] {
    }
  }

  /** What holding each index once means, element by element. */
  lemma PermFacts(order: seq<nat>, n: nat)
    requires IsPerm(order, n)
    ensures |order| == n && Distinct(order)
    ensures forall k :: 0 <= k < |order| ==> order[k] < n
    ensures forall i :: 0 <= i < n ==> i in order
  {
    assert |order| == |multiset(order)| == |multiset(Range(n))| == n;
    RangeDistinct(n);
    DistinctPreserved(Range(n), order);
    forall k | 0 <= k < |order| ensures order[k] < n {
      assert order[k] in multiset(Range(n));
    }
    forall i | 0 <= i < n ensures i in order {
      assert Range(n)[i] == i;
      assert i in multiset(Range(n));
    }
  }

  /** When the circle passes through every index, `next` and `prev`
      undo each other. */
  lemma RingInverse(order: seq<nat>, next: seq<nat>, prev: seq<nat>)
    requires Ring(order, next, prev) && IsPerm(order, |next|)
    ensures forall i :: 0 <= i < |next| ==> next[i] < |next| && prev[next[i]] == i
    ensures forall i :: 0 <= i < |next| ==> prev[i] < |next| && next[prev[i]] == i
  {
    var m := |order|;
    PermFacts(order, |next|);
    forall i | 0 <= i < |next|
      ensures next[i] < |next| && prev[next[i]] == i
      ensures prev[i] < |next| && next[prev[i]] == i
    {
      var k := IndexOf(order, i);
      assert Pred(Succ(k, m), m) == k && Succ(Pred(k, m), m) == k;
      assert LinkedAt(order, next, prev, k);
      assert LinkedAt(order, next, prev, Succ(k, m));
      assert LinkedAt(order, next, prev, Pred(k, m));
    }
  }

  /** The first position of x in s. */
  function IndexOf<T(==)>(s: seq<T>, x: T): (r: nat)
    requires x in s
    ensures r < |s| && s[r] == x && forall j :: 0 <= j < r ==> s[j] != x
  {
    if s[0] == x then 0 else 1 + IndexOf(s[1..], x)
  }

  // ---------------------------------------------------------------------
  // Modular positions.
  // ---------------------------------------------------------------------

  lemma IntModAddMultiple(q: int, r: int, d: int)
    requires d > 0
    ensures (q * d + r) % d == r % d
  {
    assert q * d + r == (q + r / d) * d + r % d;
    DivModUnique(q * d + r, q + r / d, r % d, d);
  }

  /** One step forward of a position taken modulo m. */
  lemma SuccMod(a: int, m: nat)
    requires m > 0
    ensures Succ(a % m, m) == (a + 1) % m
  {
    var q, r := a / m, a % m;
    if r + 1 < m {
      DivModUnique(a + 1, q, r + 1, m);
    } else {
      DivModUnique(a + 1, q + 1, 0, m);
    }
  }

  /** One step back of a position taken modulo m. */
  lemma PredMod(a: int, m: nat)
    requires m > 0
    ensures Pred(a % m, m) == (a - 1) % m
  {
    var q, r := a / m, a % m;
    if r > 0 {
      DivModUnique(a - 1, q, r - 1, m);
    } else {
      DivModUnique(a - 1, q - 1, m - 1, m);
    }
  }

  // ---------------------------------------------------------------------
  // Walking the links.
  // ---------------------------------------------------------------------

  /** The position k places after p on a circle of m places. */
  function Ahead(p: int, k: int, m: nat): (r: nat)
    requires m > 0
    ensures r < m
  {
    (p + k) % m
  }

  /** k steps along `next`. */
  function Forward(next: seq<nat>, x: nat, k: nat): (r: nat)
    requires Closed(next) && x < |next|
    ensures r < |next|
  {
    if k == 0 then x else next[Forward(next, x, k - 1)]
  }

  /** k steps along `prev`. */
  function Backward(prev: seq<nat>, x: nat, k: nat): (r: nat)
    requires Closed(prev) && x < |prev|
    ensures r < |prev|
  {
    if k == 0 then x else prev[Backward(prev, x, k - 1)]
  }

  /** The walk of a move: `value` steps forward, or back for a negative
      value. */
  function Walk(next: seq<nat>, prev: seq<nat>, x: nat, value: int): (r: nat)
    requires Closed(next) && Closed(prev) && |next| == |prev| && x < |next|
    ensures r < |next|
  {
    if value > 0 then Forward(next, x, value) else Backward(prev, x, -value)
  }

  /** Walking forward k steps moves k places round the circle. */
  lemma {:induction false} WalkForward(order: seq<nat>, next: seq<nat>, prev: seq<nat>, p: nat, k: nat)
    requires Ring(order, next, prev) && Closed(next) && p < |order|
    ensures Forward(next, order[p], k) == order[Ahead(p, k, |order|)]
  {
    var m := |order|;
    if k == 0 {
      DivModUnique(p, 0, p, m);
    } else {
      WalkForward(order, next, prev, p, k - 1);
      var j := Ahead(p, k - 1, m);
      assert Forward(next, order[p], k) == next[order[j]];
      assert LinkedAt(order, next, prev, j);
      SuccMod(p + (k - 1), m);
    }
  }

  /** Walking back k steps moves k places the other way. */
  lemma {:induction false} WalkBackward(order: seq<nat>, next: seq<nat>, prev: seq<nat>, p: nat, k: nat)
    requires Ring(order, next, prev) && Closed(prev) && p < |order|
    ensures Backward(prev, order[p], k) == order[(p - k) % |order|]
  {
    var m := |order|;
    if k == 0 {
      DivModUnique(p, 0, p, m);
    } else {
      WalkBackward(order, next, prev, p, k - 1);
      var j := (p - (k - 1)) % m;
      assert Backward(prev, order[p], k) == prev[order[j]];
      assert LinkedAt(order, next, prev, j);
      PredMod(p - (k - 1), m);
    }
  }

  // ---------------------------------------------------------------------
  // The shift.
  // ---------------------------------------------------------------------

  /** The shortest shift equivalent to v on a circle of len places, of
      which the moving number is not one: reduced modulo len - 1 into
      [-middle, len - 1 - middle) with middle = (len - 1) / 2. */
  function Normalise(v: int, len: nat): int
    requires len >= 2
  {
    var middle := (len - 1) / 2;
    (v + middle) % (len - 1) - middle
  }

  /** The normalised shift lies in its window, is congruent to v, and is
      zero exactly when v is a multiple of len - 1. */
  lemma NormaliseIsShortest(v: int, len: nat)
    requires len >= 2
    ensures var r := Normalise(v, len); var middle := (len - 1) / 2;
            -middle <= r < len - 1 - middle && r % (len - 1) == v % (len - 1)
    ensures Normalise(v, len) == 0 <==> v % (len - 1) == 0
  {
    var d := len - 1;
    var middle := d / 2;
    var x := v + middle;
    EuclidParts(x, d);
    var r := x % d - middle;
    assert r == Normalise(v, len);
    IntModAddMultiple(x / d, r, d);
    assert v == (x / d) * d + r;
    SmallMultipleIsZero(r, d);
  }

  lemma EuclidParts(x: int, d: int)
    requires d > 0
    ensures x == (x / d) * d + x % d && 0 <= x % d < d
  {
  }

  /** A multiple of d strictly between -d and d is zero. */
  lemma SmallMultipleIsZero(r: int, d: int)
    requires d > 0 && -d < r < d
    ensures r % d == 0 <==> r == 0
  {
    if r % d == 0 {
      EuclidParts(r, d);
      MulBound(r / d, d);
    }
  }


  // ---------------------------------------------------------------------
  // One move, on sequences and on links.
  // ---------------------------------------------------------------------

  /** Where the walk of a move ends, as a position of the circle of the
      other m - 1 numbers read from just after the moving one. */
  function Target(m: nat, value: int): (q: nat)
    requires m >= 2
    ensures q < m - 1
  {
    (m - 2 + value) % (m - 1)
  }

  /** The circle of the other numbers, read from just after `index`. */
  function Others(order: seq<nat>, index: nat): (r: seq<nat>)
    requires index in order
    ensures |r| == |order| - 1
  {
    var p := IndexOf(order, index);
    order[p + 1..] + order[..p]
  }

  /** `rest` with x put in after position q. */
  function Reinsert(rest: seq<nat>, x: nat, q: nat): (r: seq<nat>)
    requires q < |rest|
  {
    rest[..q + 1] + [x] + rest[q + 1..]
  }

  /** The circle after moving `index` by `value` places: the circle read
      from just after `index`, with `index` put back after the element
      reached by `value` steps from its old predecessor.  A zero shift
      leaves the circle as it was. */
  function MoveSpec(order: seq<nat>, index: nat, value: int): (r: seq<nat>)
    requires |order| >= 2 && index in order
    ensures |r| == |order|
  {
    if value == 0 then order
    else
      Reinsert(Others(order, index), index, Target(|order|, value))
  }

  lemma ThreeParts(s: seq<nat>, i: nat)
    requires i < |s|
    ensures multiset(s) == multiset(s[..i]) + multiset{s[i]} + multiset(s[i + 1..])
  {
    assert s == s[..i] + [s[i]] + s[i + 1..];
  }

  lemma InsertMultiset(s: seq<nat>, j: nat, x: nat)
    requires 1 <= j <= |s|
    ensures multiset(Reinsert(s, x, j - 1)) == multiset(s) + multiset{x}
  {
    assert s == s[..j] + s[j..];
  }

  lemma SwapMultiset(a: seq<nat>, b: seq<nat>)
    ensures multiset(a + b) == multiset(b + a)
  {
  }

  /** Moving a number neither loses nor duplicates any. */
  lemma MoveSpecMultiset(order: seq<nat>, index: nat, value: int)
    requires |order| >= 2 && index in order
    ensures multiset(MoveSpec(order, index, value)) == multiset(order)
  {
    if value != 0 {
      var rest := Others(order, index);
      OthersMultiset(order, index);
      InsertMultiset(rest, Target(|order|, value) + 1, index);
      assert MoveSpec(order, index, value) == Reinsert(rest, index, Target(|order|, value));
    }
  }

  lemma OthersMultiset(order: seq<nat>, index: nat)
    requires index in order
    ensures multiset(Others(order, index)) + multiset{index} == multiset(order)
  {
    var p := IndexOf(order, index);
    ThreeParts(order, p);
    SwapMultiset(order[p + 1..], order[..p]);
  }


  lemma MovePreservesPerm(order: seq<nat>, index: nat, value: int)
    requires IsPerm(order, |order|) && |order| >= 2 && index in order
    ensures IsPerm(MoveSpec(order, index, value), |order|)
  {
    MoveSpecMultiset(order, index, value);
  }

  /** The move on the linked lists, step for step: unlink `index`, walk
      |value| steps from its old predecessor (forward for a positive
      shift, backward for a negative one), and link it in after the node
      reached. */
  function MoveLinks(next: seq<nat>, prev: seq<nat>, index: nat, value: int): (r: (seq<nat>, seq<nat>))
    requires Closed(next) && Closed(prev) && |next| == |prev| && index < |next|
    ensures Closed(r.0) && Closed(r.1) && |r.0| == |r.1| == |next|
    ensures value == 0 ==> r == (next, prev)
  {
    if value == 0 then (next, prev)
    else
      var u := Unlink(next, prev, index);
      Relink(u.0, u.1, index, Walk(u.0, u.1, prev[index], value))
  }

  /** Deleting `index`: its neighbours point at each other. */
  function Unlink(next: seq<nat>, prev: seq<nat>, index: nat): (r: (seq<nat>, seq<nat>))
    requires Closed(next) && Closed(prev) && |next| == |prev| && index < |next|
    ensures Closed(r.0) && Closed(r.1) && |r.0| == |r.1| == |next|
  {
    (next[prev[index] := next[index]], prev[next[index] := prev[index]])
  }

  /** Inserting `index` after `newPrev`. */
  function Relink(next: seq<nat>, prev: seq<nat>, index: nat, newPrev: nat): (r: (seq<nat>, seq<nat>))
    requires Closed(next) && Closed(prev) && |next| == |prev| && index < |next| && newPrev < |next|
    ensures Closed(r.0) && Closed(r.1) && |r.0| == |r.1| == |next|
  {
    var newNext := next[newPrev];
    (next[newPrev := index][index := newNext], prev[newNext := index][index := newPrev])
  }

  /** A circle may be read from any starting point. */
  lemma RotateRing(order: seq<nat>, next: seq<nat>, prev: seq<nat>, s: nat)
    requires Ring(order, next, prev) && s <= |order|
    ensures Ring(order[s..] + order[..s], next, prev)
  {
    var m := |order|;
    var rot := order[s..] + order[..s];
    forall k: nat | k < m ensures LinkedAt(rot, next, prev, k) {
      RotateAt(order, next, prev, s, k);
    }
  }

  lemma RotateAt(order: seq<nat>, next: seq<nat>, prev: seq<nat>, s: nat, k: nat)
    requires Ring(order, next, prev) && s <= |order| && k < |order|
    ensures LinkedAt(order[s..] + order[..s], next, prev, k)
  {
    var m := |order|;
    var j := RotIndex(order, s, k);
    var j1 := RotIndex(order, s, Succ(k, m));
    var j0 := RotIndex(order, s, Pred(k, m));
    RotateSteps(m, s, k, j, j1, j0);
    assert LinkedAt(order, next, prev, j);
  }

  /** Where position i of the circle read from s sits in `order`. */
  lemma RotIndex(order: seq<nat>, s: nat, i: nat) returns (j: nat)
    requires s <= |order| && i < |order|
    ensures j < |order| && (order[s..] + order[..s])[i] == order[j]
    ensures j == if i < |order| - s then i + s else i + s - |order|
  {
    j := if i < |order| - s then i + s else i + s - |order|;
  }

  /** Rotating by s commutes with stepping round the circle. */
  lemma RotateSteps(m: nat, s: nat, k: nat, j: nat, j1: nat, j0: nat)
    requires s <= m && k < m
    requires j == (if k < m - s then k + s else k + s - m)
    requires j1 == (if Succ(k, m) < m - s then Succ(k, m) + s else Succ(k, m) + s - m)
    requires j0 == (if Pred(k, m) < m - s then Pred(k, m) + s else Pred(k, m) + s - m)
    ensures j1 == Succ(j, m) && j0 == Pred(j, m)
  {
  }

  /** Unlinking the last element of the circle leaves the circle of the
      others. */
  lemma UnlinkRing(rot: seq<nat>, next: seq<nat>, prev: seq<nat>)
    requires Ring(rot, next, prev) && |rot| >= 2 && Distinct(rot)
    ensures var m := |rot|;
            Ring(rot[..m - 1], next[rot[m - 2] := rot[0]], prev[rot[0] := rot[m - 2]])
  {
    var m := |rot|;
    var rest := rot[..m - 1];
    var next2, prev2 := next[rot[m - 2] := rot[0]], prev[rot[0] := rot[m - 2]];
    forall k: nat | k < m - 1 ensures LinkedAt(rest, next2, prev2, k) {
      UnlinkAt(rot, next, prev, k);
    }
  }

  lemma UnlinkAt(rot: seq<nat>, next: seq<nat>, prev: seq<nat>, k: nat)
    requires Ring(rot, next, prev) && |rot| >= 2 && Distinct(rot) && k < |rot| - 1
    ensures var m := |rot|; LinkedAt(rot[..m - 1], next[rot[m - 2] := rot[0]], prev[rot[0] := rot[m - 2]], k)
  {
    var m := |rot|;
    var rest := rot[..m - 1];
    assert rest[k] == rot[k];
    assert LinkedAt(rot, next, prev, k);
    if k == m - 2 {
      assert rest[Succ(k, m - 1)] == rot[0];
    } else {
      assert rot[k] != rot[m - 2];
      assert next[rot[k]] == rot[k + 1] == rest[k + 1];
    }
    if k == 0 {
      assert rest[Pred(k, m - 1)] == rot[m - 2];
    } else {
      assert rot[k] != rot[0];
      assert prev[rot[k]] == rot[k - 1] == rest[k - 1];
    }
  }


  /** Linking a new index in after position q of a circle gives the
      circle with the index inserted there. */
  lemma InsertRing(rest: seq<nat>, next: seq<nat>, prev: seq<nat>, index: nat, q: nat)
    requires Ring(rest, next, prev) && Distinct(rest) && index !in rest && index < |next| && q < |rest|
    requires Closed(next) && Closed(prev)
    ensures var r := Relink(next, prev, index, rest[q]); Ring(Reinsert(rest, index, q), r.0, r.1)
  {
    var newPrev := rest[q];
    var newNext := next[newPrev];
    var order := rest[..q + 1] + [index] + rest[q + 1..];
    var r := Relink(next, prev, index, newPrev);
    forall k: nat | k < |order| ensures LinkedAt(order, r.0, r.1, k) {
      InsertNextAt(rest, next, prev, index, q, k);
      InsertPrevAt(rest, next, prev, index, q, k);
      assert order[k] in rest || order[k] == index;
    }
  }

  /** Positions in the circle with `index` inserted after position q. */
  lemma InsertPositions(rest: seq<nat>, index: nat, q: nat)
    requires q < |rest|
    ensures var order := rest[..q + 1] + [index] + rest[q + 1..];
            && |order| == |rest| + 1 && order[q + 1] == index
            && (forall k :: 0 <= k <= q ==> order[k] == rest[k])
            && (forall k :: q + 1 < k <= |rest| ==> order[k] == rest[k - 1])
  {
  }

  lemma InsertNextAt(rest: seq<nat>, next: seq<nat>, prev: seq<nat>, index: nat, q: nat, k: nat)
    requires Ring(rest, next, prev) && Distinct(rest) && index !in rest && index < |next| && q < |rest|
    requires k <= |rest|
    ensures var newPrev := rest[q]; var newNext := next[newPrev];
            var order := rest[..q + 1] + [index] + rest[q + 1..];
            var next2 := next[newPrev := index][index := newNext];
            next2[order[k]] == order[Succ(k, |order|)]
  {
    var order := rest[..q + 1] + [index] + rest[q + 1..];
    if k < q {
      InsertNextBefore(rest, next, prev, index, q, k);
    } else if k == q {
      assert order[k] == rest[q] && order[k + 1] == index;
    } else if k == q + 1 {
      InsertNextFrom(rest, next, prev, index, q);
    } else {
      InsertNextAfter(rest, next, prev, index, q, k);
    }
  }

  lemma InsertNextBefore(rest: seq<nat>, next: seq<nat>, prev: seq<nat>, index: nat, q: nat, k: nat)
    requires Ring(rest, next, prev) && Distinct(rest) && index !in rest && index < |next| && q < |rest|
    requires k < q
    ensures var newPrev := rest[q]; var newNext := next[newPrev];
            var order := rest[..q + 1] + [index] + rest[q + 1..];
            var next2 := next[newPrev := index][index := newNext];
            next2[order[k]] == order[Succ(k, |order|)]
  {
    var m := |rest|;
    var order := rest[..q + 1] + [index] + rest[q + 1..];
    var next2 := next[rest[q] := index][index := next[rest[q]]];
    assert order[k] == rest[k] && order[k + 1] == rest[k + 1];
    assert rest[k] != rest[q] && rest[k] != index;
    assert LinkedAt(rest, next, prev, k);
    assert next2[rest[k]] == next[rest[k]] == rest[Succ(k, m)];
  }

  lemma InsertNextFrom(rest: seq<nat>, next: seq<nat>, prev: seq<nat>, index: nat, q: nat)
    requires Ring(rest, next, prev) && Distinct(rest) && index !in rest && index < |next| && q < |rest|
    ensures var newPrev := rest[q]; var newNext := next[newPrev];
            var order := rest[..q + 1] + [index] + rest[q + 1..];
            var next2 := next[newPrev := index][index := newNext];
            next2[order[q + 1]] == order[Succ(q + 1, |order|)]
  {
    var m := |rest|;
    var order := rest[..q + 1] + [index] + rest[q + 1..];
    assert order[q + 1] == index;
    assert LinkedAt(rest, next, prev, q);
    if q + 1 < m {
      assert order[q + 2] == rest[q + 1];
    } else {
      assert order[0] == rest[0];
    }
  }

  lemma InsertNextAfter(rest: seq<nat>, next: seq<nat>, prev: seq<nat>, index: nat, q: nat, k: nat)
    requires Ring(rest, next, prev) && Distinct(rest) && index !in rest && index < |next| && q < |rest|
    requires q + 1 < k <= |rest|
    ensures var newPrev := rest[q]; var newNext := next[newPrev];
            var order := rest[..q + 1] + [index] + rest[q + 1..];
            var next2 := next[newPrev := index][index := newNext];
            next2[order[k]] == order[Succ(k, |order|)]
  {
    var m := |rest|;
    var order := rest[..q + 1] + [index] + rest[q + 1..];
    var next2 := next[rest[q] := index][index := next[rest[q]]];
    assert order[k] == rest[k - 1];
    assert rest[k - 1] != rest[q] && rest[k - 1] != index;
    assert LinkedAt(rest, next, prev, k - 1);
    assert next2[rest[k - 1]] == next[rest[k - 1]] == rest[Succ(k - 1, m)];
    if k < m {
      assert order[k + 1] == rest[k];
    } else {
      assert order[0] == rest[0];
    }
  }

  lemma InsertPrevAt(rest: seq<nat>, next: seq<nat>, prev: seq<nat>, index: nat, q: nat, k: nat)
    requires Ring(rest, next, prev) && Closed(next) && Distinct(rest) && index !in rest && index < |next| && q < |rest|
    requires k <= |rest|
    ensures var newPrev := rest[q]; var newNext := next[newPrev];
            var order := rest[..q + 1] + [index] + rest[q + 1..];
            var prev2 := prev[newNext := index][index := newPrev];
            prev2[order[k]] == order[Pred(k, |order|)]
  {
    var order := rest[..q + 1] + [index] + rest[q + 1..];
    if k <= q {
      InsertPrevBefore(rest, next, prev, index, q, k);
    } else if k == q + 1 {
      assert order[k] == index && order[k - 1] == rest[q];
    } else {
      InsertPrevAfter(rest, next, prev, index, q, k);
    }
  }

  lemma InsertPrevBefore(rest: seq<nat>, next: seq<nat>, prev: seq<nat>, index: nat, q: nat, k: nat)
    requires Ring(rest, next, prev) && Closed(next) && Distinct(rest) && index !in rest && index < |next| && q < |rest|
    requires k <= q
    ensures var newPrev := rest[q]; var newNext := next[newPrev];
            var order := rest[..q + 1] + [index] + rest[q + 1..];
            var prev2 := prev[newNext := index][index := newPrev];
            prev2[order[k]] == order[Pred(k, |order|)]
  {
    var m := |rest|;
    var s := Succ(q, m);
    assert LinkedAt(rest, next, prev, q);
    var order := rest[..q + 1] + [index] + rest[q + 1..];
    var prev2 := prev[rest[s] := index][index := rest[q]];
    assert |order| == m + 1 && order[k] == rest[k];
    if k == s {
      assert s == 0 && q == m - 1;
      assert order[m] == index;
    } else {
      assert rest[k] != rest[s] && rest[k] != index;
      assert LinkedAt(rest, next, prev, k);
      assert prev2[rest[k]] == prev[rest[k]] == rest[Pred(k, m)];
      if k > 0 {
        assert order[k - 1] == rest[k - 1];
      } else {
        assert q + 1 < m;
        assert order[m] == rest[m - 1];
      }
    }
  }

  lemma InsertPrevAfter(rest: seq<nat>, next: seq<nat>, prev: seq<nat>, index: nat, q: nat, k: nat)
    requires Ring(rest, next, prev) && Closed(next) && Distinct(rest) && index !in rest && index < |next| && q < |rest|
    requires q + 1 < k <= |rest|
    ensures var newPrev := rest[q]; var newNext := next[newPrev];
            var order := rest[..q + 1] + [index] + rest[q + 1..];
            var prev2 := prev[newNext := index][index := newPrev];
            prev2[order[k]] == order[Pred(k, |order|)]
  {
    var m := |rest|;
    var s := Succ(q, m);
    assert LinkedAt(rest, next, prev, q);
    var order := rest[..q + 1] + [index] + rest[q + 1..];
    var prev2 := prev[rest[s] := index][index := rest[q]];
    assert |order| == m + 1 && order[k] == rest[k - 1];
    if k - 1 == s {
      assert order[k - 1] == index;
    } else {
      assert rest[k - 1] != rest[s] && rest[k - 1] != index;
      assert LinkedAt(rest, next, prev, k - 1);
      assert prev2[rest[k - 1]] == prev[rest[k - 1]] == rest[Pred(k - 1, m)];
      assert order[k - 1] == rest[k - 2];
    }
  }



  /** The circle read from just after `index`, so that `index` comes
      last, with its neighbours at both ends. */
  lemma RotateToEnd(order: seq<nat>, next: seq<nat>, prev: seq<nat>, index: nat) returns (rot: seq<nat>)
    requires Ring(order, next, prev) && Distinct(order) && |order| >= 2 && index in order
    ensures var m := |order|; var p := IndexOf(order, index);
            && |rot| == m && Ring(rot, next, prev) && Distinct(rot) && rot[m - 1] == index
            && rot[..m - 1] == Others(order, index)
            && prev[index] == rot[m - 2] && next[index] == rot[0]
  {
    var m := |order|;
    var p := IndexOf(order, index);
    var a, b := order[p + 1..], order[..p + 1];
    rot := a + b;
    RotateRing(order, next, prev, p + 1);
    RotationPerm(order, p + 1);
    assert rot[m - 1] == index;
    assert b[..p] == order[..p];
    assert rot[..m - 1] == a + b[..p];
    assert LinkedAt(rot, next, prev, m - 1);
  }

  /** A rotation of a sequence of distinct elements has distinct elements. */
  lemma RotationPerm(order: seq<nat>, s: nat)
    requires Distinct(order) && s <= |order|
    ensures Distinct(order[s..] + order[..s])
  {
    SwapMultiset(order[s..], order[..s]);
    assert order[..s] + order[s..] == order;
    DistinctPreserved(order, order[s..] + order[..s]);
  }

  /** The circle of the others, once `index` is unlinked. */
  lemma Unlinked(rot: seq<nat>, next: seq<nat>, prev: seq<nat>)
    requires Ring(rot, next, prev) && |rot| >= 2 && Distinct(rot) && Closed(next) && Closed(prev)
    ensures var m := |rot|; var rest := rot[..m - 1]; var u := Unlink(next, prev, rot[m - 1]);
            && Ring(rest, u.0, u.1)
            && Distinct(rest) && rot[m - 1] !in rest && |rest| == m - 1 && rest[m - 2] == prev[rot[m - 1]]
  {
    var m := |rot|;
    UnlinkRing(rot, next, prev);
    assert LinkedAt(rot, next, prev, m - 1);
    var rest := rot[..m - 1];
    assert forall k :: 0 <= k < m - 1 ==> rest[k] == rot[k] && rot[k] != rot[m - 1];
  }

  /** The walk from the old predecessor reaches position
      (m - 2 + value) mod (m - 1) of the remaining circle. */
  lemma WalkReaches(rest: seq<nat>, next: seq<nat>, prev: seq<nat>, x: nat, value: int)
    requires Ring(rest, next, prev) && Closed(next) && Closed(prev) && |rest| >= 1 && value != 0
    requires x == rest[|rest| - 1]
    ensures Walk(next, prev, x, value) == rest[Target(|rest| + 1, value)]
  {
    var m := |rest|;
    if value > 0 {
      WalkForward(rest, next, prev, m - 1, value);
    } else {
      WalkBackward(rest, next, prev, m - 1, -value);
    }
  }

  /** Once `index` is unlinked, the lists describe the circle of the
      others, read from just after it; its old predecessor comes last. */
  lemma OthersRing(order: seq<nat>, next: seq<nat>, prev: seq<nat>, index: nat)
    requires Ring(order, next, prev) && Distinct(order) && |order| >= 2
    requires Closed(next) && Closed(prev) && index in order
    ensures var rest := Others(order, index); var u := Unlink(next, prev, index);
            && Ring(rest, u.0, u.1) && Distinct(rest) && index !in rest && index < |next|
            && rest[|rest| - 1] == prev[index]
  {
    var m := |order|;
    var rot := RotateToEnd(order, next, prev, index);
    Unlinked(rot, next, prev);
    assert rot[m - 1] == index;
    assert Unlink(next, prev, rot[m - 1]) == Unlink(next, prev, index);
    assert rot[..m - 1] == Others(order, index);
  }

  /** The linked-list move implements the move on the circle. */
  lemma MoveRefines(order: seq<nat>, next: seq<nat>, prev: seq<nat>, index: nat, value: int)
    requires Ring(order, next, prev) && Distinct(order) && |order| >= 2
    requires Closed(next) && Closed(prev) && index in order
    ensures var r := MoveLinks(next, prev, index, value);
            Ring(MoveSpec(order, index, value), r.0, r.1)
  {
    if value != 0 {
      var rest := Others(order, index);
      var u := Unlink(next, prev, index);
      OthersRing(order, next, prev, index);
      var q := Target(|order|, value);
      WalkReaches(rest, u.0, u.1, prev[index], value);
      assert Target(|rest| + 1, value) == q;
      assert MoveLinks(next, prev, index, value) == Relink(u.0, u.1, index, rest[q]);
      assert MoveSpec(order, index, value) == Reinsert(rest, index, q);
      InsertRing(rest, u.0, u.1, index, q);
    }
  }

  // ---------------------------------------------------------------------
  // Mixing.
  // ---------------------------------------------------------------------

  /** The numbers after multiplying by the decryption key. */
  function Scaled(data: seq<int>, key: int): (r: seq<int>)
    ensures |r| == |data| && forall i :: 0 <= i < |data| ==> r[i] == data[i] * key
  {
    if |data| == 0 then [] else [data[0] * key] + Scaled(data[1..], key)
  }

  /** The circle after moving the numbers 0 .. k - 1 in turn. */
  function RoundUpTo(order: seq<nat>, values: seq<int>, k: nat): (r: seq<nat>)
    requires |values| >= 2 && IsPerm(order, |values|) && k <= |values|
    ensures IsPerm(r, |values|)
  {
    if k == 0 then order else MoveNumber(RoundUpTo(order, values, k - 1), values, k - 1)
  }

  /** Number i moved by its normalised shift. */
  function MoveNumber(order: seq<nat>, values: seq<int>, i: nat): (r: seq<nat>)
    requires |values| >= 2 && IsPerm(order, |values|) && i < |values|
    ensures IsPerm(r, |values|)
  {
    var v := Normalise(values[i], |values|);
    PermFacts(order, |values|);
    MovePreservesPerm(order, i, v);
    MoveSpec(order, i, v)
  }

  /** The circle after `count` rounds of mixing, starting from the
      numbers in file order. */
  function Rounds(values: seq<int>, count: nat): (r: seq<nat>)
    requires |values| >= 2
    ensures IsPerm(r, |values|)
  {
    if count == 0 then Range(|values|)
    else RoundUpTo(Rounds(values, count - 1), values, |values|)
  }

  /** `for _ in 0..num_rounds`: the number of rounds done. */
  function RoundCount(rounds: int): nat
  {
    if rounds > 0 then rounds else 0
  }

  /** The answer read off a circle: the numbers 1000, 2000 and 3000
      places (one, two and three gaps) after index z. */
  function GroveSum(order: seq<nat>, values: seq<int>, z: nat): int
    requires |values| >= 1 && IsPerm(order, |values|) && z < |values|
  {
    PermFacts(order, |values|);
    var p := IndexOf(order, z);
    var n := |values|;
    values[order[Ahead(p, Gap, n)]] + values[order[Ahead(p, 2 * Gap, n)]] + values[order[Ahead(p, 3 * Gap, n)]]
  }

  /** The starting links: every index to its neighbours in file order. */
  function InitialNext(n: nat): (r: seq<nat>)
    ensures |r| == n && forall i :: 0 <= i < n ==> r[i] == Succ(i, n)
  {
    seq(n, (i: int) requires 0 <= i < n => Succ(i, n))
  }

  function InitialPrev(n: nat): (r: seq<nat>)
    ensures |r| == n && forall i :: 0 <= i < n ==> r[i] == Pred(i, n)
  {
    seq(n, (i: int) requires 0 <= i < n => Pred(i, n))
  }

  lemma InitialRing(n: nat)
    requires n >= 1
    ensures Ring(Range(n), InitialNext(n), InitialPrev(n))
    ensures Closed(InitialNext(n)) && Closed(InitialPrev(n))
  {
    forall k: nat | k < n ensures LinkedAt(Range(n), InitialNext(n), InitialPrev(n), k) {
    }
  }

  lemma RoundsStep(values: seq<int>, round: nat)
    requires |values| >= 2
    ensures Rounds(values, round + 1) == RoundUpTo(Rounds(values, round), values, |values|)
  {
  }

  /** The lists describe the circle `order` of all n indices. */
  predicate Linked(order: seq<nat>, next: seq<nat>, prev: seq<nat>, n: nat)
  {
    Ring(order, next, prev) && Closed(next) && Closed(prev) && |next| == |prev| == n
  }

  /** The two nested loops of `mix` on the linked lists. */
  method MixLinks(values: seq<int>, count: nat) returns (next: seq<nat>, prev: seq<nat>)
    requires |values| >= 2
    ensures Linked(Rounds(values, count), next, prev, |values|)
  {
    var n := |values|;
    next, prev := InitialNext(n), InitialPrev(n);
    InitialRing(n);
    ghost var order := Range(n);
    var round := 0;
    while round < count
      invariant round <= count && order == Rounds(values, round)
      invariant Linked(order, next, prev, n)
    {
      RoundsStep(values, round);
      next, prev := MixRound(values, next, prev, order);
      order := RoundUpTo(order, values, n);
      round := round + 1;
    }
  }

  /** One round: every number, in file order, moved by its shift. */
  method MixRound(values: seq<int>, next0: seq<nat>, prev0: seq<nat>, ghost start: seq<nat>)
    returns (next: seq<nat>, prev: seq<nat>)
    requires |values| >= 2 && IsPerm(start, |values|) && Linked(start, next0, prev0, |values|)
    ensures Linked(RoundUpTo(start, values, |values|), next, prev, |values|)
  {
    var n := |values|;
    next, prev := next0, prev0;
    ghost var order := start;
    var index := 0;
    while index < n
      invariant 0 <= index <= n
      invariant order == RoundUpTo(start, values, index)
      invariant Linked(order, next, prev, n)
    {
      assert RoundUpTo(start, values, index + 1) == MoveNumber(order, values, index);
      next, prev := MoveOne(values, next, prev, order, index);
      order := MoveNumber(order, values, index);
      index := index + 1;
    }
  }

  /** One pass of the inner loop: number `index` moved by its shift. */
  method MoveOne(values: seq<int>, next0: seq<nat>, prev0: seq<nat>, ghost order0: seq<nat>, index: nat)
    returns (next: seq<nat>, prev: seq<nat>)
    requires |values| >= 2 && IsPerm(order0, |values|) && index < |values|
    requires Linked(order0, next0, prev0, |values|)
    ensures Linked(MoveNumber(order0, values, index), next, prev, |values|)
  {
    var n := |values|;
    var value := Normalise(values[index], n);
    PermFacts(order0, n);
    MoveRefines(order0, next0, prev0, index, value);
    var r := MoveLinks(next0, prev0, index, value);
    next, prev := r.0, r.1;
    assert MoveNumber(order0, values, index) == MoveSpec(order0, index, value);
  }

  /** The answer takes every thousandth number after zero. */
  const Gap: nat := 1000

  /** The numbers 1000, 2000 and 3000 links after z, added: the loop
      over 1 ..= 3000 steps, keeping every thousandth. */
  method SumAfter(values: seq<int>, next: seq<nat>, z: nat) returns (sum: int)
    requires Closed(next) && |next| == |values| && z < |next|
    ensures sum == values[Forward(next, z, Gap)] + values[Forward(next, z, 2 * Gap)] + values[Forward(next, z, 3 * Gap)]
  {
    var index := z;
    sum := 0;
    var after := 1;
    while after <= 3 * Gap
      invariant 1 <= after <= 3 * Gap + 1 && index == Forward(next, z, after - 1)
      invariant sum == (if after > Gap then values[Forward(next, z, Gap)] else 0)
                     + (if after > 2 * Gap then values[Forward(next, z, 2 * Gap)] else 0)
                     + (if after > 3 * Gap then values[Forward(next, z, 3 * Gap)] else 0)
    {
      index := next[index];
      if after % Gap == 0 {
        sum := sum + values[index];
      }
      after := after + 1;
    }
  }

  /** On a ring, k links after z is k places after it on the circle. */
  lemma LinksMatchCircle(order: seq<nat>, next: seq<nat>, prev: seq<nat>, values: seq<int>, z: nat)
    requires |values| >= 2 && Linked(order, next, prev, |values|) && IsPerm(order, |values|) && z < |values|
    ensures values[Forward(next, z, Gap)] + values[Forward(next, z, 2 * Gap)] + values[Forward(next, z, 3 * Gap)]
            == GroveSum(order, values, z)
  {
    PermFacts(order, |values|);
    var p := IndexOf(order, z);
    WalkForward(order, next, prev, p, Gap);
    WalkForward(order, next, prev, p, 2 * Gap);
    WalkForward(order, next, prev, p, 3 * Gap);
  }

  const DecryptionKey: int := 811589153

  /** What `mix` answers, on the circle as a sequence.  It panics on an
      empty file (the length minus one wraps), on a single number when
      there is a round to do (remainder by zero), and when no number is
      zero.  A single zero answers zero. */
  function MixSpec(data: seq<int>, key: int, rounds: int): Result<int>
  {
    var values := Scaled(data, key);
    if |values| == 0 then Err("empty file")
    else if |values| == 1 && rounds >= 1 then Err("remainder by zero")
    else if 0 !in values then Err("no zero")
    else if |values| == 1 then Ok(0)
    else Ok(GroveSum(Rounds(values, RoundCount(rounds)), values, IndexOf(values, 0)))
  }

  /** `mix` on the linked lists gives the answer read off the circle. */
  method Mix(data: seq<int>, key: int, rounds: int) returns (r: Result<int>)
    ensures r == MixSpec(data, key, rounds)
    ensures r.Err? <==> |data| == 0 || (|data| == 1 && rounds >= 1) || 0 !in Scaled(data, key)
  {
    var values := Scaled(data, key);
    var n := |values|;
    if n == 0 {
      return Err("empty file");
    }
    if n == 1 {
      if rounds >= 1 {
        return Err("remainder by zero");
      }
      if 0 !in values {
        return Err("no zero");
      }
      var z := IndexOf(values, 0);
      var sum := SumAfter(values, [0], z);
      return Ok(sum);
    }
    if 0 !in values {
      return Err("no zero");
    }
    r := MixMany(values, RoundCount(rounds));
  }

  /** `mix` for two or more numbers, one of them zero. */
  method MixMany(values: seq<int>, count: nat) returns (r: Result<int>)
    requires |values| >= 2 && 0 in values
    ensures r == Ok(GroveSum(Rounds(values, count), values, IndexOf(values, 0)))
  {
    var next, prev := MixLinks(values, count);
    ghost var order := Rounds(values, count);
    var z := IndexOf(values, 0);
    var sum := SumAfter(values, next, z);
    LinksMatchCircle(order, next, prev, values, z);
    assert sum == GroveSum(order, values, z);
    return Ok(sum);
  }

  /** `run`: one round with key 1, then ten rounds with the decryption
      key; both fail together, exactly when the file has fewer than two
      numbers or no zero. */
  method Run(data: seq<int>) returns (part1: Result<int>, part2: Result<int>)
    ensures part1 == MixSpec(data, 1, 1) && part2 == MixSpec(data, DecryptionKey, 10)
    ensures part1.Ok? <==> part2.Ok?
    ensures part1.Ok? <==> |data| >= 2 && 0 in data
  {
    part1 := Mix(data, 1, 1);
    part2 := Mix(data, DecryptionKey, 10);
    ZeroScaled(data, 1);
    ZeroScaled(data, DecryptionKey);
  }

  /** Scaling by a non-zero key keeps exactly the zeros. */
  lemma ZeroScaled(data: seq<int>, key: int)
    requires key != 0
    ensures 0 in Scaled(data, key) <==> 0 in data
  {
    var s := Scaled(data, key);
    if 0 in s {
      var i := IndexOf(s, 0);
      assert data[i] * key == 0;
    }
    if 0 in data {
      var i := IndexOf(data, 0);
      assert s[i] == 0;
    }
  }
}

=== FILE: day21.dfy ===
/** Monkey math: every monkey either yells a number or combines the numbers
    of two other monkeys with `+`, `-`, `*` or `/`.  Part 2 makes `humn` an
    unknown and turns `root` into an equation, so each monkey's value is
    kept as a linear form a·x + b in the unknown x, over exact rationals
    (here `real`). */
module MonkeyMath {
  import opened Common

  /** What a monkey does. */
  datatype Job =
    | Number(n: int)
    | Operation(left: string, op: char, right: string)
    | HumanVariable

  type Monkeys = map<string, Job>

  /** The value a·x + b in the unknown x. */
  datatype Linear = Linear(a: real, b: real)

  const Root: string := "root"
  const Humn: string := "humn"

  /** Whether a rational is a whole number (its denominator is 1). */
  predicate Integral(r: real)
  {
    r.Floor as real == r
  }

  /** `evaluate`: the linear form yelled by monkey `name`.  A missing
      monkey is an `unwrap` on nothing; `fuel` bounds the depth of the
      recursion, which on a cyclic map never ends.  The `assert!`s of
      `evaluate` (no x² term, no x in a divisor, a solvable equation with a
      whole solution) and a division by zero are errors. */
  function Evaluate(m: Monkeys, name: string, fuel: nat): (r: Result<Linear>)
    ensures name !in m ==> r.Err?
    ensures name in m && fuel > 0 && m[name].Number? ==> r == Ok(Linear(0.0, m[name].n as real))
    ensures name in m && fuel > 0 && m[name].HumanVariable? ==> r == Ok(Linear(1.0, 0.0))
    decreases fuel
  {
    if name !in m then Err("no such monkey")
    else if fuel == 0 then Err("recursion too deep")
    else match m[name]
      case Number(n) => Ok(Linear(0.0, n as real))
      case HumanVariable => Ok(Linear(1.0, 0.0))
      case Operation(left, op, right) =>
        var l := Evaluate(m, left, fuel - 1);
        var r := Evaluate(m, right, fuel - 1);
        if l.Err? then l
        else if r.Err? then r
        else Combine(l.value, op, r.value)
  }

  /** One operation on two linear forms. */
  function Combine(x: Linear, op: char, y: Linear): Result<Linear>
  {
    var (a, b, c, d) := (x.a, x.b, y.a, y.b);
    if op == '+' then Ok(Linear(a + c, b + d))
    else if op == '-' then Ok(Linear(a - c, b - d))
    else if op == '*' then
      if a * c != 0.0 then Err("x squared term") else Ok(Linear(a * d + b * c, b * d))
    else if op == '/' then
      if c != 0.0 then Err("x in a divisor")
      else if d == 0.0 then Err("division by zero")
      else Ok(Linear(a / d, b / d))
    else if op == '=' then
      if a == c then Err("no unique solution")
      else
        var solution := (d - b) / (a - c);
        if !Integral(solution) then Err("solution is not a whole number")
        else Ok(Linear(0.0, solution))
    else Err("unreachable operation")
  }

  // ---------------------------------------------------------------------
  // The reference semantics: the number a monkey yells once x is known.
  // ---------------------------------------------------------------------

  /** The number monkey `name` yells when the human yells x.  `=` is not an
      arithmetic operation and has no numeric value. */
  function Numeric(m: Monkeys, name: string, x: real, fuel: nat): Result<real>
    decreases fuel
  {
    if name !in m then Err("no such monkey")
    else if fuel == 0 then Err("recursion too deep")
    else match m[name]
      case Number(n) => Ok(n as real)
      case HumanVariable => Ok(x)
      case Operation(left, op, right) =>
        var l := Numeric(m, left, x, fuel - 1);
        var r := Numeric(m, right, x, fuel - 1);
        if l.Err? then l
        else if r.Err? then r
        else Arith(l.value, op, r.value)
  }

  /** One arithmetic operation on two numbers. */
  function Arith(p: real, op: char, q: real): Result<real>
  {
    if op == '+' then Ok(p + q)
    else if op == '-' then Ok(p - q)
    else if op == '*' then Ok(p * q)
    else if op == '/' then (if q == 0.0 then Err("division by zero") else Ok(p / q))
    else Err("not an arithmetic operation")
  }

  /** No monkey reached from `name` within `fuel` levels holds an equation. */
  predicate EquationFree(m: Monkeys, name: string, fuel: nat)
    decreases fuel
  {
    name in m && fuel > 0 && m[name].Operation? ==>
      && m[name].op != '='
      && EquationFree(m, m[name].left, fuel - 1)
      && EquationFree(m, m[name].right, fuel - 1)
  }

  /** No monkey is the unknown. */
  predicate HumanFree(m: Monkeys)
  {
    forall name :: name in m ==> !m[name].HumanVariable?
  }

  lemma MulLinear(a: real, b: real, c: real, d: real, x: real)
    requires a * c == 0.0
    ensures (a * x + b) * (c * x + d) == (a * d + b * c) * x + b * d
  {
    var p, q := a * x + b, c * x + d;
    assert p * q == p * (c * x) + p * d;
    assert p * (c * x) == (a * x) * (c * x) + b * (c * x);
    assert (a * x) * (c * x) == (a * c) * (x * x) == 0.0;
    assert p * d == (a * x) * d + b * d;
  }

  lemma DivLinear(a: real, b: real, d: real, x: real)
    requires d != 0.0
    ensures (a * x + b) / d == (a / d) * x + b / d
  {
  }

  /** The value of a form at x. */
  function At(f: Linear, x: real): real
  {
    f.a * x + f.b
  }

  lemma MulSound(u: Linear, v: Linear, x: real)
    requires u.a * v.a == 0.0
    ensures Arith(At(u, x), '*', At(v, x)) == Ok(At(Linear(u.a * v.b + u.b * v.a, u.b * v.b), x))
  {
    var p, q := At(u, x), At(v, x);
    ArithMul(p, q);
    MulLinear(u.a, u.b, v.a, v.b, x);
    assert p * q == At(Linear(u.a * v.b + u.b * v.a, u.b * v.b), x);
  }

  lemma DivSound(u: Linear, v: Linear, x: real)
    requires v.a == 0.0 && v.b != 0.0
    ensures Arith(At(u, x), '/', At(v, x)) == Ok(At(Linear(u.a / v.b, u.b / v.b), x))
  {
    var p, q := At(u, x), At(v, x);
    assert q == v.b;
    ArithDiv(p, q);
    DivLinear(u.a, u.b, v.b, x);
    assert p / q == At(Linear(u.a / v.b, u.b / v.b), x);
  }

  lemma AddSound(u: Linear, v: Linear, x: real)
    ensures Arith(At(u, x), '+', At(v, x)) == Ok(At(Linear(u.a + v.a, u.b + v.b), x))
  {
    var p, q := At(u, x), At(v, x);
    ArithAdd(p, q);
    assert p + q == At(Linear(u.a + v.a, u.b + v.b), x);
  }

  lemma SubSound(u: Linear, v: Linear, x: real)
    ensures Arith(At(u, x), '-', At(v, x)) == Ok(At(Linear(u.a - v.a, u.b - v.b), x))
  {
    var p, q := At(u, x), At(v, x);
    ArithSub(p, q);
    assert p - q == At(Linear(u.a - v.a, u.b - v.b), x);
  }

  // Stated apart, away from the nonlinear facts above, which leave the
  // solver unable to unfold `Arith`.
  lemma ArithMul(p: real, q: real)
    ensures Arith(p, '*', q) == Ok(p * q)
  {
  }

  lemma ArithAdd(p: real, q: real)
    ensures Arith(p, '+', q) == Ok(p + q)
  {
  }

  lemma ArithSub(p: real, q: real)
    ensures Arith(p, '-', q) == Ok(p - q)
  {
  }

  lemma ArithDiv(p: real, q: real)
    requires q != 0.0
    ensures Arith(p, '/', q) == Ok(p / q)
  {
  }

  /** The linear form of an operation is what the operation computes, at
      every x. */
  lemma CombineSound(u: Linear, op: char, v: Linear, x: real)
    requires op != '=' && Combine(u, op, v).Ok?
    ensures Arith(At(u, x), op, At(v, x)) == Ok(At(Combine(u, op, v).value, x))
  {
    var w := Combine(u, op, v).value;
    if op == '*' {
      var w' := Linear(u.a * v.b + u.b * v.a, u.b * v.b);
      assert u.a * v.a == 0.0 && w == w';
      MulSound(u, v, x);
      assert Arith(At(u, x), op, At(v, x)) == Ok(At(w', x));
    } else if op == '/' {
      var w' := Linear(u.a / v.b, u.b / v.b);
      assert v.a == 0.0 && v.b != 0.0 && w == w';
      DivSound(u, v, x);
      assert Arith(At(u, x), op, At(v, x)) == Ok(At(w', x));
    } else if op == '+' {
      assert w == Linear(u.a + v.a, u.b + v.b);
      AddSound(u, v, x);
    } else {
      assert op == '-' && w == Linear(u.a - v.a, u.b - v.b);
      SubSound(u, v, x);
    }
  }

  /** Soundness of `evaluate`: without an equation, the form (a, b) it
      returns gives the monkey's number a·x + b for every x. */
  lemma {:induction false} EvaluateSound(m: Monkeys, name: string, x: real, fuel: nat)
    requires EquationFree(m, name, fuel) && Evaluate(m, name, fuel).Ok?
    ensures Numeric(m, name, x, fuel) == Ok(At(Evaluate(m, name, fuel).value, x))
    decreases fuel
  {
    match m[name]
    case Number(n) =>
    case HumanVariable =>
    case Operation(left, op, right) =>
      var l := Evaluate(m, left, fuel - 1);
      var r := Evaluate(m, right, fuel - 1);
      assert l.Ok? && r.Ok? && Evaluate(m, name, fuel) == Combine(l.value, op, r.value);
      EvaluateSound(m, left, x, fuel - 1);
      EvaluateSound(m, right, x, fuel - 1);
      var p, q := Numeric(m, left, x, fuel - 1), Numeric(m, right, x, fuel - 1);
      assert Numeric(m, name, x, fuel) == Arith(p.value, op, q.value);
      CombineSound(l.value, op, r.value, x);
  }

  /** Without the unknown, every form has no x term: what part 1 prints
      is the constant. */
  lemma {:induction false} NoHumanNoSlope(m: Monkeys, name: string, fuel: nat)
    requires HumanFree(m) && Evaluate(m, name, fuel).Ok?
    ensures Evaluate(m, name, fuel).value.a == 0.0
    decreases fuel
  {
    match m[name]
    case Number(n) =>
    case HumanVariable =>
    case Operation(left, op, right) =>
      NoHumanNoSlope(m, left, fuel - 1);
      NoHumanNoSlope(m, right, fuel - 1);
      var u := Evaluate(m, left, fuel - 1).value;
      var v := Evaluate(m, right, fuel - 1).value;
      assert u.a == 0.0 && v.a == 0.0;
      if op == '/' {
        assert 0.0 / v.b == 0.0;
      }
  }

  /** The equation's answer: a whole x balancing the two forms, and the only
      x that does. */
  lemma CombineSolves(u: Linear, v: Linear)
    requires Combine(u, '=', v).Ok?
    ensures var s := Combine(u, '=', v).value.b;
            && Combine(u, '=', v).value.a == 0.0 && Integral(s)
            && Balanced(u, v, s)
            && forall y: real :: Balanced(u, v, y) ==> y == s
  {
    var s := (v.b - u.b) / (u.a - v.a);
    assert (u.a - v.a) * s == v.b - u.b;
    forall y: real | Balanced(u, v, y) ensures y == s {
      assert (u.a - v.a) * y == v.b - u.b;
    }
  }

  /** The two forms agree at y. */
  predicate Balanced(u: Linear, v: Linear, y: real)
  {
    At(u, y) == At(v, y)
  }

  // ---------------------------------------------------------------------
  // The two parts.
  // ---------------------------------------------------------------------

  /** Rust's `to_integer` on a rational: rounds toward zero. */
  function Truncate(r: real): (t: int)
    ensures Abs(t) as real <= (if r < 0.0 then -r else r) < Abs(t) as real + 1.0
    ensures (r >= 0.0 ==> t >= 0) && (r < 0.0 ==> t <= 0)
  {
    if r >= 0.0 then r.Floor else -((-r).Floor)
  }

  /** Part 1: the constant of root's form, rounded toward zero. */
  function Part1(m: Monkeys): Result<int>
  {
    var e := Evaluate(m, Root, |m|);
    if e.Err? then Err(e.reason) else Ok(Truncate(e.value.b))
  }

  /** The tweaks for part 2: `humn` becomes the unknown, root's operation
      becomes `=`; a root that yells a number is a panic. */
  function Part2Monkeys(m: Monkeys): (r: Result<Monkeys>)
    ensures r.Ok? <==> Root in m && m[Root].Operation?
    ensures r.Ok? ==> && r.value.Keys == m.Keys + {Humn}
                      && r.value[Root] == Operation(m[Root].left, '=', m[Root].right)
                      && r.value[Humn] == HumanVariable
                      && forall k :: k in m && k != Root && k != Humn ==> r.value[k] == m[k]
  {
    var m2 := m[Humn := HumanVariable];
    if Root !in m2 || !m2[Root].Operation? then Err("root should be an Operation")
    else Ok(m2[Root := Operation(m2[Root].left, '=', m2[Root].right)])
  }

  /** Part 2: the number the human must yell. */
  function Part2(m: Monkeys): Result<int>
  {
    var t := Part2Monkeys(m);
    if t.Err? then Err(t.reason)
    else
      var e := Evaluate(t.value, Root, |t.value|);
      if e.Err? then Err(e.reason) else Ok(e.value.b.Floor)
  }

  /** `run`: part 2 is reached only when part 1 did not panic. */
  function Run(m: Monkeys): (r: (Result<int>, Result<int>))
    ensures r.1.Ok? ==> r.0.Ok?
  {
    var p1 := Part1(m);
    (p1, if p1.Err? then Err(p1.reason) else Part2(m))
  }

  /** What part 1 prints is root's number, rounded toward zero, whatever
      the unknown would be. */
  lemma Part1IsRootNumber(m: Monkeys, x: real)
    requires HumanFree(m) && EquationFree(m, Root, |m|) && Part1(m).Ok?
    ensures Numeric(m, Root, x, |m|).Ok?
    ensures Part1(m).value == Truncate(Numeric(m, Root, x, |m|).value)
  {
    EvaluateSound(m, Root, x, |m|);
    NoHumanNoSlope(m, Root, |m|);
  }

  /** Monkeys `left` and `right` yell the same number when the human yells y. */
  predicate Balances(m: Monkeys, left: string, right: string, y: real, fuel: nat)
  {
    Numeric(m, left, y, fuel).Ok? && Numeric(m, left, y, fuel) == Numeric(m, right, y, fuel)
  }

  /** An equation monkey's answer is whole, balances its two monkeys, and
      is the only number that does. */
  lemma EquationBalances(m: Monkeys, name: string, n: nat)
    requires name in m && m[name].Operation? && m[name].op == '='
    requires Evaluate(m, name, n + 1).Ok?
    ensures var s := Evaluate(m, name, n + 1).value.b; var left, right := m[name].left, m[name].right;
            && Integral(s)
            && (EquationFree(m, left, n) && EquationFree(m, right, n) ==>
                  && Balances(m, left, right, s, n)
                  && forall y: real :: Balances(m, left, right, y, n) ==> y == s)
  {
    var left, right := m[name].left, m[name].right;
    var u, v := Evaluate(m, left, n), Evaluate(m, right, n);
    assert u.Ok? && v.Ok? && Evaluate(m, name, n + 1) == Combine(u.value, '=', v.value);
    CombineSolves(u.value, v.value);
    var s := Evaluate(m, name, n + 1).value.b;
    if EquationFree(m, left, n) && EquationFree(m, right, n) {
      EvaluateSound(m, left, s, n);
      EvaluateSound(m, right, s, n);
      forall y: real | Balances(m, left, right, y, n) ensures y == s {
        EvaluateSound(m, left, y, n);
        EvaluateSound(m, right, y, n);
        assert Balanced(u.value, v.value, y);
      }
    }
  }

  /** What part 2 prints makes root's two monkeys yell the same number, and
      no other number does. */
  lemma Part2Balances(m: Monkeys)
    requires Part2(m).Ok?
    ensures var t := Part2Monkeys(m).value; var n := |t| - 1; var s := Part2(m).value as real;
            var left, right := t[Root].left, t[Root].right;
            EquationFree(t, left, n) && EquationFree(t, right, n) ==>
              && Balances(t, left, right, s, n)
              && forall y: real :: Balances(t, left, right, y, n) ==> y == s
  {
    var t := Part2Monkeys(m).value;
    EquationBalances(t, Root, |t| - 1);
  }
}

=== FILE: day22.dfy ===
/** Monkey map: walking a board of open tiles `.` and walls `#`, padded
    with spaces, following a path of turns and forward moves.  Leaving the
    board either wraps round to the far side of the same row or column
    (part 1) or follows one of fourteen hand-written edge rules for the
    board folded into a cube (part 2). */
module MonkeyMap {
  import opened Common

  datatype Action = MoveForward(steps: int) | TurnLeft | TurnRight

  /** Rows of tiles; rows may differ in length. */
  type Board = seq<seq<char>>

  /** A position and a heading (dx, dy); y grows downwards. */
  datatype State = State(x: int, y: int, dx: int, dy: int)

  /** `offboard`: a negative coordinate, a row or column past the end, or a
      space. */
  predicate Offboard(board: Board, x: int, y: int)
  {
    x < 0 || y < 0 || y >= |board| || x >= |board[y]| || board[y][x] == ' '
  }

  /** The heading is one of the four axis directions. */
  predicate Unit(dx: int, dy: int)
  {
    (dx == 1 && dy == 0) || (dx == 0 && dy == 1) || (dx == -1 && dy == 0) || (dx == 0 && dy == -1)
  }

  // ---------------------------------------------------------------------
  // Turning.
  // ---------------------------------------------------------------------

  function Left(s: State): (r: State)
    ensures r.x == s.x && r.y == s.y
  {
    s.(dx := s.dy, dy := -s.dx)
  }

  function Right(s: State): (r: State)
    ensures r.x == s.x && r.y == s.y
  {
    s.(dx := -s.dy, dy := s.dx)
  }

  /** A left turn and a right turn undo each other, in either order, and
      both keep the heading an axis direction. */
  lemma TurnsUndo(s: State)
    ensures Right(Left(s)) == s && Left(Right(s)) == s
    ensures Unit(s.dx, s.dy) ==> Unit(Left(s).dx, Left(s).dy) && Unit(Right(s).dx, Right(s).dy)
  {
  }

  /** Four right turns come back to the same heading, and a right turn is
      never the same heading (nor its reverse) for an axis direction. */
  lemma FourTurns(s: State)
    requires Unit(s.dx, s.dy)
    ensures Right(Right(Right(Right(s)))) == s
    ensures Right(Right(s)) == s.(dx := -s.dx, dy := -s.dy)
    ensures Right(s) != s && Right(s) != Right(Right(s))
  {
  }

  // ---------------------------------------------------------------------
  // Wrapping on the flat board.
  // ---------------------------------------------------------------------

  /** Whether the cell j steps behind (x, y), against heading (dx, dy), is
      off the board. */
  predicate OffBehind(board: Board, x: int, y: int, dx: int, dy: int, j: nat)
  {
    Offboard(board, Back(x, dx, j), Back(y, dy, j))
  }

  /** A coordinate j steps back against a component d of an axis heading:
      x - j·d, written without the product. */
  function Back(x: int, d: int, j: nat): int
  {
    if d == 1 then x - j else if d == -1 then x + j else x
  }

  /** The room left behind an on-board cell, in the direction of walking
      back. */
  function Room(board: Board, x: int, y: int, dx: int, dy: int): nat
    requires !Offboard(board, x, y) && Unit(dx, dy)
  {
    if dx == 1 then x
    else if dx == -1 then |board[y]| - x
    else if dy == 1 then y
    else |board| - y
  }

  /** How many steps back from an on-board cell stay on the board. */
  function BackSteps(board: Board, x: int, y: int, dx: int, dy: int): nat
    requires !Offboard(board, x, y) && Unit(dx, dy)
    decreases Room(board, x, y, dx, dy)
  {
    if Offboard(board, x - dx, y - dy) then 0 else 1 + BackSteps(board, x - dx, y - dy, dx, dy)
  }

  /** Walking back BackSteps steps stays on the board, and one step more
      leaves it. */
  lemma {:induction false} BackStepsStayOn(board: Board, x: int, y: int, dx: int, dy: int)
    requires !Offboard(board, x, y) && Unit(dx, dy)
    ensures var k := BackSteps(board, x, y, dx, dy);
            && (forall j: nat :: j <= k ==> !OffBehind(board, x, y, dx, dy, j))
            && OffBehind(board, x, y, dx, dy, k + 1)
    decreases Room(board, x, y, dx, dy)
  {
    var k := BackSteps(board, x, y, dx, dy);
    BackShift(x, y, dx, dy, 1);
    if !Offboard(board, x - dx, y - dy) {
      BackStepsStayOn(board, x - dx, y - dy, dx, dy);
      forall j: nat | 0 < j <= k ensures !OffBehind(board, x, y, dx, dy, j) {
        assert !OffBehind(board, x - dx, y - dy, dx, dy, j - 1);
        BackShift(x, y, dx, dy, j);
      }
      BackShift(x, y, dx, dy, k + 1);
    }
  }

  /** One step back, then j - 1 more, is j steps back. */
  lemma BackShift(x: int, y: int, dx: int, dy: int, j: nat)
    requires Unit(dx, dy) && j > 0
    ensures Back(x, dx, j) == Back(x - dx, dx, j - 1) && Back(y, dy, j) == Back(y - dy, dy, j - 1)
  {
  }

  /** The flat wrap: from (x, y), whose next cell is off the board, the
      farthest on-board cell reached by walking back. */
  function FlatWrap(board: Board, x: int, y: int, dx: int, dy: int): (r: (int, int))
    requires !Offboard(board, x, y) && Unit(dx, dy)
  {
    var k := BackSteps(board, x, y, dx, dy);
    (Back(x, dx, k), Back(y, dy, k))
  }

  /** The wrap lands on the board, on the line through (x, y), with only
      board between, and off the board one step further back. */
  lemma FlatWrapFarthest(board: Board, x: int, y: int, dx: int, dy: int)
    requires !Offboard(board, x, y) && Unit(dx, dy)
    ensures var r := FlatWrap(board, x, y, dx, dy); var k := BackSteps(board, x, y, dx, dy);
            && !Offboard(board, r.0, r.1)
            && Offboard(board, r.0 - dx, r.1 - dy)
            && r == (Back(x, dx, k), Back(y, dy, k))
            && forall j: nat :: j <= k ==> !OffBehind(board, x, y, dx, dy, j)
  {
    var k := BackSteps(board, x, y, dx, dy);
    BackStepsStayOn(board, x, y, dx, dy);
    assert !OffBehind(board, x, y, dx, dy, k);
    assert OffBehind(board, x, y, dx, dy, k + 1);
    assert Back(x, dx, k + 1) == Back(x, dx, k) - dx;
    assert Back(y, dy, k + 1) == Back(y, dy, k) - dy;
  }

  // ---------------------------------------------------------------------
  // Wrapping on the cube.
  // ---------------------------------------------------------------------

  /** The fourteen edge rules for the author's net: the cell (nx, ny) just
      off the board, reached with heading (dx, dy), is replaced by the
      cell and heading on the adjoining face of the cube.  Any other cell
      is left as it is. */
  function CubeWrap(nx: int, ny: int, dx: int, dy: int): (r: State)
  {
    if ny == -1 && 50 <= nx < 100 then State(0, 100 + nx, 1, 0)                        //  1
    else if nx == -1 && 150 <= ny < 200 then State(ny - 100, 0, 0, 1)                  //  2
    else if ny == -1 && 100 <= nx < 150 then State(nx - 100, 199, 0, -1)               //  3
    else if ny == 200 && 0 <= nx < 50 then State(nx + 100, 0, 0, 1)                    //  4
    else if nx == 49 && 0 <= ny < 50 then State(0, 149 - ny, 1, 0)                     //  5
    else if nx == -1 && 100 <= ny < 150 then State(50, 149 - ny, 1, 0)                 //  6
    else if nx == 150 && 0 <= ny < 50 then State(99, 149 - ny, -1, 0)                  //  7
    else if nx == 100 && 100 <= ny < 150 then State(149, 149 - ny, -1, 0)              //  8
    else if nx == 49 && dx == -1 && dy == 0 && 50 <= ny < 100 then State(ny - 50, 100, 0, 1)   //  9
    else if ny == 99 && dx == 0 && dy == -1 && 0 <= nx < 50 then State(50, 50 + nx, 1, 0)     // 10
    else if ny == 50 && dx == 0 && dy == 1 && 100 <= nx < 150 then State(99, nx - 50, -1, 0)  // 11
    else if nx == 100 && dx == 1 && dy == 0 && 50 <= ny < 100 then State(50 + ny, 49, 0, -1)  // 12
    else if ny == 150 && dx == 0 && dy == 1 && 50 <= nx < 100 then State(49, nx + 100, -1, 0) // 13
    else if nx == 50 && dx == 1 && dy == 0 && 150 <= ny < 200 then State(ny - 100, 149, 0, -1) // 14
    else State(nx, ny, dx, dy)
  }

  /** The author's net of six 50 × 50 faces: a column of three at
      x in [50, 100), one face to the right of the top one, and a column
      of two at x in [0, 50) below and left. */
  predicate OnNet(x: int, y: int)
  {
    || (50 <= x < 100 && 0 <= y < 150)
    || (100 <= x < 150 && 0 <= y < 50)
    || (0 <= x < 50 && 100 <= y < 200)
  }

  /** Leaving the net from (x, y) with heading (dx, dy), a rule lands on
      the net with an axis heading, and leaving again from the landing cell
      against the new heading comes back, by the paired rule, to (x, y)
      with the reverse of the heading it left with. */
  predicate Reversible(x: int, y: int, dx: int, dy: int)
  {
    var l := CubeWrap(x + dx, y + dy, dx, dy);
    && OnNet(l.x, l.y) && Unit(l.dx, l.dy)
    && !OnNet(l.x - l.dx, l.y - l.dy)
    && CubeWrap(l.x - l.dx, l.y - l.dy, -l.dx, -l.dy) == State(x, y, -dx, -dy)
  }

  lemma CubeRulesPair(x: int, y: int, dx: int, dy: int)
    requires OnNet(x, y) && Unit(dx, dy) && !OnNet(x + dx, y + dy)
    ensures Reversible(x, y, dx, dy)
  {
    if dx == 1 {
      CubeRight(x, y);
    } else if dx == -1 {
      CubeLeft(x, y);
    } else if dy == 1 {
      CubeDown(x, y);
    } else {
      CubeUp(x, y);
    }
  }

  lemma CubeRight(x: int, y: int)
    requires OnNet(x, y) && !OnNet(x + 1, y)
    ensures Reversible(x, y, 1, 0)
  {
  }

  lemma CubeLeft(x: int, y: int)
    requires OnNet(x, y) && !OnNet(x - 1, y)
    ensures Reversible(x, y, -1, 0)
  {
  }

  lemma CubeDown(x: int, y: int)
    requires OnNet(x, y) && !OnNet(x, y + 1)
    ensures Reversible(x, y, 0, 1)
  {
  }

  lemma CubeUp(x: int, y: int)
    requires OnNet(x, y) && !OnNet(x, y - 1)
    ensures Reversible(x, y, 0, -1)
  {
  }

  // ---------------------------------------------------------------------
  // Walking the path.
  // ---------------------------------------------------------------------

  /** On the board, not on a wall, heading along an axis. */
  predicate Valid(board: Board, s: State)
  {
    !Offboard(board, s.x, s.y) && board[s.y][s.x] != '#' && Unit(s.dx, s.dy)
  }

  /** The cell and heading one step on, after wrapping if the step leaves
      the board. */
  function NextCell(board: Board, s: State, isCube: bool): State
    requires isCube || (!Offboard(board, s.x, s.y) && Unit(s.dx, s.dy))
  {
    var nx, ny := s.x + s.dx, s.y + s.dy;
    if !Offboard(board, nx, ny) then State(nx, ny, s.dx, s.dy)
    else if isCube then CubeWrap(nx, ny, s.dx, s.dy)
    else
      var w := FlatWrap(board, s.x, s.y, s.dx, s.dy);
      State(w.0, w.1, s.dx, s.dy)
  }

  datatype Outcome = Blocked | Moved(next: State)

  /** One pass of the step loop: a cell outside the rows is an index
      panic, a wall stops the move. */
  function Step(board: Board, s: State, isCube: bool): Result<Outcome>
    requires isCube || (!Offboard(board, s.x, s.y) && Unit(s.dx, s.dy))
  {
    var n := NextCell(board, s, isCube);
    if n.x < 0 || n.y < 0 || n.y >= |board| || n.x >= |board[n.y]| then Err("index out of range")
    else if board[n.y][n.x] == '#' then Ok(Blocked)
    else Ok(Moved(n))
  }

  /** `MoveForward(steps)`: up to `steps` steps, stopping at a wall. */
  function Forward(board: Board, s: State, steps: int, isCube: bool): Result<State>
    requires isCube || Valid(board, s)
    decreases steps
  {
    if steps <= 0 then Ok(s)
    else
      var o := Step(board, s, isCube);
      if o.Err? then Err(o.reason)
      else if o.value.Blocked? then Ok(s)
      else
        FlatStepValid(board, s, isCube);
        Forward(board, o.value.next, steps - 1, isCube)
  }

  function Perform(board: Board, s: State, a: Action, isCube: bool): Result<State>
    requires isCube || Valid(board, s)
  {
    match a
    case TurnLeft => TurnsUndo(s); Ok(Left(s))
    case TurnRight => TurnsUndo(s); Ok(Right(s))
    case MoveForward(steps) => Forward(board, s, steps, isCube)
  }

  /** The actions in order. */
  function Walk(board: Board, s: State, actions: seq<Action>, isCube: bool): Result<State>
    requires isCube || Valid(board, s)
    decreases |actions|
  {
    if |actions| == 0 then Ok(s)
    else
      var t := Perform(board, s, actions[0], isCube);
      if t.Err? then t
      else
        PerformValid(board, s, actions[0], isCube);
        Walk(board, t.value, actions[1..], isCube)
  }

  /** A flat step from a valid state never panics and keeps the state
      valid; so does a cube step that stays valid by the next lemmas. */
  lemma FlatStepValid(board: Board, s: State, isCube: bool)
    requires isCube || Valid(board, s)
    ensures !isCube ==> Step(board, s, isCube).Ok?
    ensures !isCube && Step(board, s, isCube).value.Moved? ==> Valid(board, Step(board, s, isCube).value.next)
  {
    if !isCube && Offboard(board, s.x + s.dx, s.y + s.dy) {
      FlatWrapFarthest(board, s.x, s.y, s.dx, s.dy);
    }
  }

  lemma PerformValid(board: Board, s: State, a: Action, isCube: bool)
    requires isCube || Valid(board, s)
    ensures !isCube ==> Perform(board, s, a, isCube).Ok? && Valid(board, Perform(board, s, a, isCube).value)
  {
    TurnsUndo(s);
    if a.MoveForward? && !isCube {
      ForwardValid(board, s, a.steps);
    }
  }

  /** On the flat board a move never panics and ends on an open tile. */
  lemma {:induction false} ForwardValid(board: Board, s: State, steps: int)
    requires Valid(board, s)
    ensures Forward(board, s, steps, false).Ok? && Valid(board, Forward(board, s, steps, false).value)
    decreases steps
  {
    if steps > 0 {
      FlatStepValid(board, s, false);
      var o := Step(board, s, false);
      if o.value.Moved? {
        ForwardValid(board, o.value.next, steps - 1);
      }
    }
  }

  /** On the flat board the whole path never panics and ends on an open
      tile. */
  lemma {:induction false} WalkValid(board: Board, s: State, actions: seq<Action>)
    requires Valid(board, s)
    ensures Walk(board, s, actions, false).Ok? && Valid(board, Walk(board, s, actions, false).value)
    decreases |actions|
  {
    if |actions| > 0 {
      PerformValid(board, s, actions[0], false);
      WalkValid(board, Perform(board, s, actions[0], false).value, actions[1..]);
    }
  }

  // ---------------------------------------------------------------------
  // Walking the cube.
  // ---------------------------------------------------------------------

  /** The board is the author's net: exactly its cells are on the board. */
  ghost predicate NetShaped(board: Board)
  {
    forall x: int, y: int :: Offboard(board, x, y) <==> !OnNet(x, y)
  }

  /** On a board shaped like the net, a cube step from a valid state never
      panics and keeps the state valid. */
  lemma CubeStepValid(board: Board, s: State)
    requires NetShaped(board) && Valid(board, s)
    ensures Step(board, s, true).Ok?
    ensures Step(board, s, true).value.Moved? ==> Valid(board, Step(board, s, true).value.next)
  {
    assert OnNet(s.x, s.y) by { assert !Offboard(board, s.x, s.y); }
    var nx, ny := s.x + s.dx, s.y + s.dy;
    if Offboard(board, nx, ny) {
      assert !OnNet(nx, ny);
      CubeRulesPair(s.x, s.y, s.dx, s.dy);
      var l := CubeWrap(nx, ny, s.dx, s.dy);
      assert !Offboard(board, l.x, l.y);
    }
  }

  lemma {:induction false} CubeForwardValid(board: Board, s: State, steps: int)
    requires NetShaped(board) && Valid(board, s)
    ensures Forward(board, s, steps, true).Ok? && Valid(board, Forward(board, s, steps, true).value)
    decreases steps
  {
    if steps > 0 {
      CubeStepValid(board, s);
      var o := Step(board, s, true);
      if o.value.Moved? {
        CubeForwardValid(board, o.value.next, steps - 1);
      }
    }
  }

  /** On a board shaped like the net, the cube walk never panics and ends
      on an open tile. */
  lemma {:induction false} CubeWalkValid(board: Board, s: State, actions: seq<Action>)
    requires NetShaped(board) && Valid(board, s)
    ensures Walk(board, s, actions, true).Ok? && Valid(board, Walk(board, s, actions, true).value)
    decreases |actions|
  {
    if |actions| > 0 {
      TurnsUndo(s);
      if actions[0].MoveForward? {
        CubeForwardValid(board, s, actions[0].steps);
      }
      CubeWalkValid(board, Perform(board, s, actions[0], true).value, actions[1..]);
    }
  }

  // ---------------------------------------------------------------------
  // The password.
  // ---------------------------------------------------------------------

  /** The headings in facing order: right, down, left, up. */
  const Headings: seq<(int, int)> := [(1, 0), (0, 1), (-1, 0), (0, -1)]

  /** The position of the heading in `Headings`; none for any other vector. */
  function Facing(dx: int, dy: int): (f: Option<nat>)
    ensures f.Some? <==> Unit(dx, dy)
    ensures f.Some? ==> f.value < 4 && Headings[f.value] == (dx, dy)
  {
    if (dx, dy) == Headings[0] then Some(0)
    else if (dx, dy) == Headings[1] then Some(1)
    else if (dx, dy) == Headings[2] then Some(2)
    else if (dx, dy) == Headings[3] then Some(3)
    else None
  }

  /** The first column of row 0 holding an open tile. */
  function StartColumn(row: seq<char>): (r: Option<nat>)
    ensures r.Some? <==> '.' in row
    ensures r.Some? ==> r.value < |row| && row[r.value] == '.' && '.' !in row[..r.value]
  {
    if |row| == 0 then None
    else if row[0] == '.' then Some(0)
    else
      var r := StartColumn(row[1..]);
      if r.None? then None
      else
        assert row[..r.value + 1] == [row[0]] + row[1..][..r.value];
        Some(r.value + 1)
  }

  /** Where the walk ends: an empty board or no open tile in row 0 is a
      panic. */
  function FinalState(board: Board, actions: seq<Action>, isCube: bool): Result<State>
  {
    if |board| == 0 then Err("empty board")
    else
      var start := StartColumn(board[0]);
      if start.None? then Err("no open tile in the first row")
      else
        var s := State(start.value, 0, 1, 0);
        assert Valid(board, s);
        Walk(board, s, actions, isCube)
  }

  function Password(s: State): Result<int>
  {
    var f := Facing(s.dx, s.dy);
    if f.None? then Err("not an axis heading")
    else Ok(1000 * (s.y + 1) + 4 * (s.x + 1) + f.value)
  }

  /** `get_password`. */
  function GetPassword(board: Board, actions: seq<Action>, isCube: bool): Result<int>
  {
    var s := FinalState(board, actions, isCube);
    if s.Err? then Err(s.reason) else Password(s.value)
  }

  /** On the flat board the password exists exactly when row 0 has an open
      tile, and it comes from an open tile. */
  lemma FlatPassword(board: Board, actions: seq<Action>)
    ensures GetPassword(board, actions, false).Ok? <==> |board| > 0 && '.' in board[0]
    ensures FinalState(board, actions, false).Ok? ==> Valid(board, FinalState(board, actions, false).value)
  {
    if |board| > 0 && '.' in board[0] {
      var start := StartColumn(board[0]);
      WalkValid(board, State(start.value, 0, 1, 0), actions);
    }
  }

  /** On a board shaped like the net, the same holds for the cube walk. */
  lemma CubePassword(board: Board, actions: seq<Action>)
    requires NetShaped(board)
    ensures GetPassword(board, actions, true).Ok? <==> |board| > 0 && '.' in board[0]
    ensures FinalState(board, actions, true).Ok? ==> Valid(board, FinalState(board, actions, true).value)
  {
    if |board| > 0 && '.' in board[0] {
      var start := StartColumn(board[0]);
      CubeWalkValid(board, State(start.value, 0, 1, 0), actions);
    }
  }

  /** The password gives back the row, the column and the heading, for
      columns below 249. */
  lemma PasswordDecodes(s: State)
    requires Unit(s.dx, s.dy) && s.y >= 0 && 0 <= s.x < 249
    ensures Password(s).Ok?
    ensures var p := Password(s).value;
            && p / 1000 == s.y + 1 && (p % 1000) / 4 == s.x + 1
            && Headings[p % 4] == (s.dx, s.dy)
  {
    var f := Facing(s.dx, s.dy).value;
    var p := 1000 * (s.y + 1) + 4 * (s.x + 1) + f;
    var low := 4 * (s.x + 1) + f;
    assert 0 <= low < 1000;
    DivModUnique(p, s.y + 1, low, 1000);
    DivModUnique(low, s.x + 1, f, 4);
    assert p == (250 * (s.y + 1) + (s.x + 1)) * 4 + f;
    DivModUnique(p, 250 * (s.y + 1) + (s.x + 1), f, 4);
  }

  /** Both parts: the flat walk, then the cube walk. */
  method Run(board: Board, actions: seq<Action>) returns (part1: Result<int>, part2: Result<int>)
    ensures part1.Ok? <==> |board| > 0 && '.' in board[0]
    ensures NetShaped(board) ==> (part2.Ok? <==> |board| > 0 && '.' in board[0])
  {
    part1 := GetPassword(board, actions, false);
    part2 := GetPassword(board, actions, true);
    FlatPassword(board, actions);
    if NetShaped(board) {
      CubePassword(board, actions);
    }
  }
}

=== FILE: day23.dfy ===
/** Unstable diffusion: elves on an unbounded grid spread out in rounds.
    In each round every elf with a neighbour proposes a step to the first
    free side in a rotating order, and a proposal is carried out only when
    no other elf proposed the same cell.  Part 1 counts the empty tiles in
    the bounding box after ten rounds; part 2 finds the first round in
    which nobody moves. */
module UnstableDiffusion {
  import opened Common

  /** A cell as (x, y), with y growing southwards. */
  type Pos = (int, int)

  function Add(p: Pos, d: Pos): Pos
  {
    (p.0 + d.0, p.1 + d.1)
  }

  // ---------------------------------------------------------------------
  // Neighbours.
  // ---------------------------------------------------------------------

  /** The 3x3 block around `p`, in the order its two ranges are paired. */
  function Window(p: Pos): (w: seq<Pos>)
    ensures |w| == 9 && w[4] == p
  {
    [(p.0 - 1, p.1 - 1), (p.0 - 1, p.1), (p.0 - 1, p.1 + 1),
     (p.0, p.1 - 1), (p.0, p.1), (p.0, p.1 + 1),
     (p.0 + 1, p.1 - 1), (p.0 + 1, p.1), (p.0 + 1, p.1 + 1)]
  }

  function Indicator(b: bool): nat
  {
    if b then 1 else 0
  }

  /** How many entries of `s` are elves. */
  function CountIn(elves: set<Pos>, s: seq<Pos>): nat
  {
    if |s| == 0 then 0 else Indicator(s[0] in elves) + CountIn(elves, s[1..])
  }

  /** How many entries of `s` are empty ground. */
  function CountOut(elves: set<Pos>, s: seq<Pos>): nat
  {
    if |s| == 0 then 0 else Indicator(s[0] !in elves) + CountOut(elves, s[1..])
  }

  /** The elves in the block around `p`, not counting the one at `p`. */
  function NeighbourCount(elves: set<Pos>, p: Pos): int
  {
    CountIn(elves, Window(p)) - 1
  }

  /** No elf in any of the eight cells around `p`. */
  predicate Isolated(elves: set<Pos>, p: Pos)
  {
    && (p.0 - 1, p.1 - 1) !in elves && (p.0 - 1, p.1) !in elves && (p.0 - 1, p.1 + 1) !in elves
    && (p.0, p.1 - 1) !in elves && (p.0, p.1 + 1) !in elves
    && (p.0 + 1, p.1 - 1) !in elves && (p.0 + 1, p.1) !in elves && (p.0 + 1, p.1 + 1) !in elves
  }

  lemma CountAt(elves: set<Pos>, s: seq<Pos>, k: nat)
    requires k < |s|
    ensures CountIn(elves, s[k..]) == Indicator(s[k] in elves) + CountIn(elves, s[k + 1..])
  {
    assert s[k..][1..] == s[k + 1..];
  }

  lemma CountNine(elves: set<Pos>, s: seq<Pos>)
    requires |s| == 9
    ensures CountIn(elves, s)
            == Indicator(s[0] in elves) + Indicator(s[1] in elves) + Indicator(s[2] in elves)
             + Indicator(s[3] in elves) + Indicator(s[4] in elves) + Indicator(s[5] in elves)
             + Indicator(s[6] in elves) + Indicator(s[7] in elves) + Indicator(s[8] in elves)
  {
    CountAt(elves, s, 0);
    CountAt(elves, s, 1);
    CountAt(elves, s, 2);
    CountAt(elves, s, 3);
    CountAt(elves, s, 4);
    CountAt(elves, s, 5);
    CountAt(elves, s, 6);
    CountAt(elves, s, 7);
    CountAt(elves, s, 8);
    assert s[0..] == s;
    assert CountIn(elves, s[9..]) == 0;
  }

  /** For an elf, a neighbour count of zero means exactly that the eight
      surrounding cells are empty. */
  lemma NoNeighbours(elves: set<Pos>, p: Pos)
    requires p in elves
    ensures NeighbourCount(elves, p) == 0 <==> Isolated(elves, p)
  {
    CountNine(elves, Window(p));
  }

  // ---------------------------------------------------------------------
  // Proposals.
  // ---------------------------------------------------------------------

  /** The three cells on each side, north, south, west, east; the middle
      one is the step taken. */
  const Directions: seq<seq<Pos>> :=
    [[(-1, -1), (0, -1), (1, -1)],
     [(-1, 1), (0, 1), (1, 1)],
     [(-1, -1), (-1, 0), (-1, 1)],
     [(1, -1), (1, 0), (1, 1)]]

  /** The side tried `j`-th in a round whose order starts at `order`. */
  function Side(order: nat, j: nat): (d: nat)
    ensures d < 4
  {
    (order + j) % 4
  }

  /** None of the three cells on side `d` holds an elf. */
  predicate SideFree(elves: set<Pos>, p: Pos, d: nat)
    requires d < 4
  {
    Add(p, Directions[d][0]) !in elves && Add(p, Directions[d][1]) !in elves
    && Add(p, Directions[d][2]) !in elves
  }

  /** The middle cell on side `d`. */
  function Target(p: Pos, d: nat): Pos
    requires d < 4
  {
    Add(p, Directions[d][1])
  }

  /** Side `Side(order, j)` is free and the sides tried before it from the
      `i`-th on are not. */
  predicate FirstFreeAt(elves: set<Pos>, p: Pos, order: nat, i: nat, j: nat)
  {
    && SideFree(elves, p, Side(order, j))
    && forall k :: i <= k < j ==> !SideFree(elves, p, Side(order, k))
  }

  /** The direction loop from its `i`-th pass on. */
  function FirstFree(elves: set<Pos>, p: Pos, order: nat, i: nat): Option<Pos>
    requires i <= 4
    decreases 4 - i
  {
    if i == 4 then None
    else if SideFree(elves, p, Side(order, i)) then Some(Target(p, Side(order, i)))
    else FirstFree(elves, p, order, i + 1)
  }

  /** The loop finds a side exactly when one of the remaining sides is
      free, and then it is the first such side. */
  lemma {:induction false} FirstFreeSpec(elves: set<Pos>, p: Pos, order: nat, i: nat)
    requires i <= 4
    ensures FirstFree(elves, p, order, i).Some?
            <==> exists j :: i <= j < 4 && SideFree(elves, p, Side(order, j))
    ensures FirstFree(elves, p, order, i).Some?
            ==> exists j :: i <= j < 4 && FirstFreeAt(elves, p, order, i, j)
                          && FirstFree(elves, p, order, i).value == Target(p, Side(order, j))
    decreases 4 - i
  {
    if i < 4 {
      if SideFree(elves, p, Side(order, i)) {
        assert FirstFreeAt(elves, p, order, i, i);
      } else {
        FirstFreeSpec(elves, p, order, i + 1);
        var r := FirstFree(elves, p, order, i + 1);
        if r.Some? {
          var j :| i + 1 <= j < 4 && FirstFreeAt(elves, p, order, i + 1, j)
                   && r.value == Target(p, Side(order, j));
          assert FirstFreeAt(elves, p, order, i, j);
        }
      }
    }
  }

  /** The first half of a round for one elf: none when it has no
      neighbour or every side is blocked, otherwise the middle cell of the
      first free side in the order starting at `order % 4`. */
  function Proposal(elves: set<Pos>, p: Pos, order: nat): Option<Pos>
    requires p in elves
  {
    if NeighbourCount(elves, p) == 0 then None else FirstFree(elves, p, order, 0)
  }

  /** An elf with no neighbour proposes nothing; otherwise it proposes
      exactly when some side is free, and then the middle cell of the
      first free side in the rotated order. */
  lemma ProposalSpec(elves: set<Pos>, p: Pos, order: nat)
    requires p in elves
    ensures Isolated(elves, p) ==> Proposal(elves, p, order).None?
    ensures Proposal(elves, p, order).Some?
            <==> !Isolated(elves, p) && exists j :: 0 <= j < 4 && SideFree(elves, p, Side(order, j))
    ensures Proposal(elves, p, order).Some?
            ==> exists j :: 0 <= j < 4 && FirstFreeAt(elves, p, order, 0, j)
                          && Proposal(elves, p, order).value == Target(p, Side(order, j))
  {
    NoNeighbours(elves, p);
    FirstFreeSpec(elves, p, order, 0);
  }

  /** A proposed cell is empty and differs from the proposer's. */
  lemma ProposalFree(elves: set<Pos>, p: Pos, order: nat)
    requires p in elves && Proposal(elves, p, order).Some?
    ensures Proposal(elves, p, order).value !in elves
    ensures Proposal(elves, p, order).value != p
  {
    ProposalSpec(elves, p, order);
    var j :| 0 <= j < 4 && FirstFreeAt(elves, p, order, 0, j)
             && Proposal(elves, p, order).value == Target(p, Side(order, j));
    assert Add(p, Directions[Side(order, j)][1]) !in elves;
  }

  // ---------------------------------------------------------------------
  // A round.
  // ---------------------------------------------------------------------

  /** The elves proposing cell `q`. */
  function Voters(elves: set<Pos>, q: Pos, order: nat): set<Pos>
  {
    set e | e in elves && Proposal(elves, e, order) == Some(q)
  }

  /** The elf at `p` has a proposal no other elf shares. */
  predicate Moves(elves: set<Pos>, p: Pos, order: nat)
    requires p in elves
  {
    var q := Proposal(elves, p, order);
    q.Some? && |Voters(elves, q.value, order)| == 1
  }

  /** Where the elf at `p` is after the round. */
  function NewPosition(elves: set<Pos>, p: Pos, order: nat): Pos
    requires p in elves
  {
    if Moves(elves, p, order) then Proposal(elves, p, order).value else p
  }

  /** An elf leaves its cell exactly when it moves, and then it is in the
      cell it proposed, which was empty. */
  lemma NewPositionSpec(elves: set<Pos>, p: Pos, order: nat)
    requires p in elves
    ensures NewPosition(elves, p, order) != p <==> Moves(elves, p, order)
    ensures NewPosition(elves, p, order) != p
            ==> NewPosition(elves, p, order) == Proposal(elves, p, order).value
                && NewPosition(elves, p, order) !in elves
  {
    if Moves(elves, p, order) {
      ProposalFree(elves, p, order);
    }
  }

  /** The positions after the round. */
  function NextPositions(elves: set<Pos>, order: nat): set<Pos>
  {
    set p | p in elves :: NewPosition(elves, p, order)
  }

  /** No elf moved. */
  predicate IsStable(elves: set<Pos>, order: nat)
  {
    forall p {:trigger Moves(elves, p, order)} :: p in elves ==> !Moves(elves, p, order)
  }

  /** `simulate_round`: the new positions and whether the round is
      stable. */
  function Round(elves: set<Pos>, order: nat): (set<Pos>, bool)
  {
    (NextPositions(elves, order), IsStable(elves, order))
  }

  lemma TwoInSet(s: set<Pos>, a: Pos, b: Pos)
    requires a in s && b in s && a != b
    ensures |s| >= 2
  {
    var t := s - {a};
    assert b in t;
    assert s == t + {a};
  }

  /** Two elves never end the round in the same cell. */
  lemma NoCollision(elves: set<Pos>, order: nat, p: Pos, p': Pos)
    requires p in elves && p' in elves
    requires NewPosition(elves, p, order) == NewPosition(elves, p', order)
    ensures p == p'
  {
    var q := NewPosition(elves, p, order);
    NewPositionSpec(elves, p, order);
    NewPositionSpec(elves, p', order);
    if p != p' {
      if q != p && q != p' {
        assert p in Voters(elves, q, order) && p' in Voters(elves, q, order);
        TwoInSet(Voters(elves, q, order), p, p');
      }
    }
  }

  function Image(elves: set<Pos>, order: nat, s: set<Pos>): set<Pos>
    requires s <= elves
  {
    set p | p in s :: NewPosition(elves, p, order)
  }

  lemma {:induction false} ImageSize(elves: set<Pos>, order: nat, s: set<Pos>)
    requires s <= elves
    ensures |Image(elves, order, s)| == |s|
    decreases |s|
  {
    if s != {} {
      var x :| x in s;
      var rest := s - {x};
      ImageSize(elves, order, rest);
      var y := NewPosition(elves, x, order);
      assert Image(elves, order, s) == Image(elves, order, rest) + {y};
      if y in Image(elves, order, rest) {
        var z :| z in rest && NewPosition(elves, z, order) == y;
        NoCollision(elves, order, x, z);
      }
    }
  }

  /** No elf is lost or merged: the round keeps the number of elves. */
  lemma RoundKeepsCount(elves: set<Pos>, order: nat)
    ensures |NextPositions(elves, order)| == |elves|
  {
    ImageSize(elves, order, elves);
    assert NextPositions(elves, order) == Image(elves, order, elves);
  }

  /** A round is stable exactly when it leaves every elf where it was. */
  lemma StableIffUnchanged(elves: set<Pos>, order: nat)
    ensures IsStable(elves, order) <==> NextPositions(elves, order) == elves
  {
    var r := Round(elves, order);
    if r.1 {
      assert r.0 == elves by {
        forall p | p in elves ensures p in r.0 {
          NewPositionSpec(elves, p, order);
          assert NewPosition(elves, p, order) == p;
        }
      }
    } else {
      var p :| p in elves && Moves(elves, p, order);
      var q := NewPosition(elves, p, order);
      NewPositionSpec(elves, p, order);
      assert q in r.0 && q !in elves;
    }
  }

  // ---------------------------------------------------------------------
  // Many rounds.
  // ---------------------------------------------------------------------

  /** `n` applications of `step`, the `i`-th given the round index `i`. */
  function Iterate<S>(step: (S, nat) -> S, s: S, n: nat): S
  {
    if n == 0 then s else step(Iterate(step, s, n - 1), n - 1)
  }

  const RoundStep: (set<Pos>, nat) -> set<Pos> := (elves: set<Pos>, order: nat) => NextPositions(elves, order)

  const RoundStable: (set<Pos>, nat) -> bool := (elves: set<Pos>, order: nat) => IsStable(elves, order)

  /** The elves after `n` rounds; round `k` starts its order at `k`. */
  function Rounds(elves: set<Pos>, n: nat): set<Pos>
  {
    Iterate(RoundStep, elves, n)
  }

  lemma {:induction false} RoundsKeepCount(elves: set<Pos>, n: nat)
    ensures |Rounds(elves, n)| == |elves|
  {
    if n > 0 {
      RoundsKeepCount(elves, n - 1);
      RoundKeepsCount(Rounds(elves, n - 1), n - 1);
    }
  }

  /** Round `k` (0-based) moves nobody. */
  predicate StableAt(elves: set<Pos>, k: nat)
  {
    RoundStable(Rounds(elves, k), k)
  }

  /** The search loop of `first_stable_round`, for any round function
      and stability test: the 1-based index of the first round whose test
      passes, giving up after `fuel` rounds. */
  method SearchStable<S>(step: (S, nat) -> S, stable: (S, nat) -> bool, s0: S, fuel: nat)
    returns (r: Option<nat>)
    ensures r.Some? ==> 0 < r.value <= fuel && stable(Iterate(step, s0, r.value - 1), r.value - 1)
    ensures r.Some? ==> forall k :: 0 <= k < r.value - 1 ==> !stable(Iterate(step, s0, k), k)
    ensures r.None? ==> forall k :: 0 <= k < fuel ==> !stable(Iterate(step, s0, k), k)
  {
    var s := s0;
    var round: nat := 0;
    while round < fuel
      invariant round <= fuel
      invariant s == Iterate(step, s0, round)
      invariant forall k :: 0 <= k < round ==> !stable(Iterate(step, s0, k), k)
    {
      if stable(s, round) {
        return Some(round + 1);
      }
      s := step(s, round);
      round := round + 1;
    }
    return None;
  }

  /** `first_stable_round`, giving up after `fuel` rounds. */
  method FirstStableRound(elves: set<Pos>, fuel: nat) returns (r: Option<nat>)
    ensures r.Some? ==> 1 <= r.value <= fuel && StableAt(elves, r.value - 1)
    ensures r.Some? ==> forall k :: 0 <= k < r.value - 1 ==> !StableAt(elves, k)
    ensures r.None? ==> forall k :: 0 <= k < fuel ==> !StableAt(elves, k)
  {
    r := SearchStable(RoundStep, RoundStable, elves, fuel);
  }

  // ---------------------------------------------------------------------
  // Empty ground.
  // ---------------------------------------------------------------------

  /** The cells of a box, column by column as the two ranges are paired. */
  function Column(x: int, y0: int, y1: int): (r: seq<Pos>)
    ensures |r| == if y0 <= y1 then y1 - y0 + 1 else 0
    ensures forall c :: c in r <==> c.0 == x && y0 <= c.1 <= y1
    decreases y1 - y0 + 1
  {
    if y0 > y1 then [] else [(x, y0)] + Column(x, y0 + 1, y1)
  }

  function Cells(x0: int, x1: int, y0: int, y1: int): (r: seq<Pos>)
    ensures forall c :: c in r <==> x0 <= c.0 <= x1 && y0 <= c.1 <= y1
    decreases x1 - x0 + 1
  {
    if x0 > x1 then [] else Column(x0, y0, y1) + Cells(x0 + 1, x1, y0, y1)
  }

  lemma {:induction false} CellsSize(x0: int, x1: int, y0: int, y1: int)
    requires x0 <= x1 + 1 && y0 <= y1 + 1
    ensures |Cells(x0, x1, y0, y1)| == (x1 - x0 + 1) * (y1 - y0 + 1)
    decreases x1 - x0 + 1
  {
    if x0 <= x1 {
      CellsSize(x0 + 1, x1, y0, y1);
      assert (x1 - x0 + 1) * (y1 - y0 + 1) == (y1 - y0 + 1) + (x1 - x0) * (y1 - y0 + 1);
    }
  }

  predicate NoDup(s: seq<Pos>)
  {
    forall i, j :: 0 <= i < j < |s| ==> s[i] != s[j]
  }

  lemma {:induction false} ColumnNoDup(x: int, y0: int, y1: int)
    ensures NoDup(Column(x, y0, y1))
    decreases y1 - y0 + 1
  {
    if y0 <= y1 {
      ColumnNoDup(x, y0 + 1, y1);
      var r := Column(x, y0, y1);
      forall i, j | 0 <= i < j < |r| ensures r[i] != r[j] {
        if i == 0 {
          assert r[j] in Column(x, y0 + 1, y1);
        } else {
          assert r[i] == Column(x, y0 + 1, y1)[i - 1] && r[j] == Column(x, y0 + 1, y1)[j - 1];
        }
      }
    }
  }

  lemma NoDupConcat(a: seq<Pos>, b: seq<Pos>)
    requires NoDup(a) && NoDup(b)
    requires forall c :: c in a ==> c !in b
    ensures NoDup(a + b)
  {
    var s := a + b;
    forall i, j | 0 <= i < j < |s| ensures s[i] != s[j] {
      if j < |a| {
        assert s[i] == a[i] && s[j] == a[j];
      } else if i < |a| {
        assert s[i] == a[i] && s[j] == b[j - |a|];
        assert a[i] in a;
      } else {
        assert s[i] == b[i - |a|] && s[j] == b[j - |a|];
      }
    }
  }

  lemma {:induction false} CellsNoDup(x0: int, x1: int, y0: int, y1: int)
    ensures NoDup(Cells(x0, x1, y0, y1))
    decreases x1 - x0 + 1
  {
    if x0 <= x1 {
      ColumnNoDup(x0, y0, y1);
      CellsNoDup(x0 + 1, x1, y0, y1);
      NoDupConcat(Column(x0, y0, y1), Cells(x0 + 1, x1, y0, y1));
    }
  }

  function Elems(s: seq<Pos>): set<Pos>
  {
    set c | c in s
  }

  /** Counting the elves along a list without repeats counts the elves
      among its cells. */
  lemma NoDupTail(s: seq<Pos>)
    requires NoDup(s) && |s| > 0
    ensures NoDup(s[1..]) && s[0] !in Elems(s[1..])
  {
    var t := s[1..];
    forall i, j | 0 <= i < j < |t| ensures t[i] != t[j] {
      assert t[i] == s[i + 1] && t[j] == s[j + 1];
    }
    forall i | 0 <= i < |t| ensures t[i] != s[0] {
      assert t[i] == s[i + 1];
    }
  }

  lemma CountHead(elves: set<Pos>, s: seq<Pos>)
    requires |s| > 0 && s[0] !in Elems(s[1..])
    ensures |elves * Elems(s)| == Indicator(s[0] in elves) + |elves * Elems(s[1..])|
  {
    var t := s[1..];
    assert Elems(s) == Elems(t) + {s[0]} by {
      assert s == [s[0]] + t;
    }
    if s[0] in elves {
      assert elves * Elems(s) == elves * Elems(t) + {s[0]};
    } else {
      assert elves * Elems(s) == elves * Elems(t);
    }
  }

  /** Counting the elves along a list without repeats counts the elves
      among its cells. */
  lemma {:induction false} CountInIsSize(elves: set<Pos>, s: seq<Pos>)
    requires NoDup(s)
    ensures CountIn(elves, s) == |elves * Elems(s)|
  {
    if |s| > 0 {
      NoDupTail(s);
      CountInIsSize(elves, s[1..]);
      CountHead(elves, s);
    }
  }

  lemma {:induction false} CountSplit(elves: set<Pos>, s: seq<Pos>)
    ensures CountIn(elves, s) + CountOut(elves, s) == |s|
  {
    if |s| > 0 {
      CountSplit(elves, s[1..]);
    }
  }

  /** The tightest box around a non-empty set of elves. */
  predicate Tight(elves: set<Pos>, lo: Pos, hi: Pos)
  {
    && (forall p :: p in elves ==> lo.0 <= p.0 <= hi.0 && lo.1 <= p.1 <= hi.1)
    && (exists p :: p in elves && p.0 == lo.0)
    && (exists p :: p in elves && p.0 == hi.0)
    && (exists p :: p in elves && p.1 == lo.1)
    && (exists p :: p in elves && p.1 == hi.1)
  }

  function Area(lo: Pos, hi: Pos): int
  {
    (hi.0 - lo.0 + 1) * (hi.1 - lo.1 + 1)
  }

  /** Widening a tight box to take in one more elf keeps it tight. */
  lemma TightAdd(done: set<Pos>, lo: Pos, hi: Pos, p: Pos)
    requires Tight(done, lo, hi)
    ensures Tight(done + {p}, (Min(lo.0, p.0), Min(lo.1, p.1)), (Max(hi.0, p.0), Max(hi.1, p.1)))
  {
    var a :| a in done && a.0 == lo.0;
    var b :| b in done && b.0 == hi.0;
    var c :| c in done && c.1 == lo.1;
    var d :| d in done && d.1 == hi.1;
    var all := done + {p};
    assert a in all && b in all && c in all && d in all && p in all;
  }

  /** The `minmax` of both coordinates; no elves is a panic. */
  method Bounds(elves: set<Pos>) returns (r: Result<(Pos, Pos)>)
    ensures r.Ok? <==> elves != {}
    ensures r.Ok? ==> Tight(elves, r.value.0, r.value.1)
  {
    if elves == {} {
      return Err("no elves");
    }
    var first :| first in elves;
    var lo, hi := first, first;
    var done := {first};
    var rest := elves - {first};
    while rest != {}
      invariant done + rest == elves && done * rest == {} && first in done
      invariant Tight(done, lo, hi)
      decreases |rest|
    {
      var p :| p in rest;
      TightAdd(done, lo, hi, p);
      var nlo := (Min(lo.0, p.0), Min(lo.1, p.1));
      var nhi := (Max(hi.0, p.0), Max(hi.1, p.1));
      lo, hi := nlo, nhi;
      done, rest := done + {p}, rest - {p};
    }
    return Ok((lo, hi));
  }

  lemma BoxHoldsAll(elves: set<Pos>, c: seq<Pos>, lo: Pos, hi: Pos)
    requires forall p :: p in elves ==> lo.0 <= p.0 <= hi.0 && lo.1 <= p.1 <= hi.1
    requires forall q :: q in c <==> lo.0 <= q.0 <= hi.0 && lo.1 <= q.1 <= hi.1
    ensures elves * Elems(c) == elves
  {
    forall p | p in elves ensures p in Elems(c) {
      assert p in c;
    }
  }

  lemma CellsArea(lo: Pos, hi: Pos)
    requires lo.0 <= hi.0 && lo.1 <= hi.1
    ensures |Cells(lo.0, hi.0, lo.1, hi.1)| == Area(lo, hi)
  {
    CellsSize(lo.0, hi.0, lo.1, hi.1);
  }

  /** Every elf lies in the box, so the empty tiles are the box's cells
      less the elves. */
  lemma EmptyIsArea(elves: set<Pos>, lo: Pos, hi: Pos)
    requires elves != {} && Tight(elves, lo, hi)
    ensures CountOut(elves, Cells(lo.0, hi.0, lo.1, hi.1)) == Area(lo, hi) - |elves|
  {
    var c := Cells(lo.0, hi.0, lo.1, hi.1);
    var p :| p in elves;
    CellsArea(lo, hi);
    CellsNoDup(lo.0, hi.0, lo.1, hi.1);
    CountInIsSize(elves, c);
    CountSplit(elves, c);
    BoxHoldsAll(elves, c, lo, hi);
  }

  /** `num_empty_ground_tiles`. */
  method NumEmptyGroundTiles(elves: set<Pos>, rounds: nat) returns (r: Result<int>)
    ensures r.Ok? <==> elves != {}
    ensures r.Ok? ==> exists lo, hi :: Tight(Rounds(elves, rounds), lo, hi)
                                       && r.value == Area(lo, hi) - |elves|
  {
    var positions := Rounds(elves, rounds);
    RoundsKeepCount(elves, rounds);
    var b := Bounds(positions);
    if b.Err? {
      return Err(b.reason);
    }
    var lo, hi := b.value.0, b.value.1;
    EmptyIsArea(positions, lo, hi);
    return Ok(CountOut(positions, Cells(lo.0, hi.0, lo.1, hi.1)));
  }

  /** The rounds simulated for part 1. */
  const PartOneRounds: nat := 10

  /** Part 1 after ten rounds; part 2 within `fuel` rounds. */
  method Run(elves: set<Pos>, fuel: nat) returns (part1: Result<int>, part2: Option<nat>)
    ensures part1.Ok? <==> elves != {}
    ensures part1.Ok? ==> exists lo, hi :: Tight(Rounds(elves, PartOneRounds), lo, hi)
                                           && part1.value == Area(lo, hi) - |elves|
    ensures part2.Some? ==> part2.value >= 1 && StableAt(elves, part2.value - 1)
    ensures part2.Some? ==> forall k :: 0 <= k < part2.value - 1 ==> !StableAt(elves, k)
  {
    part1 := NumEmptyGroundTiles(elves, PartOneRounds);
    part2 := FirstStableRound(elves, fuel);
  }
}

=== FILE: day24.dfy ===
/** Blizzard basin: a walled valley in which blizzards travel straight
    across the interior, one cell a minute, wrapping round at the walls.
    The expedition moves to a neighbouring cell or waits each minute and
    must never share a cell with a blizzard.  The A* search itself is a
    library call; modelled here are the blizzards, the per-cell test, the
    successor relation and the heuristic the search is given, and the
    set-up `run` performs on the valley's text. */
module BlizzardBasin {
  import opened Common

  /** A blizzard's cell at time 0 and its heading. */
  datatype Blizzard = Blizzard(startX: int, startY: int, dx: int, dy: int)

  // ---------------------------------------------------------------------
  // Where a blizzard is.
  // ---------------------------------------------------------------------

  /** The interior coordinate `s` lands on along an axis of `size` cells,
      the two end cells being walls.  Rust's `rem_euclid` and Dafny's `%`
      agree for every non-zero divisor; a divisor of zero panics. */
  function Cycle(s: int, size: int): int
    requires size != 2
  {
    (s - 1) % (size - 2) + 1
  }

  /** `Blizzard::position`. */
  function Position(b: Blizzard, width: int, height: int, time: int): (p: (int, int))
    requires width != 2 && height != 2
    ensures width >= 3 ==> 1 <= p.0 <= width - 2
    ensures height >= 3 ==> 1 <= p.1 <= height - 2
  {
    (Cycle(b.startX + time * b.dx, width), Cycle(b.startY + time * b.dy, height))
  }

  lemma ModShift(a: int, k: int, m: int)
    requires m > 0
    ensures (a + k * m) % m == a % m
  {
    assert a + k * m == (a / m + k) * m + a % m;
    DivModUnique(a + k * m, a / m + k, a % m, m);
  }

  /** Moving a whole number of laps along an axis changes nothing. */
  lemma CycleLaps(s: int, k: int, size: int)
    requires size >= 3
    ensures Cycle(s + k * (size - 2), size) == Cycle(s, size)
  {
    assert s + k * (size - 2) - 1 == (s - 1) + k * (size - 2);
    ModShift(s - 1, k, size - 2);
  }

  /** Along one axis, `laps * (size - 2)` more minutes change nothing. */
  lemma AxisPeriodic(s: int, time: int, d: int, size: int, laps: int)
    requires size >= 3
    ensures Cycle(s + (time + laps * (size - 2)) * d, size) == Cycle(s + time * d, size)
  {
    var m := size - 2;
    assert (time + laps * m) * d == time * d + (laps * m) * d;
    assert (laps * m) * d == (d * laps) * m;
    CycleLaps(s + time * d, d * laps, size);
  }

  /** Every blizzard is back where it was after `(width-2)*(height-2)`
      minutes, whatever its heading. */
  lemma PositionPeriodic(b: Blizzard, width: int, height: int, time: int)
    requires width >= 3 && height >= 3
    ensures Position(b, width, height, time + (width - 2) * (height - 2))
            == Position(b, width, height, time)
  {
    var period := (width - 2) * (height - 2);
    assert period == (height - 2) * (width - 2);
    AxisPeriodic(b.startX, time, b.dx, width, height - 2);
    AxisPeriodic(b.startY, time, b.dy, height, width - 2);
  }

  /** An interior coordinate is its own cycle. */
  lemma CycleInterior(s: int, size: int)
    requires size >= 3 && 1 <= s <= size - 2
    ensures Cycle(s, size) == s
  {
    DivModUnique(s - 1, 0, s - 1, size - 2);
  }

  /** One step along an axis: the next cell, or the far end cell once the
      step would enter a wall. */
  function Advance(c: int, d: int, size: int): int
  {
    if 1 <= c + d <= size - 2 then c + d else if c + d < 1 then size - 2 else 1
  }

  lemma CycleNext(s: int, d: int, size: int)
    requires size >= 3 && -1 <= d <= 1
    ensures Cycle(s + d, size) == Advance(Cycle(s, size), d, size)
  {
    var m := size - 2;
    var q, r := (s - 1) / m, (s - 1) % m;
    assert s - 1 == q * m + r;
    if 0 <= r + d < m {
      DivModUnique(s + d - 1, q, r + d, m);
    } else if r + d < 0 {
      assert s + d - 1 == (q - 1) * m + (m - 1);
      DivModUnique(s + d - 1, q - 1, m - 1, m);
    } else {
      assert s + d - 1 == (q + 1) * m + 0;
      DivModUnique(s + d - 1, q + 1, 0, m);
    }
  }

  /** A blizzard with a unit heading advances one cell a minute and
      reappears at the opposite end when it meets a wall. */
  lemma PositionNext(b: Blizzard, width: int, height: int, time: int)
    requires width >= 3 && height >= 3
    requires -1 <= b.dx <= 1 && -1 <= b.dy <= 1
    ensures var p, q := Position(b, width, height, time), Position(b, width, height, time + 1);
            q == (Advance(p.0, b.dx, width), Advance(p.1, b.dy, height))
  {
    assert b.startX + (time + 1) * b.dx == (b.startX + time * b.dx) + b.dx;
    CycleNext(b.startX + time * b.dx, b.dx, width);
    assert b.startY + (time + 1) * b.dy == (b.startY + time * b.dy) + b.dy;
    CycleNext(b.startY + time * b.dy, b.dy, height);
  }

  /** A blizzard heading up or down that starts inside never leaves its
      column; one heading left or right never leaves its row. */
  lemma KeepsLine(b: Blizzard, width: int, height: int, time: int)
    requires width >= 3 && height >= 3
    requires 1 <= b.startX <= width - 2 && 1 <= b.startY <= height - 2
    ensures b.dx == 0 ==> Position(b, width, height, time).0 == b.startX
    ensures b.dy == 0 ==> Position(b, width, height, time).1 == b.startY
  {
    if b.dx == 0 {
      assert b.startX + time * b.dx == b.startX;
      CycleInterior(b.startX, width);
    }
    if b.dy == 0 {
      assert b.startY + time * b.dy == b.startY;
      CycleInterior(b.startY, height);
    }
  }

  // ---------------------------------------------------------------------
  // The valley.
  // ---------------------------------------------------------------------

  /** What `run` hands to the search: the blizzards bucketed by column
      (up and down) and by row (left and right), the valley's size, and
      its two openings. */
  datatype Valley = Valley(vertical: seq<seq<Blizzard>>, horizontal: seq<seq<Blizzard>>,
                           width: int, height: int, entrance: (int, int), exit: (int, int))

  /** One bucket per column and one per row. */
  predicate WellFormed(v: Valley)
  {
    |v.vertical| == v.width && |v.horizontal| == v.height
  }

  /** `no_blizzard_there`: none of the blizzards of column `x` or row `y`
      is at `(x, y)` at `time`. */
  predicate NoBlizzardThere(v: Valley, x: int, y: int, time: int)
    requires 0 <= x < |v.vertical| && 0 <= y < |v.horizontal|
    requires v.width != 2 && v.height != 2
  {
    forall b :: b in v.vertical[x] + v.horizontal[y] ==> Position(b, v.width, v.height, time) != (x, y)
  }

  /** The blizzard a character of the map starts, if any. */
  function BlizzardAt(c: char, x: int, y: int): Option<Blizzard>
  {
    match c
    case '^' => Some(Blizzard(x, y, 0, -1))
    case 'v' => Some(Blizzard(x, y, 0, 1))
    case '<' => Some(Blizzard(x, y, -1, 0))
    case '>' => Some(Blizzard(x, y, 1, 0))
    case _ => None
  }

  /** `b` is the blizzard drawn at its own start cell of the map. */
  predicate Drawn(valley: seq<string>, b: Blizzard)
  {
    && 0 <= b.startY < |valley| && 0 <= b.startX < |valley[b.startY]|
    && BlizzardAt(valley[b.startY][b.startX], b.startX, b.startY) == Some(b)
  }

  function RowBlizzards(valley: seq<string>, y: nat, x: nat): (r: seq<Blizzard>)
    requires y < |valley| && x <= |valley[y]|
    ensures forall b :: b in r <==> Drawn(valley, b) && b.startY == y && b.startX >= x
    decreases |valley[y]| - x
  {
    if x == |valley[y]| then []
    else
      var here := BlizzardAt(valley[y][x], x, y);
      (if here.Some? then [here.value] else []) + RowBlizzards(valley, y, x + 1)
  }

  function BlizzardsFrom(valley: seq<string>, y: nat): (r: seq<Blizzard>)
    requires y <= |valley|
    ensures forall b :: b in r <==> Drawn(valley, b) && b.startY >= y
    decreases |valley| - y
  {
    if y == |valley| then [] else RowBlizzards(valley, y, 0) + BlizzardsFrom(valley, y + 1)
  }

  /** Every blizzard of the map, in reading order. */
  function Blizzards(valley: seq<string>): (r: seq<Blizzard>)
    ensures forall b :: b in r <==> Drawn(valley, b)
  {
    BlizzardsFrom(valley, 0)
  }

  /** The blizzards of `all`, in order, that `keep` accepts. */
  function Select(all: seq<Blizzard>, keep: Blizzard -> bool): (r: seq<Blizzard>)
    ensures forall b :: b in r <==> b in all && keep(b)
  {
    if |all| == 0 then []
    else (if keep(all[0]) then [all[0]] else []) + Select(all[1..], keep)
  }

  /** The up-and-down blizzards starting in column `x`, as pushed into
      `vertical_blizzards[x]`. */
  function ColumnBucket(all: seq<Blizzard>, x: int): seq<Blizzard>
  {
    Select(all, (b: Blizzard) => b.dx == 0 && b.startX == x)
  }

  /** The left-and-right blizzards starting in row `y`. */
  function RowBucket(all: seq<Blizzard>, y: int): seq<Blizzard>
  {
    Select(all, (b: Blizzard) => b.dx != 0 && b.startY == y)
  }

  /** The first open cell of a row. */
  function FirstOpen(row: string): (r: Option<nat>)
    ensures r.Some? <==> '.' in row
    ensures r.Some? ==> r.value < |row| && row[r.value] == '.' && '.' !in row[..r.value]
  {
    if |row| == 0 then None
    else if row[0] == '.' then Some(0)
    else
      var r := FirstOpen(row[1..]);
      if r.None? then None
      else
        assert row[..r.value + 1] == [row[0]] + row[1..][..r.value];
        Some(r.value + 1)
  }

  /** Pushing an up-and-down blizzard into the bucket of its column
      panics when that column is beyond the first row's width. */
  predicate ColumnsFit(all: seq<Blizzard>, width: int)
  {
    forall b :: b in all && b.dx == 0 ==> b.startX < width
  }

  /** The part of `run` before the searches.  An empty map, a first or
      last row without an opening, and a blizzard beyond the first row's
      width are panics. */
  function Setup(valley: seq<string>): (r: Result<Valley>)
    ensures r.Ok? <==> && |valley| > 0 && '.' in valley[0] && '.' in valley[|valley| - 1]
                       && ColumnsFit(Blizzards(valley), |valley[0]|)
    ensures r.Ok? ==> WellFormed(r.value)
    ensures r.Ok? ==> && r.value.width == |valley[0]| && r.value.height == |valley|
                      && r.value.entrance.1 == 0 && r.value.exit.1 == |valley| - 1
                      && 0 <= r.value.entrance.0 < |valley[0]| && valley[0][r.value.entrance.0] == '.'
                      && 0 <= r.value.exit.0 < |valley[|valley| - 1]|
                      && valley[|valley| - 1][r.value.exit.0] == '.'
    ensures r.Ok? ==> forall x, b :: 0 <= x < r.value.width ==>
                        (b in r.value.vertical[x] <==> Drawn(valley, b) && b.dx == 0 && b.startX == x)
    ensures r.Ok? ==> forall y, b :: 0 <= y < r.value.height ==>
                        (b in r.value.horizontal[y] <==> Drawn(valley, b) && b.dx != 0 && b.startY == y)
  {
    if |valley| == 0 then Err("empty map")
    else
      var width, height := |valley[0]|, |valley|;
      var entrance, exit := FirstOpen(valley[0]), FirstOpen(valley[height - 1]);
      if entrance.None? then Err("no opening in the first row")
      else if exit.None? then Err("no opening in the last row")
      else
        var all := Blizzards(valley);
        if !ColumnsFit(all, width) then Err("blizzard beyond the first row")
        else
          Ok(Valley(seq(width, x => ColumnBucket(all, x)), seq(height, y => RowBucket(all, y)),
                    width, height, (entrance.value, 0), (exit.value, height - 1)))
  }

  /** Every blizzard starts inside the walls. */
  ghost predicate InsideWalls(valley: seq<string>)
  {
    forall b :: Drawn(valley, b) ==> 1 <= b.startX <= |valley[0]| - 2 && 1 <= b.startY <= |valley| - 2
  }

  /** A blizzard of the map that is at an interior `(x, y)` is in the
      bucket of column `x` or of row `y`. */
  lemma HitInBucket(valley: seq<string>, b: Blizzard, x: int, y: int, time: int)
    requires Setup(valley).Ok? && InsideWalls(valley) && Drawn(valley, b)
    requires var v := Setup(valley).value; 1 <= x <= v.width - 2 && 1 <= y <= v.height - 2
    ensures var v := Setup(valley).value;
            Position(b, v.width, v.height, time) == (x, y) ==> b in v.vertical[x] + v.horizontal[y]
  {
    var v := Setup(valley).value;
    KeepsLine(b, v.width, v.height, time);
    if b.dx == 0 {
      assert Position(b, v.width, v.height, time) == (x, y) ==> b in v.vertical[x];
    } else {
      assert b.dy == 0;
      assert Position(b, v.width, v.height, time) == (x, y) ==> b in v.horizontal[y];
    }
  }

  /** Looking only at column `x` and row `y` misses no blizzard: on a map
      whose blizzards start inside the walls, the test holds exactly when
      no blizzard at all is at `(x, y)`. */
  lemma BucketsSuffice(valley: seq<string>, x: int, y: int, time: int)
    requires Setup(valley).Ok? && InsideWalls(valley)
    requires var v := Setup(valley).value; 1 <= x <= v.width - 2 && 1 <= y <= v.height - 2
    ensures var v := Setup(valley).value;
            NoBlizzardThere(v, x, y, time)
            <==> forall b :: b in Blizzards(valley) ==> Position(b, v.width, v.height, time) != (x, y)
  {
    var v := Setup(valley).value;
    forall b | b in v.vertical[x] + v.horizontal[y] ensures b in Blizzards(valley) {
    }
    forall b | b in Blizzards(valley)
      ensures Position(b, v.width, v.height, time) == (x, y) ==> b in v.vertical[x] + v.horizontal[y]
    {
      HitInBucket(valley, b, x, y, time);
    }
  }

  // ---------------------------------------------------------------------
  // The search problem.
  // ---------------------------------------------------------------------

  /** The expedition's cell and the minute. */
  datatype State = State(x: int, y: int, time: int)

  /** Up, down, left, right, and waiting, in the order they are tried. */
  const Moves: seq<(int, int)> := [(0, -1), (0, 1), (-1, 0), (1, 0), (0, 0)]

  /** A cell the expedition may occupy at `time`: an opening, or an
      interior cell no blizzard is in. */
  predicate Allowed(v: Valley, x: int, y: int, time: int)
    requires WellFormed(v)
  {
    || (x, y) == v.entrance
    || (x, y) == v.exit
    || (1 <= x < v.width - 1 && 1 <= y < v.height - 1 && NoBlizzardThere(v, x, y, time))
  }

  function SuccessorsFrom(v: Valley, s: State, i: nat): (r: seq<(State, int)>)
    requires WellFormed(v) && i <= |Moves|
    ensures forall m :: m in r <==> exists j :: i <= j < |Moves| && Candidate(v, s, j, m)
    decreases |Moves| - i
  {
    if i == |Moves| then []
    else
      var n := State(s.x + Moves[i].0, s.y + Moves[i].1, s.time + 1);
      var rest := SuccessorsFrom(v, s, i + 1);
      if Allowed(v, n.x, n.y, n.time) then
        assert Candidate(v, s, i, (n, 1));
        [(n, 1)] + rest
      else rest
  }

  /** `m` is the `j`-th move from `s` at cost 1, and it is allowed. */
  predicate Candidate(v: Valley, s: State, j: nat, m: (State, int))
    requires WellFormed(v) && j < |Moves|
  {
    && m == (State(s.x + Moves[j].0, s.y + Moves[j].1, s.time + 1), 1)
    && Allowed(v, m.0.x, m.0.y, m.0.time)
  }

  /** The `successors` closure. */
  function Successors(v: Valley, s: State): seq<(State, int)>
    requires WellFormed(v)
  {
    SuccessorsFrom(v, s, 0)
  }

  /** The successors are exactly the allowed cells at most one step away,
      a minute later, each at cost 1. */
  lemma SuccessorsSpec(v: Valley, s: State, m: (State, int))
    requires WellFormed(v)
    ensures m in Successors(v, s)
            <==> && m.1 == 1 && m.0.time == s.time + 1
                 && Abs(m.0.x - s.x) + Abs(m.0.y - s.y) <= 1
                 && Allowed(v, m.0.x, m.0.y, m.0.time)
  {
    var dx, dy := m.0.x - s.x, m.0.y - s.y;
    if m.1 == 1 && m.0.time == s.time + 1 && Abs(dx) + Abs(dy) <= 1
       && Allowed(v, m.0.x, m.0.y, m.0.time) {
      var j := if (dx, dy) == (0, -1) then 0 else if (dx, dy) == (0, 1) then 1
               else if (dx, dy) == (-1, 0) then 2 else if (dx, dy) == (1, 0) then 3 else 4;
      assert Candidate(v, s, j, m);
    }
  }

  /** The `heuristic` closure: the Manhattan distance to the exit. */
  function Heuristic(v: Valley, s: State): int
  {
    Abs(s.x - v.exit.0) + Abs(s.y - v.exit.1)
  }

  /** The `success` closure. */
  predicate Success(v: Valley, s: State)
  {
    (s.x, s.y) == v.exit
  }

  /** One move changes the heuristic by at most its cost of 1. */
  lemma HeuristicConsistent(v: Valley, s: State, m: (State, int))
    requires WellFormed(v) && m in Successors(v, s)
    ensures Heuristic(v, s) <= m.1 + Heuristic(v, m.0)
    ensures Heuristic(v, m.0) <= Heuristic(v, s) + m.1
  {
    SuccessorsSpec(v, s, m);
  }

  /** A walk through the search graph: each state a successor of the
      previous one. */
  predicate IsPath(v: Valley, p: seq<State>)
    requires WellFormed(v)
  {
    forall i :: 0 <= i < |p| - 1 ==> (p[i + 1], 1) in Successors(v, p[i])
  }

  /** The heuristic never exceeds the cost of a walk to the exit, so the
      search it guides finds shortest walks. */
  lemma {:induction false} HeuristicAdmissible(v: Valley, p: seq<State>)
    requires WellFormed(v) && |p| > 0 && IsPath(v, p) && Success(v, p[|p| - 1])
    ensures Heuristic(v, p[0]) <= |p| - 1
  {
    if |p| > 1 {
      var q := p[1..];
      assert IsPath(v, q) by {
        forall i | 0 <= i < |q| - 1 ensures (q[i + 1], 1) in Successors(v, q[i]) {
          assert q[i] == p[i + 1] && q[i + 1] == p[i + 2];
        }
      }
      HeuristicAdmissible(v, q);
      HeuristicConsistent(v, p[0], (p[1], 1));
    }
  }

  /** Along a walk the minute advances by one per move. */
  lemma {:induction false} PathTime(v: Valley, p: seq<State>, k: nat)
    requires WellFormed(v) && IsPath(v, p) && k < |p|
    ensures p[k].time == p[0].time + k
  {
    if k > 0 {
      PathTime(v, p, k - 1);
      SuccessorsSpec(v, p[k - 1], (p[k], 1));
    }
  }
}

=== FILE: day25.dfy ===
/** Balanced base-5 ("SNAFU") numbers: every digit is one of `=`, `-`, `0`,
    `1`, `2`, standing for -2, -1, 0, 1 and 2. */
module Snafu {
  import opened Common

  /** The digit characters, in order of digit value from -2 to 2. */
  const SnafuDigits: seq<char> := ['=', '-', '0', '1', '2']

  predicate IsSnafuDigit(c: char)
  {
    c in SnafuDigits
  }

  predicate AllSnafuDigits(s: string)
  {
    forall i :: 0 <= i < |s| ==> IsSnafuDigit(s[i])
  }

  /** The value of one digit; `parse_snafu` treats any other character as
      `unreachable!()`, so it is excluded here. */
  function DigitValue(c: char): (v: int)
    requires IsSnafuDigit(c)
    ensures -2 <= v <= 2
    ensures SnafuDigits[v + 2] == c
  {
    if c == '=' then -2
    else if c == '-' then -1
    else if c == '0' then 0
    else if c == '1' then 1
    else 2
  }

  /** Horner evaluation, most significant digit first: each further digit
      multiplies the value so far by 5 and adds its own value. */
  function ParseSnafu(s: string): int
    requires AllSnafuDigits(s)
  {
    if |s| == 0 then 0
    else 5 * ParseSnafu(s[..|s| - 1]) + DigitValue(s[|s| - 1])
  }

  lemma ParseSnafuHorner(s: string, c: char)
    requires AllSnafuDigits(s) && IsSnafuDigit(c)
    ensures AllSnafuDigits(s + [c])
    ensures ParseSnafu(s + [c]) == 5 * ParseSnafu(s) + DigitValue(c)
    ensures ParseSnafu("") == 0
  {
    assert (s + [c])[..|s|] == s;
  }

  function Pow5(n: nat): (p: nat)
    ensures p >= 1
  {
    if n == 0 then 1 else 5 * Pow5(n - 1)
  }

  /** 1 + 5 + ... + 5^(n-1): twice this is the largest value n digits hold. */
  function GeomSum(n: nat): nat
  {
    if n == 0 then 0 else GeomSum(n - 1) + Pow5(n - 1)
  }

  lemma {:induction false} GeomSumClosedForm(n: nat)
    ensures 4 * GeomSum(n) == Pow5(n) - 1
  {
    if n > 0 {
      GeomSumClosedForm(n - 1);
    }
  }

  lemma {:induction false} Pow5Monotone(m: nat, n: nat)
    requires m <= n
    ensures Pow5(m) <= Pow5(n)
  {
    if m < n {
      Pow5Monotone(m, n - 1);
    }
  }

  /** Evaluation of a digit string written least significant digit first. */
  function ParseReversed(rev: string): int
    requires AllSnafuDigits(rev)
  {
    if |rev| == 0 then 0 else DigitValue(rev[0]) + 5 * ParseReversed(rev[1..])
  }

  lemma {:induction false} ParseReversedAppend(rev: string, c: char)
    requires AllSnafuDigits(rev) && IsSnafuDigit(c)
    ensures AllSnafuDigits(rev + [c])
    ensures ParseReversed(rev + [c]) == ParseReversed(rev) + DigitValue(c) * Pow5(|rev|)
  {
    if |rev| > 0 {
      assert (rev + [c])[1..] == rev[1..] + [c];
      ParseReversedAppend(rev[1..], c);
    }
  }

  /** Reading the reversed digit string most significant first gives the
      same number. */
  lemma {:induction false} ParseOfReverse(rev: string)
    requires AllSnafuDigits(rev)
    ensures AllSnafuDigits(Reverse(rev))
    ensures ParseSnafu(Reverse(rev)) == ParseReversed(rev)
  {
    if |rev| > 0 {
      ParseOfReverse(rev[1..]);
      var front := Reverse(rev[1..]);
      assert Reverse(rev) == front + [rev[0]];
      ParseSnafuHorner(front, rev[0]);
    }
  }

  /** Converts an integer to SNAFU.  The first loop finds the digit count
      (adding 2 in every digit position to `value_up` and subtracting it from
      `value_down`); the second writes the ordinary base-5 digits of
      `value_up`, each shifted down by 2 and mirrored (`4 - index`) for a
      non-positive value. */
  method ToSnafu(value: int) returns (r: string)
    ensures AllSnafuDigits(r)
    ensures ParseSnafu(r) == value
    ensures value == 0 ==> r == "0"
    ensures |r| >= 1 && (value != 0 ==> r[0] != '0')
  {
    var valueUp, digits := OffsetValue(Abs(value));
    NumberOfDigits(Abs(value), digits, valueUp);
    var reversedSnafu := ReversedDigits(value, valueUp, digits);
    r := Reverse(reversedSnafu);
    ParseOfReverse(reversedSnafu);
    if value == 0 {
      assert digits == 1 && valueUp == 2;
      DigitValueOfIndex(2);
      assert reversedSnafu == ['0'];
    }
  }

  /** The first loop of `to_snafu`: `value_up` ends as a plus 2 in each of the
      n digit positions, where n is the fewest digits that can hold a. */
  method OffsetValue(a: nat) returns (valueUp: int, digits: nat)
    ensures digits >= 1 && valueUp == a + 2 * GeomSum(digits)
    ensures a <= 2 * GeomSum(digits)
    ensures digits == 1 || a > 2 * GeomSum(digits - 1)
  {
    valueUp := a;
    var valueDown: int := a;
    var power := 1;
    var j: nat := 0;
    while true
      invariant power == Pow5(j)
      invariant valueUp == a + 2 * GeomSum(j) && valueDown == a - 2 * GeomSum(j)
      invariant j == 0 || a > 2 * GeomSum(j)
      decreases valueDown
    {
      valueUp := valueUp + 2 * power;
      valueDown := valueDown - 2 * power;
      if valueDown <= 0 {
        break;
      }
      power := power * 5;
      j := j + 1;
    }
    digits := j + 1;
  }

  /** The second loop of `to_snafu`: the base-5 digits of `value_up`, least
      significant first, each read as a SNAFU digit (mirrored for a
      non-positive value). */
  method ReversedDigits(value: int, valueUp: int, ghost digits: nat) returns (reversedSnafu: string)
    requires digits >= 1 && Pow5(digits - 1) <= valueUp < Pow5(digits)
    requires value != 0 ==> 3 * Pow5(digits - 1) <= valueUp
    ensures |reversedSnafu| == digits && AllSnafuDigits(reversedSnafu)
    ensures value > 0 ==> ParseReversed(reversedSnafu) == valueUp - 2 * GeomSum(digits)
    ensures value <= 0 ==> ParseReversed(reversedSnafu) == 2 * GeomSum(digits) - valueUp
    ensures value != 0 ==> reversedSnafu[digits - 1] != '0'
  {
    var up := valueUp;
    reversedSnafu := [];
    ghost var low := 0;
    ghost var m: nat := 0;
    ghost var prevUp := 0;
    ghost var prevLow := 0;
    while up != 0
      invariant Progress(value, valueUp, digits, reversedSnafu, low, m, up, prevUp, prevLow)
      decreases up
    {
      var index := DigitIndex(value, up);
      NextDigit(value, valueUp, digits, reversedSnafu, low, m, up, prevUp, prevLow);
      prevUp, prevLow := up, low;
      low := NextLow(low, up, m);
      reversedSnafu := reversedSnafu + [SnafuDigits[index]];
      up := up / 5;
      m := m + 1;
    }
    FinishDigits(value, valueUp, digits, reversedSnafu, low, m, prevUp, prevLow);
  }

  /** The digit index of the second loop: the base-5 digit of `up`,
      mirrored for a non-positive value. */
  function DigitIndex(value: int, up: int): (index: int)
    ensures 0 <= index < 5
  {
    if value > 0 then up % 5 else 4 - up % 5
  }

  /** The part of `value_up` covered once the digit of `up` at weight 5^m is
      taken in. */
  ghost function NextLow(low: int, up: int, m: nat): int
  {
    low + (up % 5) * Pow5(m)
  }

  /** The invariant of the second loop. */
  ghost predicate Progress(value: int, valueUp: int, digits: nat, rev: string, low: int, m: nat, up: int,
                           prevUp: int, prevLow: int)
  {
    && m <= digits
    && DigitsSoFar(value, valueUp, rev, low, m, up)
    && LastDigit(value, valueUp, rev, m, prevUp, prevLow)
    && (m >= 1 ==> prevUp / 5 == up)
  }

  /** One pass of the second loop keeps its invariant. */
  lemma NextDigit(value: int, valueUp: int, digits: nat, rev: string, low: int, m: nat, up: int,
                  prevUp: int, prevLow: int)
    requires valueUp < Pow5(digits) && up != 0
    requires Progress(value, valueUp, digits, rev, low, m, up, prevUp, prevLow)
    ensures Progress(value, valueUp, digits, rev + [SnafuDigits[DigitIndex(value, up)]],
                     NextLow(low, up, m), m + 1, up / 5, up, low)
  {
    MoreDigitsRemain(valueUp, low, up, m, digits);
    EmitDigit(value, valueUp, rev, low, m, up);
    EmitLastDigit(value, valueUp, rev, low, m, up);
  }

  /** The last digit written came from `prev_up`, the rest of `value_up`
      above the `prev_low` covered before it. */
  ghost predicate LastDigit(value: int, valueUp: int, rev: string, m: nat, prevUp: int, prevLow: int)
  {
    m >= 1 ==> && |rev| == m && 0 <= prevLow < Pow5(m - 1) && valueUp == prevLow + Pow5(m - 1) * prevUp
               && prevUp >= 0
               && rev[m - 1] == SnafuDigits[DigitIndex(value, prevUp)]
  }

  lemma EmitLastDigit(value: int, valueUp: int, rev: string, low: int, m: nat, up: int)
    requires DigitsSoFar(value, valueUp, rev, low, m, up)
    ensures LastDigit(value, valueUp, rev + [SnafuDigits[DigitIndex(value, up)]], m + 1, up, low)
  {
  }

  /** Once no digit of `value_up` remains, all n digits have been written
      and the last one is not zero. */
  lemma FinishDigits(value: int, valueUp: int, digits: nat, rev: string, low: int, m: nat, prevUp: int, prevLow: int)
    requires digits >= 1 && Pow5(digits - 1) <= valueUp < Pow5(digits)
    requires value != 0 ==> 3 * Pow5(digits - 1) <= valueUp
    requires Progress(value, valueUp, digits, rev, low, m, 0, prevUp, prevLow)
    ensures |rev| == digits && AllSnafuDigits(rev)
    ensures value > 0 ==> ParseReversed(rev) == valueUp - 2 * GeomSum(digits)
    ensures value <= 0 ==> ParseReversed(rev) == 2 * GeomSum(digits) - valueUp
    ensures value != 0 ==> rev[digits - 1] != '0'
  {
    if m < digits {
      Pow5Monotone(m, digits - 1);
    }
    if value != 0 {
      LeadingDigit(valueUp, prevLow, prevUp, Pow5(m - 1));
    }
  }

  /** After m digits: `low` is the part of `value_up` they cover, `up` the
      rest, and the digits written so far are worth `low` less 2 in each of
      their positions (negated for a non-positive value). */
  ghost predicate DigitsSoFar(value: int, valueUp: int, rev: string, low: int, m: nat, up: int)
  {
    && 0 <= up && 0 <= low < Pow5(m)
    && valueUp == low + Pow5(m) * up
    && |rev| == m && AllSnafuDigits(rev)
    && (value > 0 ==> ParseReversed(rev) == low - 2 * GeomSum(m))
    && (value <= 0 ==> ParseReversed(rev) == 2 * GeomSum(m) - low)
  }

  /** One pass of the second loop keeps `DigitsSoFar`. */
  lemma EmitDigit(value: int, valueUp: int, rev: string, low: int, m: nat, up: int)
    requires DigitsSoFar(value, valueUp, rev, low, m, up)
    ensures DigitsSoFar(value, valueUp, rev + [SnafuDigits[DigitIndex(value, up)]],
                        NextLow(low, up, m), m + 1, up / 5)
  {
    var d := up % 5;
    var index := if value > 0 then d else 4 - d;
    var c := SnafuDigits[index];
    var p := Pow5(m);
    var g := GeomSum(m);
    var parse := ParseReversed(rev);
    DigitValueOfIndex(index);
    ParseReversedAppend(rev, c);
    DigitStep(valueUp, low, up, p);
    assert Pow5(m + 1) == 5 * p;
    assert GeomSum(m + 1) == g + p;
    DigitArith(value > 0, parse, g, low, d, index, p);
  }

  /** The arithmetic of one digit: appending digit `index - 2` at weight p. */
  lemma DigitArith(positive: bool, parse: int, g: int, low: int, d: int, index: int, p: int)
    requires index == if positive then d else 4 - d
    requires positive ==> parse == low - 2 * g
    requires !positive ==> parse == 2 * g - low
    ensures positive ==> parse + (index - 2) * p == (low + d * p) - 2 * (g + p)
    ensures !positive ==> parse + (index - 2) * p == 2 * (g + p) - (low + d * p)
  {
    if positive {
      assert (index - 2) * p == d * p - 2 * p;
    } else {
      assert (index - 2) * p == 2 * p - d * p;
    }
  }

  lemma DigitValueOfIndex(i: int)
    requires 0 <= i < 5
    ensures DigitValue(SnafuDigits[i]) == i - 2
  {
  }

  /** While digits of `value_up` remain, fewer than n have been written. */
  lemma MoreDigitsRemain(valueUp: int, low: int, up: int, m: nat, n: nat)
    requires up >= 1 && 0 <= low && valueUp == low + Pow5(m) * up && valueUp < Pow5(n)
    ensures m < n
  {
    assert Pow5(m) * up >= Pow5(m);
    if m >= n {
      Pow5Monotone(n, m);
    }
  }

  /** Bounds on the offset value `value_up` = a + 2(1 + 5 + ... + 5^(n-1))
      that make its base-5 expansion exactly n digits long, with a leading
      digit of at least 3 when a is not zero. */
  lemma NumberOfDigits(a: nat, n: nat, u: int)
    requires n >= 1 && u == a + 2 * GeomSum(n) && a <= 2 * GeomSum(n)
    requires n == 1 || a > 2 * GeomSum(n - 1)
    ensures Pow5(n - 1) <= u < Pow5(n)
    ensures a != 0 ==> 3 * Pow5(n - 1) <= u
  {
    GeomSumClosedForm(n);
    GeomSumClosedForm(n - 1);
  }

  lemma DigitStep(u0: int, low: int, up: int, p: nat)
    requires up >= 0 && p >= 1 && 0 <= low < p && u0 == low + p * up
    ensures 0 <= low + (up % 5) * p < 5 * p
    ensures u0 == low + (up % 5) * p + 5 * p * (up / 5)
  {
    var d := up % 5;
    var q := up / 5;
    assert up == 5 * q + d;
    assert p * up == p * (5 * q) + p * d;
    assert d * p <= 4 * p;
  }

  lemma LeadingDigit(u0: int, low: int, d: int, p: nat)
    requires p >= 1 && 0 <= low < p && u0 == low + p * d && 0 <= d && d / 5 == 0
    requires 3 * p <= u0
    ensures 3 <= d <= 4 && d % 5 == d
  {
  }

  lemma ToSnafuZero()
    ensures ParseSnafu("0") == 0
  {
    assert "0"[..0] == "";
  }

  /** The fuel requirement: the SNAFU numbers, one per line, summed. */
  function SumSnafus(lines: seq<string>): int
    requires forall i :: 0 <= i < |lines| ==> AllSnafuDigits(lines[i])
  {
    if |lines| == 0 then 0 else ParseSnafu(lines[0]) + SumSnafus(lines[1..])
  }

  /** The puzzle answer: the sum of the numbers, written back in SNAFU. */
  method Run(lines: seq<string>) returns (r: string)
    requires forall i :: 0 <= i < |lines| ==> AllSnafuDigits(lines[i])
    ensures AllSnafuDigits(r) && ParseSnafu(r) == SumSnafus(lines)
    ensures |r| >= 1
  {
    r := ToSnafu(SumSnafus(lines));
  }
}

=== FILE: utils.dfy ===
/** Integer extraction from text: `parse_ints` cuts the input at every
    character that cannot belong to a number and keeps the pieces that parse
    as integers; `parse_int_vecs` does so line by line. */
module ParseUtils {
  import opened Common

  predicate IsDigit(c: char)
  {
    '0' <= c <= '9'
  }

  /** The split predicate: anything but an ASCII digit, or a `-` in signed
      mode, separates numbers. */
  predicate IsSeparator(c: char, signed: bool)
  {
    !(IsDigit(c) || (signed && c == '-'))
  }

  predicate NoSeparator(t: string, signed: bool)
  {
    forall i :: 0 <= i < |t| ==> !IsSeparator(t[i], signed)
  }

  function CountSeparators(s: string, signed: bool): nat
  {
    if |s| == 0 then 0 else (if IsSeparator(s[0], signed) then 1 else 0) + CountSeparators(s[1..], signed)
  }

  /** `str::split` with a character predicate: k separators cut the input
      into k + 1 pieces, some of which may be empty. */
  function Split(s: string, signed: bool): (r: seq<string>)
    ensures |r| == CountSeparators(s, signed) + 1
    ensures forall k :: 0 <= k < |r| ==> NoSeparator(r[k], signed)
  {
    if |s| == 0 then [""]
    else
      var rest := Split(s[1..], signed);
      if IsSeparator(s[0], signed) then
        var r := [""] + rest;
        assert forall k :: 1 <= k < |r| ==> r[k] == rest[k - 1];
        r
      else
        var r := [[s[0]] + rest[0]] + rest[1..];
        assert forall k :: 1 <= k < |r| ==> r[k] == rest[k];
        r
  }

  /** Decimal value of a digit string, most significant digit first. */
  function DigitsValue(t: string): nat
    requires forall i :: 0 <= i < |t| ==> IsDigit(t[i])
  {
    if |t| == 0 then 0
    else
      var d := t[|t| - 1] as int - '0' as int;
      assert IsDigit(t[|t| - 1]);
      10 * DigitsValue(t[..|t| - 1]) + d
  }

  predicate AllDigits(t: string)
  {
    |t| >= 1 && forall i :: 0 <= i < |t| ==> IsDigit(t[i])
  }

  /** `str::parse::<i64>` on a piece: one or more digits, optionally after a
      single `-` (a `+` never reaches it, being a separator).  An empty piece,
      a lone `-` or a `-` inside the digits fails.  The `i64` range is not
      modelled: `parse` also fails on a value outside it, and `filter_map`
      then drops that piece, whereas here every such value parses. */
  function ParseToken(t: string): (r: Option<int>)
    ensures r.Some? <==> AllDigits(t) || (|t| >= 1 && t[0] == '-' && AllDigits(t[1..]))
    ensures r.Some? && AllDigits(t) ==> r.value == DigitsValue(t)
    ensures r.Some? && !AllDigits(t) ==> r.value == -(DigitsValue(t[1..]) as int)
  {
    if AllDigits(t) then Some(DigitsValue(t))
    else if |t| >= 1 && t[0] == '-' && AllDigits(t[1..]) then Some(-(DigitsValue(t[1..]) as int))
    else None
  }

  /** The `filter_map`: the values of the pieces that parse, in order. */
  function ParsedPieces(pieces: seq<string>): (r: seq<int>)
    ensures |r| <= |pieces|
  {
    if |pieces| == 0 then []
    else
      match ParseToken(pieces[0])
      case None => ParsedPieces(pieces[1..])
      case Some(v) => [v] + ParsedPieces(pieces[1..])
  }

  function ParseInts(s: string, signed: bool): (r: seq<int>)
    ensures !signed ==> forall i :: 0 <= i < |r| ==> r[i] >= 0
  {
    var pieces := Split(s, signed);
    UnsignedPiecesNonNegative(pieces, signed);
    ParsedPieces(pieces)
  }

  /** Without `-` in the pieces, every parsed value is a digit string's value. */
  lemma {:induction false} UnsignedPiecesNonNegative(pieces: seq<string>, signed: bool)
    requires forall k :: 0 <= k < |pieces| ==> NoSeparator(pieces[k], signed)
    ensures !signed ==> forall i :: 0 <= i < |ParsedPieces(pieces)| ==> ParsedPieces(pieces)[i] >= 0
  {
    if |pieces| > 0 && !signed {
      UnsignedPiecesNonNegative(pieces[1..], signed);
      var t := pieces[0];
      if |t| >= 1 {
        assert !IsSeparator(t[0], signed);
      }
    }
  }

  /** A parsed piece in the output came from some piece in the input, and
      the outputs keep the input order. */
  lemma {:induction false} ParsedPiecesAppend(a: seq<string>, b: seq<string>)
    ensures ParsedPieces(a + b) == ParsedPieces(a) + ParsedPieces(b)
  {
    if |a| == 0 {
      assert a + b == b;
    } else {
      assert (a + b)[1..] == a[1..] + b && (a + b)[0] == a[0];
      ParsedPiecesAppend(a[1..], b);
    }
  }

  // ---------------------------------------------------------------------
  // A partner: decimal formatting, which parsing undoes.
  // ---------------------------------------------------------------------

  function DigitChar(d: nat): (c: char)
    requires d < 10
    ensures IsDigit(c) && c as int - '0' as int == d
  {
    (d + '0' as int) as char
  }

  function FormatNat(n: nat): (t: string)
    ensures AllDigits(t)
    ensures DigitsValue(t) == n
  {
    if n < 10 then
      var t := [DigitChar(n)];
      assert t[..0] == "";
      t
    else
      var front := FormatNat(n / 10);
      var t := front + [DigitChar(n % 10)];
      assert t[..|t| - 1] == front;
      t
  }

  function FormatInt(x: int): (t: string)
    ensures |t| >= 1
  {
    if x < 0 then "-" + FormatNat(-x) else FormatNat(x)
  }

  lemma ParseFormatInt(x: int)
    ensures ParseToken(FormatInt(x)) == Some(x)
  {
    if x < 0 {
      var t := FormatInt(x);
      assert t[1..] == FormatNat(-x);
      assert !AllDigits(t);
    }
  }

  /** The numbers written out with a separator between each two. */
  function Join(xs: seq<int>, sep: char): string
  {
    if |xs| == 0 then ""
    else if |xs| == 1 then FormatInt(xs[0])
    else FormatInt(xs[0]) + [sep] + Join(xs[1..], sep)
  }

  lemma FormatIntNoSeparator(x: int, signed: bool)
    requires x >= 0 || signed
    ensures NoSeparator(FormatInt(x), signed)
  {
    var t := FormatInt(x);
    if x < 0 {
      assert forall i :: 1 <= i < |t| ==> t[i] == FormatNat(-x)[i - 1];
    }
  }

  lemma {:induction false} SplitAppendSeparator(a: string, sep: char, b: string, signed: bool)
    requires NoSeparator(a, signed) && IsSeparator(sep, signed)
    ensures Split(a + [sep] + b, signed) == [a] + Split(b, signed)
  {
    if |a| == 0 {
      assert a + [sep] + b == [sep] + b;
      assert ([sep] + b)[1..] == b;
    } else {
      var s := a + [sep] + b;
      assert s[1..] == a[1..] + [sep] + b;
      SplitAppendSeparator(a[1..], sep, b, signed);
      assert [s[0]] + a[1..] == a;
    }
  }

  lemma {:induction false} SplitNoSeparator(a: string, signed: bool)
    requires NoSeparator(a, signed)
    ensures Split(a, signed) == [a]
  {
    if |a| > 0 {
      SplitNoSeparator(a[1..], signed);
      assert [a[0]] + a[1..] == a;
    }
  }

  /** Round trip: numbers written with any separator character parse back to
      the same numbers, in order (non-negative ones in unsigned mode). */
  lemma {:induction false} ParseJoinRoundTrip(xs: seq<int>, sep: char, signed: bool)
    requires IsSeparator(sep, signed)
    requires forall i :: 0 <= i < |xs| ==> xs[i] >= 0 || signed
    ensures ParseInts(Join(xs, sep), signed) == xs
  {
    if |xs| == 0 {
      assert Split("", signed) == [""];
    } else if |xs| == 1 {
      FormatIntNoSeparator(xs[0], signed);
      SplitNoSeparator(FormatInt(xs[0]), signed);
      SinglePiece(xs[0]);
    } else {
      ParseJoinRoundTrip(xs[1..], sep, signed);
      ConsRoundTrip(xs[0], xs[1..], sep, signed);
      assert xs == [xs[0]] + xs[1..];
    }
  }

  /** One more number in front of a list that already parses back. */
  lemma ConsRoundTrip(x: int, rest: seq<int>, sep: char, signed: bool)
    requires IsSeparator(sep, signed) && (x >= 0 || signed) && |rest| >= 1
    requires ParseInts(Join(rest, sep), signed) == rest
    ensures ParseInts(Join([x] + rest, sep), signed) == [x] + rest
  {
    var t := FormatInt(x);
    var tail := Join(rest, sep);
    assert ([x] + rest)[1..] == rest;
    assert Join([x] + rest, sep) == t + [sep] + tail;
    FormatIntNoSeparator(x, signed);
    SplitAppendSeparator(t, sep, tail, signed);
    SinglePiece(x);
    ParsedPiecesAppend([t], Split(tail, signed));
  }

  lemma SinglePiece(x: int)
    ensures ParsedPieces([FormatInt(x)]) == [x]
  {
    ParseFormatInt(x);
    assert [FormatInt(x)][1..] == [];
  }

  // ---------------------------------------------------------------------
  // Lines.
  // ---------------------------------------------------------------------

  function SplitNewlines(s: string): (r: seq<string>)
    ensures |r| >= 1
    ensures forall k :: 0 <= k < |r| ==> '\n' !in r[k]
  {
    if |s| == 0 then [""]
    else
      var rest := SplitNewlines(s[1..]);
      if s[0] == '\n' then
        var r := [""] + rest;
        assert forall k :: 1 <= k < |r| ==> r[k] == rest[k - 1];
        r
      else
        var r := [[s[0]] + rest[0]] + rest[1..];
        assert forall k :: 1 <= k < |r| ==> r[k] == rest[k];
        r
  }

  function StripCarriageReturn(line: string): string
  {
    if |line| > 0 && line[|line| - 1] == '\r' then line[..|line| - 1] else line
  }

  /** `str::lines`: the pieces between newlines, without a final empty piece
      after a trailing newline and without a trailing carriage return.  The
      carriage return is stripped from every piece, the last one too: a
      final bare `\r` with no newline after it is dropped, as older releases
      of the Rust standard library did; newer ones keep it.  The two agree on
      every input that ends in a newline or has no final `\r`. */
  function Lines(s: string): (r: seq<string>)
    ensures |r| <= |s|
    ensures forall k :: 0 <= k < |r| ==> '\n' !in r[k]
  {
    var pieces := SplitNewlines(s);
    NewlineCount(s);
    var kept := if pieces[|pieces| - 1] == "" then pieces[..|pieces| - 1] else pieces;
    seq(|kept|, k requires 0 <= k < |kept| => StripCarriageReturn(kept[k]))
  }

  lemma {:induction false} NewlineCount(s: string)
    ensures |SplitNewlines(s)| <= |s| + 1
    ensures SplitNewlines(s)[|SplitNewlines(s)| - 1] != "" || |SplitNewlines(s)| - 1 <= |s|
    ensures |SplitNewlines(s)| == |s| + 1 ==> SplitNewlines(s)[|SplitNewlines(s)| - 1] == ""
  {
    if |s| > 0 {
      NewlineCount(s[1..]);
    }
  }

  /** `parse_int_vecs`: one vector of numbers per line. */
  function ParseIntVecs(s: string, signed: bool): (r: seq<seq<int>>)
    ensures |r| == |Lines(s)|
    ensures forall k :: 0 <= k < |r| ==> r[k] == ParseInts(Lines(s)[k], signed)
  {
    var lines := Lines(s);
    seq(|lines|, k requires 0 <= k < |lines| => ParseInts(lines[k], signed))
  }
}
